=== FILE: README.md ===
# GLGE_Core bookkeeping core, modelled in Dafny

This project models the sequential bookkeeping code of the GLGE_Core engine library. It proves properties of that model. The model covers:

- **Asset registry and handles** (`AssetManager`, `AssetSystem`).
  - The registry is a generational slot table of (type tag, owned pointer, reference count) with a parallel version array, a last-in-first-out free list and a list of objects awaiting destruction.
  - An asset handle is an (index, version) pair; copying, moving and destroying handles drives the reference counts.
  - `AssetSystem` composes the registry with the load-job table. It models asset creation (a registry entry plus a queued load job), the handle operations, and one step of the loader worker. It proves that every reference count equals the number of live handles naming the slot, including the handles held by queued jobs.
- **Asset load-job table** (`AssetStream`): a second generational slot table with its own free list, a priority queue of job handles, job states and the cancel flag.
- **Keyed containers and queues**:
  - `LayerStack`: unique (library, name) pairs, lookup by index and by pair, removal, and the started flag.
  - `Settings`: a typed name-to-value store and its XML save and load.
  - `Scene`: the unique-name allocator with recycled indices, the parent/child object tree, its printing, and the system registry keyed by type name.
  - `Messages`: the message listener's first-in-first-out queue and callback dispatch.
  - `Events`: the event handler's deferred queue.
- **Formats and layout logic**:
  - `MeshFormat`: the `GLGE_MESH` binary layout, its save/load round trip and the import path derivation.
  - `VertexLayout`: the vertex layout's size table, lookup and duplicate detection.
  - `Application`: the app-info file's store/load round trip and the version-compatibility decision.
  - `Bvh`: bottom-up bounding volume hierarchy construction over integer intervals.
  - `Files`: the decorated file handle's open, save, close and reload.

Supporting modules:

- `Wrappers` holds `Option` and `Result`.
- `Numeric` holds fixed-width casts and the decimal conversions (`std::to_string`, `atoi`, `std::stoull`).
- `Xml` holds the part of an XML document tree that the settings and app-info files use, and the XML library's integer readers. That library's source is not part of this model; its readers are modelled from the library's documented behaviour.
- `Seqs` holds small sequence helpers.

Pointers are natural numbers, with 0 as null. Integer widths are modelled by explicit wrap-around where the code depends on them. A callback, a clock, threads, the loader's outcome and foreign libraries are not modelled: each becomes a parameter or a nondeterministic choice. Where a documentation comment and the code disagree, the model follows the code. For each defect listed under "## Findings", the code as written and a corrected variant are both modelled. The operations built on top of others (settings load, file close, mesh import, the app-info version check, the queue order) use the variants as written. Rows for corrected variants begin "Corrected". Cases where the documentation and the code disagree:

- `File::reload` returns whether the re-open succeeded, not whether the contents changed (`src/GLGECore/Filesystem/File.h:91-92`).
- The asset queue's comparison serves the lowest priority first.
- `popJob`'s comment says the job is deleted, but the request and its asset-handle copy stay in the slot (`src/GLGECore/Assets/AssetStream.cpp:107`).

## Model

| member | source | states |
|---|---|---|
| AssetManager.InitialWellFormed | Assets/AssetManager.h:137-138 | The registry before the first asset is well formed, and a default handle is not valid in it. |
| AssetManager.DefaultHandleInvalid | src/GLGECore/Assets/Asset.h:117-122 | A default handle carries the invalid index, so it is never valid in a well-formed registry and resolves to null. |
| AssetManager.GetAsset | Assets/AssetManager.h:151-157 | An invalid handle resolves to null; a valid one resolves to the pointer of the slot it names, whatever type is asked for. |
| AssetManager.GetAssetChecked | Assets/AssetManager.h:151-157 | Corrected lookup: a non-null result comes only from a valid handle whose slot holds the requested type, and then equals the unchecked result. |
| AssetManager.GetAssetIgnoresType | Assets/AssetManager.h:151-157 | An asset created as type 1 and fetched as type 2 is handed out by the lookup as written and refused by the checked one. |
| AssetManager.AddNewEntry | src/GLGECore/Assets/AssetManager.cpp:92-116 | The new slot is the most recently freed index if there is one, else a new slot at the end with version 1. It holds the given type and a fresh object with one reference. The returned handle is valid and resolves to that object, and no other slot changes. |
| AssetManager.Register | src/GLGECore/Assets/AssetManager.cpp:127-133 | An invalid handle changes nothing; a valid one adds one to its slot's reference count and nothing else changes. |
| AssetManager.Unregister | src/GLGECore/Assets/AssetManager.cpp:135-160 | An invalid handle changes nothing. A valid one loses one reference. When that was the last, the version goes up, the pointer joins the pending list, and the slot is cleared and freed. |
| AssetManager.FlushDestructors | src/GLGECore/Assets/AssetManager.cpp:162-179 | Deletes exactly the non-null pending objects and empties the pending list. The slot table, versions and free list are untouched. |
| AssetManager.Shutdown | src/GLGECore/Assets/AssetManager.cpp:181-196 | After shutdown the registry is empty and every deleted pointer is non-null. |
| AssetManager.SetLoadState | src/GLGECore/Assets/Asset.h:158 | Only the state of the object behind the pointer changes; its type and every other object and slot stay the same. |
| AssetManager.AddNewEntryWellFormed | src/GLGECore/Assets/AssetManager.cpp:92-111 | Creating an asset keeps the table, the free list, the pending list and the heap consistent, provided the table has room before its size reaches the invalid index. |
| AssetManager.RegisterWellFormed | src/GLGECore/Assets/AssetManager.cpp:127-133 | Registering keeps the registry well formed. |
| AssetManager.UnregisterWellFormed | src/GLGECore/Assets/AssetManager.cpp:135-160 | Unregistering keeps the registry well formed, including when it frees the slot. |
| AssetManager.FlushDestructorsWellFormed | src/GLGECore/Assets/AssetManager.cpp:162-179 | Flushing keeps the registry well formed. Every deleted object existed and is owned by no slot, none is deleted twice, and every pending object is deleted. |
| AssetManager.SetLoadStateWellFormed | src/GLGECore/Assets/Asset.h:158 | A load-state change keeps the registry well formed. |
| AssetManager.ShutdownDeletesEverything | src/GLGECore/Assets/AssetManager.cpp:181-196 | Shutdown deletes exactly the objects on the heap, pending and owned alike, and leaves a well-formed registry. |
| AssetManager.CountedValidHandleOwned | src/GLGECore/Assets/AssetManager.cpp:106-109 | When counts match the live handles, a valid live handle names a slot with at least one reference and an object on the heap. |
| AssetManager.RegisterCounts | src/GLGECore/Assets/AssetManager.cpp:127-133 | Copying a handle adds exactly one to the count of the slot it names. |
| AssetManager.UnregisterCounts | src/GLGECore/Assets/AssetManager.cpp:135-160 | Dropping a live handle removes exactly its reference, also when the slot is freed. |
| AssetManager.AddNewEntryCounts | src/GLGECore/Assets/AssetManager.cpp:106-116 | A fresh slot is referenced exactly by the handle it returns. |
| AssetManager.InvalidHandleUncounted | Assets/AssetManager.h:137-138 | Handles with the invalid index are never counted, so adding or removing them keeps the counts. |
| AssetManager.FlushAndLoadKeepCounts | src/GLGECore/Assets/AssetManager.cpp:162-179 | Flushing and load-state changes leave every reference count matching. |
| AssetManager.WaitForLoad | src/GLGECore/Assets/AssetManager.cpp:53-78 | The unlocked check on entry and each locked poll are separate reads of a registry other threads may change in between. Waiting ends at once exactly when the handle is invalid on entry. Otherwise polling stops at the first poll where the handle is invalid or the state is LOADED or FAILED, and every earlier poll saw a valid handle and a state that is not done. |
| AssetStream.NewEntry | src/GLGECore/Assets/AssetStream.h:84-86 | A new job entry starts at version 1, not canceled and not started, holding the request. |
| AssetStream.TopHasLowestPriority | src/GLGECore/Assets/AssetStream.h:136-137 | With the comparison as written, any element the queue may hand out has a priority no higher than every queued one. |
| AssetStream.LowestPriorityPosition | src/GLGECore/Assets/AssetStream.h:136-137 | A non-empty queue always has a position the queue may hand out. |
| AssetStream.IntendedTopHasHighestPriority | src/GLGECore/Assets/AssetStream.h:128-135 | Corrected: with the comparison the documentation describes, the element handed out has the highest priority in the queue. |
| AssetStream.LowPriorityServedFirst | src/GLGECore/Assets/AssetStream.h:136-137 | With a HIGH and a LOW job queued, the comparison as written hands out the LOW job first and the intended one the HIGH job. |
| AssetStream.Enqueue | src/GLGECore/Assets/AssetStream.cpp:57-96 | The request goes into the most recently freed slot, which keeps its version and is reset to not canceled and not started, or into a new version-1 slot at the end. The returned handle is valid, carries the job's priority and is appended to the queue. The asset reference moves from the old request to the new one. |
| AssetStream.PopJob | src/GLGECore/Assets/AssetStream.cpp:98-112 | A stale or out-of-range handle changes nothing. A valid one bumps its slot's version and frees the slot. |
| AssetStream.CancelJob | src/GLGECore/Assets/AssetStream.cpp:122-133 | Succeeds exactly for a valid handle, which then only sets the slot's cancel flag. Otherwise nothing changes. |
| AssetStream.InitialTableWellFormed | src/GLGECore/Assets/AssetStream.cpp:57-96 | The empty job table is well formed. |
| AssetStream.EnqueueTableWellFormed | src/GLGECore/Assets/AssetStream.cpp:57-96 | Enqueueing keeps the table consistent: a slot is free exactly when no queued handle names its current version, and at most one does. |
| AssetStream.DequeueAndPopWellFormed | src/GLGECore/Assets/AssetStream.cpp:152-154 | Taking a handle off the queue and retiring its job keeps the table well formed. |
| AssetStream.CancelTableWellFormed | src/GLGECore/Assets/AssetStream.cpp:122-133 | Canceling keeps the table well formed. |
| AssetStream.TableWellFormedIgnoresStates | src/GLGECore/Assets/AssetStream.cpp:170-192 | The table invariant depends only on versions, the free list and the queue, so run-state and cancel-flag updates keep it. |
| AssetSystem.InitialInv | src/GLGECore/Assets/AssetManager.cpp:23-32 | Before any asset exists the registry and job table are well formed and every count matches. |
| AssetSystem.Create | Assets/AssetManager.h:119-127 | Creating an asset adds a fresh object to the heap and hands the caller a handle. It also queues one valid job with NORMAL priority and no callback, not canceled and not started, whose request holds that handle. |
| AssetSystem.CreateKeepsInv | src/GLGECore/Assets/AssetManager.cpp:80-125 | Creating keeps the invariant while the registry has room. The caller's handle is valid, resolves to the new object, and the slot ends with exactly two references: the caller's and the queued job's copy. |
| AssetSystem.FirstHandle | src/GLGECore/Assets/AssetManager.cpp:92-98 | The first asset ever created gets index 0 and version 1. |
| AssetSystem.CopyConstruct | Assets/Asset.cpp:17-23 | A copy holds the same handle, and the registry registers it once. |
| AssetSystem.MoveConstruct | Assets/Asset.cpp:25-31 | The new variable takes the handle, the source's index is cleared, and the registry is untouched. |
| AssetSystem.Destroy | Assets/Asset.cpp:33-40 | A handle with a set index is unregistered and cleared; a cleared handle changes nothing. |
| AssetSystem.CopyAssign | Assets/Asset.cpp:42-55 | The target takes the source's handle. Its old handle is released if set, and the new one is registered. |
| AssetSystem.MoveAssign | Assets/Asset.cpp:57-72 | The target takes the source's handle and the source is cleared. Only the target's old handle is released, and nothing is registered. |
| AssetSystem.CopyConstructKeepsInv | Assets/Asset.cpp:17-23 | Copy construction keeps every reference count equal to the number of live handles. |
| AssetSystem.MoveConstructKeepsInv | Assets/Asset.cpp:25-31 | Move construction keeps the counts. |
| AssetSystem.DestroyKeepsInv | Assets/Asset.cpp:33-40 | Destruction keeps the counts. |
| AssetSystem.CopyAssignKeepsInv | Assets/Asset.cpp:42-55 | Copy assignment keeps the counts, including self-assignment. |
| AssetSystem.MoveAssignKeepsInv | Assets/Asset.cpp:57-72 | Move assignment keeps the counts. |
| AssetSystem.SelfCopyAssignReleasesLastReference | Assets/Asset.cpp:42-55 | Self copy-assignment of the only reference releases the asset before re-registering. The variable is left holding a stale handle, and the object is pending deletion. |
| AssetSystem.EnqueueLoad | src/GLGECore/Assets/AssetStream.cpp:57-96 | Queuing a load request for a valid handle returns a valid job handle with the given priority. Its slot holds exactly that request, and user variables are unchanged. The queue is private to the job registry and the asset manager (src/GLGECore/Assets/AssetStream.h:144-158), whose only call passes the handle it has just created. |
| AssetSystem.EnqueueLoadKeepsInv | src/GLGECore/Assets/AssetStream.cpp:64-77 | Storing a request keeps the counts: the copy stored in the job is registered, and the copy it overwrites in a reused slot is released. |
| AssetSystem.ReleaseKeepsOthersValid | Assets/Asset.cpp:33-40 | Releasing one counted handle leaves valid every other counted handle, including another copy of the same handle, because its slot still has a reference. |
| AssetSystem.ReassignKeepsOthersValid | Assets/Asset.cpp:42-55 | The same holds when a handle is released and another registered in its place. |
| AssetSystem.VersionsKeepJobsValid | src/GLGECore/Assets/AssetManager.cpp:92-106 | A registry change that keeps every existing slot version keeps every stored job handle valid. |
| AssetSystem.ReleaseKeepsJobsValid | Assets/Asset.cpp:33-40 | Releasing a handle a user variable holds keeps every stored job handle valid. |
| AssetSystem.ReassignKeepsJobsValid | Assets/Asset.cpp:42-72 | Assigning over a handle a user variable holds keeps every stored job handle valid. |
| AssetSystem.EnqueueKeepsJobsValid | src/GLGECore/Assets/AssetStream.cpp:64-77 | Storing a request for a valid, counted handle keeps every job handle valid, also when the request overwrites an older one in a reused slot. |
| AssetSystem.CreateKeepsJobsValid | src/GLGECore/Assets/AssetManager.cpp:80-125 | Creating an asset keeps every job handle valid. |
| AssetSystem.HolderOpsKeepJobsValid | Assets/Asset.cpp:17-72 | Copy and move construction, destruction, and copy and move assignment keep every job handle valid. |
| AssetSystem.EnqueueLoadKeepsJobsValid | src/GLGECore/Assets/AssetStream.cpp:57-96 | Queuing a load for a valid handle keeps every job handle valid. |
| AssetSystem.ServiceOpsKeepJobsValid | src/GLGECore/Assets/AssetStream.cpp:122-133 | Canceling, flushing and teardown keep every job handle valid. |
| AssetSystem.DispatchKeepsJobsValid | src/GLGECore/Assets/AssetStream.cpp:135-202 | A worker iteration keeps every job handle valid. |
| AssetSystem.WorkerReadsOwnAsset | src/GLGECore/Assets/AssetStream.cpp:182-189 | While every job handle is valid, the worker's read through the slot index is defined and reads the job's own asset. For a live job that is not canceled, the success flag as written is whether the load ended LOADED, the flag the corrected reading reports. |
| AssetSystem.CancelLoad | src/GLGECore/Assets/AssetStream.cpp:122-133 | Canceling succeeds exactly for a valid job handle and sets that job's cancel flag; assets and user variables are untouched. |
| AssetSystem.CancelLoadKeepsInv | src/GLGECore/Assets/AssetStream.cpp:122-133 | Canceling keeps the invariant. |
| AssetSystem.WorkerSuccessAsWritten | src/GLGECore/Assets/AssetStream.cpp:182-189 | As written, the success flag reads the load state of whatever the slot holds. The read is undefined (None) when the index is past the table or the slot's pointer is null. |
| AssetSystem.WorkerSuccess | src/GLGECore/Assets/AssetStream.cpp:182-189 | Corrected: success holds exactly when the job's own handle is valid and its asset ended LOADED. |
| AssetSystem.StaleJobHandleReadsOtherAsset | src/GLGECore/Assets/AssetStream.cpp:185-188 | The read as written does not check the handle. Given a stale handle whose slot now holds another loaded asset, it reports success where the corrected reading does not; given a stale handle to a cleared slot, the read is undefined. No reachable job holds such a handle (AssetSystem.WorkerReadsOwnAsset), so this states what the unchecked read would do, not a defect. |
| AssetSystem.Dispatch | src/GLGECore/Assets/AssetStream.cpp:135-202 | Corrected for the canceled branch, as written otherwise: one worker iteration takes the job handle off the queue; a stale handle does nothing more. A canceled job is marked running and retired without loading, which is the intended behaviour (see AssetSystem.DispatchAsWritten). A live job loads its asset if the asset handle is valid, is marked finished, reports to its callback if any, and is retired. |
| AssetSystem.DispatchAsWritten | src/GLGECore/Assets/AssetStream.cpp:157-202 | As written, the iteration is undefined exactly when the job is valid and canceled: `popJob` locks the job mutex exclusively while the worker holds it shared. Every other iteration is the one `Dispatch` describes. |
| AssetSystem.CanceledDispatchUndefined | src/GLGECore/Assets/AssetStream.cpp:122-177 | Creating one asset and canceling its load before a worker runs it reaches the undefined branch. The intended iteration retires the job and leaves the registry alone. |
| AssetSystem.DispatchKeepsInv | src/GLGECore/Assets/AssetStream.cpp:135-202 | A worker iteration keeps the invariant. |
| AssetSystem.ReleaseJobCopy | src/GLGECore/Assets/AssetStream.cpp:98-112 | Corrected retirement step: resetting a slot's request trades its asset-handle copy for a default handle and releases that reference, keeping the invariant. |
| AssetSystem.DispatchReleasing | src/GLGECore/Assets/AssetStream.cpp:135-202 | Corrected worker iteration: the same calls as `Dispatch`, and a live job's slot ends up holding no asset handle. The registry is `Dispatch`'s with the job's copy released, and the invariant holds. |
| AssetSystem.RetiredJobKeepsAssetUntilReleased | src/GLGECore/Assets/AssetStream.cpp:98-112 | Take an asset referenced only by one user handle and its job's copy, as right after creation. Once a worker has run the job, destroying the user handle leaves the object alive and not pending as written; with the corrected retirement it puts the object on the pending list. |
| AssetSystem.JobCopyPinsAsset | src/GLGECore/Assets/AssetStream.cpp:98-112 | While a job entry's asset-handle copy is current, its slot has one reference more than user variables account for. Its object is on the heap and not pending deletion, because retiring a job never releases that copy. |
| AssetSystem.Flush | src/GLGECore/Assets/AssetManager.cpp:162-179 | Flushing deletes exactly the non-null pending objects; the table and user variables are untouched. |
| AssetSystem.FlushKeepsInv | src/GLGECore/Assets/AssetManager.cpp:162-179 | Flushing keeps the invariant. |
| AssetSystem.TearDown | src/GLGECore/Assets/AssetStream.cpp:36-55 | Teardown deletes exactly the heap's objects and clears the registry and the job table's entries. The job queue and user variables keep what they held. |
| AssetSystem.ShutdownDeletesHeap | src/GLGECore/Assets/AssetManager.cpp:181-196 | Shutting down a well-formed registry deletes exactly the objects on its heap. |
| AssetSystem.StaleHandleRevivesAfterTearDown | src/GLGECore/Assets/AssetManager.cpp:192-194 | Versions restart after teardown. The first asset created afterwards gets handle (0, 1) again, so an old variable holding (0, 1) becomes valid and resolves to a new object, possibly of another type. |
| LayerStack.LayerIndex | src/GLGECore/Layers/LayerStack.cpp:289-311 | Returns SIZE_MAX exactly when no layer has the (library, name) pair. Otherwise it returns the first position whose pair matches. |
| LayerStack.RangeChecksAgreeBelowWrap | src/GLGECore/Layers/LayerStack.cpp:243 | Below the point where the byte offset wraps, the range check as written accepts exactly the indices below the layer count. |
| LayerStack.NotFoundRejected | src/GLGECore/Layers/LayerStack.cpp:316 | The SIZE_MAX a failed lookup returns is rejected by both range checks, so removing an absent name fails. |
| LayerStack.HugeIndexPassesRangeCheck | src/GLGECore/Layers/LayerStack.cpp:243 | Index 2^60 on a one-layer stack wraps to byte offset 0 and passes the check as written, though it is out of range. |
| LayerStack.GetElement | src/GLGECore/Layers/LayerStack.cpp:240-246 | Corrected check: there is a layer exactly when the index is below the count, and it is the layer at that index. |
| LayerStack.GetElementByName | src/GLGECore/Layers/LayerStack.cpp:234-238 | There is a result exactly when some layer has the pair, and the result is such a layer. |
| LayerStack.AddNewLayer | src/GLGECore/Layers/LayerStack.cpp:274-287 | A layer is added exactly when its pair is not present yet, at the end. A refused layer changes nothing. |
| LayerStack.AddNewLayerKeepsUnique | src/GLGECore/Layers/LayerStack.cpp:280 | Adding keeps the pairs of the stack distinct. |
| LayerStack.FromLayers | src/GLGECore/Layers/LayerStack.cpp:45-56 | Construction succeeds exactly when the given pairs are distinct, and then holds the layers in the given order, not started. |
| LayerStack.RemoveLayer | src/GLGECore/Layers/LayerStack.cpp:313-329 | Corrected check: removal succeeds exactly for an index below the count. It takes out exactly that layer, the rest keep their order, and the started flag is unchanged. |
| LayerStack.GetElementAsWritten | src/GLGECore/Layers/LayerStack.cpp:240-246 | With the wrapping check, the lookup reaches past the array exactly when the check passes for an index at or beyond the count. Otherwise it agrees with the corrected lookup. |
| LayerStack.RemoveLayerAsWritten | src/GLGECore/Layers/LayerStack.cpp:313-329 | With the wrapping check, removal deletes an element past the array exactly when the check passes for an index at or beyond the count. Otherwise it agrees with the corrected removal. |
| LayerStack.AsWrittenAgreesBelowWrap | src/GLGECore/Layers/LayerStack.cpp:240-329 | For an index and a count below the wrap-around point, lookup and removal as written are defined and equal the corrected ones. |
| LayerStack.ByNameDefinedAsWritten | src/GLGECore/Layers/LayerStack.cpp:234-337 | Lookup and removal by name are defined as written, because they pass either a found index or SIZE_MAX, and both are handled correctly. |
| LayerStack.HugeIndexRemovalUndefined | src/GLGECore/Layers/LayerStack.cpp:316 | Removing index 2^60 from a one-layer stack passes the check as written and reaches past the array. The corrected removal refuses it. |
| LayerStack.RemoveLayerByName | src/GLGECore/Layers/LayerStack.cpp:331-337 | Removal by name succeeds exactly when the pair is present and removes one layer. In a stack with distinct pairs, the pair is then gone. |
| LayerStack.RemoveLayerKeepsUnique | src/GLGECore/Layers/LayerStack.cpp:313-329 | Removing keeps the pairs distinct. |
| LayerStack.SignalStartup | src/GLGECore/Layers/LayerStack.cpp:150-178 | Startup notifies every layer in order and sets the flag, unless already started, in which case it notifies nobody. |
| LayerStack.SignalShutdown | src/GLGECore/Layers/LayerStack.cpp:204-232 | Shutdown notifies every layer in order and clears the flag, unless not started. |
| LayerStack.StartupShutdownAlternate | src/GLGECore/Layers/LayerStack.cpp:150-232 | Startup and shutdown alternate. A repeated signal notifies nobody, and shutdown after startup notifies the same layers and restores the stack. |
| LayerStack.Destroy | src/GLGECore/Layers/LayerStack.cpp:127-148 | The destructor shuts down a started stack first, then deletes every layer in order. |
| Settings.IntegerLimit | Setting/Settings.h:28-35 | Integer codes cover 8, 16, 32 and 64 bits; every width has at least 256 values and an even count. |
| Settings.ComponentNames | src/GLGECore/Setting/Settings.cpp:106-224 | Vector values are stored under one to four distinct component attribute names, none of them "type". |
| Settings.FitsOnlyKnown | Setting/Settings.h:28-56 | Only the 23 codes the enumeration defines have values. |
| Settings.SetSetting | src/GLGECore/Setting/Settings.cpp:401-406 | Corrected, a write creates or overwrites the entry with the new code and value; the typed setters keep a well-typed store well typed. |
| Settings.SetSettingAsWritten | src/GLGECore/Setting/Settings.cpp:401-406 | As written, a string write is undefined exactly when the entry exists and its value is not a string, because an earlier numeric or vector write ended the union's string member. Every other write is the corrected write. |
| Settings.StringAfterNumberUndefined | src/GLGECore/Setting/Settings.h:62-105 | Writing an `int32_t` and then a string under one name is undefined as written. The corrected write reads the string back. |
| Settings.GetAfterSetAsWritten | src/GLGECore/Setting/Settings.cpp:401-455 | A defined write as written is read back as for the corrected write. |
| Settings.GetSetting | src/GLGECore/Setting/Settings.cpp:441-455 | A read gives a value exactly when the name is present under the requested code, and then the stored value; otherwise nothing. |
| Settings.GetAfterSet | Setting/Settings.h:671-675 | Corrected, after a write, a read of that name under the written code gives the written value and under any other code nothing. Other names read as before. |
| Settings.SetSettingCount | Setting/Settings.h:247 | The setting count grows by one exactly when the written name is new. |
| Settings.EntryAt | Setting/Settings.h:255-263 | The i-th name and setting come from the map's iteration order, where each name occurs once; an index past the count is outside the contract. |
| Settings.TypeNameAsWritten | src/GLGECore/Setting/Settings.cpp:395-398 | The name table lookup gives a name exactly for the known codes; an unknown code reads past the table's end. |
| Settings.TypeNamesMatchCodes | src/GLGECore/Setting/Settings.cpp:363-393 | The name table has one distinct name per code, in enumeration order. |
| Settings.EncodeValue | src/GLGECore/Setting/Settings.cpp:55-224 | An encoded `Value` node carries the decimal type code first, then its value or components. |
| Settings.SettingNode | src/GLGECore/Setting/Settings.cpp:499-541 | A `Setting` node carries the name and one `Value` child, or none for an unknown code. |
| Settings.SettingNodes | src/GLGECore/Setting/Settings.cpp:552-553 | One node per listed name, in order. |
| Settings.Save | src/GLGECore/Setting/Settings.cpp:547-558 | The saved document has a `Settings` root with exactly one child per entry. |
| Settings.ReadInteger | src/GLGECore/Setting/Settings.cpp:228-243 | An integer attribute is read and cast to the entry's width, so the value always fits the C++ type. |
| Settings.ReadComponent | src/GLGECore/Setting/Settings.cpp:279-303 | An integer vector component always fits its 32-bit type. |
| Settings.Decode | src/GLGECore/Setting/Settings.cpp:311-356 | A known code decodes to a value of its type; an unknown code leaves the previous value in place. |
| Settings.ApplyChild | src/GLGECore/Setting/Settings.cpp:583-591 | Applying one node stores its name with the code the node carries and changes no other entry, unless the check skips an unknown code, which leaves the store as it was. The store stays well typed, and with the check no unknown code is introduced. |
| Settings.LoadChildren | src/GLGECore/Setting/Settings.cpp:583-591 | Applying the nodes in order keeps those properties. |
| Settings.EntryCode | src/GLGECore/Setting/Settings.cpp:589-590 | The type code read from a node fits 64 bits. |
| Settings.LoadChildrenAsWritten | src/GLGECore/Setting/Settings.cpp:583-591 | Applying the nodes as written is undefined exactly when, in order, a node carries a code of 32 or more, which the conversion to `SettingType` cannot represent (Settings.cpp:314), or decodes a string into an entry whose string member is dead. Any such code among the nodes makes the whole load undefined. A defined load is the unchecked application of the nodes and stores only codes below 32. |
| Settings.LoadAsWritten | src/GLGECore/Setting/Settings.cpp:560-592 | Loading clears the store first, so a failed parse or a missing root leaves it empty. A document with a type code of 32 or more is undefined to load. A defined result is well typed and holds only codes the enumeration can represent. |
| Settings.Load | src/GLGECore/Setting/Settings.cpp:560-592 | Corrected loading also drops entries whose code names no type, so every stored code is known. |
| Settings.TypeAttrOfEncode | src/GLGECore/Setting/Settings.cpp:59-60 | The type attribute of an encoded node reads back as its code. |
| Settings.ReadIntegerOfIntToString | src/GLGECore/Setting/Settings.cpp:228-243 | An in-range integer written in decimal is read back unchanged by the reader of its width. |
| Settings.ReadComponentOfIntToString | src/GLGECore/Setting/Settings.cpp:279-303 | An in-range component is read back unchanged. |
| Settings.DecodeEncode | src/GLGECore/Setting/Settings.cpp:55-356 | Decoding an encoded value as its own code gives back the value written (strings without NUL). |
| Settings.ApplySettingNode | src/GLGECore/Setting/Settings.cpp:583-591 | Applying a saved node stores exactly the saved entry under its name. |
| Settings.LoadSettingNodes | src/GLGECore/Setting/Settings.cpp:583-591 | Applying saved nodes lays exactly the saved entries over the store. |
| Settings.SettingNodeEntry | src/GLGECore/Setting/Settings.cpp:586-590 | A saved node reads back its entry's name and type code. |
| Settings.SavedNodesLoadDefined | src/GLGECore/Setting/Settings.cpp:547-592 | A saved document names every entry once, so loading it as written never decodes a string into a dead member. |
| Settings.SaveLoadRoundTrip | src/GLGECore/Setting/Settings.cpp:547-592 | Saving a store of storable entries and loading the document gives the store back, with either loader and any iteration order; loading as written is defined. |
| Settings.RepeatedNameLoadUndefined | src/GLGECore/Setting/Settings.cpp:583-591 | A document with two entries named "a", an `int32_t` and then a string, is undefined to load as written. The corrected loader keeps the string. |
| Settings.UnknownCodeReachesNameTable | src/GLGECore/Setting/Settings.cpp:441-451 | Code 23 names no type but is still a value of `SettingType`, so loading as written keeps an entry carrying it, and any typed read of it looks up the name table past its end. Loading with the check drops it. |
| Settings.LargeCodeUndefined | src/GLGECore/Setting/Settings.cpp:311-314 | Code 99 is outside the values of `SettingType`, so loading a document carrying it as written is undefined at the conversion, before any table read. Loading with the check drops it. |
| Settings.LoadedCodesHaveNames | src/GLGECore/Setting/Settings.cpp:395-398 | With the check, every stored code has a name in the table. |
| Scene.NewScene | Geometry/Structure/ECS/Scene.h:46-57 | A new scene holds only the separate "ROOT" copy in its object map, and its root has no children. |
| Scene.NewSceneLinked | Geometry/Structure/ECS/Scene.h:383-394 | A new scene's parent and child links agree and are acyclic. |
| Scene.ChooseName | Geometry/Structure/ECS/Scene.h:95-113 | A free suggestion is used as is; a taken one gets "(n)" appended, with n the smallest freed index (removed from the free set) or else the incremented counter. Objects are untouched. |
| Scene.CreateObject | Geometry/Structure/ECS/Scene.h:93-129 | The chosen name is added to the map and appended to the parent's children (NULL parent = root); the new object has the given entity, that parent and no children. If the chosen name is already taken, no object is added and the existing one is appended and returned. |
| Scene.CreateObjects | Geometry/Structure/ECS/Scene.h:140-195 | One reference per entity, and no name disappears from the scene. |
| Scene.CreateObjectsAppendChildren | Geometry/Structure/ECS/Scene.h:140-195 | The parent's children grow by exactly the returned references, in order. |
| Scene.CreateObjectsAreStored | Geometry/Structure/ECS/Scene.h:140-195 | Every returned reference names an object stored in the scene. |
| Scene.Get | Geometry/Structure/ECS/Scene.h:245-260 | Lookup gives the named object exactly when it exists, and NULL otherwise. |
| Scene.CreatedObjectExists | Geometry/Structure/ECS/Scene.h:93-129 | After creation the returned object can be looked up by its name, and every earlier object still exists. |
| Scene.GeneratedNameCollides | Geometry/Structure/ECS/Scene.h:96-124 | Creating "a", "a(1)" and "a" draws "a(1)" again: no object is added, and the root lists "a(1)" twice. |
| Scene.ChooseFreeName | Geometry/Structure/ECS/Scene.h:95-113 | Corrected naming always gives a name not in the map, and agrees with the original whenever the original's name is free. |
| Scene.CreateObjectChecked | Geometry/Structure/ECS/Scene.h:93-129 | Corrected creation always adds exactly one new object under the parent, changes no other object, and agrees with the original when no collision occurs. |
| Scene.CheckedNameSkipsTaken | Geometry/Structure/ECS/Scene.h:96-113 | In the colliding example the corrected version names the third object "a(2)". |
| Scene.CreateObjectCheckedKeepsLinks | Geometry/Structure/ECS/Scene.h:117-126 | Corrected creation keeps the parent and child links consistent and acyclic. |
| Scene.Without | src/GLGECore/Geometry/Structure/ECS/Scene.cpp:55-63 | Erasing an object from a child list removes every occurrence of it, keeps all other children, and keeps a list without repeats free of repeats. |
| Scene.SplitNumbered | src/GLGECore/Geometry/Structure/ECS/Scene.cpp:69-93 | A recognised index comes from a name ending in "(n)" and fits in 64 bits. |
| Scene.SplitNumberedOfNumbered | src/GLGECore/Geometry/Structure/ECS/Scene.cpp:69-81 | Splitting any generated name "base(n)" gives back base and n. |
| Scene.Recycle | src/GLGECore/Geometry/Structure/ECS/Scene.cpp:81-89 | Returning an index changes only the name bookkeeping, never the objects or systems. |
| Scene.DeleteObject | src/GLGECore/Geometry/Structure/ECS/Scene.cpp:29-97 | For every call the code defines (all but a parentless object with children): deleting NULL or the scene's root changes nothing; otherwise exactly the object's name leaves the map, and the systems are unchanged. |
| Scene.DeleteObjectAsWritten | src/GLGECore/Geometry/Structure/ECS/Scene.cpp:29-97 | As written, deletion is undefined (None) exactly for a parentless object with children, whose loop passes the address of a vector slot as an object. Every other call is the deletion `DeleteObject` describes. |
| Scene.ParentlessDeleteUndefined | src/GLGECore/Geometry/Structure/ECS/Scene.cpp:47-51 | `get("ROOT")` hands out the map's parentless "ROOT" copy. Creating "a" under it gives that copy a child, and deleting the copy through `get("ROOT")` is then undefined as written. |
| Scene.DeleteLoneObjectKeepsLinks | src/GLGECore/Geometry/Structure/ECS/Scene.cpp:29-97 | Deleting a parentless object without children removes only its map entry, keeps the links and ranks, and leaves the scene's root alone. |
| Scene.DeleteParentless | src/GLGECore/Geometry/Structure/ECS/Scene.cpp:47-51 | Corrected branch: on a linked scene, deleting each child through its own pointer terminates. The object and all its children leave the map, no other name appears, the links and ranks still hold, and the root is untouched. |
| Scene.DeleteObjectChecked | src/GLGECore/Geometry/Structure/ECS/Scene.cpp:29-97 | Corrected deletion: on a linked scene every stored object can be deleted, and the object is gone afterwards. A parentless object's children go with it, and the links still hold. Wherever the code as written is defined, the result is the same. |
| Scene.RootCopyIsDeletable | src/GLGECore/Geometry/Structure/ECS/Scene.cpp:31 | The guard compares against the scene's own root, so the map's "ROOT" copy can be deleted while deleting the root itself is a no-op. |
| Scene.DeleteRecyclesIndex | src/GLGECore/Geometry/Structure/ECS/Scene.cpp:69-93 | Deleting "base(n)" puts n back into the base's free set, unless the base's bookkeeping was erased because no object with that name is left. |
| Scene.MoveChildren | src/GLGECore/Geometry/Structure/ECS/Scene.cpp:37-45 | Each child of a deleted object gets the new parent, and the parent's list gains the children at its end, in order; every other object is unchanged. |
| Scene.DeleteObjectShape | src/GLGECore/Geometry/Structure/ECS/Scene.cpp:37-63 | After deletion the children point at the old parent, which lists its remaining children followed by the moved ones; nothing else changes. |
| Scene.DeleteObjectKeepsLinks | src/GLGECore/Geometry/Structure/ECS/Scene.cpp:29-97 | Deleting an object that has a parent keeps the links consistent, and the same ranks still order every object after its parent, so no cycle appears. |
| Scene.PrintLines | Geometry/Structure/ECS/Object.h:56-76 | Printing gives at least one line, each indented two spaces per level; past depth 32 the one line is the "[...]" marker, otherwise the first line is the object's name. |
| Scene.PrintChildren | Geometry/Structure/ECS/Object.h:69-73 | Each child prints at least one line, all at the child depth. |
| Scene.SelfLoopPrintIsBounded | Geometry/Structure/ECS/Object.h:21-22 | An object listed as its own child prints 33 name lines and then the marker, so printing a cycle ends. |
| Scene.AddSystem | Geometry/Structure/ECS/Scene.h:302-316 | Adding succeeds exactly when no system of that type is present; afterwards the type is registered, and the objects are unchanged. |
| Scene.GetSystem | Geometry/Structure/ECS/Scene.h:338-346 | The system is returned exactly when one of that type is registered, and NULL otherwise. |
| Scene.RemoveSystem | Geometry/Structure/ECS/Scene.h:353-363 | Removal unregisters exactly that type and leaves the objects unchanged. |
| Scene.SystemRegistry | Geometry/Structure/ECS/Scene.h:302-363 | After an add the type is present and a second add is refused; removing it makes lookup fail; other types are unaffected; add then remove restores the registry. |
| Bvh.Merge | src/GLGECore/Geometry/Volumes/AABB.h:116-124 | A merged volume contains both inputs, and each end is one of theirs, so it is the smallest such volume. |
| Bvh.HullIsHull | src/GLGECore/Geometry/Volumes/BVH.h:337-347 | The reference hull contains every volume and touches the lowest lower end and the highest upper end. |
| Bvh.HullUnique | src/GLGECore/Geometry/Volumes/BVH.h:337-347 | Two intervals that are both the hull of the same volumes are equal. |
| Bvh.MergeAll | src/GLGECore/Geometry/Volumes/BVH.h:343-345 | Folding merges over a run gives the hull of the start and the run. |
| Bvh.GroupVolume | src/GLGECore/Geometry/Volumes/BVH.h:337-347 | A group's computed volume is the hull of its children's volumes. |
| Bvh.Groups | src/GLGECore/Geometry/Volumes/BVH.h:217-238 | The inner loop cuts a level into runs that, in order, make up the whole level; each has one to MaxChildCount members and all but the last are full. |
| Bvh.GroupsCount | src/GLGECore/Geometry/Volumes/BVH.h:217-238 | A level of k nodes gives ceil(k / MaxChildCount) groups. |
| Bvh.BuildLevel | src/GLGECore/Geometry/Volumes/BVH.h:211-242 | One pass appends one internal node per group after the existing nodes, leaves the existing nodes unchanged, and makes the new nodes the next level. |
| Bvh.BuildLevelNode | src/GLGECore/Geometry/Volumes/BVH.h:220-229 | Each new node holds its group as children and that group's hull as volume; its child count is the group size only when stored. |
| Bvh.LevelShrinks | src/GLGECore/Geometry/Volumes/BVH.h:209 | With two or more children per node, each level is shorter than the one before, so the outer loop ends. |
| Bvh.LevelKeepsHull | src/GLGECore/Geometry/Volumes/BVH.h:209-242 | The hull of the next level's volumes equals the hull of the current level's. |
| Bvh.BuildUp | src/GLGECore/Geometry/Volumes/BVH.h:209-245 | The levels are built until one node is left, which is returned as the root; every added node is internal with one to MaxChildCount children, all at smaller indices. |
| Bvh.BuildUpHull | src/GLGECore/Geometry/Volumes/BVH.h:209-245 | The root's volume is the hull of the first level. |
| Bvh.BuildWith | src/GLGECore/Geometry/Volumes/BVH.h:179-246 | No leaves gives an empty tree and (size_t)-1. Otherwise the leaves come first, in order, followed by internal nodes pointing backwards; the root is node 0 for one leaf and the last node otherwise. |
| Bvh.BuildAsWritten | src/GLGECore/Geometry/Volumes/BVH.h:179-246 | The source's build, whose internal node constructor (lines 86-98) never stores the count. No leaves gives an empty tree and (size_t)-1. Otherwise the leaves come first and the root is a node of the tree, but every internal node, although it has children, keeps a child count of zero. |
| Bvh.Build | src/GLGECore/Geometry/Volumes/BVH.h:86-98 | Corrected build, storing each internal node's child count: the tree is well formed. |
| Bvh.AsWrittenEveryNodeIsLeaf | src/GLGECore/Geometry/Volumes/BVH.h:86-104 | The internal node constructor never stores the count, so every built node reports itself a leaf. |
| Bvh.BuildLeavesAreLeaves | src/GLGECore/Geometry/Volumes/BVH.h:104 | With the count stored, a node is a leaf exactly when it is one of the input leaves. |
| Bvh.BuildRootIsHull | src/GLGECore/Geometry/Volumes/BVH.h:179-246 | The root's volume is the hull of all leaf volumes, with or without stored counts. |
| Bvh.OneChildLevelsNeverShrink | src/GLGECore/Geometry/Volumes/BVH.h:209-242 | With MaxChildCount of one, a level gives as many nodes as it had, so the outer loop never ends on two or more leaves. |
| Bvh.Clear | src/GLGECore/Geometry/Volumes/BVH.h:150-155 | Clearing leaves no nodes. |
| Bvh.PrintNode | src/GLGECore/Geometry/Volumes/BVH.h:274-296 | A node with child count zero prints one leaf line; any other node prints its internal line with index and count first. |
| Bvh.PrintChildren | src/GLGECore/Geometry/Volumes/BVH.h:291-294 | Each printed child gives at least one line. |
| Bvh.PrintFrom | src/GLGECore/Geometry/Volumes/BVH.h:254-265 | An empty tree prints "(BVH is empty)". Otherwise the heading "BVH Tree:" comes first, followed by the start node's leaf or internal line. |
| Bvh.PrintAsWritten | src/GLGECore/Geometry/Volumes/BVH.h:254-265 | As written, printing starts at node 0: the line after the heading describes node 0, whichever node is the root. |
| Bvh.Print | src/GLGECore/Geometry/Volumes/BVH.h:254-265 | Corrected, printing starts at the last node, which the build makes the root: an empty tree prints "(BVH is empty)", and otherwise the line after the heading describes the last node. |
| Bvh.WellFormedPrintable | src/GLGECore/Geometry/Volumes/BVH.h:274-296 | Printing a well-formed tree terminates, because every child index points backwards. |
| Bvh.AsWrittenPrintShowsOneLeaf | src/GLGECore/Geometry/Volumes/BVH.h:254-285 | As written, a non-empty tree prints as the heading and a single leaf line for node 0, whatever the number of leaves. |
| Bvh.PrintShowsRoot | src/GLGECore/Geometry/Volumes/BVH.h:254-291 | Corrected, with counts stored and printing from the root, two or more leaves print the root first, as an internal node with its child count. |
| VertexLayout.SizeIsWidthTimesComponents | src/GLGECore/Geometry/Surface/VertexLayout.h:153-255 | Each size the switch returns is the component width times the component count of the data type; the undefined and unknown data types have size 0 and every other one a positive size. |
| VertexLayout.ArrayLayout | src/GLGECore/Geometry/Surface/VertexLayout.h:60-104 | The layout both constructors describe: element i in slot i, default elements in the remaining slots, the invalid flag set exactly when two elements share a meaning, and a cached size equal to the sum of the given elements' sizes (the defaults add nothing, src/GLGECore/Geometry/Surface/VertexLayout.h:142-150). |
| VertexLayout.CacheVertexSize | src/GLGECore/Geometry/Surface/VertexLayout.h:142-150 | The loop sums the sizes of every slot's data type. |
| VertexLayout.FromArray | src/GLGECore/Geometry/Surface/VertexLayout.h:85-104 | Up to 21 elements give exactly the layout described above. More elements are written past the slot array, which is undefined (None); the count is never checked. |
| VertexLayout.IndexOfKind | src/GLGECore/Geometry/Surface/VertexLayout.h:119-125 | The lookup gives the first slot with the meaning, or UINT64_MAX exactly when no slot has it. |
| VertexLayout.IndexOfArrayElement | src/GLGECore/Geometry/Surface/VertexLayout.h:87-125 | Without repeated meanings, each given element is found at its own index. |
| VertexLayout.DuplicateIsFlaggedButCopied | src/GLGECore/Geometry/Surface/VertexLayout.h:90-100 | A repeated meaning sets the invalid flag, but the `continue` only leaves the inner scan: both copies are stored in their own slots, and lookup finds the first. |
| VertexLayout.SortedKeys | src/GLGECore/Geometry/Surface/VertexLayout.h:47 | A `std::map` is iterated over all its keys once each, in ascending order. |
| VertexLayout.MapConstructorKeepsOnlyLastEntry | src/GLGECore/Geometry/Surface/VertexLayout.h:42-53 | The map constructor never advances its index: for a position and a normal, only the normal survives, in slot 0, and the position cannot be found. |
| VertexLayout.MapConstructorSizeCountsOneEntry | src/GLGECore/Geometry/Surface/VertexLayout.h:42-53 | In that example the cached size counts only the one surviving three-float element (12 bytes). |
| VertexLayout.MapLayoutAsWritten | src/GLGECore/Geometry/Surface/VertexLayout.h:42-53 | As written, every entry goes to slot 0, so slot 0 ends holding the entry with the largest meaning and every other slot is default. The construction is never flagged, and the cached size is that one entry's size. |
| VertexLayout.MapLayout | src/GLGECore/Geometry/Surface/VertexLayout.h:42-53 | Corrected, with the index advanced per entry: every map entry is stored and found by its meaning, and the construction is not flagged invalid. |
| VertexLayout.MapLayoutsAgreeOnlyOnOneEntry | src/GLGECore/Geometry/Surface/VertexLayout.h:42-53 | The map constructor as written and corrected give the same layout exactly when the map has at most one entry. |
| MeshFormat.FromLEOfLE | src/GLGECore/Geometry/Surface/MeshAsset.cpp:53-68 | A count written as little-endian bytes of its field width reads back unchanged. |
| MeshFormat.HeaderWidths | src/GLGECore/Geometry/Surface/MeshAsset.cpp:53-68 | The 2-, 4- and 8-byte fields hold exactly the uint16, uint32 and uint64 ranges. |
| MeshFormat.FlattenSlice | src/GLGECore/Geometry/Surface/MeshAsset.cpp:62-68 | Record j of a vector written in one piece sits at offset j times the record size. |
| MeshFormat.Records | src/GLGECore/Geometry/Surface/MeshAsset.cpp:121-131 | A resized buffer holds count records of the record size; each is the bytes read at its offset, padded with the default bytes where the read was short. |
| MeshFormat.RecordsOfFlatten | src/GLGECore/Geometry/Surface/MeshAsset.cpp:62-68 | Records written end to end read back as the same records. |
| MeshFormat.ValuesOfIndexRecords | src/GLGECore/Geometry/Surface/MeshAsset.cpp:127-131 | 32-bit indices written as 4-byte records read back unchanged. |
| MeshFormat.SaveAsWritten | src/GLGECore/Geometry/Surface/MeshAsset.cpp:41-74 | As written, the file starts with the magic value; the length field holds the comment size cut to 16 bits, but the whole comment is written whenever that field is non-zero. |
| MeshFormat.Save | src/GLGECore/Geometry/Surface/MeshAsset.cpp:51-56 | Corrected, the written comment is cut to the length recorded in the header; the file starts with the magic value. |
| MeshFormat.SaveAgreesForShortComments | src/GLGECore/Geometry/Surface/MeshAsset.cpp:51-56 | For a comment of at most 65535 bytes, the save as written and the corrected save produce the same file. |
| MeshFormat.Read | src/GLGECore/Geometry/Surface/MeshAsset.cpp:94-131 | A read takes at most the requested bytes; a failed stream reads nothing, and a stream that runs short yields the rest and fails. |
| MeshFormat.Load | src/GLGECore/Geometry/Surface/MeshAsset.cpp:85-135 | A loaded mesh always has whole 32-byte vertex records, 32-bit indices and 64-bit counts, however the file is truncated. |
| MeshFormat.LoadRejectsBadMagic | src/GLGECore/Geometry/Surface/MeshAsset.cpp:94-101 | Loading fails exactly when the file does not start with "GLGE_MESH", including files shorter than the magic value. |
| MeshFormat.MagicAloneLoadsEmpty | src/GLGECore/Geometry/Surface/MeshAsset.cpp:103-134 | A file holding only the magic value loads, and gives an empty mesh. |
| MeshFormat.SaveLoadRoundTrip | src/GLGECore/Geometry/Surface/MeshAsset.cpp:41-135 | Corrected saving followed by loading gives back every vertex and index, whatever the comment. |
| MeshFormat.SaveAsWrittenRoundTrip | src/GLGECore/Geometry/Surface/MeshAsset.cpp:41-135 | The save as written round-trips for comments of at most 65535 bytes. |
| MeshFormat.FromLEOfRun | src/GLGECore/Geometry/Surface/MeshAsset.cpp:121-123 | Eight bytes 0x61 read as a little-endian 64-bit count give 0x6161616161616161. |
| MeshFormat.LongCommentAfterMagic | src/GLGECore/Geometry/Surface/MeshAsset.cpp:103-124 | After a length field of 1 and a run of at least 13 bytes 0x61, the loader reads the vertex count from the run, as 0x6161616161616161. |
| MeshFormat.LongCommentBreaksRoundTrip | src/GLGECore/Geometry/Surface/MeshAsset.cpp:53-56 | A 65537-byte comment is recorded as 1 byte long but written whole. Loading then reads comment bytes as the vertex count 0x6161616161616161, whose vertices need more bytes than PTRDIFF_MAX. In the program `resize` throws `std::length_error` inside a `noexcept` function, so `std::terminate` ends it; the model, which does not model allocation failure, returns a mesh of that many vertices. |
| MeshFormat.MeshAssetLoad | src/GLGECore/Geometry/Surface/MeshAsset.cpp:226-238 | The asset goes to loading and then to a finished state: loaded exactly when the file exists and starts with the magic value; on failure the mesh is empty. |
| MeshFormat.ImportPathAsWritten | src/GLGECore/Geometry/Surface/MeshAsset.cpp:139-149 | As written, the asset path is the path cut at its last '.' anywhere, or the whole path without one, followed by "." and the suffix. |
| MeshFormat.ImportPathCutsDirectory | src/GLGECore/Geometry/Surface/MeshAsset.cpp:141-147 | A '.' in a directory name is taken for the suffix: "assets.v2/cube" becomes "assets.gmesh". |
| MeshFormat.ImportPath | src/GLGECore/Geometry/Surface/MeshAsset.cpp:139-149 | Corrected, only a '.' after the last '/' starts the suffix that is replaced. |
| MeshFormat.ImportPathKeepsDirectory | src/GLGECore/Geometry/Surface/MeshAsset.cpp:139-149 | Corrected, "assets.v2/cube" becomes "assets.v2/cube.gmesh". |
| MeshFormat.ImportPathIdempotent | src/GLGECore/Geometry/Surface/MeshAsset.cpp:139-152 | Deriving the asset path of an asset path gives the same path, so importing an asset finds it. |
| MeshFormat.ImportPathsAgree | src/GLGECore/Geometry/Surface/MeshAsset.cpp:139-149 | When no '/' follows a '.', the asset path as written is the corrected one. |
| MeshFormat.ImportPathAsWrittenIdempotent | src/GLGECore/Geometry/Surface/MeshAsset.cpp:139-152 | Deriving the asset path as written of such a path gives the same path, for a suffix without '.'. |
| MeshFormat.ImportTo | src/GLGECore/Geometry/Surface/MeshAsset.cpp:150-218 | Once the asset path is derived, an existing asset file is returned untouched. Otherwise the result is "" exactly when the import fails or the file cannot be written, and then the disk is unchanged; success writes the asset file and nothing else. |
| MeshFormat.Import | src/GLGECore/Geometry/Surface/MeshAsset.cpp:137-218 | As written, the asset path is cut at the last '.' anywhere. An existing asset file there is returned untouched. Otherwise a failed import or an unwritable file gives "" and leaves the disk alone, and success writes the asset file and nothing else. |
| MeshFormat.ImportChecked | src/GLGECore/Geometry/Surface/MeshAsset.cpp:137-218 | Corrected, the same operation on the asset path whose suffix starts after the last '/'. |
| MeshFormat.ImportCollidesAcrossDirectories | src/GLGECore/Geometry/Surface/MeshAsset.cpp:141-152 | As written, importing "assets.v2/cube" next to an existing "assets.gmesh" returns that unrelated asset without importing. The corrected import writes "assets.v2/cube.gmesh". |
| MeshFormat.ImportThenLoad | src/GLGECore/Geometry/Surface/MeshAsset.cpp:137-238 | Loading the asset a fresh import as written wrote gives back the imported mesh. |
| MeshFormat.ImportTwiceIsOnce | src/GLGECore/Geometry/Surface/MeshAsset.cpp:150-152 | A second import of the same source finds the asset and changes nothing. |
| Application.SettingsPath | src/GLGECore/Application/App.cpp:190 | An empty settings path becomes "." + name + ".gapp"; a given path is kept. |
| Application.Store | src/GLGECore/Application/App.cpp:148-185 | The stored document has exactly one top-level node, `App`. |
| Application.ReadNumber | src/GLGECore/Application/App.cpp:48-108 | A release number always fits 16 bits, and is 0 when its node or its value attribute is missing. |
| Application.Load | src/GLGECore/Application/App.cpp:30-138 | Loading stops the program exactly when there is no `App` node with a `name`. A loaded version fits 16 bits per number; without a `Version` node it is 0.0.0, and without a `Debug` value debugging is off. |
| Application.ReadNumberOfValueNode | src/GLGECore/Application/App.cpp:48-56 | A 16-bit number stored as a value node reads back unchanged. |
| Application.StoreLoadRoundTrip | src/GLGECore/Application/App.cpp:30-185 | Storing and loading keeps the name, every release number and the debug flag, for names without NUL and 16-bit release numbers. |
| Application.PackAsWritten | src/GLGECore/Application/App.cpp:244-246 | As written, the key shifts the numbers by 4 and 2 bits, not 32 and 16; it fits in 64 bits. |
| Application.PackAsWrittenOfSmallFields | src/GLGECore/Application/App.cpp:244-246 | When minor and patch are below 4, the key as written is major * 16 + minor * 4 + patch, because the or-ed fields do not overlap. |
| Application.PackAsWrittenCollides | src/GLGECore/Application/App.cpp:244-246 | As written, versions 1.0.0 and 0.4.0 pack to the same key, 16. |
| Application.Pack | src/GLGECore/Application/App.cpp:243-246 | Corrected, the three numbers are concatenated as 16-bit fields; the key fits in 64 bits. |
| Application.PackOrders | src/GLGECore/Application/App.cpp:243-246 | The corrected key orders versions by major, then minor, then patch, and equal keys mean equal versions. |
| Application.VersionWarnings | src/GLGECore/Application/App.cpp:248-257 | Given two keys, a forward warning comes exactly when the app's key is smaller and forward compatibility is off, a backward warning exactly when it is larger and backward compatibility is off, and never a debug warning. |
| Application.VersionWarningsByOrder | src/GLGECore/Application/App.cpp:248-257 | With corrected keys, a forward warning comes exactly when the file is newer and forward compatibility is off, and a backward warning exactly when the file is older and backward compatibility is off. |
| Application.CheckKeys | src/GLGECore/Application/App.cpp:232-264 | Given the two packed keys, the check aborts exactly when the names differ. A file version of 0.0.0 gives no version warning. Otherwise a forward warning comes exactly when the app's key is smaller and forward compatibility is off, and a backward warning exactly when it is larger and backward compatibility is off. A debug warning comes exactly when the file asks for debugging and the app forbids it. |
| Application.CheckAsWritten | src/GLGECore/Application/App.cpp:232-264 | The check as written aborts exactly when the names differ and warns about debugging as the corrected check does. A file of the app's own version gives no version warning. |
| Application.CheckAgreesOnSmallFields | src/GLGECore/Application/App.cpp:243-257 | When minor and patch are below 4 in both versions, the check as written gives the same outcome as the corrected check. |
| Application.Check | src/GLGECore/Application/App.cpp:232-264 | Corrected keys: the check aborts exactly when the names differ. A file version of 0.0.0 gives no version warning; otherwise the warnings follow the version order and the compatibility flags. A debug warning comes exactly when the file asks for debugging and the app forbids it. |
| Application.SetupFromFile | src/GLGECore/Application/App.cpp:215-265 | A document without an `App` name aborts. Otherwise the outcome is the check as written applied to the loaded info. |
| Application.AsWrittenMissesNewerFile | src/GLGECore/Application/App.cpp:244-252 | As written, an app at 0.4.0 reading a file of 1.0.0 without forward compatibility starts with no warning. The corrected check warns that forward compatibility is off. |
| Application.Initialize | src/GLGECore/Application/App.cpp:187-227 | A missing settings file is created from the app's own info and the start is quiet, or the program stops if the file cannot be saved. An unparsable file stops the program. An existing file is never changed. |
| Application.SecondStartIsQuiet | src/GLGECore/Application/App.cpp:187-265 | The file written on the first start passes the next start's check without any warning, and is left as it is. |
| Messages.Send | src/GLGECore/Messages/MessageListener.h:42 | Sending appends the message at the end: the count grows by one, the last message is the new one, and earlier messages keep their indices. |
| Messages.Clear | src/GLGECore/Messages/MessageListener.h:65 | After clearing no message is left. |
| Messages.Pull | src/GLGECore/Messages/MessageListener.cpp:15-26 | Pull succeeds exactly when the queue is non-empty. On success the oldest message leaves the queue and the rest keep their order; the message is copied out exactly when an output pointer is given. An empty queue is left unchanged. |
| Messages.Peek | src/GLGECore/Messages/MessageListener.cpp:28-37 | Peek succeeds exactly when at least two messages are queued, and then shows the second one (index 1), copied only when an output pointer is given. |
| Messages.PeekShowsSecondPull | src/GLGECore/Messages/MessageListener.h:53-60 | The message peek shows is the one the second pull returns. |
| Messages.SendAll | src/GLGECore/Messages/MessageListener.h:42 | Sending several messages grows the count by their number. |
| Messages.SendAllAppends | src/GLGECore/Messages/MessageListener.h:42 | Messages sent one after the other land at the end of the queue, in sending order. |
| Messages.DrainIsQueue | src/GLGECore/Messages/MessageListener.cpp:15-26 | Pulling until the queue is empty returns the queued messages oldest first. |
| Messages.FirstInFirstOut | src/GLGECore/Messages/MessageListener.h:42-51 | Messages sent to a listener are pulled after the ones already queued, in the order they were sent. |
| Messages.CallMessageCallback | Messages/MessageListener.cpp:39-122 | The call fails without a function, with an identifier outside the enumeration, or when a non-void callback gets no return pointer. Otherwise the function runs, and its result is written through the pointer exactly for the non-void kinds. |
| Messages.CallbackFollowsDeclaredKinds | Messages/Message.h:83-105 | Against the identifiers as the enumeration declares them: with a function and a return pointer the call succeeds exactly for the twenty declared identifiers and writes a result exactly when the declared kind returns one; without a pointer it succeeds exactly for the two void identifiers, 0 and 10. |
| Events.Simple | src/GLGECore/Events/Event.h:107-109 | An event without data carries its type, a null pointer and a size of 0. |
| Events.WithData | src/GLGECore/Events/Event.h:119-121 | An event with external data carries its type, the pointer and the size. |
| Events.WithInPlace | src/GLGECore/Events/Event.h:133-135 | An event with in-place data carries its type and the copied bytes; the caller keeps them within 16. |
| Events.SameTypeIsEquivalence | src/GLGECore/Events/Event.h:154-155 | Event equality is an equivalence that holds exactly when the library texts and identifiers match, whatever the data. |
| Events.NewHandler | src/GLGECore/Events/EventHandler.h:43-45 | A handler can be created exactly when a callback is given; it starts with an empty queue and the requested deferral. |
| Events.SendInstant | src/GLGECore/Events/EventHandler.h:70 | An instant send hands the event to the callback and leaves the handler unchanged. |
| Events.SendDeferred | src/GLGECore/Events/EventHandler.cpp:15-23 | A deferred send appends the event to the queue and delivers nothing. |
| Events.Send | src/GLGECore/Events/EventHandler.h:52-56 | A send is deferred exactly when deferral is on, and instant otherwise. |
| Events.HandleEvents | src/GLGECore/Events/EventHandler.cpp:25-44 | Handling delivers the queued events in queue order and leaves the queue empty; deferral is unchanged. |
| Events.SetDeferEvents | src/GLGECore/Events/EventHandler.h:82 | Changing deferral leaves the queue as it is. |
| Events.GetAfterSetDefer | src/GLGECore/Events/EventHandler.h:82-90 | Deferral reads back as it was last set. |
| Events.DeferredKeepsOrder | src/GLGECore/Events/EventHandler.h:52-56 | With deferral on, sent events join the queue in sending order and nothing is delivered. |
| Events.RunDeliversInOrder | src/GLGECore/Events/EventHandler.cpp:15-44 | If instant events only arrive while the queue is empty, nothing is lost, duplicated or reordered: the delivered events followed by the still-queued ones are exactly the events sent, in order. |
| Files.Unopened | src/GLGECore/Filesystem/File.h:43-54 | A default file is not open, holds no contents and has the given decorators. |
| Files.AddDecorator | src/GLGECore/Filesystem/File.h:123 | Adding puts the decorator at the end: the count grows by one, earlier decorators keep their indices, and the file is otherwise unchanged. |
| Files.RemoveDecorator | src/GLGECore/Filesystem/File.h:130 | Removing at an index shrinks the count by one and shifts the later decorators down by one; the file is otherwise unchanged. |
| Files.RemoveUndoesAdd | src/GLGECore/Filesystem/File.h:123-130 | Removing the decorator just added gives the file back. |
| Files.PreOfConcat | src/GLGECore/Filesystem/File.cpp:71 | Preprocessing through two decorator lists runs the first list, then the second. |
| Files.PostOfConcat | src/GLGECore/Filesystem/File.cpp:105 | Postprocessing through two decorator lists runs the second list, then the first. |
| Files.PostUndoesPre | src/GLGECore/Filesystem/File.cpp:71-105 | Because saving runs the postprocessors in reverse order, decorators that each undo their own preprocessing undo the whole pipeline. |
| Files.Hooks | src/GLGECore/Filesystem/File.cpp:68-87 | The hooks called are exactly those of the decorators that have one, in decorator order, each on the file's path. |
| Files.Save | src/GLGECore/Filesystem/File.cpp:99-114 | Corrected, an open file's postprocessed contents become exactly the file on disk, and the contents in memory are unchanged; a closed file writes nothing; other paths are untouched. |
| Files.Overwrite | src/GLGECore/Filesystem/File.cpp:108-109 | Writing from the start without truncation puts the new bytes first and leaves the tail of a longer old file behind. |
| Files.SaveAsWritten | src/GLGECore/Filesystem/File.cpp:99-114 | As written, the postprocessors run in place on the contents in memory, and the result is written over the start of the file; other paths are untouched. |
| Files.Close | src/GLGECore/Filesystem/File.cpp:77-97 | Closing an open file saves it with the save as written, runs the close hooks and resets the path and contents; a closed file is left alone. The decorators stay either way. |
| Files.CloseAgreesWithSave | src/GLGECore/Filesystem/File.cpp:77-114 | When the postprocessed contents are at least as long as the file on disk, or there is no file yet, closing leaves the disk as the corrected save would. |
| Files.ShortCloseKeepsTail | src/GLGECore/Filesystem/File.cpp:77-114 | A file holding [1, 2] whose contents are cut to [3] holds [3, 2] after a close; the corrected save would leave [3]. |
| Files.Open | src/GLGECore/Filesystem/File.cpp:26-75 | Open succeeds exactly when it leaves the file open, and then on the requested path, which exists on disk; the decorators are kept. The previous file is closed first, with the save as written. |
| Files.New | src/GLGECore/Filesystem/File.h:52-54 | The opening constructor succeeds exactly when the path exists or creation is allowed. It then holds the preprocessed file contents (empty for a created file), creates a missing file empty and runs the open hooks. A failed construction leaves the disk alone and runs no hook. |
| Files.OpenSucceeds | src/GLGECore/Filesystem/File.cpp:26-57 | Opening succeeds exactly when the path is a file, or creation is allowed, or the current file is open on that path (closing it saves it there). |
| Files.OpenFailureCloses | src/GLGECore/Filesystem/File.cpp:29-57 | A failed open leaves no file open, and the disk and hooks are those of closing the previous file. |
| Files.OpenExisting | src/GLGECore/Filesystem/File.cpp:29-71 | Opening an existing file reads its contents through the preprocessors and writes them back unchanged. The close hooks of the previous file run before the open hooks. |
| Files.OpenCreates | src/GLGECore/Filesystem/File.cpp:54-71 | Creating a missing file adds it empty, and the contents left in memory go through the preprocessors. |
| Files.OpenCloseRestores | src/GLGECore/Filesystem/File.cpp:26-114 | With inverting decorators, opening a file and closing it again leaves the disk as it was. |
| Files.SaveTwiceCloseRestores | src/GLGECore/Filesystem/File.cpp:77-114 | Corrected, the disk is restored even with saves in between, because a save does not change what a later save writes. |
| Files.SaveWritesContents | src/GLGECore/Filesystem/File.cpp:99-114 | Corrected, after a save the file holds exactly the postprocessed contents, however long it was before. |
| Files.FlipLowBit | src/GLGECore/Filesystem/FileDecorator.h:23-36 | The example processor keeps the length and flips the lowest bit of every byte. |
| Files.FlipInverts | src/GLGECore/Filesystem/FileDecorator.h:23-36 | The flipping decorator undoes its own preprocessing. |
| Files.SaveTwiceAsWrittenCorrupts | src/GLGECore/Filesystem/File.cpp:105 | As written, a file holding [0] opened with the self-inverting flip decorator and saved twice holds [1]: the second save postprocesses contents that were already postprocessed. |
| Files.ShortSaveAsWrittenKeepsTail | src/GLGECore/Filesystem/File.cpp:108-109 | As written, a file holding [1, 2] whose contents were cut to [3] holds [3, 2] after a save. |
| Files.Reload | src/GLGECore/Filesystem/File.cpp:116-129 | Reloading a closed file fails and changes nothing; reloading never writes to disk. |
| Files.ReloadRevertsEdits | src/GLGECore/Filesystem/File.cpp:116-129 | Reloading an open file whose path exists discards edits in memory for the file's preprocessed contents, runs only the open hooks, and reports success. |
| Files.ReloadOfRemovedFile | src/GLGECore/Filesystem/File.cpp:116-129 | Reloading a file whose path is gone fails and leaves it closed, but keeps its path and contents, and runs no hooks. |
| Files.CloseIdempotent | src/GLGECore/Filesystem/File.cpp:77-80 | Closing a closed file changes nothing and runs no hooks. |
| Numeric.BitOr | src/GLGECore/Application/App.cpp:245-246 | The bitwise or of two naturals is at least each of them and at most their sum. |
| Numeric.BitOrOfDisjoint | src/GLGECore/Application/App.cpp:245-246 | Or-ing a value below 2^k into a multiple of 2^k adds the two. |
| Numeric.WrapUnsigned | src/GLGECore/Setting/Settings.cpp:229-243 | A conversion to an unsigned type gives a value of that type; a value already in range is kept, and a negative value one range below wraps to its sum with the range. |
| Numeric.Atoi | src/GLGECore/Application/App.cpp:54-184 | `atoi` reads 0 when no digit follows the white space and sign, and gives a negative number only after a minus sign. |
| Numeric.AtoiOfIntToString | src/GLGECore/Application/App.cpp:54-184 | `atoi` reads back every integer that `std::to_string` wrote, so the stored version numbers and debug flag survive the text form. |
| Numeric.Stoull | src/GLGECore/Geometry/Structure/ECS/Scene.cpp:77-81 | `std::stoull` fails exactly when no digit follows the optional sign or the magnitude exceeds 64 bits; a result is below 2^64. |
| Numeric.StoullOfNatToString | src/GLGECore/Geometry/Structure/ECS/Scene.cpp:77-81 | `std::stoull` reads back every 64-bit index that `std::to_string` wrote into a generated name. |
| Xml.AsInteger | src/GLGECore/Setting/Settings.cpp:228-243 | The XML library's integer readers always give a value inside the reader's range, whatever the attribute text, and 0 for a missing attribute. The text after the optional sign is read in hexadecimal after a "0x" or "0X" prefix and in decimal otherwise. |
| Xml.AsInt | src/GLGECore/Setting/Settings.cpp:229 | `as_int` gives a value of the 32-bit signed range. |
| Xml.AsUint | src/GLGECore/Setting/Settings.cpp:231 | `as_uint` gives a value of the 32-bit unsigned range; a negative text reads as 0. |
| Xml.AsLlong | src/GLGECore/Setting/Settings.cpp:241 | `as_llong` gives a value of the 64-bit signed range. |
| Xml.AsUllong | src/GLGECore/Setting/Settings.cpp:243 | `as_ullong` gives a value of the 64-bit unsigned range. |
| Xml.AsIntegerReadsHex | src/GLGECore/Setting/Settings.cpp:228-243 | A hand-edited "0x10" reads as 16, also with leading white space, a plus sign and a capital X; "0x" alone reads as 0. |
| Xml.AsIntegerOfIntToString | src/GLGECore/Setting/Settings.cpp:228-243 | The XML integer readers read back every decimal written for a value inside their range. |

## Left out

- Threads, mutexes and condition variables of the asset loader and the event handler: each operation is one atomic step, and one iteration of the loader worker is one dispatch step.
- The outcome of an asset's `load()`: it is a parameter (LOADED or FAILED).
- The asset loader's cleanup unlocks mutexes it does not own (`src/GLGECore/Assets/AssetStream.cpp:49-50`): undefined behaviour, not modelled.
- AssetSystem.Dispatch: its canceled branch models the intended retirement, not the program. The worker holds the job mutex shared (`src/GLGECore/Assets/AssetStream.cpp:159`) when it calls `popJob` (:177), which locks the same `std::shared_mutex` exclusively (:101). That is undefined and in practice deadlocks the worker and every later `enqueue` and `popJob`. AssetSystem.DispatchAsWritten shows it as `None` (see "## Findings").
- Settings.LoadChildrenAsWritten: a type code of 32 or more is undefined at the conversion to `SettingType` and shown as `None`. What a compiler then does, typically keeping the low 32 bits so that 4294967301 reads as 5, is not modelled.
- AssetStream.IsTop: the element a `std::priority_queue` hands out among equal priorities is unspecified, so any element at the extreme priority may be chosen.
- Versions of registry and job slots are unbounded naturals; the 32-bit wrap-around after 2^32 reuses of one slot is not modelled.
- A `GLGE_ASSERT` or `GLGE_ABORT` is taken as ending the program, shown as `None` or an `Abort` outcome.
- `atoi` on a number outside the `int` range is undefined; the model keeps the mathematical value, and the caller's cast wraps it.
- Settings.TypeNameAsWritten: reading the type-name table past its end is undefined; it is modelled as `None`.
- Settings floating-point values are kept as opaque text. Only integers and strings are modelled exactly.
- Events.WithInPlace: copying more than 16 bytes in place overruns the buffer; the model requires at most 16 bytes.
- The event handler's re-entrancy (a callback sending events while the queue is handled) is not modelled.
- Messages.Get and Files.GetDecorator: the source does not check the index, so the model requires it to be in range.
- The effect of a message callback on its message is not modelled: the callback's return value is a parameter.
- Scene.DeleteObject: excludes the branch for a parentless object with children, which is undefined behaviour. Scene.DeleteObjectAsWritten covers that call as `None`, and Scene.DeleteObjectChecked gives the corrected deletion (see "## Findings").
- The ECS world that stores an object's entity and components is outside the model: entities are parameters.
- Scene `reserve`, component access and initialisation, `forAllObjects`, and the systems' `update` and `execute` calls are not modelled.
- A system's `typeid` name is a plain string.
- `LayerStack`'s C bindings are not modelled.
- `App::run` is not modelled.
- Compression and encryption decorators call foreign libraries: a decorator's processors are arbitrary functions, and the user data is folded into them.
- Files: text and binary stream modes are not distinguished.
- Files: `fopen` failures other than a missing path, and paths that are directories, are not modelled.
- Files: writing to a path removed while the file is open is not modelled.
- The `File` destructor, which closes the stream without saving or hooks, is not modelled.
- `File::didContentsChange` and the file timestamps depend on a clock and are not modelled.
- The sleep inside `File::reload` is not modelled.
- The mesh comment's console output is not modelled.
- The Assimp importer is a parameter, and all floating-point geometry is left out; a vertex is an opaque 32-byte record.
- Mesh indices are taken as 32-bit.
- The blank `SimpleVertex` the loader resizes with is a parameter.
- MeshFormat.Load: the loader opens the file in text mode (`std::ifstream f(path)`, `src/GLGECore/Geometry/Surface/MeshAsset.cpp:90`), while the save opens it in binary mode (:44). The model reads the bytes unchanged, which is what text mode does on POSIX systems. On Windows, which the engine also targets (`src/GLGECore/Filesystem/File.cpp:14`), text mode turns each CR LF pair into LF and stops at a 0x1A byte; that translation is not modelled.
- MeshFormat.SaveLoadRoundTrip: holds for a read that passes the bytes through unchanged. Under the Windows text-mode translation it fails for data holding CR LF pairs or 0x1A bytes.
- MeshFormat.Load: a truncated mesh file still loads with the missing records left blank, as in the source. A count too large to allocate is not modelled: in the program `resize` throws inside a `noexcept` function and `std::terminate` ends it, while the model returns a mesh of that many records.
- MeshFormat.ImportPath: '/' is the only directory separator.
- The BVH keeps no cache of volumes, and a leaf is its own volume.
- Bvh.Build: a maximum child count of one makes the build loop run forever on two or more leaves (Bvh.OneChildLevelsNeverShrink); the build requires a count of at least two.
- Printing an object tree that contains a cycle stops at the source's depth limit of 32 (Scene.SelfLoopPrintIsBounded); that is the source's own guard, not a defect.

## Findings

| source | as written | input that shows it | evidently intended | confidence | as-written member | corrected member |
|---|---|---|---|---|---|---|
| src/GLGECore/Assets/AssetStream.h:128-137 | The comparison makes the priority queue hand out the job with the lowest priority first. | A HIGH job and a LOW job queued together: the LOW one is on top. | The highest priority first, as the documentation says. | not executed | AssetStream.LowPriorityServedFirst | AssetStream.IntendedTopHasHighestPriority |
| Assets/AssetManager.h:151-157 | `getAsset<T>` casts the slot's pointer to `T` without comparing the type tag. | An asset created as type 1 and fetched as type 2 is handed out. | Null for a type mismatch. | not executed | AssetManager.GetAssetIgnoresType | AssetManager.GetAssetChecked |
| src/GLGECore/Layers/LayerStack.cpp:243 | The range check in `getElement(index)` scales the index to bytes in wrapping 64-bit arithmetic. | Index 2^60 on a one-layer stack wraps to byte offset 0 and passes. | The index compared with the layer count. | not executed | LayerStack.GetElementAsWritten | LayerStack.GetElement |
| src/GLGECore/Layers/LayerStack.cpp:316 | The range check in `removeLayer(index)` scales the index the same way. | Index 2^60 on a one-layer stack passes, and the element past the array is deleted. | The index compared with the layer count. | not executed | LayerStack.HugeIndexRemovalUndefined | LayerStack.RemoveLayer |
| src/GLGECore/Setting/Settings.h:62-105 | The union's string member is built by the constructor and never destroyed or rebuilt. A numeric write ends its lifetime, and a later string write assigns to the dead string. | `setSetting_Int32("a", 5)` then `setSetting_String("a", "x")`; or loading two entries named "a", an `int32_t` and then a string. | The union switches members properly: the string is built before a string write and destroyed before a numeric one. | not executed | Settings.StringAfterNumberUndefined | Settings.SetSetting |
| src/GLGECore/Setting/Settings.cpp:590 | Loading stores whatever type code from 23 to 31 the document holds; these are values of `SettingType` that name no type. | A setting with type code 23 is kept, and a typed read of it looks up the name table past its end. | Entries with an unknown type code are not loaded. | not executed | Settings.UnknownCodeReachesNameTable | Settings.LoadedCodesHaveNames |
| src/GLGECore/Setting/Settings.cpp:311-314 | `decode` converts the 64-bit type code to `SettingType` unchecked. | A setting with type code 99: the conversion is already undefined, before any read of the name table. | The code is checked against the enumeration before it is converted. | not executed | Settings.LargeCodeUndefined | Settings.LoadedCodesHaveNames |
| src/GLGECore/Assets/AssetStream.cpp:159-177 | The worker calls `popJob` for a canceled job while it holds the job mutex shared, and `popJob` locks it exclusively. | Create an asset and cancel its load before a worker takes the job. | The shared lock is released before the job is popped. | not executed | AssetSystem.CanceledDispatchUndefined | AssetSystem.Dispatch |
| Geometry/Structure/ECS/Scene.h:96-124 | A generated name "base(n)" is not checked against names already taken. | Creating "a", "a(1)" and "a" draws "a(1)" again: nothing is added and the root lists "a(1)" twice. | A generated name skips taken names. | not executed | Scene.GeneratedNameCollides | Scene.CheckedNameSkipsTaken |
| src/GLGECore/Application/App.cpp:243-252 | The version key shifts major and minor by 4 and 2 bits. | Versions 1.0.0 and 0.4.0 get the same key, so an app at 0.4.0 is not warned about a file of 1.0.0. | The three numbers concatenated as 16-bit fields. | not executed | Application.AsWrittenMissesNewerFile | Application.Check |
| src/GLGECore/Geometry/Volumes/BVH.h:86-104 | The internal node constructor never stores its child count. | Any build of two or more leaves: every node reports itself a leaf. | Internal nodes keep their child count. | not executed | Bvh.AsWrittenEveryNodeIsLeaf | Bvh.BuildLeavesAreLeaves |
| src/GLGECore/Geometry/Volumes/BVH.h:254-285 | Printing starts at node 0, the first leaf, not at the root. | Any non-empty build prints a single leaf line. | Printing starts at the root. | not executed | Bvh.AsWrittenPrintShowsOneLeaf | Bvh.PrintShowsRoot |
| src/GLGECore/Geometry/Surface/VertexLayout.h:42-53 | The map constructor never advances its slot index. | A position and a normal: only the normal is stored, in slot 0. | One slot per map entry. | not executed | VertexLayout.MapConstructorKeepsOnlyLastEntry | VertexLayout.MapLayout |
| src/GLGECore/Geometry/Surface/MeshAsset.cpp:51-56 | The comment length is stored in 16 bits, but the whole comment is written. The defect is latent: the helper is `static` (:41) and its only call (:214) passes no comment, so only a caller that passes a comment could reach it. | A 65537-byte comment of 0x61 bytes is recorded as 1 byte; loading reads comment bytes as the vertex count 0x6161616161616161, and the resize for it ends the program through `std::terminate`. | A length that matches the bytes written. | not executed | MeshFormat.LongCommentBreaksRoundTrip | MeshFormat.SaveLoadRoundTrip |
| src/GLGECore/Geometry/Structure/ECS/Scene.cpp:47-51 | For a parentless object with children, the loop calls `deleteObject` on `&raw->children[0]`, the address of a vector slot, not the child. | `get("ROOT")` returns the map's parentless "ROOT" copy; `createObject("a", get("ROOT"))` gives it a child; `deleteObject(get("ROOT"))` then takes the branch. | Each child is deleted through its own pointer, which removes the subtree, and then the object. | not executed | Scene.ParentlessDeleteUndefined | Scene.DeleteObjectChecked |
| src/GLGECore/Assets/AssetStream.cpp:98-112 | `popJob` bumps the slot's version and frees it, but keeps the request, so the entry's copy of the asset handle stays registered although the comment at :107 says the job is deleted. | Create an asset, let a worker run its load job, then destroy the user's handle: the object is neither deleted nor pending until the job slot is reused. | Retiring the job releases its copy of the handle. | not executed | AssetSystem.JobCopyPinsAsset | AssetSystem.DispatchReleasing |
| src/GLGECore/Geometry/Surface/MeshAsset.cpp:139-149 | The suffix is cut at the last '.' anywhere in the path. | "assets.v2/cube" becomes "assets.gmesh". | Only a '.' in the file name starts the suffix. | not executed | MeshFormat.ImportCollidesAcrossDirectories | MeshFormat.ImportChecked |
| src/GLGECore/Filesystem/File.cpp:99-114 | Save runs the postprocessors in place on the contents in memory. | A file holding [0], opened with a self-inverting flip decorator and saved twice, holds [1]. | Save leaves the contents in memory unchanged. | not executed | Files.SaveTwiceAsWrittenCorrupts | Files.SaveTwiceCloseRestores |
| src/GLGECore/Filesystem/File.cpp:83,108-109 | Save, and so close, writes from the start of the file without truncating it. | A file holding [1, 2] whose contents were cut to [3] holds [3, 2]. | The file holds exactly the saved contents. | not executed | Files.ShortCloseKeepsTail | Files.SaveWritesContents |

=== FILE: application.dfy ===
/** The application's settings file: an XML document holding the app's name,
    its version and its debug flag, written on the first start and checked on
    every later start against the running app. Diagnostics the start-up check
    prints are collected as a set of warnings; a check that ends the program
    is the `Abort` outcome. */
module Application {
  import opened Wrappers
  import opened Numeric
  import opened Xml

  /** Three 16-bit release numbers. 0.0.0 is the null version. */
  datatype Version = Version(major: nat, minor: nat, patch: nat)

  const NULL_VERSION: Version := Version(0, 0, 0)

  predicate VersionFits(v: Version) {
    v.major < UINT16_LIMIT && v.minor < UINT16_LIMIT && v.patch < UINT16_LIMIT
  }

  /** Compatibility flag bits. */
  const COMPATIBILITY_NONE: nat := 0
  const COMPATIBILITY_FORWARD: nat := 1
  const COMPATIBILITY_BACKWARD: nat := 2

  /** The app's own description; an empty settings path selects the default. */
  datatype Info = Info(name: string, settingsPath: string, version: Version, compatibility: nat, debug: bool)

  /** What a settings file records. */
  datatype FileInfo = FileInfo(name: string, version: Version, debug: bool)

  function Recorded(info: Info): FileInfo {
    FileInfo(info.name, info.version, info.debug)
  }

  /** The settings path actually used: "." + name + ".gapp" when none is given. */
  function SettingsPath(info: Info): (p: string)
    ensures info.settingsPath != "" ==> p == info.settingsPath
    ensures info.settingsPath == "" ==> p == "." + info.name + ".gapp" && |p| == |info.name| + 6
  {
    if info.settingsPath == "" then "." + info.name + ".gapp" else info.settingsPath
  }

  // ---------------------------------------------------------------------
  // Storing and loading

  function ValueNode(name: string, n: nat): Node {
    Node(name, [Attr("value", NatToString(n))], [])
  }

  /** `__storeAppInfoToFile` into a new document: an `App` node carrying the
      name, a `Version` node with `Major`, `Minor` and `Patch` values, and a
      `Debug` value of 1 or 0. */
  function Store(f: FileInfo): (doc: Node)
    ensures |doc.children| == 1 && doc.children[0].name == "App"
  {
    var version := Node("Version", [], [ValueNode("Major", f.version.major), ValueNode("Minor", f.version.minor), ValueNode("Patch", f.version.patch)]);
    var debug := ValueNode("Debug", if f.debug then 1 else 0);
    Node("", [], [Node("App", [Attr("name", CString(f.name))], [version, debug])])
  }

  /** One release number: 0 when its node or its value is missing, otherwise
      the `atoi` of the value cast to 16 bits. */
  function ReadNumber(version: Option<Node>, field: string): (n: nat)
    ensures n < UINT16_LIMIT
    ensures Child(version, field).None? ==> n == 0
    ensures Attribute(Child(version, field), "value").None? ==> n == 0
  {
    var value := Attribute(Child(version, field), "value");
    if value.None? then 0 else WrapUnsigned(Atoi(value.value), UINT16_LIMIT)
  }

  /** `__loadAppInfoFromFile`: None where its assertions stop the program (no
      `App` node, or no `name` on it). */
  function Load(doc: Node): (r: Option<FileInfo>)
    ensures r.Some? <==> Attribute(Child(Some(doc), "App"), "name").Some?
    ensures r.Some? ==> VersionFits(r.value.version)
    ensures r.Some? && Child(Child(Some(doc), "App"), "Version").None? ==> r.value.version == NULL_VERSION
    ensures r.Some? && Attribute(Child(Child(Some(doc), "App"), "Debug"), "value").None? ==> !r.value.debug
  {
    var app := Child(Some(doc), "App");
    var name := Attribute(app, "name");
    if name.None? then None
    else
      var v := Child(app, "Version");
      var version := if v.None? then NULL_VERSION
                     else Version(ReadNumber(v, "Major"), ReadNumber(v, "Minor"), ReadNumber(v, "Patch"));
      var debugValue := Attribute(Child(app, "Debug"), "value");
      var debug := debugValue.Some? && Atoi(debugValue.value) != 0;
      Some(FileInfo(name.value, version, debug))
  }

  lemma ReadNumberOfValueNode(others: seq<Node>, field: string, n: nat)
    requires n < UINT16_LIMIT
    requires forall i :: 0 <= i < |others| ==> others[i].name != field
    ensures ReadNumber(Some(Node("Version", [], others + [ValueNode(field, n)])), field) == n
  {
    var cs := others + [ValueNode(field, n)];
    assert FindChild(cs, field) == Some(ValueNode(field, n)) by {
      assert FindChild(cs, field) == FindChild(cs[|others|..], field) by {
        FindChildSkips(cs, field, |others|);
      }
    }
    AtoiOfIntToString(n);
  }

  lemma {:induction false} FindChildSkips(cs: seq<Node>, field: string, k: nat)
    requires k <= |cs|
    requires forall i :: 0 <= i < k ==> cs[i].name != field
    ensures FindChild(cs, field) == FindChild(cs[k..], field)
  {
    if k > 0 {
      FindChildSkips(cs[1..], field, k - 1);
      assert cs[1..][k - 1..] == cs[k..];
    }
  }

  /** The three release numbers stored read back as they were. */
  lemma StoredVersionReads(f: FileInfo)
    requires VersionFits(f.version)
    ensures var v := Some(Store(f).children[0].children[0]);
            && ReadNumber(v, "Major") == f.version.major
            && ReadNumber(v, "Minor") == f.version.minor
            && ReadNumber(v, "Patch") == f.version.patch
  {
    var v := Store(f).children[0].children[0];
    ReadNumberOfValueNode([], "Major", f.version.major);
    assert [] + [ValueNode("Major", f.version.major)] == v.children[..1];
    ReadNumberOfValueNode(v.children[..1], "Minor", f.version.minor);
    assert v.children[..1] + [ValueNode("Minor", f.version.minor)] == v.children[..2];
    ReadNumberOfValueNode(v.children[..2], "Patch", f.version.patch);
    assert v.children[..2] + [ValueNode("Patch", f.version.patch)] == v.children;
    assert v.children[0].name == "Major";
    assert FindChild(v.children, "Major") == Some(v.children[0]);
  }

  /** The stored debug value reads back as the flag. */
  lemma StoredDebugReads(f: FileInfo)
    ensures var d := Attribute(Child(Some(Store(f).children[0]), "Debug"), "value");
            (d.Some? && Atoi(d.value) != 0) == f.debug
  {
    var app := Store(f).children[0];
    assert FindChild(app.children, "Debug") == Some(app.children[1]);
    AtoiOfIntToString(if f.debug then 1 else 0);
  }

  /** Storing and loading keeps the name, every release number and the debug
      flag, for names without a NUL character and 16-bit release numbers. */
  lemma StoreLoadRoundTrip(f: FileInfo)
    requires NulFree(f.name) && VersionFits(f.version)
    ensures Load(Store(f)) == Some(f)
  {
    var doc := Store(f);
    var app := doc.children[0];
    CStringOfNulFree(f.name);
    assert Child(Some(doc), "App") == Some(app);
    assert Child(Some(app), "Version") == Some(app.children[0]);
    StoredVersionReads(f);
    StoredDebugReads(f);
  }

  // ---------------------------------------------------------------------
  // The start-up check

  /** `major.minor.patch` packed as the start-up check packs it: shifts by
      `sizeof(uint16_t) * 2` and `sizeof(uint16_t)` bits, that is 4 and 2.
      For 16-bit numbers nothing reaches the top of the 64-bit key, so no
      wrap-around is written. */
  function PackAsWritten(v: Version): (key: nat)
    requires VersionFits(v)
    ensures key < UINT64_LIMIT
  {
    BitOr(BitOr(v.major * 16, v.minor * 4), v.patch)
  }

  /** The packed versions of 1.0.0 and 0.4.0 coincide. */
  lemma PackAsWrittenCollides()
    ensures PackAsWritten(Version(1, 0, 0)) == PackAsWritten(Version(0, 4, 0)) == 16
  {
  }

  /** The three numbers concatenated as 16-bit fields. */
  function Pack(v: Version): (key: nat)
    requires VersionFits(v)
    ensures key < UINT64_LIMIT
  {
    v.major * 0x1_0000_0000 + v.minor * 0x1_0000 + v.patch
  }

  /** Lexicographic order of release numbers. */
  predicate Older(a: Version, b: Version) {
    a.major < b.major
    || (a.major == b.major && a.minor < b.minor)
    || (a.major == b.major && a.minor == b.minor && a.patch < b.patch)
  }

  /** The packed key orders versions lexicographically. */
  lemma PackOrders(a: Version, b: Version)
    requires VersionFits(a) && VersionFits(b)
    ensures Pack(a) < Pack(b) <==> Older(a, b)
    ensures Pack(a) == Pack(b) <==> a == b
  {
    var low := a.minor * 0x1_0000 + a.patch;
    var low' := b.minor * 0x1_0000 + b.patch;
    assert low < 0x1_0000_0000 && low' < 0x1_0000_0000;
    if a.major < b.major {
      assert a.major * 0x1_0000_0000 + 0x1_0000_0000 <= b.major * 0x1_0000_0000;
    } else if a.major > b.major {
      assert b.major * 0x1_0000_0000 + 0x1_0000_0000 <= a.major * 0x1_0000_0000;
    } else if a.minor < b.minor {
      assert a.minor * 0x1_0000 + 0x1_0000 <= b.minor * 0x1_0000;
    } else if a.minor > b.minor {
      assert b.minor * 0x1_0000 + 0x1_0000 <= a.minor * 0x1_0000;
    }
  }

  datatype Warning = ForwardNotEnabled | BackwardNotEnabled | DebugOverruled

  datatype Outcome = Abort | Started(warnings: set<Warning>)

  predicate HasFlag(compatibility: nat, flag: nat)
    requires flag == COMPATIBILITY_FORWARD || flag == COMPATIBILITY_BACKWARD
  {
    (compatibility / flag) % 2 == 1
  }

  /** The version warnings for packed keys `own` (the app) and `other` (the file). */
  function VersionWarnings(own: nat, other: nat, compatibility: nat): (w: set<Warning>)
    ensures ForwardNotEnabled in w <==> own < other && !HasFlag(compatibility, COMPATIBILITY_FORWARD)
    ensures BackwardNotEnabled in w <==> other < own && !HasFlag(compatibility, COMPATIBILITY_BACKWARD)
    ensures DebugOverruled !in w
  {
    (if own < other && !HasFlag(compatibility, COMPATIBILITY_FORWARD) then {ForwardNotEnabled} else {})
    + (if own > other && !HasFlag(compatibility, COMPATIBILITY_BACKWARD) then {BackwardNotEnabled} else {})
  }

  /** The version warnings of concatenated keys follow the lexicographic order. */
  lemma VersionWarningsByOrder(own: Version, other: Version, compatibility: nat)
    requires VersionFits(own) && VersionFits(other)
    ensures var w := VersionWarnings(Pack(own), Pack(other), compatibility);
      && (ForwardNotEnabled in w <==> Older(own, other) && !HasFlag(compatibility, COMPATIBILITY_FORWARD))
      && (BackwardNotEnabled in w <==> Older(other, own) && !HasFlag(compatibility, COMPATIBILITY_BACKWARD))
      && DebugOverruled !in w
  {
    PackOrders(own, other);
    PackOrders(other, own);
  }

  /** The start-up check of a loaded file against the app, given the packed
      keys of the app's version (`own`) and of the file's (`other`). */
  function CheckKeys(info: Info, f: FileInfo, own: nat, other: nat): (o: Outcome)
    ensures o == Abort <==> f.name != info.name
    ensures o.Started? ==>
      && (ForwardNotEnabled in o.warnings <==>
           f.version != NULL_VERSION && own < other && !HasFlag(info.compatibility, COMPATIBILITY_FORWARD))
      && (BackwardNotEnabled in o.warnings <==>
           f.version != NULL_VERSION && own > other && !HasFlag(info.compatibility, COMPATIBILITY_BACKWARD))
      && (DebugOverruled in o.warnings <==> f.debug && !info.debug)
  {
    if f.name != info.name then Abort
    else
      var versionWarnings := if f.version == NULL_VERSION then {} else VersionWarnings(own, other, info.compatibility);
      Started(versionWarnings + (if !info.debug && f.debug then {DebugOverruled} else {}))
  }

  /** The start-up check with the versions compared by the concatenating key. */
  function Check(info: Info, f: FileInfo): (o: Outcome)
    requires VersionFits(info.version) && VersionFits(f.version)
    ensures o == Abort <==> f.name != info.name
    ensures o.Started? ==>
      && (ForwardNotEnabled in o.warnings <==>
           f.version != NULL_VERSION && Older(info.version, f.version) && !HasFlag(info.compatibility, COMPATIBILITY_FORWARD))
      && (BackwardNotEnabled in o.warnings <==>
           f.version != NULL_VERSION && Older(f.version, info.version) && !HasFlag(info.compatibility, COMPATIBILITY_BACKWARD))
      && (DebugOverruled in o.warnings <==> f.debug && !info.debug)
  {
    PackOrders(info.version, f.version);
    PackOrders(f.version, info.version);
    CheckKeys(info, f, Pack(info.version), Pack(f.version))
  }

  /** The start-up check as written, with the keys shifted by 4 and 2 bits. */
  function CheckAsWritten(info: Info, f: FileInfo): (o: Outcome)
    requires VersionFits(info.version) && VersionFits(f.version)
    ensures o == Abort <==> f.name != info.name
    ensures o.Started? ==> (DebugOverruled in o.warnings <==> f.debug && !info.debug)
    ensures o.Started? && f.version == info.version ==> o.warnings <= {DebugOverruled}
  {
    CheckKeys(info, f, PackAsWritten(info.version), PackAsWritten(f.version))
  }

  /** Minor and patch numbers below 4 fit the 2-bit fields the shifts as
      written leave them. */
  predicate SmallFields(v: Version) {
    v.minor < 4 && v.patch < 4
  }

  lemma PackAsWrittenOfSmallFields(v: Version)
    requires VersionFits(v) && SmallFields(v)
    ensures PackAsWritten(v) == v.major * 16 + v.minor * 4 + v.patch
  {
    assert Pow2(2) == 4 && Pow2(4) == 16;
    BitOrOfDisjoint(v.major, v.minor * 4, 4);
    BitOrOfDisjoint(v.major * 4 + v.minor, v.patch, 2);
  }

  /** When both versions have minor and patch numbers below 4, the check as
      written and the corrected check agree. */
  lemma CheckAgreesOnSmallFields(info: Info, f: FileInfo)
    requires VersionFits(info.version) && VersionFits(f.version)
    requires SmallFields(info.version) && SmallFields(f.version)
    ensures CheckAsWritten(info, f) == Check(info, f)
  {
    var a, b := info.version, f.version;
    PackAsWrittenOfSmallFields(a);
    PackAsWrittenOfSmallFields(b);
    PackOrders(a, b);
    PackOrders(b, a);
    assert PackAsWritten(a) < PackAsWritten(b) <==> Pack(a) < Pack(b) by {
      if a.major < b.major {
        assert a.major * 16 + 16 <= b.major * 16;
      } else if a.major > b.major {
        assert b.major * 16 + 16 <= a.major * 16;
      }
    }
    assert PackAsWritten(a) > PackAsWritten(b) <==> Pack(a) > Pack(b) by {
      if a.major < b.major {
        assert a.major * 16 + 16 <= b.major * 16;
      } else if a.major > b.major {
        assert b.major * 16 + 16 <= a.major * 16;
      }
    }
  }

  /** `App::setupFromFile` on a parsed document, with the check as written. */
  function SetupFromFile(info: Info, doc: Node): (o: Outcome)
    requires VersionFits(info.version)
    ensures Load(doc).None? ==> o == Abort
    ensures Load(doc).Some? ==> o == CheckAsWritten(info, Load(doc).value)
  {
    var loaded := Load(doc);
    if loaded.None? then Abort else CheckAsWritten(info, loaded.value)
  }

  /** With the shifts as written, an app at 0.4.0 reading a file of 1.0.0
      without forward compatibility is not warned; the corrected check warns. */
  lemma AsWrittenMissesNewerFile(name: string)
    ensures var info := Info(name, "", Version(0, 4, 0), COMPATIBILITY_NONE, false);
            var f := FileInfo(name, Version(1, 0, 0), false);
            && CheckAsWritten(info, f) == Started({})
            && Check(info, f) == Started({ForwardNotEnabled})
  {
    PackAsWrittenCollides();
    assert Older(Version(0, 4, 0), Version(1, 0, 0));
  }

  /** A settings file: a parsed document, or text the XML parser rejects. */
  datatype SettingsFile = Parsed(doc: Node) | Unparsable

  /** `App::initialize`: a missing file is created from the app's own info
      (`saved` says whether writing it succeeds); an existing one must parse
      and pass the start-up check. */
  function Initialize(info: Info, disk: map<string, SettingsFile>, saved: bool): (res: (Outcome, map<string, SettingsFile>))
    requires VersionFits(info.version)
    ensures SettingsPath(info) in disk ==> res.1 == disk
    ensures SettingsPath(info) !in disk && saved ==> res == (Started({}), disk[SettingsPath(info) := Parsed(Store(Recorded(info)))])
    ensures SettingsPath(info) !in disk && !saved ==> res.0 == Abort
    ensures SettingsPath(info) in disk && disk[SettingsPath(info)] == Unparsable ==> res.0 == Abort
  {
    var path := SettingsPath(info);
    if path !in disk then
      if saved then (Started({}), disk[path := Parsed(Store(Recorded(info)))]) else (Abort, disk)
    else
      match disk[path]
      case Unparsable => (Abort, disk)
      case Parsed(doc) => (SetupFromFile(info, doc), disk)
  }

  /** The file written on the first start passes the check on the next one
      without a warning and is left as it is. */
  lemma SecondStartIsQuiet(info: Info, disk: map<string, SettingsFile>)
    requires VersionFits(info.version) && NulFree(info.name)
    requires SettingsPath(info) !in disk
    ensures var disk' := Initialize(info, disk, true).1;
            Initialize(info, disk', true) == (Started({}), disk')
  {
    var f := Recorded(info);
    StoreLoadRoundTrip(f);
    var o := CheckAsWritten(info, f);
    assert o.Started?;
    assert o.warnings == {};
  }
}

=== FILE: asset_manager.dfy ===
/** The asset registry: a generational slot table of owned assets. Each slot
    holds a type tag, an owned pointer and a reference count; a parallel
    version array makes handles to a recycled slot stale; freed indices go on
    a last-in-first-out free list and freed pointers wait on a pending list
    until the destructors are flushed.

    Pointers are numbers (0 is the null pointer) and the heap of live asset
    objects is a map; a fresh pointer is taken from a counter. */
module AssetManager {
  import opened Wrappers
  import opened Numeric
  import opened Seqs

  /** The index of a default-constructed or moved-from handle. */
  const INDEX_INVALID: nat := UINT32_MAX

  /** A versioned reference to a registry slot. */
  datatype Handle = Handle(index: nat, version: nat) {
    /** The handle after its index has been cleared by a move or a destructor. */
    function Invalidated(): Handle {
      Handle(INDEX_INVALID, version)
    }
  }

  /** A default-constructed handle. */
  const DEFAULT_HANDLE: Handle := Handle(INDEX_INVALID, 0)

  /** Load progress of an asset, in declaration order. */
  datatype LoadState = Unloaded | Loading | Loaded | Failed {
    function Code(): nat {
      match this
      case Unloaded => 0
      case Loading => 1
      case Loaded => 2
      case Failed => 3
    }

    /** The states a waiter stops at. */
    predicate Done() {
      this == Loaded || this == Failed
    }
  }

  /** The asset type identifier; the registry stores it but never reads it. */
  datatype TypeTag = InvalidType | Tag(id: nat)

  type Ptr = nat

  const NULL: Ptr := 0

  /** A live asset object: its dynamic type and its load state. */
  datatype AssetObject = AssetObject(tag: TypeTag, state: LoadState)

  /** One registry slot. */
  datatype Entry = Entry(tag: TypeTag, ptr: Ptr, refCount: nat)

  /** A default-constructed slot: invalid type, null pointer, no references. */
  const DEFAULT_ENTRY: Entry := Entry(InvalidType, NULL, 0)

  datatype Registry = Registry(
    assets: seq<Entry>,
    versions: seq<nat>,
    freeList: seq<nat>,
    pending: seq<Ptr>,
    heap: map<Ptr, AssetObject>,
    nextPtr: Ptr)

  /** The registry before the first asset is created. */
  const INITIAL: Registry := Registry([], [], [], [], map[], 1)

  // ---------------------------------------------------------------------
  // Structural invariant

  /** A slot is either cleared or owns an object and is referenced. */
  predicate SlotOk(e: Entry) {
    e == DEFAULT_ENTRY || (e.ptr != NULL && e.refCount >= 1)
  }

  /** The pointers owned by occupied slots. */
  function LivePtrs(r: Registry): set<Ptr> {
    set i | 0 <= i < |r.assets| && r.assets[i].ptr != NULL :: r.assets[i].ptr
  }

  function PendingPtrs(r: Registry): set<Ptr> {
    set k | 0 <= k < |r.pending| :: r.pending[k]
  }

  /** The table, the free list, the pending list and the heap agree: free
      indices are distinct, in range and exactly the cleared slots; a pointer
      is owned by at most one slot and is never both owned and pending; the
      heap holds exactly the owned and the pending objects. */
  predicate WellFormed(r: Registry) {
    && |r.assets| == |r.versions| <= INDEX_INVALID
    && (forall i :: 0 <= i < |r.assets| ==> SlotOk(r.assets[i]))
    && Distinct(r.freeList)
    && (forall k :: 0 <= k < |r.freeList| ==> r.freeList[k] < |r.assets|)
    && (forall i :: 0 <= i < |r.assets| ==> (r.assets[i] == DEFAULT_ENTRY <==> i in r.freeList))
    && (forall i, j :: 0 <= i < |r.assets| && 0 <= j < |r.assets| && i != j && r.assets[i].ptr != NULL ==>
          r.assets[i].ptr != r.assets[j].ptr)
    && Distinct(r.pending)
    && (forall k :: 0 <= k < |r.pending| ==> r.pending[k] != NULL && r.pending[k] !in LivePtrs(r))
    && r.heap.Keys == LivePtrs(r) + PendingPtrs(r)
    && NULL < r.nextPtr
    && (forall p :: p in r.heap ==> NULL < p < r.nextPtr)
  }

  lemma InitialWellFormed()
    ensures WellFormed(INITIAL)
    ensures !IsValid(INITIAL, DEFAULT_HANDLE)
  {
  }

  // ---------------------------------------------------------------------
  // Queries

  /** A handle is valid when its index is in range and its version is the
      slot's current version. */
  predicate IsValid(r: Registry, h: Handle) {
    h.index < |r.versions| && r.versions[h.index] == h.version
  }

  /** The asset pointer a handle resolves to; the stored type tag is not
      compared with the requested type. */
  function GetAsset(r: Registry, h: Handle): (p: Ptr)
    requires |r.assets| == |r.versions|
    ensures !IsValid(r, h) ==> p == NULL
    ensures IsValid(r, h) ==> p == r.assets[h.index].ptr
  {
    if IsValid(r, h) then r.assets[h.index].ptr else NULL
  }

  /** `getAsset<T>` with the check its cast leaves out: a valid handle whose
      slot holds an object of another type resolves to null. */
  function GetAssetChecked(r: Registry, h: Handle, tag: TypeTag): (p: Ptr)
    requires |r.assets| == |r.versions|
    ensures p != NULL ==> IsValid(r, h) && r.assets[h.index].tag == tag && p == GetAsset(r, h)
    ensures IsValid(r, h) && r.assets[h.index].tag == tag ==> p == GetAsset(r, h)
    ensures IsValid(r, h) && r.assets[h.index].tag != tag ==> p == NULL
  {
    if IsValid(r, h) && r.assets[h.index].tag == tag then r.assets[h.index].ptr else NULL
  }

  /** An asset created as type 1 and fetched as type 2: the unchecked lookup
      hands out its pointer, the checked one refuses. */
  lemma GetAssetIgnoresType()
    ensures var (r, h) := AddNewEntry(INITIAL, Tag(1));
      && GetAsset(r, h) != NULL && r.heap[GetAsset(r, h)].tag == Tag(1)
      && GetAssetChecked(r, h, Tag(2)) == NULL
      && GetAssetChecked(r, h, Tag(1)) == GetAsset(r, h)
  {
  }

  /** A handle never reaches a slot its index does not name, and a default
      handle is never valid in a well-formed registry. */
  lemma DefaultHandleInvalid(r: Registry)
    requires WellFormed(r)
    ensures !IsValid(r, DEFAULT_HANDLE)
    ensures GetAsset(r, DEFAULT_HANDLE) == NULL
  {
  }

  // ---------------------------------------------------------------------
  // Operations

  /** Stores a freshly constructed object of type `tag` in a slot: the most
      recently freed index when the free list is not empty, otherwise a new
      slot at the end whose version starts at 1. The slot starts with one
      reference (the returned handle), and the handle carries the slot's
      current version. */
  function AddNewEntry(r: Registry, tag: TypeTag): (res: (Registry, Handle))
    requires |r.assets| == |r.versions|
    requires forall k :: 0 <= k < |r.freeList| ==> r.freeList[k] < |r.assets|
    ensures var (r', h) := res;
      && (|r.freeList| == 0 ==>
            h.index == |r.assets| && r'.versions == r.versions + [1] && r'.freeList == [])
      && (|r.freeList| > 0 ==>
            h.index == r.freeList[|r.freeList| - 1] && r'.versions == r.versions
            && r'.freeList == r.freeList[..|r.freeList| - 1])
      && |r'.assets| == |r'.versions|
      && h.index < |r'.assets|
      && r'.assets[h.index] == Entry(tag, r.nextPtr, 1)
      && IsValid(r', h)
      && GetAsset(r', h) == r.nextPtr
      && r'.heap == r.heap[r.nextPtr := AssetObject(tag, Unloaded)]
      && r'.pending == r.pending
      && (forall i :: 0 <= i < |r.assets| && i != h.index ==> r'.assets[i] == r.assets[i])
  {
    var p := r.nextPtr;
    var heap' := r.heap[p := AssetObject(tag, Unloaded)];
    if |r.freeList| == 0 then
      var id := |r.assets|;
      (Registry(r.assets + [Entry(tag, p, 1)], r.versions + [1], [], r.pending, heap', p + 1),
       Handle(id, 1))
    else
      var id := r.freeList[|r.freeList| - 1];
      (Registry(r.assets[id := Entry(tag, p, 1)], r.versions, r.freeList[..|r.freeList| - 1],
                r.pending, heap', p + 1),
       Handle(id, r.versions[id]))
  }

  /** Adds one reference for a valid handle; an invalid handle changes nothing. */
  function Register(r: Registry, h: Handle): (r': Registry)
    requires |r.assets| == |r.versions|
    ensures !IsValid(r, h) ==> r' == r
    ensures IsValid(r, h) ==>
      r' == r.(assets := r.assets[h.index := r.assets[h.index].(refCount := r.assets[h.index].refCount + 1)])
  {
    if !IsValid(r, h) then r
    else
      var e := r.assets[h.index];
      r.(assets := r.assets[h.index := e.(refCount := e.refCount + 1)])
  }

  /** Drops one reference of a valid handle; an invalid handle changes nothing.
      When the count was at most 1 the slot is released: its version is
      bumped (so every handle to it turns stale), its pointer joins the
      pending list, the slot is cleared and its index is pushed on the free
      list. */
  function Unregister(r: Registry, h: Handle): (r': Registry)
    requires |r.assets| == |r.versions|
    ensures |r'.assets| == |r'.versions| == |r.versions|
    ensures !IsValid(r, h) ==> r' == r
    ensures IsValid(r, h) && r.assets[h.index].refCount > 1 ==>
      r' == r.(assets := r.assets[h.index := r.assets[h.index].(refCount := r.assets[h.index].refCount - 1)])
    ensures IsValid(r, h) && r.assets[h.index].refCount <= 1 ==>
      && !IsValid(r', h)
      && r'.versions == r.versions[h.index := h.version + 1]
      && r'.assets == r.assets[h.index := DEFAULT_ENTRY]
      && r'.freeList == r.freeList + [h.index]
      && r'.pending == r.pending + [r.assets[h.index].ptr]
      && r'.heap == r.heap && r'.nextPtr == r.nextPtr
  {
    if !IsValid(r, h) then r
    else
      var i := h.index;
      var e := r.assets[i];
      if e.refCount > 1 then r.(assets := r.assets[i := e.(refCount := e.refCount - 1)])
      else
        Registry(r.assets[i := DEFAULT_ENTRY], r.versions[i := r.versions[i] + 1],
                 r.freeList + [i], r.pending + [e.ptr], r.heap, r.nextPtr)
  }

  /** The non-null pointers of `ps`, in order. */
  function NonNull(ps: seq<Ptr>): (r: seq<Ptr>)
    ensures forall k :: 0 <= k < |r| ==> r[k] != NULL
    ensures forall p :: p in r <==> p in ps && p != NULL
  {
    if |ps| == 0 then []
    else if ps[0] == NULL then NonNull(ps[1..])
    else [ps[0]] + NonNull(ps[1..])
  }

  /** Deletes every pending object, in list order, and empties the pending
      list; the slot table is untouched. Returns the deleted pointers. */
  function FlushDestructors(r: Registry): (res: (Registry, seq<Ptr>))
    ensures res.0.pending == []
    ensures res.0.assets == r.assets && res.0.versions == r.versions && res.0.freeList == r.freeList
    ensures forall p :: p in res.1 <==> p in r.pending && p != NULL
    ensures forall p :: p in res.0.heap <==> p in r.heap && p !in res.1
  {
    var deleted := NonNull(r.pending);
    (r.(pending := [], heap := map p | p in r.heap && p !in deleted :: r.heap[p]), deleted)
  }

  /** The owned pointers of the slots in `es`, in slot order. */
  function OwnedPtrs(es: seq<Entry>): (r: seq<Ptr>)
    ensures forall p :: p in r <==> p != NULL && exists i :: 0 <= i < |es| && es[i].ptr == p
  {
    if |es| == 0 then []
    else
      var rest := OwnedPtrs(es[1..]);
      assert forall i :: 1 <= i < |es| ==> es[i] == es[1..][i - 1];
      if es[0].ptr == NULL then rest else [es[0].ptr] + rest
  }

  /** Flushes the pending list, then deletes every owned object whatever its
      reference count, and clears every table. The version array is cleared
      too, so versions restart at 1 afterwards. Returns the deleted
      pointers: the pending ones first, then the owned ones in slot order. */
  function Shutdown(r: Registry): (res: (Registry, seq<Ptr>))
    ensures res.0 == INITIAL.(nextPtr := r.nextPtr)
    ensures forall p :: p in res.1 ==> p != NULL
  {
    var (flushed, first) := FlushDestructors(r);
    (INITIAL.(nextPtr := r.nextPtr), first + OwnedPtrs(flushed.assets))
  }

  /** Replaces the load state of the object behind `p` (what `updateLoadState`
      does from inside an asset's `load`). */
  function SetLoadState(r: Registry, p: Ptr, s: LoadState): (r': Registry)
    ensures r'.heap.Keys == r.heap.Keys
    ensures p in r.heap ==> r'.heap[p].state == s && r'.heap[p].tag == r.heap[p].tag
    ensures forall q :: q in r.heap && q != p ==> r'.heap[q] == r.heap[q]
    ensures r'.assets == r.assets && r'.versions == r.versions && r'.freeList == r.freeList
    ensures r'.pending == r.pending && r'.nextPtr == r.nextPtr
  {
    if p in r.heap then r.(heap := r.heap[p := r.heap[p].(state := s)]) else r
  }

  /** The load state of the object a handle resolves to. */
  function StateOf(r: Registry, h: Handle): LoadState
    requires IsValid(r, h) && |r.assets| == |r.versions| && r.assets[h.index].ptr in r.heap
  {
    r.heap[r.assets[h.index].ptr].state
  }

  // ---------------------------------------------------------------------
  // The structural invariant is preserved

  lemma LivePtrsSameOwners(r: Registry, r': Registry)
    requires |r'.assets| == |r.assets|
    requires forall i :: 0 <= i < |r.assets| ==> r'.assets[i].ptr == r.assets[i].ptr
    ensures LivePtrs(r') == LivePtrs(r)
  {
    forall p | p in LivePtrs(r) ensures p in LivePtrs(r') {
      var i :| 0 <= i < |r.assets| && r.assets[i].ptr != NULL && r.assets[i].ptr == p;
      assert r'.assets[i].ptr == p;
    }
  }

  lemma LivePtrsCleared(r: Registry, i: nat)
    requires WellFormed(r) && i < |r.assets|
    ensures LivePtrs(r.(assets := r.assets[i := DEFAULT_ENTRY])) == LivePtrs(r) - {r.assets[i].ptr}
  {
    var r' := r.(assets := r.assets[i := DEFAULT_ENTRY]);
    forall p | p in LivePtrs(r) - {r.assets[i].ptr} ensures p in LivePtrs(r') {
      var j :| 0 <= j < |r.assets| && r.assets[j].ptr != NULL && r.assets[j].ptr == p;
      assert r'.assets[j].ptr == p;
    }
  }

  lemma LivePtrsFilled(r: Registry, r': Registry, i: nat, p: Ptr)
    requires i < |r'.assets| && p != NULL
    requires |r'.assets| == |r.assets| || (|r'.assets| == |r.assets| + 1 && i == |r.assets|)
    requires i < |r.assets| ==> r.assets[i].ptr == NULL
    requires r'.assets[i].ptr == p
    requires forall j :: 0 <= j < |r.assets| && j != i ==> r'.assets[j] == r.assets[j]
    ensures LivePtrs(r') == LivePtrs(r) + {p}
  {
    forall q | q in LivePtrs(r) ensures q in LivePtrs(r') {
      var j :| 0 <= j < |r.assets| && r.assets[j].ptr != NULL && r.assets[j].ptr == q;
      assert r'.assets[j].ptr == q;
    }
    forall q | q in LivePtrs(r') ensures q in LivePtrs(r) + {p} {
      var j :| 0 <= j < |r'.assets| && r'.assets[j].ptr != NULL && r'.assets[j].ptr == q;
      if j != i {
        assert r.assets[j].ptr == q;
      }
    }
  }

  /** Creating an asset keeps the registry well formed, provided the table has
      room for one more slot before its size reaches the invalid index. */
  lemma AddNewEntryWellFormed(r: Registry, tag: TypeTag)
    requires WellFormed(r)
    requires |r.freeList| > 0 || |r.assets| < INDEX_INVALID
    ensures WellFormed(AddNewEntry(r, tag).0)
  {
    var (r', h) := AddNewEntry(r, tag);
    var i := h.index;
    assert i < |r.assets| ==> r.assets[i] == DEFAULT_ENTRY by {
      if |r.freeList| > 0 {
        assert r.freeList[|r.freeList| - 1] in r.freeList;
      }
    }
    LivePtrsFilled(r, r', i, r.nextPtr);
    assert PendingPtrs(r') == PendingPtrs(r);
    if |r.freeList| > 0 {
      DistinctDropLast(r.freeList);
      forall j | 0 <= j < |r'.assets|
        ensures r'.assets[j] == DEFAULT_ENTRY <==> j in r'.freeList
      {
        if j != i {
          assert r'.assets[j] == r.assets[j];
          assert j in r.freeList <==> j in r'.freeList by {
            assert r.freeList == r'.freeList + [i];
          }
        }
      }
    }
  }

  /** Registering a handle keeps the registry well formed, provided a valid
      handle names an occupied slot. */
  lemma RegisterWellFormed(r: Registry, h: Handle)
    requires WellFormed(r)
    requires IsValid(r, h) ==> r.assets[h.index].ptr != NULL
    ensures WellFormed(Register(r, h))
  {
    var r' := Register(r, h);
    LivePtrsSameOwners(r, r');
    assert PendingPtrs(r') == PendingPtrs(r);
  }

  /** Unregistering a handle keeps the registry well formed, provided a valid
      handle names an occupied slot. */
  lemma UnregisterWellFormed(r: Registry, h: Handle)
    requires WellFormed(r)
    requires IsValid(r, h) ==> r.assets[h.index].ptr != NULL
    ensures WellFormed(Unregister(r, h))
  {
    var r' := Unregister(r, h);
    if IsValid(r, h) {
      var i := h.index;
      var p := r.assets[i].ptr;
      if r.assets[i].refCount > 1 {
        LivePtrsSameOwners(r, r');
        assert PendingPtrs(r') == PendingPtrs(r);
      } else {
        LivePtrsCleared(r, i);
        PendingPtrsAppend(r, r', p);
        assert i !in r.freeList;
        DistinctAppend(r.freeList, i);
        assert p !in r.pending by {
          assert p in LivePtrs(r);
        }
        DistinctAppend(r.pending, p);
        forall k | 0 <= k < |r'.pending|
          ensures r'.pending[k] != NULL && r'.pending[k] !in LivePtrs(r')
        {
          if k < |r.pending| {
            assert r'.pending[k] == r.pending[k];
          }
        }
        assert p in r.heap by {
          assert p in LivePtrs(r);
        }
      }
    }
  }

  lemma PendingPtrsAppend(r: Registry, r': Registry, p: Ptr)
    requires r'.pending == r.pending + [p]
    ensures PendingPtrs(r') == PendingPtrs(r) + {p}
  {
    forall q | q in PendingPtrs(r) ensures q in PendingPtrs(r') {
      var k :| 0 <= k < |r.pending| && r.pending[k] == q;
      assert r'.pending[k] == q;
    }
    assert r'.pending[|r.pending|] == p;
  }

  lemma PendingPtrsMembers(r: Registry)
    ensures forall p :: p in PendingPtrs(r) <==> p in r.pending
  {
    forall p | p in r.pending ensures p in PendingPtrs(r) {
      var k :| 0 <= k < |r.pending| && r.pending[k] == p;
    }
  }

  lemma OwnedPtrsMembers(r: Registry)
    ensures forall p :: p in OwnedPtrs(r.assets) <==> p in LivePtrs(r)
  {
    forall p | p in OwnedPtrs(r.assets) ensures p in LivePtrs(r) {
      var i :| 0 <= i < |r.assets| && r.assets[i].ptr == p;
    }
  }

  /** Flushing keeps the registry well formed, and it deletes only objects
      no slot owns: every deleted pointer was pending, none is deleted twice,
      and every pending object is deleted. */
  lemma FlushDestructorsWellFormed(r: Registry)
    requires WellFormed(r)
    ensures WellFormed(FlushDestructors(r).0)
    ensures var deleted := FlushDestructors(r).1;
      && Distinct(deleted)
      && (forall k :: 0 <= k < |deleted| ==> deleted[k] in r.heap && deleted[k] !in LivePtrs(r))
      && (forall k :: 0 <= k < |r.pending| ==> r.pending[k] in deleted)
  {
    var (r', deleted) := FlushDestructors(r);
    NonNullOfNonNull(r.pending);
    assert deleted == r.pending;
    PendingPtrsMembers(r);
    LivePtrsSameOwners(r, r');
    assert PendingPtrs(r') == {};
    forall p | p in r'.heap ensures p in LivePtrs(r') {
      assert p !in PendingPtrs(r);
    }
    forall p | p in LivePtrs(r') ensures p in r'.heap {
      assert p in r.heap;
      assert p !in r.pending by {
        forall k | 0 <= k < |r.pending| ensures r.pending[k] != p {
          assert r.pending[k] !in LivePtrs(r);
        }
      }
    }
  }

  lemma NonNullOfNonNull(ps: seq<Ptr>)
    requires forall k :: 0 <= k < |ps| ==> ps[k] != NULL
    ensures NonNull(ps) == ps
  {
  }

  /** Changing a load state keeps the registry well formed. */
  lemma SetLoadStateWellFormed(r: Registry, p: Ptr, s: LoadState)
    requires WellFormed(r)
    ensures WellFormed(SetLoadState(r, p, s))
  {
    var r' := SetLoadState(r, p, s);
    LivePtrsSameOwners(r, r');
    assert PendingPtrs(r') == PendingPtrs(r);
  }

  /** Shutdown deletes every object of a well-formed registry exactly once. */
  lemma ShutdownDeletesEverything(r: Registry)
    requires WellFormed(r)
    ensures var (r', deleted) := Shutdown(r);
      && WellFormed(r')
      && (forall p :: p in deleted <==> p in r.heap)
  {
    var (flushed, first) := FlushDestructors(r);
    NonNullOfNonNull(r.pending);
    PendingPtrsMembers(r);
    OwnedPtrsMembers(flushed);
    LivePtrsSameOwners(r, flushed);
  }

  // ---------------------------------------------------------------------
  // Reference counts

  /** The handles `live` may still use are bounded by the registry: each is
      either cleared or names an existing slot at a version no newer than the
      slot's current one. */
  predicate Bounded(r: Registry, h: Handle) {
    h.index == INDEX_INVALID || (h.index < |r.versions| && h.version <= r.versions[h.index])
  }

  /** The reference count of every slot equals the number of live handles that
      name the slot at its current version. */
  predicate CountsMatch(r: Registry, live: multiset<Handle>)
    requires |r.assets| == |r.versions|
  {
    && (forall i :: 0 <= i < |r.assets| ==> r.assets[i].refCount == live[Handle(i, r.versions[i])])
    && (forall h :: h in live ==> Bounded(r, h))
  }

  /** A handle that is counted and valid names an occupied slot. */
  lemma CountedValidHandleOwned(r: Registry, live: multiset<Handle>, h: Handle)
    requires WellFormed(r) && CountsMatch(r, live)
    requires h in live && IsValid(r, h)
    ensures r.assets[h.index].refCount >= 1
    ensures r.assets[h.index].ptr != NULL && r.assets[h.index].ptr in r.heap
  {
    assert r.assets[h.index].ptr in LivePtrs(r);
  }

  /** A copied handle adds exactly one to the count of the slot it names. */
  lemma RegisterCounts(r: Registry, live: multiset<Handle>, h: Handle)
    requires WellFormed(r) && CountsMatch(r, live) && Bounded(r, h)
    ensures CountsMatch(Register(r, h), live + multiset{h})
  {
  }

  /** Dropping a counted handle removes exactly its reference. */
  lemma UnregisterCounts(r: Registry, live: multiset<Handle>, h: Handle)
    requires WellFormed(r) && CountsMatch(r, live) && h in live
    ensures CountsMatch(Unregister(r, h), live - multiset{h})
  {
    var r' := Unregister(r, h);
    var live' := live - multiset{h};
    if IsValid(r, h) && r.assets[h.index].refCount <= 1 {
      var i := h.index;
      assert !Bounded(r, Handle(i, h.version + 1));
      assert live'[Handle(i, h.version + 1)] == 0;
    }
  }

  /** A fresh slot is referenced exactly by the handle it returns. */
  lemma AddNewEntryCounts(r: Registry, live: multiset<Handle>, tag: TypeTag)
    requires WellFormed(r) && CountsMatch(r, live)
    requires |r.freeList| > 0 || |r.assets| < INDEX_INVALID
    ensures var (r', h) := AddNewEntry(r, tag);
      CountsMatch(r', live + multiset{h})
  {
    var (r', h) := AddNewEntry(r, tag);
    var i := h.index;
    if |r.freeList| > 0 {
      assert r.freeList[|r.freeList| - 1] in r.freeList;
      assert r.assets[i] == DEFAULT_ENTRY;
    } else {
      assert !Bounded(r, h);
      assert live[h] == 0;
    }
  }

  /** Cleared handles are never counted. */
  lemma InvalidHandleUncounted(r: Registry, live: multiset<Handle>, h: Handle)
    requires WellFormed(r) && CountsMatch(r, live) && h.index == INDEX_INVALID
    ensures CountsMatch(r, live + multiset{h})
    ensures h in live ==> CountsMatch(r, live - multiset{h})
  {
  }

  /** Flushing and load-state changes leave every count as it is. */
  lemma FlushAndLoadKeepCounts(r: Registry, live: multiset<Handle>, p: Ptr, s: LoadState)
    requires WellFormed(r) && CountsMatch(r, live)
    ensures CountsMatch(FlushDestructors(r).0, live)
    ensures CountsMatch(SetLoadState(r, p, s), live)
  {
  }

  // ---------------------------------------------------------------------
  // Waiting for a load

  datatype WaitOutcome =
    | InvalidAtEntry
    | HandleInvalid(polls: nat)
    | Finished(state: LoadState, polls: nat)
    | StillWaiting

  /** Polling for a load to end. `entry` is the registry as the unlocked
      check on entry sees it, and `observed[k]` the registry as the k-th
      locked poll sees it: other threads may change it between any two of
      these reads (the sleep between polls is not modelled). The source
      returns at once for a handle invalid on entry, and otherwise loops
      until a poll sees the handle turn invalid or the state reach LOADED or
      FAILED; a finite observation ends with `StillWaiting` when neither has
      happened yet. */
  method WaitForLoad(entry: Registry, observed: seq<Registry>, h: Handle) returns (out: WaitOutcome)
    requires forall k :: 0 <= k < |observed| ==> |observed[k].assets| == |observed[k].versions|
    requires forall k :: 0 <= k < |observed| && IsValid(observed[k], h) ==>
      observed[k].assets[h.index].ptr in observed[k].heap
    ensures out.InvalidAtEntry? <==> !IsValid(entry, h)
    ensures out.HandleInvalid? ==> out.polls < |observed| && !IsValid(observed[out.polls], h)
    ensures out.Finished? ==>
      && out.polls < |observed| && IsValid(observed[out.polls], h)
      && out.state == StateOf(observed[out.polls], h) && out.state.Done()
    ensures out.Finished? || out.HandleInvalid? ==>
      forall k :: 0 <= k < out.polls ==> IsValid(observed[k], h) && !StateOf(observed[k], h).Done()
    ensures out.StillWaiting? ==>
      forall k :: 0 <= k < |observed| ==> IsValid(observed[k], h) && !StateOf(observed[k], h).Done()
  {
    if !IsValid(entry, h) {
      return InvalidAtEntry;
    }
    var k := 0;
    while k < |observed|
      invariant 0 <= k <= |observed|
      invariant forall j :: 0 <= j < k ==> IsValid(observed[j], h) && !StateOf(observed[j], h).Done()
    {
      if !IsValid(observed[k], h) {
        return HandleInvalid(k);
      }
      var s := StateOf(observed[k], h);
      if s.Done() {
        return Finished(s, k);
      }
      k := k + 1;
    }
    return StillWaiting;
  }
}

=== FILE: asset_stream.dfy ===
/** The asset load-job table: a second generational slot table whose entries
    hold a load request (with its own copy of the asset handle), a cancel flag
    and a run state, plus a priority queue of job handles. Storing a request
    in a slot copies its asset handle, so the registry's reference counts are
    threaded through `Enqueue`. */
module AssetStream {
  import opened Wrappers
  import opened Seqs
  import AM = AssetManager

  newtype Int8 = x: int | -128 <= x < 128

  const PRIORITY_LOW: Int8 := -1
  const PRIORITY_NORMAL: Int8 := 0
  const PRIORITY_HIGH: Int8 := 1

  /** A load request: the asset, its priority and an optional completion
      callback (a function pointer, identified here by a number). */
  datatype LoadJob = LoadJob(handle: AM.Handle, priority: Int8, callback: Option<nat>)

  datatype JobState = Uninitialized | Running | Finished {
    function Code(): nat {
      match this
      case Uninitialized => 0
      case Running => 1
      case Finished => 2
    }
  }

  datatype JobEntry = JobEntry(version: nat, canceled: bool, state: JobState, job: LoadJob) {
    function Cancel(): (e: JobEntry)
      ensures e.IsCanceled()
      ensures e.version == version && e.state == state && e.job == job
    {
      this.(canceled := true)
    }

    predicate IsCanceled() {
      canceled
    }
  }

  /** A freshly constructed entry: version 1, not canceled, not started. */
  function NewEntry(job: LoadJob): (e: JobEntry)
    ensures e.version == 1 && !e.IsCanceled() && e.state.Code() == 0 && e.job == job
  {
    JobEntry(1, false, Uninitialized, job)
  }

  /** A versioned reference to a job slot, carrying the job's priority. */
  datatype JobHandle = JobHandle(index: nat, version: nat, priority: Int8)

  /** `a < b` for job handles, as written: it holds when `b` has the LOWER
      priority, although the documentation reads it as "a has higher priority". */
  predicate Less(a: JobHandle, b: JobHandle) {
    b.priority < a.priority
  }

  datatype JobTable = JobTable(jobs: seq<JobEntry>, freeList: seq<nat>, queue: seq<JobHandle>)

  const EMPTY: JobTable := JobTable([], [], [])

  /** A job handle is valid when its index is in range and its version is the
      slot's current version (both `isValid` and `isValid_Unsafe`). */
  predicate IsValid(t: JobTable, h: JobHandle) {
    h.index < |t.jobs| && t.jobs[h.index].version == h.version
  }

  // ---------------------------------------------------------------------
  // The priority queue

  /** Position `k` may be returned by `std::priority_queue::top`: no element
      compares greater than it. Ties are broken by the heap layout, which the
      model leaves open. */
  predicate IsTop(q: seq<JobHandle>, k: nat) {
    k < |q| && forall j :: 0 <= j < |q| ==> !Less(q[k], q[j])
  }

  /** With the comparison as written, the queue hands out the job with the
      LOWEST priority first. */
  lemma TopHasLowestPriority(q: seq<JobHandle>, k: nat)
    requires IsTop(q, k)
    ensures forall j :: 0 <= j < |q| ==> q[k].priority <= q[j].priority
  {
    forall j | 0 <= j < |q| ensures q[k].priority <= q[j].priority {
      assert !Less(q[k], q[j]);
    }
  }

  /** The position of a lowest-priority handle, which is always a top. */
  function LowestPriorityPosition(q: seq<JobHandle>): (k: nat)
    requires |q| > 0
    ensures IsTop(q, k)
  {
    if |q| == 1 then 0
    else
      var k' := LowestPriorityPosition(q[1..]);
      assert forall j :: 1 <= j < |q| ==> q[j] == q[1..][j - 1];
      if q[0].priority <= q[k' + 1].priority then 0 else k' + 1
  }

  /** The comparison the documentation describes: `a < b` when `a` has the
      lower priority, so that the top is the most urgent job. */
  predicate IntendedLess(a: JobHandle, b: JobHandle) {
    a.priority < b.priority
  }

  predicate IsIntendedTop(q: seq<JobHandle>, k: nat) {
    k < |q| && forall j :: 0 <= j < |q| ==> !IntendedLess(q[k], q[j])
  }

  lemma IntendedTopHasHighestPriority(q: seq<JobHandle>, k: nat)
    requires IsIntendedTop(q, k)
    ensures forall j :: 0 <= j < |q| ==> q[j].priority <= q[k].priority
  {
    forall j | 0 <= j < |q| ensures q[j].priority <= q[k].priority {
      assert !IntendedLess(q[k], q[j]);
    }
  }

  /** A HIGH and a LOW job queued together: the comparison as written puts the
      LOW one on top, the intended one the HIGH one. */
  lemma LowPriorityServedFirst()
    ensures var q := [JobHandle(0, 1, PRIORITY_HIGH), JobHandle(1, 1, PRIORITY_LOW)];
      && IsTop(q, 1) && !IsTop(q, 0)
      && IsIntendedTop(q, 0) && !IsIntendedTop(q, 1)
  {
    var q := [JobHandle(0, 1, PRIORITY_HIGH), JobHandle(1, 1, PRIORITY_LOW)];
    assert Less(q[0], q[1]);
    assert IntendedLess(q[1], q[0]);
  }

  // ---------------------------------------------------------------------
  // Operations

  /** The registry effect of copy-assigning asset handle `next` over `prev`:
      the old handle is released if its index is set, then the new one is
      registered. */
  function ReassignHandle(reg: AM.Registry, prev: AM.Handle, next: AM.Handle): (r: AM.Registry)
    requires |reg.assets| == |reg.versions|
    ensures |r.assets| == |r.versions|
  {
    var released := if prev.index != AM.INDEX_INVALID then AM.Unregister(reg, prev) else reg;
    AM.Register(released, next)
  }

  /** Stores a request in the most recently freed slot (resetting its cancel
      flag and run state but keeping its version), or in a new slot at the
      end, then queues and returns a handle carrying the slot's current
      version and the job's priority. */
  function Enqueue(reg: AM.Registry, t: JobTable, job: LoadJob): (res: (AM.Registry, JobTable, JobHandle))
    requires |reg.assets| == |reg.versions|
    requires forall k :: 0 <= k < |t.freeList| ==> t.freeList[k] < |t.jobs|
    ensures var (reg', t', h) := res;
      && |reg'.assets| == |reg'.versions|
      && (|t.freeList| == 0 ==>
            && h.index == |t.jobs| && t'.jobs == t.jobs + [NewEntry(job)] && t'.freeList == []
            && reg' == AM.Register(reg, job.handle))
      && (|t.freeList| > 0 ==>
            && h.index == t.freeList[|t.freeList| - 1]
            && t'.freeList == t.freeList[..|t.freeList| - 1]
            && t'.jobs == t.jobs[h.index := JobEntry(t.jobs[h.index].version, false, Uninitialized, job)]
            && reg' == ReassignHandle(reg, t.jobs[h.index].job.handle, job.handle))
      && IsValid(t', h) && h.priority == job.priority
      && t'.queue == t.queue + [h]
  {
    if |t.freeList| > 0 then
      var idx := t.freeList[|t.freeList| - 1];
      var e := t.jobs[idx];
      var reg' := ReassignHandle(reg, e.job.handle, job.handle);
      var h := JobHandle(idx, e.version, job.priority);
      (reg', JobTable(t.jobs[idx := JobEntry(e.version, false, Uninitialized, job)],
                      t.freeList[..|t.freeList| - 1], t.queue + [h]), h)
    else
      var idx := |t.jobs|;
      var h := JobHandle(idx, 1, job.priority);
      (AM.Register(reg, job.handle), JobTable(t.jobs + [NewEntry(job)], [], t.queue + [h]), h)
  }

  /** Retires a job slot: a stale or out-of-range handle changes nothing;
      otherwise the slot's version is bumped and its index pushed on the free
      list. The stored request, and the asset-handle copy inside it, stay in
      the slot. */
  function PopJob(t: JobTable, h: JobHandle): (t': JobTable)
    ensures !IsValid(t, h) ==> t' == t
    ensures IsValid(t, h) ==>
      && !IsValid(t', h)
      && t'.jobs == t.jobs[h.index := t.jobs[h.index].(version := h.version + 1)]
      && t'.freeList == t.freeList + [h.index]
      && t'.queue == t.queue
  {
    if h.index >= |t.jobs| then t
    else if h.version != t.jobs[h.index].version then t
    else
      var e := t.jobs[h.index];
      t.(jobs := t.jobs[h.index := e.(version := e.version + 1)], freeList := t.freeList + [h.index])
  }

  /** Marks a job canceled; only a valid handle succeeds. */
  function CancelJob(t: JobTable, h: JobHandle): (res: (JobTable, bool))
    ensures res.1 <==> IsValid(t, h)
    ensures !res.1 ==> res.0 == t
    ensures res.1 ==> res.0 == t.(jobs := t.jobs[h.index := t.jobs[h.index].Cancel()])
  {
    if h.index >= |t.jobs| then (t, false)
    else if h.version != t.jobs[h.index].version then (t, false)
    else (t.(jobs := t.jobs[h.index := t.jobs[h.index].Cancel()]), true)
  }

  // ---------------------------------------------------------------------
  // Table invariant

  /** How many queued handles name slot `i` at version `v`. */
  function CountQueued(q: seq<JobHandle>, i: nat, v: nat): nat {
    if |q| == 0 then 0
    else CountQueued(q[..|q| - 1], i, v) + (if q[|q| - 1].index == i && q[|q| - 1].version == v then 1 else 0)
  }

  /** Free job indices are distinct and in range; queued handles never name
      a future version; a slot is free exactly when no queued handle names its
      current version, and at most one does. */
  predicate TableWellFormed(t: JobTable) {
    && Distinct(t.freeList)
    && (forall k :: 0 <= k < |t.freeList| ==> t.freeList[k] < |t.jobs|)
    && (forall k :: 0 <= k < |t.queue| ==>
          t.queue[k].index < |t.jobs| && t.queue[k].version <= t.jobs[t.queue[k].index].version)
    && (forall i :: 0 <= i < |t.jobs| ==>
          CountQueued(t.queue, i, t.jobs[i].version) <= 1
          && (i in t.freeList <==> CountQueued(t.queue, i, t.jobs[i].version) == 0))
  }

  lemma {:induction false} CountQueuedAppend(q: seq<JobHandle>, x: JobHandle, i: nat, v: nat)
    ensures CountQueued(q + [x], i, v) == CountQueued(q, i, v) + (if x.index == i && x.version == v then 1 else 0)
  {
    assert (q + [x])[..|q|] == q;
  }

  lemma {:induction false} CountQueuedRemoveAt(q: seq<JobHandle>, k: nat, i: nat, v: nat)
    requires k < |q|
    ensures CountQueued(RemoveAt(q, k), i, v) + (if q[k].index == i && q[k].version == v then 1 else 0)
            == CountQueued(q, i, v)
    decreases |q|
  {
    var last := |q| - 1;
    if k == last {
      assert RemoveAt(q, k) == q[..last];
    } else {
      var p := q[..last];
      assert RemoveAt(q, k) == RemoveAt(p, k) + [q[last]];
      CountQueuedAppend(RemoveAt(p, k), q[last], i, v);
      CountQueuedRemoveAt(p, k, i, v);
    }
  }

  lemma {:induction false} CountQueuedNone(q: seq<JobHandle>, i: nat, v: nat)
    requires forall k :: 0 <= k < |q| ==> q[k].index != i || q[k].version != v
    ensures CountQueued(q, i, v) == 0
    decreases |q|
  {
    if |q| > 0 {
      CountQueuedNone(q[..|q| - 1], i, v);
    }
  }

  lemma InitialTableWellFormed()
    ensures TableWellFormed(EMPTY)
  {
  }

  /** Enqueueing keeps the job table well formed. */
  lemma EnqueueTableWellFormed(reg: AM.Registry, t: JobTable, job: LoadJob)
    requires |reg.assets| == |reg.versions|
    requires TableWellFormed(t)
    ensures TableWellFormed(Enqueue(reg, t, job).1)
  {
    var (reg', t', h) := Enqueue(reg, t, job);
    forall i | 0 <= i < |t'.jobs|
      ensures CountQueued(t'.queue, i, t'.jobs[i].version) <= 1
      ensures i in t'.freeList <==> CountQueued(t'.queue, i, t'.jobs[i].version) == 0
    {
      EnqueueCount(reg, t, job, i);
    }
    if |t.freeList| > 0 {
      DistinctDropLast(t.freeList);
    }
  }

  /** After enqueueing, slot `i` is named by at most one queued handle, and
      is free exactly when none names it. */
  lemma EnqueueCount(reg: AM.Registry, t: JobTable, job: LoadJob, i: nat)
    requires |reg.assets| == |reg.versions|
    requires TableWellFormed(t) && i < |Enqueue(reg, t, job).1.jobs|
    ensures var (_, t', _) := Enqueue(reg, t, job);
      && CountQueued(t'.queue, i, t'.jobs[i].version) <= 1
      && (i in t'.freeList <==> CountQueued(t'.queue, i, t'.jobs[i].version) == 0)
  {
    var (reg', t', h) := Enqueue(reg, t, job);
    CountQueuedAppend(t.queue, h, i, t'.jobs[i].version);
    if i == |t.jobs| {
      CountQueuedNone(t.queue, i, t'.jobs[i].version);
    }
    if |t.freeList| > 0 {
      DistinctDropLast(t.freeList);
      assert t.freeList == t'.freeList + [h.index];
      assert t.freeList[|t.freeList| - 1] in t.freeList;
    }
  }

  /** Taking queued handle `k` off the queue and retiring its job. */
  function DequeueAndPop(t: JobTable, k: nat): JobTable
    requires k < |t.queue|
  {
    PopJob(t.(queue := RemoveAt(t.queue, k)), t.queue[k])
  }

  /** After dequeueing and retiring, slot `i` is still named by at most one
      queued handle, and is free exactly when none names it. */
  lemma DequeueAndPopCount(t: JobTable, k: nat, i: nat)
    requires TableWellFormed(t) && k < |t.queue| && i < |t.jobs|
    ensures var t' := DequeueAndPop(t, k);
      && CountQueued(t'.queue, i, t'.jobs[i].version) <= 1
      && (i in t'.freeList <==> CountQueued(t'.queue, i, t'.jobs[i].version) == 0)
  {
    var h := t.queue[k];
    var t' := DequeueAndPop(t, k);
    CountQueuedRemoveAt(t.queue, k, i, t.jobs[i].version);
    if IsValid(t, h) && i == h.index {
      CountQueuedNone(t'.queue, i, t'.jobs[i].version);
      assert i !in t.freeList;
    }
  }

  /** Dequeueing and retiring keeps the free list distinct and in range. */
  lemma DequeueAndPopFreeList(t: JobTable, k: nat)
    requires TableWellFormed(t) && k < |t.queue|
    ensures Distinct(DequeueAndPop(t, k).freeList)
    ensures forall j :: 0 <= j < |DequeueAndPop(t, k).freeList| ==> DequeueAndPop(t, k).freeList[j] < |t.jobs|
  {
    var h := t.queue[k];
    if IsValid(t, h) {
      CountQueuedRemoveAt(t.queue, k, h.index, h.version);
      assert h.index !in t.freeList;
      DistinctAppend(t.freeList, h.index);
    }
  }

  /** Taking queued handle `k` off the queue and retiring its job keeps the
      table well formed (what one worker iteration does to the table). */
  lemma DequeueAndPopWellFormed(t: JobTable, k: nat)
    requires TableWellFormed(t) && k < |t.queue|
    ensures TableWellFormed(PopJob(t.(queue := RemoveAt(t.queue, k)), t.queue[k]))
  {
    var t' := DequeueAndPop(t, k);
    forall i | 0 <= i < |t'.jobs|
      ensures CountQueued(t'.queue, i, t'.jobs[i].version) <= 1
      ensures i in t'.freeList <==> CountQueued(t'.queue, i, t'.jobs[i].version) == 0
    {
      DequeueAndPopCount(t, k, i);
    }
    DequeueAndPopFreeList(t, k);
  }

  /** Canceling keeps the job table well formed. */
  lemma CancelTableWellFormed(t: JobTable, h: JobHandle)
    requires TableWellFormed(t)
    ensures TableWellFormed(CancelJob(t, h).0)
  {
  }

  /** The table invariant reads only versions, never cancel flags, run states
      or requests. */
  lemma TableWellFormedIgnoresStates(t: JobTable, t': JobTable)
    requires TableWellFormed(t)
    requires t'.freeList == t.freeList && t'.queue == t.queue && |t'.jobs| == |t.jobs|
    requires forall i :: 0 <= i < |t.jobs| ==> t'.jobs[i].version == t.jobs[i].version
    ensures TableWellFormed(t')
  {
  }
}

=== FILE: asset_system.dfy ===
/** The asset registry and the load-job table together, with the asset
    handles user code holds. Creating an asset queues its load job, copying,
    moving, assigning and destroying a handle drive the reference counts, and
    a worker iteration takes one job off the queue. The central invariant:
    every slot's reference count equals the number of live handles naming it
    at its current version, counting the copies stored inside job entries. */
module AssetSystem {
  import opened Wrappers
  import AM = AssetManager
  import AS = AssetStream
  import Seqs

  /** `holders[k]` is the k-th asset-handle variable of user code; a
      destroyed or moved-from variable keeps a cleared index. */
  datatype World = World(reg: AM.Registry, table: AS.JobTable, holders: seq<AM.Handle>)

  const INITIAL: World := World(AM.INITIAL, AS.EMPTY, [])

  /** The asset-handle copies stored in job entries, retired slots included. */
  function JobAssetHandles(jobs: seq<AS.JobEntry>): (hs: seq<AM.Handle>)
    ensures |hs| == |jobs|
    ensures forall i :: 0 <= i < |jobs| ==> hs[i] == jobs[i].job.handle
  {
    seq(|jobs|, i requires 0 <= i < |jobs| => jobs[i].job.handle)
  }

  /** Every asset handle in existence. */
  function Live(w: World): multiset<AM.Handle> {
    multiset(w.holders) + multiset(JobAssetHandles(w.table.jobs))
  }

  predicate Inv(w: World) {
    && AM.WellFormed(w.reg)
    && AM.CountsMatch(w.reg, Live(w))
    && AS.TableWellFormed(w.table)
  }

  lemma InitialInv()
    ensures Inv(INITIAL)
  {
    AM.InitialWellFormed();
  }

  /** Every asset handle stored in a job entry is valid. Requests are only
      stored for a handle `create` has just made, and a stored copy is
      counted, so its slot cannot be released while the copy is there. */
  predicate JobsValid(reg: AM.Registry, jobs: seq<AS.JobEntry>) {
    forall i :: 0 <= i < |jobs| ==> AM.IsValid(reg, jobs[i].job.handle)
  }

  // ---------------------------------------------------------------------
  // Facts about the stored job handles

  lemma JobAssetHandlesAppend(jobs: seq<AS.JobEntry>, e: AS.JobEntry)
    ensures multiset(JobAssetHandles(jobs + [e])) == multiset(JobAssetHandles(jobs)) + multiset{e.job.handle}
  {
    assert JobAssetHandles(jobs + [e]) == JobAssetHandles(jobs) + [e.job.handle];
  }

  lemma JobAssetHandlesUpdate(jobs: seq<AS.JobEntry>, i: nat, e: AS.JobEntry)
    requires i < |jobs|
    ensures jobs[i].job.handle in multiset(JobAssetHandles(jobs))
    ensures multiset(JobAssetHandles(jobs[i := e]))
            == multiset(JobAssetHandles(jobs)) - multiset{jobs[i].job.handle} + multiset{e.job.handle}
  {
    var hs := JobAssetHandles(jobs);
    assert hs[i] == jobs[i].job.handle;
    assert JobAssetHandles(jobs[i := e]) == hs[i := e.job.handle];
  }

  /** Changing anything of a job entry but its request leaves the handles alone. */
  lemma JobAssetHandlesSameRequest(jobs: seq<AS.JobEntry>, i: nat, e: AS.JobEntry)
    requires i < |jobs| && e.job == jobs[i].job
    ensures JobAssetHandles(jobs[i := e]) == JobAssetHandles(jobs)
  {
  }

  // ---------------------------------------------------------------------
  // Registry steps on a counted handle

  /** Copying a live handle: one more reference. */
  lemma CopyStep(r: AM.Registry, live: multiset<AM.Handle>, h: AM.Handle)
    requires AM.WellFormed(r) && AM.CountsMatch(r, live) && h in live
    ensures AM.WellFormed(AM.Register(r, h))
    ensures AM.CountsMatch(AM.Register(r, h), live + multiset{h})
  {
    if AM.IsValid(r, h) {
      AM.CountedValidHandleOwned(r, live, h);
    }
    AM.RegisterWellFormed(r, h);
    AM.RegisterCounts(r, live, h);
  }

  /** Releasing a live handle whose index is set: one reference fewer. */
  lemma ReleaseStep(r: AM.Registry, live: multiset<AM.Handle>, h: AM.Handle)
    requires AM.WellFormed(r) && AM.CountsMatch(r, live) && h in live
    ensures AM.WellFormed(AM.Unregister(r, h))
    ensures AM.CountsMatch(AM.Unregister(r, h), live - multiset{h})
  {
    if AM.IsValid(r, h) {
      AM.CountedValidHandleOwned(r, live, h);
    }
    AM.UnregisterWellFormed(r, h);
    AM.UnregisterCounts(r, live, h);
  }

  /** Copy-assigning live handle `next` over live handle `prev`, the two
      possibly being the same variable. */
  lemma ReassignStep(r: AM.Registry, live: multiset<AM.Handle>, prev: AM.Handle, next: AM.Handle)
    requires AM.WellFormed(r) && AM.CountsMatch(r, live)
    requires prev in live && next in live
    ensures AM.WellFormed(AS.ReassignHandle(r, prev, next))
    ensures AM.CountsMatch(AS.ReassignHandle(r, prev, next), live - multiset{prev} + multiset{next})
  {
    var released := if prev.index != AM.INDEX_INVALID then AM.Unregister(r, prev) else r;
    var rest := live - multiset{prev};
    if prev.index != AM.INDEX_INVALID {
      ReleaseStep(r, live, prev);
    } else {
      AM.InvalidHandleUncounted(r, live, prev);
    }
    if next in rest {
      CopyStep(released, rest, next);
    } else {
      // `next` is `prev` and was its last copy: releasing it made it stale.
      assert next == prev;
      assert !AM.IsValid(released, next) by {
        if AM.IsValid(r, prev) {
          AM.CountedValidHandleOwned(r, live, prev);
        }
      }
      assert AM.CountsMatch(released, rest + multiset{next}) by {
        assert AM.Bounded(r, next);
      }
    }
  }

  /** Releasing `h` keeps valid every other counted handle: a handle at the
      same index and version is a second copy of `h`, so the count stays
      above one and the slot is not released. */
  lemma ReleaseKeepsOthersValid(r: AM.Registry, live: multiset<AM.Handle>, h: AM.Handle, a: AM.Handle)
    requires |r.assets| == |r.versions| && AM.CountsMatch(r, live)
    requires h in live && (live - multiset{h})[a] >= 1 && AM.IsValid(r, a)
    ensures AM.IsValid(AM.Unregister(r, h), a)
  {
    if AM.IsValid(r, h) && a.index == h.index {
      assert a == h;
      assert r.assets[h.index].refCount == live[AM.Handle(h.index, r.versions[h.index])];
      assert r.assets[h.index].refCount >= 2;
    }
  }

  /** The same for a reassignment, which releases `prev` and registers `next`. */
  lemma ReassignKeepsOthersValid(r: AM.Registry, live: multiset<AM.Handle>, prev: AM.Handle, next: AM.Handle, a: AM.Handle)
    requires |r.assets| == |r.versions| && AM.CountsMatch(r, live)
    requires prev in live && (live - multiset{prev})[a] >= 1 && AM.IsValid(r, a)
    ensures AM.IsValid(AS.ReassignHandle(r, prev, next), a)
  {
    if prev.index != AM.INDEX_INVALID {
      ReleaseKeepsOthersValid(r, live, prev, a);
    }
  }

  /** A registry that keeps every existing version keeps every job handle valid. */
  lemma VersionsKeepJobsValid(reg: AM.Registry, reg': AM.Registry, jobs: seq<AS.JobEntry>)
    requires JobsValid(reg, jobs)
    requires |reg.versions| <= |reg'.versions| && reg'.versions[..|reg.versions|] == reg.versions
    ensures JobsValid(reg', jobs)
  {
    forall i | 0 <= i < |jobs| ensures AM.IsValid(reg', jobs[i].job.handle) {
      var a := jobs[i].job.handle;
      assert reg'.versions[a.index] == reg'.versions[..|reg.versions|][a.index];
    }
  }

  /** A value held at two positions of a sequence is counted twice. */
  lemma TwoOccurrences<T>(s: seq<T>, i: nat, j: nat)
    requires i < j < |s| && s[i] == s[j]
    ensures multiset(s)[s[i]] >= 2
  {
    assert s == s[..j] + [s[j]] + s[j + 1..];
    assert s[i] == s[..j][i];
  }

  /** Releasing a handle held outside the job table keeps the job handles valid. */
  lemma ReleaseKeepsJobsValid(w: World, h: AM.Handle)
    requires Inv(w) && JobsValid(w.reg, w.table.jobs) && h in multiset(w.holders)
    ensures JobsValid(AM.Unregister(w.reg, h), w.table.jobs)
  {
    forall i | 0 <= i < |w.table.jobs|
      ensures AM.IsValid(AM.Unregister(w.reg, h), w.table.jobs[i].job.handle)
    {
      var a := w.table.jobs[i].job.handle;
      assert JobAssetHandles(w.table.jobs)[i] == a;
      assert Live(w) - multiset{h} == (multiset(w.holders) - multiset{h}) + multiset(JobAssetHandles(w.table.jobs));
      ReleaseKeepsOthersValid(w.reg, Live(w), h, a);
    }
  }

  /** Reassigning a handle held outside the job table keeps the job handles valid. */
  lemma ReassignKeepsJobsValid(w: World, prev: AM.Handle, next: AM.Handle)
    requires Inv(w) && JobsValid(w.reg, w.table.jobs) && prev in multiset(w.holders)
    ensures JobsValid(AS.ReassignHandle(w.reg, prev, next), w.table.jobs)
  {
    forall i | 0 <= i < |w.table.jobs|
      ensures AM.IsValid(AS.ReassignHandle(w.reg, prev, next), w.table.jobs[i].job.handle)
    {
      var a := w.table.jobs[i].job.handle;
      assert JobAssetHandles(w.table.jobs)[i] == a;
      assert Live(w) - multiset{prev} == (multiset(w.holders) - multiset{prev}) + multiset(JobAssetHandles(w.table.jobs));
      ReassignKeepsOthersValid(w.reg, Live(w), prev, next, a);
    }
  }

  // ---------------------------------------------------------------------
  // Creating an asset

  /** `create<T>`: a new object of type `tag` goes into a registry slot, the
      caller receives a handle, and a load job with NORMAL priority and no
      callback is queued for it. */
  function Create(w: World, tag: AM.TypeTag): (res: (World, AM.Handle))
    requires |w.reg.assets| == |w.reg.versions|
    requires forall k :: 0 <= k < |w.reg.freeList| ==> w.reg.freeList[k] < |w.reg.assets|
    requires forall k :: 0 <= k < |w.table.freeList| ==> w.table.freeList[k] < |w.table.jobs|
    ensures var (w', h) := res;
      && |w'.reg.assets| == |w'.reg.versions|
      && w'.holders == w.holders + [h]
      && w'.reg.heap == w.reg.heap[w.reg.nextPtr := AM.AssetObject(tag, AM.Unloaded)]
      && |w'.table.queue| == |w.table.queue| + 1
      && var jh := w'.table.queue[|w.table.queue|];
         AS.IsValid(w'.table, jh)
         && w'.table.jobs[jh.index] == AS.JobEntry(w'.table.jobs[jh.index].version, false, AS.Uninitialized,
                                                   AS.LoadJob(h, AS.PRIORITY_NORMAL, None))
  {
    var (reg1, h) := AM.AddNewEntry(w.reg, tag);
    var (reg2, table', jh) := AS.Enqueue(reg1, w.table, AS.LoadJob(h, AS.PRIORITY_NORMAL, None));
    (World(reg2, table', w.holders + [h]), h)
  }

  /** Storing a request whose handle is live keeps the registry and the
      table well formed and the counts matching: the request's copy is
      registered, and the copy left in a reused slot is released. `others`
      are the live handles outside the job table. */
  lemma EnqueueStep(reg: AM.Registry, t: AS.JobTable, others: multiset<AM.Handle>, job: AS.LoadJob)
    requires AM.WellFormed(reg) && AS.TableWellFormed(t)
    requires AM.CountsMatch(reg, others + multiset(JobAssetHandles(t.jobs)))
    requires job.handle in others
    ensures var (reg', t', _) := AS.Enqueue(reg, t, job);
      && AM.WellFormed(reg') && AS.TableWellFormed(t')
      && AM.CountsMatch(reg', others + multiset(JobAssetHandles(t'.jobs)))
  {
    AS.EnqueueTableWellFormed(reg, t, job);
    if |t.freeList| > 0 {
      EnqueueReuseStep(reg, t, others, job);
    } else {
      EnqueueAppendStep(reg, t, others, job);
    }
  }

  lemma EnqueueReuseStep(reg: AM.Registry, t: AS.JobTable, others: multiset<AM.Handle>, job: AS.LoadJob)
    requires AM.WellFormed(reg) && |t.freeList| > 0
    requires forall k :: 0 <= k < |t.freeList| ==> t.freeList[k] < |t.jobs|
    requires AM.CountsMatch(reg, others + multiset(JobAssetHandles(t.jobs)))
    requires job.handle in others
    ensures var (reg', t', _) := AS.Enqueue(reg, t, job);
      && AM.WellFormed(reg')
      && AM.CountsMatch(reg', others + multiset(JobAssetHandles(t'.jobs)))
  {
    var (reg', t', jh) := AS.Enqueue(reg, t, job);
    var live := others + multiset(JobAssetHandles(t.jobs));
    var idx := jh.index;
    var prev := t.jobs[idx].job.handle;
    JobAssetHandlesUpdate(t.jobs, idx, t'.jobs[idx]);
    ReassignStep(reg, live, prev, job.handle);
    MultisetSwap(others, multiset(JobAssetHandles(t.jobs)), multiset(JobAssetHandles(t'.jobs)), prev, job.handle);
  }

  lemma EnqueueAppendStep(reg: AM.Registry, t: AS.JobTable, others: multiset<AM.Handle>, job: AS.LoadJob)
    requires AM.WellFormed(reg) && |t.freeList| == 0
    requires AM.CountsMatch(reg, others + multiset(JobAssetHandles(t.jobs)))
    requires job.handle in others
    ensures var (reg', t', _) := AS.Enqueue(reg, t, job);
      && AM.WellFormed(reg')
      && AM.CountsMatch(reg', others + multiset(JobAssetHandles(t'.jobs)))
  {
    var (reg', t', jh) := AS.Enqueue(reg, t, job);
    var live := others + multiset(JobAssetHandles(t.jobs));
    JobAssetHandlesAppend(t.jobs, AS.NewEntry(job));
    CopyStep(reg, live, job.handle);
    assert others + multiset(JobAssetHandles(t'.jobs)) == live + multiset{job.handle};
  }

  /** Storing a request for a valid handle held outside the job table keeps
      every job handle valid: the request's own, and those of the other
      slots, which the release of a reused slot's copy does not touch. */
  lemma EnqueueKeepsJobsValid(reg: AM.Registry, t: AS.JobTable, others: multiset<AM.Handle>, job: AS.LoadJob)
    requires |reg.assets| == |reg.versions| && JobsValid(reg, t.jobs)
    requires forall k :: 0 <= k < |t.freeList| ==> t.freeList[k] < |t.jobs|
    requires AM.CountsMatch(reg, others + multiset(JobAssetHandles(t.jobs)))
    requires job.handle in others && AM.IsValid(reg, job.handle)
    ensures var (reg', t', _) := AS.Enqueue(reg, t, job);
      JobsValid(reg', t'.jobs)
  {
    var (reg', t', jh) := AS.Enqueue(reg, t, job);
    if |t.freeList| == 0 {
      VersionsKeepJobsValid(reg, reg', t.jobs);
    } else {
      var idx := jh.index;
      var hs := JobAssetHandles(t.jobs);
      var live := others + multiset(hs);
      var prev := t.jobs[idx].job.handle;
      assert hs[idx] == prev;
      forall i | 0 <= i < |t'.jobs| ensures AM.IsValid(reg', t'.jobs[i].job.handle) {
        var a := t'.jobs[i].job.handle;
        if i == idx {
          assert a == job.handle && others[a] >= 1;
          if a == prev {
            assert multiset(hs)[a] >= 1;
          }
        } else {
          assert hs[i] == a;
          if a == prev {
            if i < idx { TwoOccurrences(hs, i, idx); } else { TwoOccurrences(hs, idx, i); }
          }
        }
        assert (live - multiset{prev})[a] >= 1;
        ReassignKeepsOthersValid(reg, live, prev, job.handle, a);
      }
    }
  }

  /** Replacing `x` by `y` in the second part of a union. */
  lemma MultisetSwap<T>(a: multiset<T>, b: multiset<T>, b': multiset<T>, x: T, y: T)
    requires x in b && b' == b - multiset{x} + multiset{y}
    ensures a + b' == a + b - multiset{x} + multiset{y}
  {
  }

  /** Creating an asset keeps the invariant while the registry has room; the
      caller's handle is valid, resolves to the new object, and the slot ends
      with exactly two references: the caller's handle and the copy held by
      the queued job. */
  lemma CreateKeepsInv(w: World, tag: AM.TypeTag)
    requires Inv(w)
    requires |w.reg.freeList| > 0 || |w.reg.assets| < AM.INDEX_INVALID
    ensures var (w', h) := Create(w, tag);
      && Inv(w')
      && AM.IsValid(w'.reg, h)
      && AM.GetAsset(w'.reg, h) == w.reg.nextPtr
      && w'.reg.assets[h.index].refCount == 2
  {
    var (reg1, h) := AM.AddNewEntry(w.reg, tag);
    var job := AS.LoadJob(h, AS.PRIORITY_NORMAL, None);
    var (reg2, table', jh) := AS.Enqueue(reg1, w.table, job);
    AM.AddNewEntryWellFormed(w.reg, tag);
    AM.AddNewEntryCounts(w.reg, Live(w), tag);
    var others := multiset(w.holders) + multiset{h};
    var jobs := multiset(JobAssetHandles(w.table.jobs));
    assert others + jobs == Live(w) + multiset{h};
    EnqueueStep(reg1, w.table, others, job);
    assert Live(w)[h] == 0 by {
      assert reg1.assets[h.index].refCount == 1;
    }
    CreateCountsTwo(reg1, h, w.table, others, jobs, job);
  }

  /** The job stored by `Create` holds the only other copy of the new handle. */
  lemma CreateCountsTwo(reg1: AM.Registry, h: AM.Handle, t: AS.JobTable, others: multiset<AM.Handle>,
                        jobs: multiset<AM.Handle>, job: AS.LoadJob)
    requires AM.WellFormed(reg1) && AM.IsValid(reg1, h) && h.index < |reg1.assets|
    requires forall k :: 0 <= k < |t.freeList| ==> t.freeList[k] < |t.jobs|
    requires jobs == multiset(JobAssetHandles(t.jobs))
    requires AM.CountsMatch(reg1, others + jobs)
    requires others[h] == 1 && jobs[h] == 0 && job.handle == h
    ensures var (reg2, t', _) := AS.Enqueue(reg1, t, job);
      AM.CountsMatch(reg2, others + multiset(JobAssetHandles(t'.jobs))) ==>
        && AM.IsValid(reg2, h)
        && AM.GetAsset(reg2, h) == reg1.assets[h.index].ptr
        && reg2.assets[h.index].refCount == 2
  {
    EnqueueKeepsHandle(reg1, h, t, job);
    var res := AS.Enqueue(reg1, t, job);
    assert h == AM.Handle(h.index, res.0.versions[h.index]);
  }

  /** Enqueueing a request for `h`, which no job holds yet, keeps `h` valid
      and pointing at the same asset, and leaves exactly one job holding it. */
  lemma EnqueueKeepsHandle(reg1: AM.Registry, h: AM.Handle, t: AS.JobTable, job: AS.LoadJob)
    requires AM.WellFormed(reg1) && AM.IsValid(reg1, h) && h.index < |reg1.assets|
    requires forall k :: 0 <= k < |t.freeList| ==> t.freeList[k] < |t.jobs|
    requires multiset(JobAssetHandles(t.jobs))[h] == 0 && job.handle == h
    ensures var res := AS.Enqueue(reg1, t, job);
      && AM.IsValid(res.0, h) && |res.0.assets| == |res.0.versions|
      && res.0.assets[h.index].ptr == reg1.assets[h.index].ptr
      && multiset(JobAssetHandles(res.1.jobs))[h] == 1
  {
    var res := AS.Enqueue(reg1, t, job);
    if |t.freeList| > 0 {
      var jh := res.2;
      var prev := t.jobs[jh.index].job.handle;
      JobAssetHandlesUpdate(t.jobs, jh.index, res.1.jobs[jh.index]);
      assert prev != h;
    } else {
      JobAssetHandlesAppend(t.jobs, AS.NewEntry(job));
    }
  }

  // ---------------------------------------------------------------------
  // Handle copies, moves, assignments and destruction

  /** Copy construction: a new variable holding the same handle, registered. */
  function CopyConstruct(w: World, k: nat): (w': World)
    requires k < |w.holders| && |w.reg.assets| == |w.reg.versions|
    ensures w'.holders == w.holders + [w.holders[k]]
    ensures w'.reg == AM.Register(w.reg, w.holders[k]) && w'.table == w.table
  {
    w.(reg := AM.Register(w.reg, w.holders[k]), holders := w.holders + [w.holders[k]])
  }

  /** Move construction: the new variable takes index and version, the source
      loses its index, and no count changes. */
  function MoveConstruct(w: World, k: nat): (w': World)
    requires k < |w.holders|
    ensures |w'.holders| == |w.holders| + 1
    ensures w'.holders[|w.holders|] == w.holders[k]
    ensures w'.holders[k].index == AM.INDEX_INVALID
    ensures w'.reg == w.reg && w'.table == w.table
  {
    w.(holders := w.holders[k := w.holders[k].Invalidated()] + [w.holders[k]])
  }

  /** Destruction: a handle whose index is set is unregistered and cleared;
      a cleared one does nothing. */
  function Destroy(w: World, k: nat): (w': World)
    requires k < |w.holders| && |w.reg.assets| == |w.reg.versions|
    ensures w.holders[k].index == AM.INDEX_INVALID ==> w' == w
    ensures w.holders[k].index != AM.INDEX_INVALID ==>
      w'.reg == AM.Unregister(w.reg, w.holders[k]) && w'.holders == w.holders[k := w.holders[k].Invalidated()]
  {
    var h := w.holders[k];
    if h.index != AM.INDEX_INVALID then
      w.(reg := AM.Unregister(w.reg, h), holders := w.holders[k := h.Invalidated()])
    else w
  }

  /** Copy assignment `holders[dst] = holders[src]`: the old target is
      released first, then the copy is registered. There is no check for
      self-assignment. */
  function CopyAssign(w: World, dst: nat, src: nat): (w': World)
    requires dst < |w.holders| && src < |w.holders| && |w.reg.assets| == |w.reg.versions|
    ensures w'.holders == w.holders[dst := w.holders[src]]
    ensures w'.reg == AS.ReassignHandle(w.reg, w.holders[dst], w.holders[src])
  {
    w.(reg := AS.ReassignHandle(w.reg, w.holders[dst], w.holders[src]),
       holders := w.holders[dst := w.holders[src]])
  }

  /** Move assignment `holders[dst] = move(holders[src])`: the old target is
      released, the fields are taken over, the source is cleared, and nothing
      is registered. */
  function MoveAssign(w: World, dst: nat, src: nat): (w': World)
    requires dst < |w.holders| && src < |w.holders| && |w.reg.assets| == |w.reg.versions|
    ensures |w'.holders| == |w.holders|
    ensures w'.holders[src].index == AM.INDEX_INVALID
    ensures dst != src ==> w'.holders[dst] == w.holders[src]
    ensures w'.reg == if w.holders[dst].index != AM.INDEX_INVALID then AM.Unregister(w.reg, w.holders[dst]) else w.reg
  {
    var prev := w.holders[dst];
    var next := w.holders[src];
    var reg' := if prev.index != AM.INDEX_INVALID then AM.Unregister(w.reg, prev) else w.reg;
    w.(reg := reg', holders := w.holders[dst := next][src := next.Invalidated()])
  }

  lemma CopyConstructKeepsInv(w: World, k: nat)
    requires Inv(w) && k < |w.holders|
    ensures Inv(CopyConstruct(w, k))
  {
    CopyStep(w.reg, Live(w), w.holders[k]);
    assert Live(CopyConstruct(w, k)) == Live(w) + multiset{w.holders[k]};
  }

  lemma MoveConstructKeepsInv(w: World, k: nat)
    requires Inv(w) && k < |w.holders|
    ensures Inv(MoveConstruct(w, k))
  {
    var h := w.holders[k];
    AM.InvalidHandleUncounted(w.reg, Live(w), h.Invalidated());
    assert Live(MoveConstruct(w, k)) == Live(w) + multiset{h.Invalidated()};
  }

  lemma DestroyKeepsInv(w: World, k: nat)
    requires Inv(w) && k < |w.holders|
    ensures Inv(Destroy(w, k))
  {
    var h := w.holders[k];
    if h.index != AM.INDEX_INVALID {
      ReleaseStep(w.reg, Live(w), h);
      var r1 := AM.Unregister(w.reg, h);
      AM.InvalidHandleUncounted(r1, Live(w) - multiset{h}, h.Invalidated());
      assert Live(Destroy(w, k)) == Live(w) - multiset{h} + multiset{h.Invalidated()};
    }
  }

  lemma CopyAssignKeepsInv(w: World, dst: nat, src: nat)
    requires Inv(w) && dst < |w.holders| && src < |w.holders|
    ensures Inv(CopyAssign(w, dst, src))
  {
    ReassignStep(w.reg, Live(w), w.holders[dst], w.holders[src]);
    assert Live(CopyAssign(w, dst, src)) == Live(w) - multiset{w.holders[dst]} + multiset{w.holders[src]};
  }

  lemma MoveAssignKeepsInv(w: World, dst: nat, src: nat)
    requires Inv(w) && dst < |w.holders| && src < |w.holders|
    ensures Inv(MoveAssign(w, dst, src))
  {
    var prev := w.holders[dst];
    var cleared := w.holders[src].Invalidated();
    var rest := Live(w) - multiset{prev};
    if prev.index != AM.INDEX_INVALID {
      ReleaseStep(w.reg, Live(w), prev);
    } else {
      AM.InvalidHandleUncounted(w.reg, Live(w), prev);
    }
    var reg' := if prev.index != AM.INDEX_INVALID then AM.Unregister(w.reg, prev) else w.reg;
    AM.InvalidHandleUncounted(reg', rest, cleared);
    MoveAssignLive(w, dst, src);
  }

  /** After a move assignment the live handles are those before, less the
      old target, plus the cleared source. */
  lemma MoveAssignLive(w: World, dst: nat, src: nat)
    requires dst < |w.holders| && src < |w.holders| && |w.reg.assets| == |w.reg.versions|
    ensures Live(MoveAssign(w, dst, src)) == Live(w) - multiset{w.holders[dst]} + multiset{w.holders[src].Invalidated()}
  {
    MovedHoldersMultiset(w.holders, dst, src);
    assert MoveAssign(w, dst, src).table == w.table;
  }

  lemma MovedHoldersMultiset(hs: seq<AM.Handle>, dst: nat, src: nat)
    requires dst < |hs| && src < |hs|
    ensures multiset(hs[dst := hs[src]][src := hs[src].Invalidated()])
            == multiset(hs) - multiset{hs[dst]} + multiset{hs[src].Invalidated()}
  {
    var next := hs[src];
    var h1 := hs[dst := next];
    if dst == src {
      assert h1[src := next.Invalidated()] == hs[dst := next.Invalidated()];
    } else {
      assert multiset(h1) == multiset(hs) - multiset{hs[dst]} + multiset{next};
      assert h1[src] == next;
    }
  }

  /** Self copy-assignment of the only reference releases the asset: the
      variable is left holding a stale handle and the object is pending
      deletion. */
  lemma SelfCopyAssignReleasesLastReference(w: World, k: nat)
    requires Inv(w) && k < |w.holders|
    requires AM.IsValid(w.reg, w.holders[k]) && w.reg.assets[w.holders[k].index].refCount == 1
    ensures var w' := CopyAssign(w, k, k);
      && w'.holders[k] == w.holders[k]
      && !AM.IsValid(w'.reg, w'.holders[k])
      && w.reg.assets[w.holders[k].index].ptr in w'.reg.pending
  {
  }

  // ---------------------------------------------------------------------
  // Load jobs queued by the asset manager

  /** Queues a load request for the asset behind `holders[k]`. The request
      stored in the job slot holds its own registered copy of the handle.
      Queueing is private to the job registry and its friend, the asset
      manager, which queues only the handle `create` has just made; hence
      the handle is valid. */
  function EnqueueLoad(w: World, k: nat, priority: AS.Int8, callback: Option<nat>): (res: (World, AS.JobHandle))
    requires k < |w.holders| && |w.reg.assets| == |w.reg.versions|
    requires AM.IsValid(w.reg, w.holders[k])
    requires forall i :: 0 <= i < |w.table.freeList| ==> w.table.freeList[i] < |w.table.jobs|
    ensures AS.IsValid(res.0.table, res.1) && res.1.priority == priority
    ensures res.0.table.jobs[res.1.index].job == AS.LoadJob(w.holders[k], priority, callback)
    ensures res.0.holders == w.holders
  {
    var (reg', table', jh) := AS.Enqueue(w.reg, w.table, AS.LoadJob(w.holders[k], priority, callback));
    (World(reg', table', w.holders), jh)
  }

  lemma EnqueueLoadKeepsInv(w: World, k: nat, priority: AS.Int8, callback: Option<nat>)
    requires Inv(w) && k < |w.holders| && AM.IsValid(w.reg, w.holders[k])
    ensures Inv(EnqueueLoad(w, k, priority, callback).0)
  {
    EnqueueStep(w.reg, w.table, multiset(w.holders), AS.LoadJob(w.holders[k], priority, callback));
  }

  function CancelLoad(w: World, jh: AS.JobHandle): (res: (World, bool))
    ensures res.1 <==> AS.IsValid(w.table, jh)
    ensures res.1 ==> jh.index < |res.0.table.jobs| && res.0.table.jobs[jh.index].canceled
    ensures res.0.reg == w.reg && res.0.holders == w.holders
  {
    var (t', ok) := AS.CancelJob(w.table, jh);
    (w.(table := t'), ok)
  }

  lemma CancelLoadKeepsInv(w: World, jh: AS.JobHandle)
    requires Inv(w)
    ensures Inv(CancelLoad(w, jh).0)
  {
    AS.CancelTableWellFormed(w.table, jh);
    if AS.IsValid(w.table, jh) {
      JobAssetHandlesSameRequest(w.table.jobs, jh.index, w.table.jobs[jh.index].Cancel());
    }
  }

  // ---------------------------------------------------------------------
  // One worker iteration

  /** A completion callback invocation: which callback, with which handle,
      reporting which success. */
  datatype CallbackCall = CallbackCall(callback: nat, handle: AM.Handle, success: bool)

  /** The success flag as the worker computes it: the load state is read
      through the slot the handle's index names, whether or not the handle
      is valid. `None` stands for a read the language leaves undefined (an
      index past the table or a cleared slot's null pointer). */
  function WorkerSuccessAsWritten(reg: AM.Registry, a: AM.Handle): (r: Option<bool>)
    requires AM.WellFormed(reg)
    ensures r.None? <==> a.index >= |reg.assets| || reg.assets[a.index].ptr == AM.NULL
    ensures r.Some? ==> (r.value <==> reg.heap[reg.assets[a.index].ptr].state == AM.Loaded)
  {
    if a.index < |reg.assets| && reg.assets[a.index].ptr != AM.NULL then
      assert reg.assets[a.index].ptr in AM.LivePtrs(reg);
      Some(reg.heap[reg.assets[a.index].ptr].state == AM.Loaded)
    else None
  }

  /** The success flag as intended: the handle's own asset ended LOADED. */
  function WorkerSuccess(reg: AM.Registry, a: AM.Handle): (r: bool)
    requires AM.WellFormed(reg)
    ensures r ==> AM.IsValid(reg, a) && AM.GetAsset(reg, a) in reg.heap
    ensures r <==> AM.IsValid(reg, a) && WorkerSuccessAsWritten(reg, a) == Some(true)
  {
    if AM.IsValid(reg, a) && reg.assets[a.index].ptr != AM.NULL then
      WorkerSuccessAsWritten(reg, a) == Some(true)
    else false
  }

  /** A job queued through a stale handle whose slot was reused by a loaded
      asset: as written the worker reports success for the other asset; for
      a stale handle to a cleared slot the read is undefined. */
  lemma StaleJobHandleReadsOtherAsset()
    ensures var reg := AM.Registry([AM.Entry(AM.Tag(2), 2, 1)], [2], [], [1],
                                   map[1 := AM.AssetObject(AM.Tag(1), AM.Unloaded),
                                       2 := AM.AssetObject(AM.Tag(2), AM.Loaded)], 3);
      var stale := AM.Handle(0, 1);
      && AM.WellFormed(reg)
      && WorkerSuccessAsWritten(reg, stale) == Some(true)
      && !WorkerSuccess(reg, stale)
    ensures var reg := AM.Registry([AM.DEFAULT_ENTRY], [2], [0], [1],
                                   map[1 := AM.AssetObject(AM.Tag(1), AM.Unloaded)], 2);
      && AM.WellFormed(reg)
      && WorkerSuccessAsWritten(reg, AM.Handle(0, 1)).None?
  {
    var reg := AM.Registry([AM.Entry(AM.Tag(2), 2, 1)], [2], [], [1],
                           map[1 := AM.AssetObject(AM.Tag(1), AM.Unloaded),
                               2 := AM.AssetObject(AM.Tag(2), AM.Loaded)], 3);
    assert AM.LivePtrs(reg) == {2} by {
      assert reg.assets[0].ptr == 2;
    }
    assert AM.PendingPtrs(reg) == {1} by {
      assert reg.pending[0] == 1;
    }
    var reg2 := AM.Registry([AM.DEFAULT_ENTRY], [2], [0], [1],
                            map[1 := AM.AssetObject(AM.Tag(1), AM.Unloaded)], 2);
    assert AM.LivePtrs(reg2) == {};
    assert AM.PendingPtrs(reg2) == {1} by {
      assert reg2.pending[0] == 1;
    }
  }

  /** One worker iteration on queue position `k`, a position the priority
      queue may hand out, with `outcome` the state the asset's `load` ends
      in. The job handle leaves the queue. A stale job handle does nothing
      more. A canceled job is marked running and retired without loading. A
      live job is marked running, loads its asset if the asset handle is
      valid, is marked finished, reports to its callback (if any) and is
      retired. Retiring a job keeps its request, and so its asset-handle
      copy, in the slot. */
  function Dispatch(w: World, k: nat, outcome: AM.LoadState): (res: (World, seq<CallbackCall>))
    requires Inv(w) && AS.IsTop(w.table.queue, k) && outcome.Done()
    ensures var (w', calls) := res;
      var jh := w.table.queue[k];
      && w'.table.queue == Seqs.RemoveAt(w.table.queue, k)
      && w'.holders == w.holders
      && w'.reg.assets == w.reg.assets && w'.reg.versions == w.reg.versions
      && w'.reg.freeList == w.reg.freeList && w'.reg.pending == w.reg.pending
      && w'.reg.heap.Keys == w.reg.heap.Keys
      && |w'.table.jobs| == |w.table.jobs|
      && (forall i :: 0 <= i < |w.table.jobs| ==> w'.table.jobs[i].job == w.table.jobs[i].job)
    ensures var (w', calls) := res;
      var jh := w.table.queue[k];
      !AS.IsValid(w.table, jh) ==> w'.reg == w.reg && w'.table.jobs == w.table.jobs && calls == []
    ensures var (w', calls) := res;
      var jh := w.table.queue[k];
      AS.IsValid(w.table, jh) ==>
            var e := w.table.jobs[jh.index];
            var a := e.job.handle;
            && !AS.IsValid(w'.table, jh)
            && w'.table.freeList == w.table.freeList + [jh.index]
            && (e.canceled ==>
                  w'.reg == w.reg && calls == [] && w'.table.jobs[jh.index].state == AS.Running)
            && (!e.canceled ==>
                  && w'.table.jobs[jh.index].state == AS.Finished
                  && (AM.IsValid(w.reg, a) ==> w'.reg.heap[AM.GetAsset(w.reg, a)].state == outcome)
                  && (!AM.IsValid(w.reg, a) ==> w'.reg == w.reg)
                  && calls == (if e.job.callback.Some?
                               then [CallbackCall(e.job.callback.value, a,
                                                  AM.IsValid(w.reg, a) && outcome == AM.Loaded)]
                               else []))
  {
    DispatchShape(w, k, outcome);
    DispatchStale(w, k, outcome);
    DispatchLive(w, k, outcome);
    Work(w, k, outcome)
  }

  /** The computation of one worker iteration, described by `Dispatch`. */
  function Work(w: World, k: nat, outcome: AM.LoadState): (res: (World, seq<CallbackCall>))
    requires Inv(w) && AS.IsTop(w.table.queue, k) && outcome.Done()
  {
    var jh := w.table.queue[k];
    var t1 := w.table.(queue := Seqs.RemoveAt(w.table.queue, k));
    if !AS.IsValid(t1, jh) then
      (w.(table := AS.PopJob(t1, jh)), [])
    else
      var e := t1.jobs[jh.index];
      var running := t1.(jobs := t1.jobs[jh.index := e.(state := AS.Running)]);
      if e.canceled then
        (w.(table := AS.PopJob(running, jh)), [])
      else
        var a := e.job.handle;
        assert AM.IsValid(w.reg, a) ==> w.reg.assets[a.index].ptr in w.reg.heap by {
          if AM.IsValid(w.reg, a) {
            assert JobAssetHandles(w.table.jobs)[jh.index] == a;
            AM.CountedValidHandleOwned(w.reg, Live(w), a);
          }
        }
        var reg' := if AM.IsValid(w.reg, a) then AM.SetLoadState(w.reg, w.reg.assets[a.index].ptr, outcome)
                    else w.reg;
        assert AM.WellFormed(reg') by {
          if AM.IsValid(w.reg, a) {
            AM.SetLoadStateWellFormed(w.reg, w.reg.assets[a.index].ptr, outcome);
          }
        }
        var success := WorkerSuccess(reg', a);
        var finished := running.(jobs := running.jobs[jh.index := e.(state := AS.Finished)]);
        var calls := if e.job.callback.Some? then [CallbackCall(e.job.callback.value, a, success)] else [];
        (World(reg', AS.PopJob(finished, jh), w.holders), calls)
  }

  lemma DispatchShape(w: World, k: nat, outcome: AM.LoadState)
    requires Inv(w) && AS.IsTop(w.table.queue, k) && outcome.Done()
    ensures var (w', calls) := Work(w, k, outcome);
      && w'.table.queue == Seqs.RemoveAt(w.table.queue, k)
      && w'.holders == w.holders
      && w'.reg.assets == w.reg.assets && w'.reg.versions == w.reg.versions
      && w'.reg.freeList == w.reg.freeList && w'.reg.pending == w.reg.pending
      && w'.reg.heap.Keys == w.reg.heap.Keys
      && |w'.table.jobs| == |w.table.jobs|
      && (forall i :: 0 <= i < |w.table.jobs| ==> w'.table.jobs[i].job == w.table.jobs[i].job)
  {
  }

  lemma DispatchStale(w: World, k: nat, outcome: AM.LoadState)
    requires Inv(w) && AS.IsTop(w.table.queue, k) && outcome.Done()
    ensures var (w', calls) := Work(w, k, outcome);
      var jh := w.table.queue[k];
      !AS.IsValid(w.table, jh) ==> w'.reg == w.reg && w'.table.jobs == w.table.jobs && calls == []
  {
  }

  lemma DispatchLive(w: World, k: nat, outcome: AM.LoadState)
    requires Inv(w) && AS.IsTop(w.table.queue, k) && outcome.Done()
    ensures var (w', calls) := Work(w, k, outcome);
      var jh := w.table.queue[k];
      AS.IsValid(w.table, jh) ==>
            var e := w.table.jobs[jh.index];
            var a := e.job.handle;
            && !AS.IsValid(w'.table, jh)
            && w'.table.freeList == w.table.freeList + [jh.index]
            && (e.canceled ==>
                  w'.reg == w.reg && calls == [] && w'.table.jobs[jh.index].state == AS.Running)
            && (!e.canceled ==>
                  && w'.table.jobs[jh.index].state == AS.Finished
                  && (AM.IsValid(w.reg, a) ==> w'.reg.heap[AM.GetAsset(w.reg, a)].state == outcome)
                  && (!AM.IsValid(w.reg, a) ==> w'.reg == w.reg)
                  && calls == (if e.job.callback.Some?
                               then [CallbackCall(e.job.callback.value, a,
                                                  AM.IsValid(w.reg, a) && outcome == AM.Loaded)]
                               else []))
  {
  }

  /** A worker iteration leaves the table's queue, free list and versions as
      dequeueing and retiring the job does; only run states differ. */
  lemma WorkTableVersions(w: World, k: nat, outcome: AM.LoadState)
    requires Inv(w) && AS.IsTop(w.table.queue, k) && outcome.Done()
    ensures var t' := Work(w, k, outcome).0.table;
      var d := AS.DequeueAndPop(w.table, k);
      && t'.freeList == d.freeList && t'.queue == d.queue && |t'.jobs| == |d.jobs|
      && forall i :: 0 <= i < |d.jobs| ==> t'.jobs[i].version == d.jobs[i].version
  {
  }

  /** A worker iteration keeps the job table well formed. */
  lemma DispatchKeepsTable(w: World, k: nat, outcome: AM.LoadState)
    requires Inv(w) && AS.IsTop(w.table.queue, k) && outcome.Done()
    ensures AS.TableWellFormed(Dispatch(w, k, outcome).0.table)
  {
    assert Dispatch(w, k, outcome) == Work(w, k, outcome);
    WorkTableVersions(w, k, outcome);
    AS.DequeueAndPopWellFormed(w.table, k);
    AS.TableWellFormedIgnoresStates(AS.DequeueAndPop(w.table, k), Work(w, k, outcome).0.table);
  }

  /** A worker iteration copies and releases no handle, so every count stays
      as it is; only a load state changes. */
  lemma DispatchKeepsCounts(w: World, k: nat, outcome: AM.LoadState)
    requires Inv(w) && AS.IsTop(w.table.queue, k) && outcome.Done()
    ensures var w' := Dispatch(w, k, outcome).0;
      AM.WellFormed(w'.reg) && AM.CountsMatch(w'.reg, Live(w'))
  {
    var w' := Dispatch(w, k, outcome).0;
    var jh := w.table.queue[k];
    assert JobAssetHandles(w'.table.jobs) == JobAssetHandles(w.table.jobs);
    assert Live(w') == Live(w);
    if AS.IsValid(w.table, jh) {
      var e := w.table.jobs[jh.index];
      var a := e.job.handle;
      if !e.canceled && AM.IsValid(w.reg, a) {
        var p := w.reg.assets[a.index].ptr;
        AM.SetLoadStateWellFormed(w.reg, p, outcome);
        AM.FlushAndLoadKeepCounts(w.reg, Live(w), p, outcome);
        assert w'.reg == AM.SetLoadState(w.reg, p, outcome);
      }
    }
  }

  /** A worker iteration keeps the invariant. */
  lemma DispatchKeepsInv(w: World, k: nat, outcome: AM.LoadState)
    requires Inv(w) && AS.IsTop(w.table.queue, k) && outcome.Done()
    ensures Inv(Dispatch(w, k, outcome).0)
  {
    DispatchKeepsTable(w, k, outcome);
    DispatchKeepsCounts(w, k, outcome);
  }

  /** The worker iteration as written. The canceled branch calls `popJob`,
      which takes the job mutex exclusively, while the worker still holds it
      shared; locking a `std::shared_mutex` the calling thread already owns
      is undefined (in practice the worker deadlocks, and every later
      `enqueue` and `popJob` with it), shown as `None`. Every other iteration
      is the one `Dispatch` describes, whose canceled branch is the intended
      retirement without loading. */
  function DispatchAsWritten(w: World, k: nat, outcome: AM.LoadState): (r: Option<(World, seq<CallbackCall>)>)
    requires Inv(w) && AS.IsTop(w.table.queue, k) && outcome.Done()
    ensures var jh := w.table.queue[k];
      r.None? <==> AS.IsValid(w.table, jh) && w.table.jobs[jh.index].canceled
    ensures r.Some? ==> r.value == Dispatch(w, k, outcome)
  {
    var jh := w.table.queue[k];
    if AS.IsValid(w.table, jh) && w.table.jobs[jh.index].canceled then None
    else Some(Dispatch(w, k, outcome))
  }

  /** Canceling the load of a freshly created asset before any worker has
      run it reaches the undefined branch: the job is the only one queued,
      so the worker takes it, finds it valid and canceled. The intended
      iteration retires the job and leaves the assets alone. */
  lemma CanceledDispatchUndefined(tag: AM.TypeTag, outcome: AM.LoadState)
    requires outcome.Done()
    ensures var w1 := Create(INITIAL, tag).0;
      var w2 := CancelLoad(w1, w1.table.queue[0]).0;
      && Inv(w2) && AS.IsTop(w2.table.queue, 0)
      && DispatchAsWritten(w2, 0, outcome).None?
      && var w3 := Dispatch(w2, 0, outcome).0;
         w3.reg == w2.reg && w3.table.queue == [] && !AS.IsValid(w3.table, w2.table.queue[0])
  {
    var w2 := CreatedThenCanceled(tag);
    var jh := w2.table.queue[0];
    assert AS.IsValid(w2.table, jh) && w2.table.jobs[jh.index].canceled;
    var w3 := Dispatch(w2, 0, outcome).0;
    assert w3.table.queue == Seqs.RemoveAt(w2.table.queue, 0);
  }

  /** The world after creating one asset and canceling its load: one job
      queued, valid and canceled. */
  lemma CreatedThenCanceled(tag: AM.TypeTag) returns (w2: World)
    ensures var w1 := Create(INITIAL, tag).0;
      w2 == CancelLoad(w1, w1.table.queue[0]).0
    ensures Inv(w2) && |w2.table.queue| == 1 && AS.IsTop(w2.table.queue, 0)
    ensures var jh := w2.table.queue[0];
      AS.IsValid(w2.table, jh) && w2.table.jobs[jh.index].canceled
  {
    var w1 := CreatedFirst(tag);
    w2 := CancelOnlyJob(w1);
  }

  /** Canceling the only queued job, while it is valid, leaves it queued,
      valid and canceled. */
  lemma CancelOnlyJob(w1: World) returns (w2: World)
    requires Inv(w1) && |w1.table.queue| == 1 && AS.IsValid(w1.table, w1.table.queue[0])
    ensures w2 == CancelLoad(w1, w1.table.queue[0]).0
    ensures Inv(w2) && |w2.table.queue| == 1 && AS.IsTop(w2.table.queue, 0)
    ensures var jh := w2.table.queue[0];
      AS.IsValid(w2.table, jh) && w2.table.jobs[jh.index].canceled
  {
    var jh := w1.table.queue[0];
    CancelLoadKeepsInv(w1, jh);
    w2 := CancelLoad(w1, jh).0;
    assert w2.table.queue == w1.table.queue;
    assert !AS.Less(jh, jh);
  }

  /** The world after creating one asset: its job is the only one queued. */
  lemma CreatedFirst(tag: AM.TypeTag) returns (w1: World)
    ensures w1 == Create(INITIAL, tag).0
    ensures Inv(w1) && |w1.table.queue| == 1 && AS.IsValid(w1.table, w1.table.queue[0])
  {
    InitialInv();
    w1 := CreateIntoEmptyQueue(INITIAL, tag);
  }

  /** Creating an asset while no job is queued leaves its job alone in the queue. */
  lemma CreateIntoEmptyQueue(w: World, tag: AM.TypeTag) returns (w1: World)
    requires Inv(w) && w.table.queue == []
    requires |w.reg.freeList| > 0 || |w.reg.assets| < AM.INDEX_INVALID
    ensures w1 == Create(w, tag).0
    ensures Inv(w1) && |w1.table.queue| == 1 && AS.IsValid(w1.table, w1.table.queue[0])
  {
    CreateKeepsInv(w, tag);
    w1 := Create(w, tag).0;
  }

  // ---------------------------------------------------------------------
  // Job handles stay valid

  /** Creating an asset keeps every job handle valid. */
  lemma CreateKeepsJobsValid(w: World, tag: AM.TypeTag)
    requires Inv(w) && JobsValid(w.reg, w.table.jobs)
    requires |w.reg.freeList| > 0 || |w.reg.assets| < AM.INDEX_INVALID
    ensures var w' := Create(w, tag).0;
      JobsValid(w'.reg, w'.table.jobs)
  {
    var (reg1, h) := AM.AddNewEntry(w.reg, tag);
    AM.AddNewEntryCounts(w.reg, Live(w), tag);
    VersionsKeepJobsValid(w.reg, reg1, w.table.jobs);
    var others := multiset(w.holders) + multiset{h};
    assert others + multiset(JobAssetHandles(w.table.jobs)) == Live(w) + multiset{h};
    EnqueueKeepsJobsValid(reg1, w.table, others, AS.LoadJob(h, AS.PRIORITY_NORMAL, None));
  }

  /** Copying, moving, assigning and destroying the handles user code holds
      keeps every job handle valid. */
  lemma HolderOpsKeepJobsValid(w: World, k: nat, dst: nat, src: nat)
    requires Inv(w) && JobsValid(w.reg, w.table.jobs)
    requires k < |w.holders| && dst < |w.holders| && src < |w.holders|
    ensures var w' := CopyConstruct(w, k); JobsValid(w'.reg, w'.table.jobs)
    ensures var w' := MoveConstruct(w, k); JobsValid(w'.reg, w'.table.jobs)
    ensures var w' := Destroy(w, k); JobsValid(w'.reg, w'.table.jobs)
    ensures var w' := CopyAssign(w, dst, src); JobsValid(w'.reg, w'.table.jobs)
    ensures var w' := MoveAssign(w, dst, src); JobsValid(w'.reg, w'.table.jobs)
  {
    VersionsKeepJobsValid(w.reg, CopyConstruct(w, k).reg, w.table.jobs);
    assert w.holders[k] in multiset(w.holders) && w.holders[dst] in multiset(w.holders);
    ReleaseKeepsJobsValid(w, w.holders[k]);
    ReassignKeepsJobsValid(w, w.holders[dst], w.holders[src]);
    ReleaseKeepsJobsValid(w, w.holders[dst]);
  }

  /** Queueing a load for a valid handle keeps every job handle valid. */
  lemma EnqueueLoadKeepsJobsValid(w: World, k: nat, priority: AS.Int8, callback: Option<nat>)
    requires Inv(w) && JobsValid(w.reg, w.table.jobs)
    requires k < |w.holders| && AM.IsValid(w.reg, w.holders[k])
    ensures var w' := EnqueueLoad(w, k, priority, callback).0;
      JobsValid(w'.reg, w'.table.jobs)
  {
    EnqueueKeepsJobsValid(w.reg, w.table, multiset(w.holders), AS.LoadJob(w.holders[k], priority, callback));
  }

  /** Canceling, a worker iteration, flushing and teardown keep every job
      handle valid: none of them changes a version or a stored request. */
  lemma ServiceOpsKeepJobsValid(w: World, jh: AS.JobHandle)
    requires Inv(w) && JobsValid(w.reg, w.table.jobs)
    ensures var w' := CancelLoad(w, jh).0; JobsValid(w'.reg, w'.table.jobs)
    ensures var w' := Flush(w).0; JobsValid(w'.reg, w'.table.jobs)
    ensures var w' := TearDown(w).0; JobsValid(w'.reg, w'.table.jobs)
  {
    var w1 := CancelLoad(w, jh).0;
    if AS.IsValid(w.table, jh) {
      assert forall i :: 0 <= i < |w1.table.jobs| ==> w1.table.jobs[i].job == w.table.jobs[i].job;
    }
    VersionsKeepJobsValid(w.reg, Flush(w).0.reg, w.table.jobs);
  }

  lemma DispatchKeepsJobsValid(w: World, k: nat, outcome: AM.LoadState)
    requires Inv(w) && JobsValid(w.reg, w.table.jobs) && AS.IsTop(w.table.queue, k) && outcome.Done()
    ensures var w' := Dispatch(w, k, outcome).0;
      JobsValid(w'.reg, w'.table.jobs)
  {
    var w' := Dispatch(w, k, outcome).0;
    forall i | 0 <= i < |w'.table.jobs| ensures AM.IsValid(w'.reg, w'.table.jobs[i].job.handle) {
      assert w'.table.jobs[i].job == w.table.jobs[i].job;
    }
  }

  /** With every job handle valid, the worker's read through the slot index
      is defined and reads the job's own asset: for a live, not canceled
      job the success flag as written is whether the load ended LOADED,
      which is the flag `Dispatch` reports. */
  lemma WorkerReadsOwnAsset(w: World, k: nat, outcome: AM.LoadState)
    requires Inv(w) && JobsValid(w.reg, w.table.jobs) && AS.IsTop(w.table.queue, k) && outcome.Done()
    ensures var jh := w.table.queue[k];
      AS.IsValid(w.table, jh) && !w.table.jobs[jh.index].canceled ==>
        var a := w.table.jobs[jh.index].job.handle;
        && AM.IsValid(w.reg, a)
        && AM.WellFormed(Dispatch(w, k, outcome).0.reg)
        && WorkerSuccessAsWritten(Dispatch(w, k, outcome).0.reg, a) == Some(outcome == AM.Loaded)
  {
    var jh := w.table.queue[k];
    DispatchKeepsCounts(w, k, outcome);
    if AS.IsValid(w.table, jh) && !w.table.jobs[jh.index].canceled {
      var a := w.table.jobs[jh.index].job.handle;
      var reg' := Dispatch(w, k, outcome).0.reg;
      assert JobAssetHandles(w.table.jobs)[jh.index] == a;
      AM.CountedValidHandleOwned(w.reg, Live(w), a);
      assert reg'.assets[a.index].ptr == AM.GetAsset(w.reg, a);
    }
  }

  /** The copy of the asset handle inside a job entry keeps the asset alive,
      whether or not the job has run: while that copy is current the slot is
      referenced and its object is neither pending nor deleted, even when no
      user variable holds the handle any more. Only reusing the job slot for
      another request releases it. */
  lemma JobCopyPinsAsset(w: World, j: nat)
    requires Inv(w) && j < |w.table.jobs|
    requires AM.IsValid(w.reg, w.table.jobs[j].job.handle)
    ensures var a := w.table.jobs[j].job.handle;
      && w.reg.assets[a.index].refCount >= 1 + multiset(w.holders)[a]
      && w.reg.assets[a.index].ptr in w.reg.heap
      && w.reg.assets[a.index].ptr !in w.reg.pending
  {
    var a := w.table.jobs[j].job.handle;
    assert JobAssetHandles(w.table.jobs)[j] == a;
    AM.CountedValidHandleOwned(w.reg, Live(w), a);
    assert w.reg.assets[a.index].ptr in AM.LivePtrs(w.reg);
  }

  // ---------------------------------------------------------------------
  // Retiring a job as intended

  /** A value-initialised request: a default handle, priority 0, no callback. */
  const EMPTY_REQUEST: AS.LoadJob := AS.LoadJob(AM.DEFAULT_HANDLE, AS.PRIORITY_NORMAL, None)

  /** The part of retiring a job that `popJob` leaves out although its
      comment says the job is deleted: the slot's request is reset, and the
      asset-handle copy inside it is destroyed, releasing its reference. */
  function ReleaseJobCopy(w: World, i: nat): (w': World)
    requires Inv(w) && i < |w.table.jobs|
    ensures w'.holders == w.holders && |w'.table.jobs| == |w.table.jobs|
    ensures w'.table.jobs[i].job.handle.index == AM.INDEX_INVALID
    ensures Live(w') == Live(w) - multiset{w.table.jobs[i].job.handle} + multiset{AM.DEFAULT_HANDLE}
    ensures Inv(w')
  {
    var e := w.table.jobs[i];
    var w' := World(AM.Unregister(w.reg, e.job.handle),
                    w.table.(jobs := w.table.jobs[i := e.(job := EMPTY_REQUEST)]), w.holders);
    ReleaseJobCopyKeepsInv(w, i, w');
    w'
  }

  /** Resetting a slot's request trades its handle copy for a default one. */
  lemma ResetRequestLive(w: World, i: nat, w': World)
    requires i < |w.table.jobs|
    requires w'.holders == w.holders
    requires w'.table.jobs == w.table.jobs[i := w.table.jobs[i].(job := EMPTY_REQUEST)]
    ensures w.table.jobs[i].job.handle in Live(w)
    ensures Live(w') == Live(w) - multiset{w.table.jobs[i].job.handle} + multiset{AM.DEFAULT_HANDLE}
  {
    JobAssetHandlesUpdate(w.table.jobs, i, w.table.jobs[i].(job := EMPTY_REQUEST));
  }

  lemma ReleaseJobCopyKeepsInv(w: World, i: nat, w': World)
    requires Inv(w) && i < |w.table.jobs|
    requires var e := w.table.jobs[i];
      w' == World(AM.Unregister(w.reg, e.job.handle),
                  w.table.(jobs := w.table.jobs[i := e.(job := EMPTY_REQUEST)]), w.holders)
    ensures Live(w') == Live(w) - multiset{w.table.jobs[i].job.handle} + multiset{AM.DEFAULT_HANDLE}
    ensures Inv(w')
  {
    var a := w.table.jobs[i].job.handle;
    ResetRequestLive(w, i, w');
    var rest := Live(w) - multiset{a};
    ReleaseStep(w.reg, Live(w), a);
    assert AM.WellFormed(w'.reg) && AM.CountsMatch(w'.reg, rest);
    AM.InvalidHandleUncounted(w'.reg, rest, AM.DEFAULT_HANDLE);
    AS.TableWellFormedIgnoresStates(w.table, w'.table);
  }

  /** A worker iteration whose retirement also deletes the job's request, as
      the comment in `popJob` intends: as `Dispatch`, and then a live job's
      slot releases its asset-handle copy. */
  function DispatchReleasing(w: World, k: nat, outcome: AM.LoadState): (res: (World, seq<CallbackCall>))
    requires Inv(w) && AS.IsTop(w.table.queue, k) && outcome.Done()
    ensures var (w', calls) := res;
      var (w1, calls1) := Dispatch(w, k, outcome);
      var jh := w.table.queue[k];
      && calls == calls1 && w'.holders == w.holders && Inv(w')
      && (!AS.IsValid(w.table, jh) ==> w' == w1)
      && (AS.IsValid(w.table, jh) ==>
            && |w'.table.jobs| == |w.table.jobs|
            && w'.table.jobs[jh.index].job.handle.index == AM.INDEX_INVALID
            && w'.reg == AM.Unregister(w1.reg, w.table.jobs[jh.index].job.handle))
  {
    var (w1, calls) := Dispatch(w, k, outcome);
    DispatchKeepsInv(w, k, outcome);
    var jh := w.table.queue[k];
    if AS.IsValid(w.table, jh) then
      assert w1.table.jobs[jh.index].job == w.table.jobs[jh.index].job;
      (ReleaseJobCopy(w1, jh.index), calls)
    else (w1, calls)
  }

  /** The job's copy held back: after a worker has run the job, dropping the
      last user handle to the asset leaves the object alive and not pending
      deletion as written, and queues it for deletion when the retirement
      releases the copy. */
  lemma RetiredJobKeepsAssetUntilReleased(w: World, k: nat, outcome: AM.LoadState, u: nat)
    requires Inv(w) && AS.IsTop(w.table.queue, k) && outcome.Done()
    requires AS.IsValid(w.table, w.table.queue[k])
    requires var a := w.table.jobs[w.table.queue[k].index].job.handle;
      && AM.IsValid(w.reg, a) && u < |w.holders| && w.holders[u] == a && Live(w)[a] == 2
    ensures var a := w.table.jobs[w.table.queue[k].index].job.handle;
      var p := w.reg.assets[a.index].ptr;
      var asWritten := Destroy(Dispatch(w, k, outcome).0, u).reg;
      && p != AM.NULL && p in asWritten.heap && p !in asWritten.pending
    ensures var a := w.table.jobs[w.table.queue[k].index].job.handle;
      var p := w.reg.assets[a.index].ptr;
      var released := Destroy(DispatchReleasing(w, k, outcome).0, u).reg;
      p in released.pending
  {
    var jh := w.table.queue[k];
    var a := w.table.jobs[jh.index].job.handle;
    var i := a.index;
    JobCopyPinsAsset(w, jh.index);
    AM.CountedValidHandleOwned(w.reg, Live(w), a);
    assert AM.Handle(i, w.reg.versions[i]) == a;
    assert w.reg.assets[i].refCount == 2;
    var w1 := Dispatch(w, k, outcome).0;
    assert w1.reg.assets == w.reg.assets && w1.reg.versions == w.reg.versions;
    assert w1.holders[u] == a;
    var r2 := AM.Unregister(w1.reg, a);
    assert r2.assets[i].refCount == 1 && r2.versions == w.reg.versions;
    assert r2.pending == w.reg.pending;
  }

  // ---------------------------------------------------------------------
  // Destruction and shutdown

  /** Deletes the pending objects (`flushDestructors`). */
  function Flush(w: World): (res: (World, seq<AM.Ptr>))
    ensures res.0.table == w.table && res.0.holders == w.holders
    ensures res.0.reg.pending == [] && res.0.reg.assets == w.reg.assets
    ensures forall p :: p in res.1 <==> p in w.reg.pending && p != AM.NULL
    ensures forall p :: p in res.0.reg.heap <==> p in w.reg.heap && p !in res.1
  {
    var (reg', deleted) := AM.FlushDestructors(w.reg);
    (w.(reg := reg'), deleted)
  }

  lemma FlushKeepsInv(w: World)
    requires Inv(w)
    ensures Inv(Flush(w).0)
  {
    AM.FlushDestructorsWellFormed(w.reg);
    AM.FlushAndLoadKeepCounts(w.reg, Live(w), AM.NULL, AM.Unloaded);
  }

  /** Tearing the system down: the registry deletes every object, pending
      or referenced, and clears its tables; then the job table drops its
      entries (their handle copies are already invalid, so releasing them
      does nothing) but keeps its queue. User variables keep whatever
      handles they held. */
  function TearDown(w: World): (res: (World, seq<AM.Ptr>))
    ensures res.0.reg == AM.INITIAL.(nextPtr := w.reg.nextPtr)
    ensures res.0.table == AS.JobTable([], [], w.table.queue)
    ensures res.0.holders == w.holders
    ensures AM.WellFormed(w.reg) ==> forall p :: p in res.1 <==> p in w.reg.heap
  {
    ShutdownDeletesHeap(w.reg);
    var (reg', deleted) := AM.Shutdown(w.reg);
    (World(reg', AS.JobTable([], [], w.table.queue), w.holders), deleted)
  }

  lemma ShutdownDeletesHeap(r: AM.Registry)
    ensures AM.WellFormed(r) ==> forall p :: p in AM.Shutdown(r).1 <==> p in r.heap
  {
    if AM.WellFormed(r) {
      AM.ShutdownDeletesEverything(r);
    }
  }

  /** The first asset ever created gets index 0 and version 1. */
  lemma FirstHandle(tag: AM.TypeTag)
    ensures Create(INITIAL, tag).1 == AM.Handle(0, 1)
  {
  }

  /** Versions restart after a teardown, so the first asset created
      afterwards gets index 0 and version 1 again: every variable still
      holding the handle of the first asset from before now resolves to the
      new object, which has a pointer never seen before and may have another
      type. */
  lemma StaleHandleRevivesAfterTearDown(w: World, tag: AM.TypeTag)
    requires AM.WellFormed(w.reg)
    ensures var (w3, h') := Create(TearDown(w).0, tag);
      && h' == AM.Handle(0, 1)
      && forall k :: 0 <= k < |w.holders| && w.holders[k] == AM.Handle(0, 1) ==>
           && AM.IsValid(w3.reg, w3.holders[k])
           && AM.GetAsset(w3.reg, w3.holders[k]) == w.reg.nextPtr
           && w.reg.nextPtr !in w.reg.heap
           && w3.reg.heap[w.reg.nextPtr].tag == tag
  {
    var w2 := TearDown(w).0;
    var (w3, h') := Create(w2, tag);
    var (reg1, h1) := AM.AddNewEntry(w2.reg, tag);
    assert h1 == AM.Handle(0, 1);
    assert w3.reg.versions == [1] by {
      assert w3.reg == AS.Enqueue(reg1, w2.table, AS.LoadJob(h1, AS.PRIORITY_NORMAL, None)).0;
    }
  }
}

=== FILE: bvh.dfy ===
/** Bottom-up construction of a bounding volume hierarchy over integer
    intervals. The first nodes are the leaves, in input order; each level of
    k nodes is grouped into runs of at most `maxChildren` consecutive nodes,
    each run becoming one internal node whose volume is the merge of its
    children's volumes, until one node is left: the root. */
module Bvh {
  import opened Numeric

  /** A volume: the closed integer interval `[lo, hi]`. */
  datatype Interval = Interval(lo: int, hi: int)

  /** `merge`: the smallest interval containing both. */
  function Merge(a: Interval, b: Interval): (r: Interval)
    ensures r.lo <= a.lo && r.lo <= b.lo && a.hi <= r.hi && b.hi <= r.hi
    ensures (r.lo == a.lo || r.lo == b.lo) && (r.hi == a.hi || r.hi == b.hi)
  {
    Interval(if a.lo <= b.lo then a.lo else b.lo, if a.hi >= b.hi then a.hi else b.hi)
  }

  /** A leaf holds its primitive (here its volume); an internal node holds
      its volume, its child indices and the child count that `isLeaf`
      reads. */
  datatype Node =
    | LeafNode(leaf: Interval)
    | InternalNode(volume: Interval, children: seq<nat>, childCount: nat)

  function VolumeOf(n: Node): Interval {
    if n.LeafNode? then n.leaf else n.volume
  }

  function ChildCount(n: Node): nat {
    if n.LeafNode? then 0 else n.childCount
  }

  /** `isLeaf`: the child count is zero. */
  predicate IsLeaf(n: Node) {
    ChildCount(n) == 0
  }

  // ---------------------------------------------------------------------
  // Hulls

  /** Every interval of `vs` lies inside `h`. */
  predicate Within(h: Interval, vs: seq<Interval>) {
    forall i :: 0 <= i < |vs| ==> h.lo <= vs[i].lo && vs[i].hi <= h.hi
  }

  predicate LoAttained(h: Interval, vs: seq<Interval>) {
    exists i :: 0 <= i < |vs| && vs[i].lo == h.lo
  }

  predicate HiAttained(h: Interval, vs: seq<Interval>) {
    exists i :: 0 <= i < |vs| && vs[i].hi == h.hi
  }

  /** `h` is the smallest interval containing all of `vs`. */
  predicate IsHull(h: Interval, vs: seq<Interval>) {
    Within(h, vs) && LoAttained(h, vs) && HiAttained(h, vs)
  }

  /** The hull, written independently of any fold order: the least lower
      end and the greatest upper end. */
  function Hull(vs: seq<Interval>): (h: Interval)
    requires |vs| > 0
  {
    if |vs| == 1 then vs[0]
    else
      var t := Hull(vs[1..]);
      Interval(if vs[0].lo <= t.lo then vs[0].lo else t.lo, if vs[0].hi >= t.hi then vs[0].hi else t.hi)
  }

  lemma {:induction false} HullIsHull(vs: seq<Interval>)
    requires |vs| > 0
    ensures IsHull(Hull(vs), vs)
  {
    if |vs| > 1 {
      var t := Hull(vs[1..]);
      HullIsHull(vs[1..]);
      var h := Hull(vs);
      forall i | 1 <= i < |vs| ensures h.lo <= vs[i].lo && vs[i].hi <= h.hi {
        assert vs[i] == vs[1..][i - 1];
      }
      if h.lo != vs[0].lo {
        var i :| 0 <= i < |vs[1..]| && vs[1..][i].lo == t.lo;
        assert vs[i + 1].lo == h.lo;
      }
      if h.hi != vs[0].hi {
        var i :| 0 <= i < |vs[1..]| && vs[1..][i].hi == t.hi;
        assert vs[i + 1].hi == h.hi;
      }
    }
  }

  /** At most one interval is the hull of a sequence. */
  lemma HullUnique(h: Interval, g: Interval, vs: seq<Interval>)
    requires IsHull(h, vs) && IsHull(g, vs)
    ensures h == g
  {
    var i :| 0 <= i < |vs| && vs[i].lo == h.lo;
    var j :| 0 <= j < |vs| && vs[j].lo == g.lo;
    var k :| 0 <= k < |vs| && vs[k].hi == h.hi;
    var l :| 0 <= l < |vs| && vs[l].hi == g.hi;
  }

  /** Folding one more interval into the accumulator keeps the hull of
      everything seen so far. */
  lemma HullStep(acc: Interval, v: Interval, rest: seq<Interval>, r: Interval)
    requires IsHull(r, [Merge(acc, v)] + rest)
    ensures IsHull(r, [acc] + ([v] + rest))
  {
    var m := Merge(acc, v);
    var a := [m] + rest;
    var b := [acc] + ([v] + rest);
    assert a[0] == m && b[0] == acc && b[1] == v;
    forall i | 0 <= i < |b| ensures r.lo <= b[i].lo && b[i].hi <= r.hi {
      if i >= 2 {
        assert b[i] == a[i - 1];
      }
    }
    var i :| 0 <= i < |a| && a[i].lo == r.lo;
    if i == 0 {
      assert b[0].lo == r.lo || b[1].lo == r.lo;
    } else {
      assert b[i + 1] == a[i];
    }
    var j :| 0 <= j < |a| && a[j].hi == r.hi;
    if j == 0 {
      assert b[0].hi == r.hi || b[1].hi == r.hi;
    } else {
      assert b[j + 1] == a[j];
    }
  }

  /** The left fold of `merge` from `acc` over `vs`. */
  function MergeAll(acc: Interval, vs: seq<Interval>): (r: Interval)
    ensures IsHull(r, [acc] + vs)
    decreases |vs|
  {
    if |vs| == 0 then
      assert ([acc] + vs)[0] == acc;
      acc
    else
      var r := MergeAll(Merge(acc, vs[0]), vs[1..]);
      HullStep(acc, vs[0], vs[1..], r);
      assert [vs[0]] + vs[1..] == vs;
      r
  }

  /** `computeGroupVolume`: the first child's volume merged with each
      further child's in turn, which is the group's hull. */
  function GroupVolume(vs: seq<Interval>): (r: Interval)
    requires |vs| > 0
    ensures IsHull(r, vs)
  {
    assert [vs[0]] + vs[1..] == vs;
    MergeAll(vs[0], vs[1..])
  }

  // ---------------------------------------------------------------------
  // Construction

  /** The volumes of the nodes named by `level`. */
  function Vols(nodes: seq<Node>, level: seq<nat>): (vs: seq<Interval>)
    requires forall k :: 0 <= k < |level| ==> level[k] < |nodes|
    ensures |vs| == |level| && forall k :: 0 <= k < |level| ==> vs[k] == VolumeOf(nodes[level[k]])
  {
    seq(|level|, k requires 0 <= k < |level| => VolumeOf(nodes[level[k]]))
  }

  /** The indices `from`, `from + 1`, ..., `from + count - 1`. */
  function Range(from: nat, count: nat): (r: seq<nat>)
    ensures |r| == count && forall k :: 0 <= k < count ==> r[k] == from + k
  {
    seq(count, k requires 0 <= k < count => from + k)
  }

  /** The indices in `level` all name nodes below `bound`. */
  predicate IndicesBelow(level: seq<nat>, bound: nat) {
    forall k :: 0 <= k < |level| ==> level[k] < bound
  }

  function Concat(gs: seq<seq<nat>>): seq<nat> {
    if |gs| == 0 then [] else gs[0] + Concat(gs[1..])
  }

  function Min(a: nat, b: nat): nat {
    if a <= b then a else b
  }

  lemma MulMono(a: nat, b: nat, c: nat)
    requires b >= c
    ensures a * b >= a * c
  {
  }

  /** The runs the inner loop cuts a level into: consecutive, at most
      `maxChildren` long, all full but the last, together the whole
      level in order. */
  function Groups(level: seq<nat>, maxChildren: nat): (gs: seq<seq<nat>>)
    requires maxChildren >= 1
    ensures Concat(gs) == level
    ensures forall k :: 0 <= k < |gs| ==> 0 < |gs[k]| <= maxChildren
    ensures forall k :: 0 <= k < |gs| - 1 ==> |gs[k]| == maxChildren
    ensures forall k, j :: 0 <= k < |gs| && 0 <= j < |gs[k]| ==> gs[k][j] in level
    decreases |level|
  {
    if |level| == 0 then []
    else
      var g := Min(maxChildren, |level|);
      var rest := Groups(level[g..], maxChildren);
      var gs := [level[..g]] + rest;
      assert gs[1..] == rest;
      assert Concat(gs) == level[..g] + level[g..];
      assert level[..g] + level[g..] == level;
      forall k, j | 0 <= k < |gs| && 0 <= j < |gs[k]| ensures gs[k][j] in level {
        GroupMember(level, g, rest, k, j);
      }
      assert g < maxChildren ==> rest == [];
      gs
  }

  /** A level of k nodes gives ceil(k / maxChildren) groups. */
  lemma {:induction false} GroupsCount(level: seq<nat>, maxChildren: nat)
    requires maxChildren >= 1
    ensures var n := |Groups(level, maxChildren)|;
      n * maxChildren >= |level| && (n - 1) * maxChildren < |level|
    decreases |level|
  {
    if |level| > 0 {
      var g := Min(maxChildren, |level|);
      var rest := Groups(level[g..], maxChildren);
      GroupsCount(level[g..], maxChildren);
      assert |Groups(level, maxChildren)| == 1 + |rest|;
      assert (1 + |rest|) * maxChildren == maxChildren + |rest| * maxChildren;
    }
  }

  lemma GroupMember(level: seq<nat>, g: nat, rest: seq<seq<nat>>, k: nat, j: nat)
    requires 0 < g <= |level|
    requires forall k, j :: 0 <= k < |rest| && 0 <= j < |rest[k]| ==> rest[k][j] in level[g..]
    requires k < |[level[..g]] + rest| && j < |([level[..g]] + rest)[k]|
    ensures ([level[..g]] + rest)[k][j] in level
  {
    var gs := [level[..g]] + rest;
    if k > 0 {
      assert gs[k] == rest[k - 1];
      assert gs[k][j] in level[g..];
    } else {
      assert gs[k][j] == level[j];
    }
  }

  lemma {:induction false} ConcatLocate(gs: seq<seq<nat>>, i: nat) returns (k: nat, j: nat)
    requires i < |Concat(gs)|
    ensures k < |gs| && j < |gs[k]| && gs[k][j] == Concat(gs)[i]
  {
    assert Concat(gs) == gs[0] + Concat(gs[1..]);
    if i < |gs[0]| {
      k, j := 0, i;
    } else {
      var k', j' := ConcatLocate(gs[1..], i - |gs[0]|);
      k, j := k' + 1, j';
    }
  }

  /** The internal node for one group. */
  function MakeInternal(nodes: seq<Node>, group: seq<nat>, setCount: bool): Node
    requires |group| > 0 && IndicesBelow(group, |nodes|)
  {
    InternalNode(GroupVolume(Vols(nodes, group)), group, if setCount then |group| else 0)
  }

  lemma GroupsBelow(level: seq<nat>, maxChildren: nat, bound: nat)
    requires maxChildren >= 1 && IndicesBelow(level, bound)
    ensures forall k :: 0 <= k < |Groups(level, maxChildren)| ==> IndicesBelow(Groups(level, maxChildren)[k], bound)
  {
  }

  /** One pass of the inner loop: an internal node per group, appended to
      `nodes` in order; the second part is the next level. A group's volume
      only reads nodes of the current level, which all precede the pass, so
      the appends are independent of each other. With `setCount` false the
      node keeps the child count of zero its constructor leaves, as in the
      source. */
  function BuildLevel(nodes: seq<Node>, level: seq<nat>, maxChildren: nat, setCount: bool): (res: (seq<Node>, seq<nat>))
    requires maxChildren >= 1 && IndicesBelow(level, |nodes|)
    ensures |res.1| == |Groups(level, maxChildren)|
    ensures |res.0| == |nodes| + |res.1| && res.0[..|nodes|] == nodes && res.1 == Range(|nodes|, |res.1|)
  {
    var gs := Groups(level, maxChildren);
    GroupsBelow(level, maxChildren, |nodes|);
    var made := seq(|gs|, k requires 0 <= k < |gs| => MakeInternal(nodes, gs[k], setCount));
    (nodes + made, Range(|nodes|, |gs|))
  }

  /** The new node of group `k`. */
  lemma BuildLevelNode(nodes: seq<Node>, level: seq<nat>, maxChildren: nat, setCount: bool, k: nat)
    requires maxChildren >= 1 && IndicesBelow(level, |nodes|) && k < |Groups(level, maxChildren)|
    ensures var n := BuildLevel(nodes, level, maxChildren, setCount).0[|nodes| + k];
      && IndicesBelow(Groups(level, maxChildren)[k], |nodes|)
      && n.InternalNode?
      && n.children == Groups(level, maxChildren)[k]
      && n.childCount == (if setCount then |n.children| else 0)
      && IsHull(n.volume, Vols(nodes, n.children))
  {
    GroupsBelow(level, maxChildren, |nodes|);
  }

  /** With at least two children per node, each level is shorter than the
      one before. */
  lemma LevelShrinks(level: seq<nat>, maxChildren: nat)
    requires maxChildren >= 2 && |level| >= 2
    ensures |Groups(level, maxChildren)| < |level|
  {
    var n := |Groups(level, maxChildren)|;
    GroupsCount(level, maxChildren);
    assert n >= 1;
    MulMono(n - 1, maxChildren, 2);
  }

  /** A group's volume lies inside the hull of the level it came from. */
  lemma GroupWithin(nodes: seq<Node>, level: seq<nat>, maxChildren: nat, setCount: bool, h: Interval, k: nat)
    requires maxChildren >= 1 && IndicesBelow(level, |nodes|) && k < |Groups(level, maxChildren)|
    requires Within(h, Vols(nodes, level))
    ensures var v := VolumeOf(BuildLevel(nodes, level, maxChildren, setCount).0[|nodes| + k]);
      h.lo <= v.lo && v.hi <= h.hi
  {
    BuildLevelNode(nodes, level, maxChildren, setCount, k);
    var g := Groups(level, maxChildren)[k];
    var gv := Vols(nodes, g);
    var v := VolumeOf(BuildLevel(nodes, level, maxChildren, setCount).0[|nodes| + k]);
    var j1 :| 0 <= j1 < |gv| && gv[j1].lo == v.lo;
    var j2 :| 0 <= j2 < |gv| && gv[j2].hi == v.hi;
    assert g[j1] in level && g[j2] in level;
    var i1 :| 0 <= i1 < |level| && level[i1] == g[j1];
    var i2 :| 0 <= i2 < |level| && level[i2] == g[j2];
    assert Vols(nodes, level)[i1] == gv[j1] && Vols(nodes, level)[i2] == gv[j2];
  }

  /** The next level's volumes stay inside the hull of the level. */
  lemma LevelWithin(nodes: seq<Node>, level: seq<nat>, maxChildren: nat, setCount: bool, h: Interval)
    requires maxChildren >= 1 && IndicesBelow(level, |nodes|)
    requires Within(h, Vols(nodes, level))
    ensures var (nodes', next) := BuildLevel(nodes, level, maxChildren, setCount);
      IndicesBelow(next, |nodes'|) && Within(h, Vols(nodes', next))
  {
    var (nodes', next) := BuildLevel(nodes, level, maxChildren, setCount);
    var vs := Vols(nodes', next);
    forall k | 0 <= k < |next| ensures h.lo <= vs[k].lo && vs[k].hi <= h.hi {
      GroupWithin(nodes, level, maxChildren, setCount, h, k);
    }
  }

  /** If the level's `i`-th volume sits at an end of the hull, so does the
      volume of the group `k` that holds it. */
  lemma GroupAtEnd(nodes: seq<Node>, level: seq<nat>, maxChildren: nat, setCount: bool, h: Interval, i: nat, k: nat, j: nat)
    requires maxChildren >= 1 && IndicesBelow(level, |nodes|) && Within(h, Vols(nodes, level))
    requires i < |level| && k < |Groups(level, maxChildren)| && j < |Groups(level, maxChildren)[k]|
    requires Groups(level, maxChildren)[k][j] == level[i]
    ensures var res := BuildLevel(nodes, level, maxChildren, setCount);
      var v := Vols(res.0, res.1)[k];
      && (Vols(nodes, level)[i].lo == h.lo ==> v.lo == h.lo)
      && (Vols(nodes, level)[i].hi == h.hi ==> v.hi == h.hi)
  {
    var res := BuildLevel(nodes, level, maxChildren, setCount);
    BuildLevelNode(nodes, level, maxChildren, setCount, k);
    GroupWithin(nodes, level, maxChildren, setCount, h, k);
    var g := Groups(level, maxChildren)[k];
    assert Vols(nodes, g)[j] == Vols(nodes, level)[i];
    assert Vols(res.0, res.1)[k] == VolumeOf(res.0[|nodes| + k]);
  }

  /** The group holding a volume that reaches the hull's lower end reaches it too. */
  lemma LevelLoAttained(nodes: seq<Node>, level: seq<nat>, maxChildren: nat, setCount: bool, h: Interval)
    requires maxChildren >= 1 && IndicesBelow(level, |nodes|)
    requires Within(h, Vols(nodes, level)) && LoAttained(h, Vols(nodes, level))
    ensures var res := BuildLevel(nodes, level, maxChildren, setCount);
      IndicesBelow(res.1, |res.0|) && LoAttained(h, Vols(res.0, res.1))
  {
    var res := BuildLevel(nodes, level, maxChildren, setCount);
    var lv := Vols(nodes, level);
    var i :| 0 <= i < |lv| && lv[i].lo == h.lo;
    var k, j := ConcatLocate(Groups(level, maxChildren), i);
    GroupAtEnd(nodes, level, maxChildren, setCount, h, i, k, j);
    assert Vols(res.0, res.1)[k].lo == h.lo;
  }

  /** The group holding a volume that reaches the hull's upper end reaches it too. */
  lemma LevelHiAttained(nodes: seq<Node>, level: seq<nat>, maxChildren: nat, setCount: bool, h: Interval)
    requires maxChildren >= 1 && IndicesBelow(level, |nodes|)
    requires Within(h, Vols(nodes, level)) && HiAttained(h, Vols(nodes, level))
    ensures var res := BuildLevel(nodes, level, maxChildren, setCount);
      IndicesBelow(res.1, |res.0|) && HiAttained(h, Vols(res.0, res.1))
  {
    var res := BuildLevel(nodes, level, maxChildren, setCount);
    var lv := Vols(nodes, level);
    var i :| 0 <= i < |lv| && lv[i].hi == h.hi;
    var k, j := ConcatLocate(Groups(level, maxChildren), i);
    GroupAtEnd(nodes, level, maxChildren, setCount, h, i, k, j);
    assert Vols(res.0, res.1)[k].hi == h.hi;
  }

  /** The hull of a level is the hull of the next level. */
  lemma LevelKeepsHull(nodes: seq<Node>, level: seq<nat>, maxChildren: nat, setCount: bool, h: Interval)
    requires maxChildren >= 1 && IndicesBelow(level, |nodes|)
    requires IsHull(h, Vols(nodes, level))
    ensures var (nodes', next) := BuildLevel(nodes, level, maxChildren, setCount);
      IndicesBelow(next, |nodes'|) && IsHull(h, Vols(nodes', next))
  {
    LevelWithin(nodes, level, maxChildren, setCount, h);
    LevelLoAttained(nodes, level, maxChildren, setCount, h);
    LevelHiAttained(nodes, level, maxChildren, setCount, h);
  }

  /** Node `k` is internal, with between one and `maxChildren` children,
      all at smaller indices, and the child count the build records. */
  predicate GoodInternal(n: Node, k: nat, maxChildren: nat, setCount: bool) {
    && n.InternalNode?
    && 0 < |n.children| <= maxChildren
    && (forall j :: 0 <= j < |n.children| ==> n.children[j] < k)
    && n.childCount == (if setCount then |n.children| else 0)
  }

  lemma BuildLevelGood(nodes: seq<Node>, level: seq<nat>, maxChildren: nat, setCount: bool)
    requires maxChildren >= 1 && IndicesBelow(level, |nodes|)
    ensures var nodes' := BuildLevel(nodes, level, maxChildren, setCount).0;
      forall k :: |nodes| <= k < |nodes'| ==> GoodInternal(nodes'[k], k, maxChildren, setCount)
  {
    var nodes' := BuildLevel(nodes, level, maxChildren, setCount).0;
    forall k | |nodes| <= k < |nodes'| ensures GoodInternal(nodes'[k], k, maxChildren, setCount) {
      BuildLevelNode(nodes, level, maxChildren, setCount, k - |nodes|);
    }
  }

  /** The outer loop: levels shrink until a single node is left, which is
      the root. */
  function BuildUp(nodes: seq<Node>, level: seq<nat>, maxChildren: nat, setCount: bool): (res: (seq<Node>, nat))
    requires maxChildren >= 2 && |level| >= 1 && IndicesBelow(level, |nodes|)
    ensures |res.0| >= |nodes| && res.0[..|nodes|] == nodes && res.1 < |res.0|
    ensures res.1 == (if |level| == 1 then level[0] else |res.0| - 1)
    ensures forall k :: |nodes| <= k < |res.0| ==> GoodInternal(res.0[k], k, maxChildren, setCount)
    decreases |level|
  {
    if |level| == 1 then (nodes, level[0])
    else
      var (nodes1, next) := BuildLevel(nodes, level, maxChildren, setCount);
      LevelShrinks(level, maxChildren);
      BuildLevelGood(nodes, level, maxChildren, setCount);
      var (nodes2, root) := BuildUp(nodes1, next, maxChildren, setCount);
      assert nodes2[..|nodes|] == nodes by {
        assert nodes2[..|nodes|] == nodes2[..|nodes1|][..|nodes|];
      }
      assert forall k :: |nodes| <= k < |nodes1| ==> nodes2[k] == nodes2[..|nodes1|][k];
      (nodes2, root)
  }

  lemma {:induction false} BuildUpHull(nodes: seq<Node>, level: seq<nat>, maxChildren: nat, setCount: bool, h: Interval)
    requires maxChildren >= 2 && |level| >= 1 && IndicesBelow(level, |nodes|)
    requires IsHull(h, Vols(nodes, level))
    ensures var (nodes', root) := BuildUp(nodes, level, maxChildren, setCount);
      VolumeOf(nodes'[root]) == h
    decreases |level|
  {
    if |level| == 1 {
      HullUnique(h, VolumeOf(nodes[level[0]]), Vols(nodes, level));
    } else {
      var (nodes1, next) := BuildLevel(nodes, level, maxChildren, setCount);
      LevelKeepsHull(nodes, level, maxChildren, setCount, h);
      LevelShrinks(level, maxChildren);
      BuildUpHull(nodes1, next, maxChildren, setCount, h);
    }
  }

  /** A hierarchy: the node array. */
  datatype Tree = Tree(nodes: seq<Node>)

  /** The first `leafCount` nodes are leaves; every later node is internal
      with between one and `maxChildren` children, all at smaller indices,
      and a child count that matches them. */
  predicate WellFormed(t: Tree, leafCount: nat, maxChildren: nat) {
    && leafCount <= |t.nodes|
    && (forall k :: 0 <= k < leafCount ==> t.nodes[k].LeafNode?)
    && forall k :: leafCount <= k < |t.nodes| ==>
         && t.nodes[k].InternalNode?
         && 0 < |t.nodes[k].children| <= maxChildren
         && t.nodes[k].childCount == |t.nodes[k].children|
         && forall j :: 0 <= j < |t.nodes[k].children| ==> t.nodes[k].children[j] < k
  }

  /** `buildFromArray`, parameterised by whether internal nodes record their
      child count. No leaves clear the tree and return `(size_t)-1`. */
  function BuildWith(leaves: seq<Interval>, maxChildren: nat, setCount: bool): (res: (Tree, nat))
    requires maxChildren >= 2
    ensures |leaves| == 0 ==> res.0.nodes == [] && res.1 == SIZE_MAX
    ensures |leaves| > 0 ==>
      && |res.0.nodes| >= |leaves|
      && (forall i :: 0 <= i < |leaves| ==> res.0.nodes[i] == LeafNode(leaves[i]))
      && res.1 == (if |leaves| == 1 then 0 else |res.0.nodes| - 1)
      && forall k :: |leaves| <= k < |res.0.nodes| ==>
           && res.0.nodes[k].InternalNode?
           && 0 < |res.0.nodes[k].children| <= maxChildren
           && (forall j :: 0 <= j < |res.0.nodes[k].children| ==> res.0.nodes[k].children[j] < k)
           && res.0.nodes[k].childCount == (if setCount then |res.0.nodes[k].children| else 0)
  {
    if |leaves| == 0 then (Tree([]), SIZE_MAX)
    else
      var leafNodes := seq(|leaves|, i requires 0 <= i < |leaves| => LeafNode(leaves[i]));
      var (nodes, root) := BuildUp(leafNodes, Range(0, |leaves|), maxChildren, setCount);
      forall i | 0 <= i < |leaves| ensures nodes[i] == LeafNode(leaves[i]) {
        assert nodes[..|leaves|][i] == leafNodes[i];
      }
      (Tree(nodes), root)
  }

  /** The source's build: the internal node constructor never stores its
      count, so every node keeps a child count of zero. */
  function BuildAsWritten(leaves: seq<Interval>, maxChildren: nat): (res: (Tree, nat))
    requires maxChildren >= 2
    ensures |leaves| == 0 ==> res.0.nodes == [] && res.1 == SIZE_MAX
    ensures |leaves| > 0 ==>
      && |res.0.nodes| >= |leaves| && res.1 < |res.0.nodes|
      && (forall i :: 0 <= i < |leaves| ==> res.0.nodes[i] == LeafNode(leaves[i]))
      && forall k :: |leaves| <= k < |res.0.nodes| ==>
           res.0.nodes[k].InternalNode? && |res.0.nodes[k].children| > 0 && res.0.nodes[k].childCount == 0
  {
    BuildWith(leaves, maxChildren, false)
  }

  /** The build with the count stored, as `isLeaf` expects. */
  function Build(leaves: seq<Interval>, maxChildren: nat): (res: (Tree, nat))
    requires maxChildren >= 2
    ensures |leaves| > 0 ==> WellFormed(res.0, |leaves|, maxChildren)
  {
    BuildWith(leaves, maxChildren, true)
  }

  /** As written, every node reports itself a leaf. */
  lemma AsWrittenEveryNodeIsLeaf(leaves: seq<Interval>, maxChildren: nat)
    requires maxChildren >= 2
    ensures var t := BuildAsWritten(leaves, maxChildren).0;
      forall k :: 0 <= k < |t.nodes| ==> IsLeaf(t.nodes[k])
  {
  }

  /** With the count stored, exactly the first `|leaves|` nodes are leaves. */
  lemma BuildLeavesAreLeaves(leaves: seq<Interval>, maxChildren: nat)
    requires maxChildren >= 2
    ensures var t := Build(leaves, maxChildren).0;
      forall k :: 0 <= k < |t.nodes| ==> (IsLeaf(t.nodes[k]) <==> k < |leaves|)
  {
  }

  /** The root's volume is the hull of all leaf volumes. */
  lemma BuildRootIsHull(leaves: seq<Interval>, maxChildren: nat, setCount: bool)
    requires maxChildren >= 2 && |leaves| > 0
    ensures var (t, root) := BuildWith(leaves, maxChildren, setCount);
      root < |t.nodes| && VolumeOf(t.nodes[root]) == Hull(leaves)
  {
    var leafNodes := seq(|leaves|, i requires 0 <= i < |leaves| => LeafNode(leaves[i]));
    var level := Range(0, |leaves|);
    assert Vols(leafNodes, level) == leaves;
    HullIsHull(leaves);
    BuildUpHull(leafNodes, level, maxChildren, setCount, Hull(leaves));
  }

  /** With one child per node allowed, a level of k nodes gives k new nodes,
      so the outer loop never reaches a single node. */
  lemma OneChildLevelsNeverShrink(nodes: seq<Node>, level: seq<nat>, setCount: bool)
    requires IndicesBelow(level, |nodes|)
    ensures |BuildLevel(nodes, level, 1, setCount).1| == |level|
  {
    GroupsCount(level, 1);
  }

  /** `size`. */
  function Size(t: Tree): nat {
    |t.nodes|
  }

  /** `clear`. */
  function Clear(t: Tree): (r: Tree)
    ensures Size(r) == 0
  {
    Tree([])
  }

  // ---------------------------------------------------------------------
  // Printing

  function LeafLine(index: nat, depth: nat): string {
    seq(2 * depth, _ => ' ') + "- Leaf [index=" + NatToString(index) + "]"
  }

  function InternalLine(index: nat, count: nat, depth: nat): string {
    seq(2 * depth, _ => ' ') + "- Internal [index=" + NatToString(index) + ", children=" + NatToString(count) + "]"
  }

  /** Child links point backwards and child counts never exceed the stored
      children, so printing terminates. */
  predicate Printable(t: Tree) {
    forall k :: 0 <= k < |t.nodes| && t.nodes[k].InternalNode? ==>
      t.nodes[k].childCount <= |t.nodes[k].children|
      && forall j :: 0 <= j < |t.nodes[k].children| ==> t.nodes[k].children[j] < k
  }

  /** `printNode`: a leaf line for a node whose child count is zero,
      otherwise an internal line followed by its first `childCount`
      children one level deeper. */
  function PrintNode(t: Tree, index: nat, depth: nat): (lines: seq<string>)
    requires Printable(t) && index < |t.nodes|
    ensures |lines| >= 1
    ensures IsLeaf(t.nodes[index]) ==> lines == [LeafLine(index, depth)]
    ensures !IsLeaf(t.nodes[index]) ==> lines[0] == InternalLine(index, ChildCount(t.nodes[index]), depth)
    decreases index + 1, 0
  {
    var n := t.nodes[index];
    if IsLeaf(n) then [LeafLine(index, depth)]
    else [InternalLine(index, n.childCount, depth)] + PrintChildren(t, n.children[..n.childCount], depth + 1, index)
  }

  function PrintChildren(t: Tree, ks: seq<nat>, depth: nat, bound: nat): (lines: seq<string>)
    requires Printable(t) && bound <= |t.nodes|
    requires forall j :: 0 <= j < |ks| ==> ks[j] < bound
    ensures |lines| >= |ks|
    decreases bound, |ks|
  {
    if |ks| == 0 then []
    else PrintNode(t, ks[0], depth) + PrintChildren(t, ks[1..], depth, bound)
  }

  /** `print`, starting from node `start`. */
  function PrintFrom(t: Tree, start: nat): (lines: seq<string>)
    requires Printable(t) && (|t.nodes| > 0 ==> start < |t.nodes|)
    ensures |t.nodes| == 0 ==> lines == ["(BVH is empty)"]
    ensures |t.nodes| > 0 ==> |lines| >= 2 && lines[0] == "BVH Tree:"
    ensures |t.nodes| > 0 ==> lines[1] == (if IsLeaf(t.nodes[start]) then LeafLine(start, 0)
                                           else InternalLine(start, ChildCount(t.nodes[start]), 0))
  {
    if |t.nodes| == 0 then ["(BVH is empty)"]
    else ["BVH Tree:"] + PrintNode(t, start, 0)
  }

  /** The source's `print` starts at node 0. */
  function PrintAsWritten(t: Tree): (lines: seq<string>)
    requires Printable(t)
    ensures |t.nodes| > 0 ==> |lines| >= 2 && lines[1] == (if IsLeaf(t.nodes[0]) then LeafLine(0, 0)
                                                           else InternalLine(0, ChildCount(t.nodes[0]), 0))
  {
    PrintFrom(t, 0)
  }

  /** `print` from the root, which the build leaves as the last node. */
  function Print(t: Tree): (lines: seq<string>)
    requires Printable(t)
    ensures |t.nodes| == 0 ==> lines == ["(BVH is empty)"]
    ensures |t.nodes| > 0 ==>
      var last := |t.nodes| - 1;
      |lines| >= 2 && lines[1] == (if IsLeaf(t.nodes[last]) then LeafLine(last, 0)
                                   else InternalLine(last, ChildCount(t.nodes[last]), 0))
  {
    PrintFrom(t, if |t.nodes| == 0 then 0 else |t.nodes| - 1)
  }

  lemma WellFormedPrintable(t: Tree, leafCount: nat, maxChildren: nat)
    requires WellFormed(t, leafCount, maxChildren)
    ensures Printable(t)
  {
  }

  /** As written, a non-empty build prints as a single leaf, node 0,
      whatever the number of leaves. */
  lemma AsWrittenPrintShowsOneLeaf(leaves: seq<Interval>, maxChildren: nat)
    requires maxChildren >= 2 && |leaves| > 0
    ensures var t := BuildAsWritten(leaves, maxChildren).0;
      Printable(t) && PrintAsWritten(t) == ["BVH Tree:", LeafLine(0, 0)]
  {
  }

  /** With counts stored and printing from the root, a build of two or more
      leaves prints the root first, as an internal node with its child
      count. */
  lemma PrintShowsRoot(leaves: seq<Interval>, maxChildren: nat)
    requires maxChildren >= 2 && |leaves| >= 2
    ensures var (t, root) := Build(leaves, maxChildren);
      && Printable(t)
      && Print(t)[1] == InternalLine(root, |t.nodes[root].children|, 0)
  {
    var (t, root) := Build(leaves, maxChildren);
    WellFormedPrintable(t, |leaves|, maxChildren);
  }
}

=== FILE: events.dfy ===
/** Events and the event handler. An event names its type by a library
    string and a 64-bit identifier and carries either a pointer with a byte
    count or up to 16 bytes in place. A handler either passes each event to its
    callback at once or queues it until `handleEvents`; the callback is outside
    the model, so every operation returns the events it handed to the callback,
    in order. */
module Events {
  import opened Wrappers
  import opened Numeric

  /** The library name is the text of a C string (no NUL inside). */
  datatype EventType = EventType(library: string, event: nat)

  datatype EventData = External(data: nat, dataSize: nat) | InPlace(bytes: seq<Byte>)

  datatype Event = Event(eventType: EventType, data: EventData)

  /** The maximum number of bytes stored in place. */
  const IN_PLACE_SIZE: nat := 16

  /** An event without data: a null pointer and a size of 0. */
  function Simple(library: string, event: nat): (e: Event)
    ensures e.eventType == EventType(library, event) && e.data == External(0, 0)
  {
    Event(EventType(library, event), External(0, 0))
  }

  /** An event that refers to external data. */
  function WithData(library: string, event: nat, data: nat, dataSize: nat): (e: Event)
    ensures e.eventType == EventType(library, event) && e.data == External(data, dataSize)
  {
    Event(EventType(library, event), External(data, dataSize))
  }

  /** An event with its data copied in place; the size is not checked, so
      callers must keep it within the 16 bytes. */
  function WithInPlace(library: string, event: nat, bytes: seq<Byte>): (e: Event)
    requires |bytes| <= IN_PLACE_SIZE
    ensures e.eventType == EventType(library, event) && e.data == InPlace(bytes)
  {
    Event(EventType(library, event), InPlace(bytes))
  }

  /** `operator==`: the same library text and the same identifier; the data is not compared. */
  predicate SameType(a: Event, b: Event) {
    a.eventType.library == b.eventType.library && a.eventType.event == b.eventType.event
  }

  /** Event equality is an equivalence that looks only at the type. */
  lemma SameTypeIsEquivalence(a: Event, b: Event, c: Event)
    ensures SameType(a, a)
    ensures SameType(a, b) ==> SameType(b, a)
    ensures SameType(a, b) && SameType(b, c) ==> SameType(a, c)
    ensures SameType(a, b) <==> a.eventType == b.eventType
    ensures SameType(a, Event(a.eventType, b.data))
  {
  }

  // ---------------------------------------------------------------------
  // The handler

  datatype Handler = Handler(deferEvents: bool, queue: seq<Event>)

  /** The constructor: None where its assertion stops the program because the
      callback is null; deferral is off unless asked for. */
  function NewHandler(hasCallback: bool, deferEvents: bool): (h: Option<Handler>)
    ensures h.Some? <==> hasCallback
    ensures h.Some? ==> h.value.deferEvents == deferEvents && h.value.queue == []
  {
    if hasCallback then Some(Handler(deferEvents, [])) else None
  }

  /** A handler state and the events handed to the callback on the way there. */
  datatype Step = Step(handler: Handler, delivered: seq<Event>)

  /** `sendEventInstant`: the callback runs on the event now. */
  function SendInstant(h: Handler, e: Event): (s: Step)
    ensures s.handler == h && s.delivered == [e]
  {
    Step(h, [e])
  }

  /** `sendEventDeferred`: the event goes to the end of the queue. */
  function SendDeferred(h: Handler, e: Event): (s: Step)
    ensures s.handler.deferEvents == h.deferEvents && s.delivered == []
    ensures s.handler.queue == h.queue + [e]
  {
    Step(h.(queue := h.queue + [e]), [])
  }

  /** `sendEvent`: queued when deferral is on, otherwise handled now. */
  function Send(h: Handler, e: Event): (s: Step)
    ensures h.deferEvents ==> s == SendDeferred(h, e)
    ensures !h.deferEvents ==> s == SendInstant(h, e)
  {
    if h.deferEvents then SendDeferred(h, e) else SendInstant(h, e)
  }

  /** `handleEvents`: every queued event goes to the callback in queue order,
      then the queue is emptied. */
  function HandleEvents(h: Handler): (s: Step)
    ensures s.delivered == h.queue && s.handler.queue == []
    ensures s.handler.deferEvents == h.deferEvents
  {
    if |h.queue| == 0 then Step(h, []) else Step(h.(queue := []), h.queue)
  }

  /** `setDeferEvents`. */
  function SetDeferEvents(h: Handler, deferEvents: bool): (h': Handler)
    ensures h'.queue == h.queue
  {
    h.(deferEvents := deferEvents)
  }

  /** `getDeferEvents`. */
  function GetDeferEvents(h: Handler): bool {
    h.deferEvents
  }

  lemma GetAfterSetDefer(h: Handler, deferEvents: bool)
    ensures GetDeferEvents(SetDeferEvents(h, deferEvents)) == deferEvents
  {
  }

  // ---------------------------------------------------------------------
  // Runs of operations

  datatype Op = SendOp(e: Event) | SendInstantOp(e: Event) | SendDeferredOp(e: Event) | SetDeferOp(b: bool) | HandleOp

  function Apply(h: Handler, op: Op): Step {
    match op
    case SendOp(e) => Send(h, e)
    case SendInstantOp(e) => SendInstant(h, e)
    case SendDeferredOp(e) => SendDeferred(h, e)
    case SetDeferOp(b) => Step(SetDeferEvents(h, b), [])
    case HandleOp => HandleEvents(h)
  }

  /** The events a run of operations sends, in the order they are sent. */
  function Sent(ops: seq<Op>): seq<Event> {
    if |ops| == 0 then []
    else
      var last := ops[|ops| - 1];
      Sent(ops[..|ops| - 1]) + (if last.SendOp? || last.SendInstantOp? || last.SendDeferredOp? then [last.e] else [])
  }

  /** Operations applied in order, with everything delivered along the way. */
  function Run(h: Handler, ops: seq<Op>): Step {
    if |ops| == 0 then Step(h, [])
    else
      var before := Run(h, ops[..|ops| - 1]);
      var after := Apply(before.handler, ops[|ops| - 1]);
      Step(after.handler, before.delivered + after.delivered)
  }

  /** Events sent with deferral on stay in sending order in the queue. */
  lemma DeferredKeepsOrder(h: Handler, es: seq<Event>)
    requires h.deferEvents
    ensures var ops := seq(|es|, i requires 0 <= i < |es| => SendOp(es[i]));
            && Run(h, ops).handler.queue == h.queue + es
            && Run(h, ops).delivered == []
  {
    var ops := seq(|es|, i requires 0 <= i < |es| => SendOp(es[i]));
    if |es| > 0 {
      var init := es[..|es| - 1];
      assert ops[..|ops| - 1] == seq(|init|, i requires 0 <= i < |init| => SendOp(init[i]));
      DeferredKeepsOrder(h, init);
      assert h.queue + init + [es[|es| - 1]] == h.queue + es;
    }
  }

  /** When instant events only arrive with an empty queue, nothing is lost,
      duplicated or reordered: what the callback has seen, followed by what
      is still queued, is the old queue followed by every event sent. */
  lemma {:induction false} RunDeliversInOrder(h: Handler, ops: seq<Op>)
    requires h.queue == []
    requires forall k :: 0 <= k < |ops| ==> (ops[k].SendInstantOp? || (ops[k].SendOp? && !Run(h, ops[..k]).handler.deferEvents)) ==> Run(h, ops[..k]).handler.queue == []
    ensures Run(h, ops).delivered + Run(h, ops).handler.queue == Sent(ops)
  {
    if |ops| > 0 {
      var init := ops[..|ops| - 1];
      forall k | 0 <= k < |init| ensures (init[k].SendInstantOp? || (init[k].SendOp? && !Run(h, init[..k]).handler.deferEvents)) ==> Run(h, init[..k]).handler.queue == [] {
        assert init[..k] == ops[..k];
      }
      RunDeliversInOrder(h, init);
      assert ops[..|ops| - 1] == init;
    }
  }
}

=== FILE: file_model.dfy ===
/** A file handle with a pipeline of decorators. Opening reads the whole file
    into memory and runs the decorators' preprocessors over the contents;
    saving runs their postprocessors and writes the result back. The disk is
    a map from paths to contents (a path is a regular file exactly when it
    is a key), and the hooks a decorator may have for opening and closing
    are recorded in the order they are called. */
module Files {
  import opened Wrappers
  import opened Numeric
  import opened Seqs

  type Disk = map<string, Bytes>

  /** A decorator. A processor is a function over the contents, or None
      where the pointer is null; the user data is part of the function. */
  datatype Decorator = Decorator(
    preprocessor: Option<Bytes -> Bytes>,
    postprocessor: Option<Bytes -> Bytes>,
    onOpen: bool,
    onClose: bool)

  /** `open` is whether the C file handle is non-null. */
  datatype File = File(open: bool, path: string, contents: Bytes, decorators: seq<Decorator>)

  datatype HookKind = Opened | Closed

  /** A call of decorator `decorator`'s open or close hook on `path`. */
  datatype Hook = Hook(kind: HookKind, decorator: nat, path: string)

  /** A file, the disk and the hooks called on the way there. */
  datatype Step = Step(file: File, disk: Disk, hooks: seq<Hook>)

  /** A file that has never been opened. */
  function Unopened(decorators: seq<Decorator>): (f: File)
    ensures !IsOpen(f) && Size(f) == 0 && DecoratorCount(f) == |decorators|
  {
    File(false, "", [], decorators)
  }

  // ---------------------------------------------------------------------
  // Accessors and the decorator list

  /** `isOpen`. */
  predicate IsOpen(f: File) {
    f.open
  }

  /** `getSize`: the length of the contents in memory. */
  function Size(f: File): nat {
    |f.contents|
  }

  /** `getFileDecoratorCount`. */
  function DecoratorCount(f: File): nat {
    |f.decorators|
  }

  /** `getFileDecorator`: the index is not checked. */
  function GetDecorator(f: File, index: nat): Decorator
    requires index < DecoratorCount(f)
  {
    f.decorators[index]
  }

  /** `addFileDecorator`: the decorator goes to the end of the list. */
  function AddDecorator(f: File, d: Decorator): (f': File)
    ensures DecoratorCount(f') == DecoratorCount(f) + 1
    ensures GetDecorator(f', DecoratorCount(f)) == d
    ensures forall i :: 0 <= i < DecoratorCount(f) ==> GetDecorator(f', i) == GetDecorator(f, i)
    ensures f'.open == f.open && f'.path == f.path && f'.contents == f.contents
  {
    f.(decorators := f.decorators + [d])
  }

  /** `removeFileDecorator`: `vector::erase` at an unchecked index, so the
      index must name a decorator. */
  function RemoveDecorator(f: File, index: nat): (f': File)
    requires index < DecoratorCount(f)
    ensures DecoratorCount(f') == DecoratorCount(f) - 1
    ensures forall i :: 0 <= i < index ==> GetDecorator(f', i) == GetDecorator(f, i)
    ensures forall i :: index <= i < DecoratorCount(f') ==> GetDecorator(f', i) == GetDecorator(f, i + 1)
    ensures f'.open == f.open && f'.path == f.path && f'.contents == f.contents
  {
    f.(decorators := RemoveAt(f.decorators, index))
  }

  /** Removing the decorator just added gives the file back. */
  lemma RemoveUndoesAdd(f: File, d: Decorator)
    ensures RemoveDecorator(AddDecorator(f, d), DecoratorCount(f)) == f
  {
    assert (f.decorators + [d])[..|f.decorators|] == f.decorators;
  }

  // ---------------------------------------------------------------------
  // The processor pipeline

  function Apply(p: Option<Bytes -> Bytes>, c: Bytes): Bytes {
    if p.Some? then p.value(c) else c
  }

  /** The preprocessors that are set, first decorator first. */
  function Pre(ds: seq<Decorator>, c: Bytes): Bytes {
    if |ds| == 0 then c else Apply(ds[|ds| - 1].preprocessor, Pre(ds[..|ds| - 1], c))
  }

  /** The postprocessors that are set, last decorator first. */
  function Post(ds: seq<Decorator>, c: Bytes): Bytes {
    if |ds| == 0 then c else Post(ds[..|ds| - 1], Apply(ds[|ds| - 1].postprocessor, c))
  }

  /** Preprocessing through two lists runs the first list, then the second. */
  lemma {:induction false} PreOfConcat(ds: seq<Decorator>, es: seq<Decorator>, c: Bytes)
    ensures Pre(ds + es, c) == Pre(es, Pre(ds, c))
  {
    if |es| == 0 {
      assert ds + es == ds;
    } else {
      var init := es[..|es| - 1];
      assert (ds + es)[..|ds + es| - 1] == ds + init;
      PreOfConcat(ds, init, c);
    }
  }

  /** Postprocessing through two lists runs the second list, then the first. */
  lemma {:induction false} PostOfConcat(ds: seq<Decorator>, es: seq<Decorator>, c: Bytes)
    ensures Post(ds + es, c) == Post(ds, Post(es, c))
  {
    if |es| == 0 {
      assert ds + es == ds;
    } else {
      var init := es[..|es| - 1];
      var last := es[|es| - 1];
      assert (ds + es)[..|ds + es| - 1] == ds + init;
      PostOfConcat(ds, init, Apply(last.postprocessor, c));
    }
  }

  /** A decorator whose postprocessor undoes its preprocessor, such as one
      that decompresses on load and compresses on save. */
  ghost predicate Inverts(d: Decorator) {
    forall c :: Apply(d.postprocessor, Apply(d.preprocessor, c)) == c
  }

  /** Because saving runs the postprocessors in the reverse of the loading
      order, a stack of inverting decorators undoes itself as a whole. */
  lemma {:induction false} PostUndoesPre(ds: seq<Decorator>, c: Bytes)
    requires forall i :: 0 <= i < |ds| ==> Inverts(ds[i])
    ensures Post(ds, Pre(ds, c)) == c
  {
    if |ds| > 0 {
      var init := ds[..|ds| - 1];
      var last := ds[|ds| - 1];
      assert Inverts(last);
      assert Apply(last.postprocessor, Pre(ds, c)) == Pre(init, c);
      PostUndoesPre(init, c);
    }
  }

  // ---------------------------------------------------------------------
  // Hooks

  predicate Wants(d: Decorator, kind: HookKind) {
    if kind == Opened then d.onOpen else d.onClose
  }

  /** The open or close hooks that are set, called on `path` in list order. */
  function Hooks(ds: seq<Decorator>, kind: HookKind, path: string): (hs: seq<Hook>)
    ensures forall k :: 0 <= k < |hs| ==>
              hs[k].kind == kind && hs[k].path == path && hs[k].decorator < |ds| && Wants(ds[hs[k].decorator], kind)
    ensures forall i :: 0 <= i < |ds| && Wants(ds[i], kind) ==> Hook(kind, i, path) in hs
    ensures forall a, b :: 0 <= a < b < |hs| ==> hs[a].decorator < hs[b].decorator
  {
    if |ds| == 0 then []
    else
      var init := Hooks(ds[..|ds| - 1], kind, path);
      init + if Wants(ds[|ds| - 1], kind) then [Hook(kind, |ds| - 1, path)] else []
  }

  // ---------------------------------------------------------------------
  // Save, close, open and reload

  /** `save`: on an open file, the postprocessed contents become the file's
      contents. The in-memory contents stay as they were. */
  function Save(f: File, disk: Disk): (r: (File, Disk))
    ensures r.0 == f
    ensures !IsOpen(f) ==> r.1 == disk
    ensures IsOpen(f) ==> r.1.Keys == disk.Keys + {f.path}
    ensures IsOpen(f) ==> r.1[f.path] == Post(f.decorators, f.contents)
    ensures forall p :: p in disk && p != f.path ==> r.1[p] == disk[p]
  {
    if !f.open then (f, disk) else (f, disk[f.path := Post(f.decorators, f.contents)])
  }

  /** The file left on disk by `save` as written: the contents are
      overwritten from the start and nothing is truncated. */
  function Overwrite(prior: Bytes, c: Bytes): (r: Bytes)
    ensures |c| <= |r| && |r| == if |c| < |prior| then |prior| else |c|
    ensures r[..|c|] == c
    ensures |c| < |prior| ==> r[|c|..] == prior[|c|..]
  {
    if |c| < |prior| then c + prior[|c|..] else c
  }

  /** `save` as written: the postprocessors run in place on the contents in
      memory, and the result is written over the start of the file. */
  function SaveAsWritten(f: File, disk: Disk): (r: (File, Disk))
    ensures !IsOpen(f) ==> r == (f, disk)
    ensures IsOpen(f) ==> r.0 == f.(contents := Post(f.decorators, f.contents))
    ensures IsOpen(f) ==> r.1.Keys == disk.Keys + {f.path}
    ensures IsOpen(f) ==> f.path in r.1 && Size(r.0) <= |r.1[f.path]| && r.1[f.path][..Size(r.0)] == r.0.contents
    ensures forall p :: p in disk && p != f.path ==> r.1[p] == disk[p]
  {
    if !f.open then (f, disk)
    else
      var c := Post(f.decorators, f.contents);
      var prior := if f.path in disk then disk[f.path] else [];
      (f.(contents := c), disk[f.path := Overwrite(prior, c)])
  }

  /** `close`: an open file is saved (by `save` as written), its close hooks
      run, and the contents and path are reset; a closed file is left alone. */
  function Close(f: File, disk: Disk): (s: Step)
    ensures !IsOpen(s.file) && s.file.decorators == f.decorators
    ensures !IsOpen(f) ==> s == Step(f, disk, [])
    ensures IsOpen(f) ==> s.file.path == "" && s.file.contents == []
    ensures IsOpen(f) ==> s.disk == SaveAsWritten(f, disk).1
    ensures IsOpen(f) ==> s.hooks == Hooks(f.decorators, Closed, f.path)
  {
    if !f.open then Step(f, disk, [])
    else Step(File(false, "", [], f.decorators), SaveAsWritten(f, disk).1, Hooks(f.decorators, Closed, f.path))
  }

  /** When the postprocessed contents are at least as long as the file on
      disk (or there is none), closing leaves the disk as the corrected
      `save` would. */
  lemma CloseAgreesWithSave(f: File, disk: Disk)
    requires IsOpen(f)
    requires f.path !in disk || |disk[f.path]| <= |Post(f.decorators, f.contents)|
    ensures Close(f, disk).disk == Save(f, disk).1
  {
    var c := Post(f.decorators, f.contents);
    var prior := if f.path in disk then disk[f.path] else [];
    assert Overwrite(prior, c) == Overwrite(prior, c)[..|c|];
  }

  /** `open`: any open file is closed first. A path that is a regular file
      is read whole; a missing path fails unless creation is allowed, in
      which case an empty file is created and the contents in memory are
      kept. On success the open hooks run, then the preprocessors. */
  function Open(f: File, disk: Disk, path: string, allowCreate: bool): (r: (bool, Step))
    ensures r.0 <==> IsOpen(r.1.file)
    ensures r.0 ==> r.1.file.path == path && path in r.1.disk
    ensures r.1.file.decorators == f.decorators
  {
    var closed := Close(f, disk);
    var g := closed.file;
    var d := closed.disk;
    if path !in d && !allowCreate then (false, closed)
    else
      var read := if path in d then d[path] else g.contents;
      var d' := if path in d then d else d[path := []];
      (true, Step(File(true, path, Pre(g.decorators, read), g.decorators), d', closed.hooks + Hooks(g.decorators, Opened, path)))
  }

  /** The constructor that opens a file. */
  function New(disk: Disk, path: string, allowCreate: bool, decorators: seq<Decorator>): (r: (bool, Step))
    ensures r.0 <==> path in disk || allowCreate
    ensures r.1.file.decorators == decorators && (r.0 <==> IsOpen(r.1.file))
    ensures r.0 ==> r.1.file.path == path && r.1.file.contents == Pre(decorators, if path in disk then disk[path] else [])
    ensures r.1.disk == if r.0 && path !in disk then disk[path := []] else disk
    ensures r.1.hooks == if r.0 then Hooks(decorators, Opened, path) else []
  {
    Open(Unopened(decorators), disk, path, allowCreate)
  }

  /** `reload`: the stream is closed without saving and the same path is
      opened again without creation; the result is whether that open
      succeeded. */
  function Reload(f: File, disk: Disk): (r: (bool, Step))
    ensures !IsOpen(f) ==> r == (false, Step(f, disk, []))
    ensures r.1.disk == disk
  {
    if !f.open then (false, Step(f, disk, [])) else Open(f.(open := false), disk, f.path, false)
  }

  // ---------------------------------------------------------------------
  // Properties of opening

  /** Opening succeeds exactly when the path is a file once the current file
      is saved (which makes the current path one) or creation is allowed. */
  lemma OpenSucceeds(f: File, disk: Disk, path: string, allowCreate: bool)
    ensures Open(f, disk, path, allowCreate).0 <==> path in disk || allowCreate || (IsOpen(f) && f.path == path)
    ensures Open(f, disk, path, allowCreate).0 <==> IsOpen(Open(f, disk, path, allowCreate).1.file)
  {
  }

  /** A failed open leaves no file open, and the disk and hooks are those
      of closing the previous file. */
  lemma OpenFailureCloses(f: File, disk: Disk, path: string)
    requires path !in disk && !(IsOpen(f) && f.path == path)
    ensures var r := Open(f, disk, path, false);
            && !r.0 && !IsOpen(r.1.file) && r.1 == Close(f, disk)
  {
  }

  /** Opening an existing file reads its contents through the preprocessors
      and leaves the disk as saving the previous file left it; the close
      hooks of the previous file come before the open hooks of the new one. */
  lemma OpenExisting(f: File, disk: Disk, path: string, allowCreate: bool)
    requires path in disk && !(IsOpen(f) && f.path == path)
    ensures var r := Open(f, disk, path, allowCreate);
            && r.0 && r.1.file.path == path && r.1.file.decorators == f.decorators
            && r.1.file.contents == Pre(f.decorators, disk[path])
            && r.1.disk == Close(f, disk).disk && r.1.disk[path] == disk[path]
            && r.1.hooks == Close(f, disk).hooks + Hooks(f.decorators, Opened, path)
  {
  }

  /** Creating a missing file adds it empty, and the contents in memory
      (empty after a close) go through the preprocessors. */
  lemma OpenCreates(f: File, disk: Disk, path: string)
    requires path !in disk && !(IsOpen(f) && f.path == path)
    ensures var r := Open(f, disk, path, true);
            && r.0 && r.1.disk == Close(f, disk).disk[path := []]
            && r.1.file.contents == Pre(f.decorators, Close(f, disk).file.contents)
            && (IsOpen(f) ==> r.1.file.contents == Pre(f.decorators, []))
  {
  }

  /** With inverting decorators, opening a file and closing it again leaves
      the disk as it was. */
  lemma OpenCloseRestores(ds: seq<Decorator>, disk: Disk, path: string, allowCreate: bool)
    requires path in disk
    requires forall i :: 0 <= i < |ds| ==> Inverts(ds[i])
    ensures var r := New(disk, path, allowCreate, ds);
            && r.0 && Close(r.1.file, r.1.disk).disk == disk
  {
    PostUndoesPre(ds, disk[path]);
  }

  /** The same with any number of saves in between: saving does not change
      what a later save writes. */
  lemma SaveTwiceCloseRestores(ds: seq<Decorator>, disk: Disk, path: string)
    requires path in disk
    requires forall i :: 0 <= i < |ds| ==> Inverts(ds[i])
    ensures var r := New(disk, path, false, ds);
            var s1 := Save(r.1.file, r.1.disk);
            var s2 := Save(s1.0, s1.1);
            && Close(s2.0, s2.1).disk == disk
  {
    PostUndoesPre(ds, disk[path]);
  }

  /** After `save` the file holds exactly the postprocessed contents, however
      long it was before. */
  lemma SaveWritesContents(f: File, disk: Disk)
    requires IsOpen(f)
    ensures var d := Save(f, disk).1;
            && f.path in d && |d[f.path]| == |Post(f.decorators, f.contents)|
            && d[f.path] == Post(f.decorators, f.contents)
  {
  }

  // ---------------------------------------------------------------------
  // Save as written

  /** A decorator that flips the lowest bit of every byte on load and on save. */
  function FlipLowBit(c: Bytes): (r: Bytes)
    ensures |r| == |c|
    ensures forall i :: 0 <= i < |c| ==> r[i] == if c[i] % 2 == 0 then c[i] + 1 else c[i] - 1
  {
    seq(|c|, i requires 0 <= i < |c| => if c[i] % 2 == 0 then c[i] + 1 else c[i] - 1)
  }

  const FLIP: Decorator := Decorator(Some(FlipLowBit), Some(FlipLowBit), false, false)

  lemma FlipInverts()
    ensures Inverts(FLIP)
  {
    forall c: Bytes ensures Apply(FLIP.postprocessor, Apply(FLIP.preprocessor, c)) == c {
      var once := FlipLowBit(c);
      assert FlipLowBit(once) == c;
    }
  }

  /** As written, a second save postprocesses the already postprocessed
      contents: a file holding [0] opened with the flipping decorator and
      saved twice holds [1], although the decorator inverts itself. */
  lemma SaveTwiceAsWrittenCorrupts()
    ensures Inverts(FLIP)
    ensures var disk := map["a" := [0]];
            var r := New(disk, "a", false, [FLIP]);
            var s1 := SaveAsWritten(r.1.file, r.1.disk);
            var s2 := SaveAsWritten(s1.0, s1.1);
            && r.0 && s1.1 == disk && s2.1["a"] == [1]
  {
    FlipInverts();
    var disk := map["a" := [0]];
    assert FlipLowBit([0]) == [1];
    assert FlipLowBit([1]) == [0];
    assert [FLIP][..0] == [];
    assert Apply(FLIP.preprocessor, [0]) == [1];
    assert Pre([FLIP], [0]) == [1];
    var r := New(disk, "a", false, [FLIP]);
    assert r.1.file.contents == Pre([FLIP], [0]);
    assert r.1.file.contents == [1];
    var s1 := SaveAsWritten(r.1.file, r.1.disk);
    assert Apply(FLIP.postprocessor, [1]) == [0];
    assert Post([FLIP], [1]) == [0];
    assert s1.0.contents == [0];
    assert s1.1 == disk;
    assert Apply(FLIP.postprocessor, [0]) == [1];
    assert Post([FLIP], [0]) == [1];
    assert Overwrite([0], [1]) == [1];
  }

  /** As written, contents shorter than the file leave the file's prior tail
      behind: a file holding [1, 2] whose contents are cut to [3] holds
      [3, 2] after a save. */
  lemma ShortSaveAsWrittenKeepsTail()
    ensures var disk := map["a" := [1, 2]];
            var r := New(disk, "a", false, []);
            && r.0 && SaveAsWritten(r.1.file.(contents := [3]), r.1.disk).1["a"] == [3, 2]
  {
    var disk := map["a" := [1, 2]];
    var r := New(disk, "a", false, []);
    var f := r.1.file.(contents := [3]);
    assert Post(f.decorators, f.contents) == [3];
    assert Overwrite([1, 2], [3]) == [3, 2];
  }

  /** Closing saves as written, so the same tail survives a close: the
      corrected `save` would leave [3]. */
  lemma ShortCloseKeepsTail()
    ensures var disk := map["a" := [1, 2]];
            var r := New(disk, "a", false, []);
            var f := r.1.file.(contents := [3]);
            && r.0 && Close(f, r.1.disk).disk["a"] == [3, 2]
            && Save(f, r.1.disk).1["a"] == [3]
  {
    var disk := map["a" := [1, 2]];
    var r := New(disk, "a", false, []);
    var f := r.1.file.(contents := [3]);
    assert Post(f.decorators, f.contents) == [3];
    assert Overwrite([1, 2], [3]) == [3, 2];
  }

  // ---------------------------------------------------------------------
  // Reload

  /** Reloading an open file whose path still exists reverts any edits in
      memory to the file's contents, runs the open hooks again and writes
      nothing; no close hooks run. */
  lemma ReloadRevertsEdits(f: File, disk: Disk, edited: Bytes)
    requires IsOpen(f) && f.path in disk
    ensures var r := Reload(f.(contents := edited), disk);
            && r.0 && IsOpen(r.1.file) && r.1.file.path == f.path
            && r.1.file.contents == Pre(f.decorators, disk[f.path])
            && r.1.disk == disk && r.1.hooks == Hooks(f.decorators, Opened, f.path)
  {
  }

  /** Reloading a file whose path has gone fails and leaves it closed, but
      keeps the path and the contents in memory, since the stream is closed
      without the reset `close` does. */
  lemma ReloadOfRemovedFile(f: File, disk: Disk)
    requires IsOpen(f) && f.path !in disk
    ensures var r := Reload(f, disk);
            && !r.0 && !IsOpen(r.1.file) && r.1.file.path == f.path
            && r.1.file.contents == f.contents && r.1.hooks == []
  {
  }

  /** Closing twice is closing once. */
  lemma CloseIdempotent(f: File, disk: Disk)
    ensures var s := Close(f, disk);
            Close(s.file, s.disk) == Step(s.file, s.disk, [])
  {
  }
}

=== FILE: layer_stack.dfy ===
/** The layer stack: an ordered list of layers, each identified by a
    (library, name) pair compared by string content, plus a flag recording
    whether startup has been signalled. Layer callbacks are not modelled; the
    signals return the layers they notify, in order. */
module LayerStack {
  import opened Wrappers
  import opened Numeric
  import opened Seqs

  /** A layer: its identifying pair, whether it is a C++ `LayerBase`
      subclass or a C `Layer` record, and its address. */
  datatype Layer = Layer(library: string, name: string, isLayerBase: bool, address: nat)

  /** Bytes per stack element: a flag and a pointer, padded to 16. */
  const ELEMENT_SIZE: nat := 16

  /** The largest element count whose byte size a `size_t` can hold. */
  const MAX_LAYERS: nat := UINT64_LIMIT / ELEMENT_SIZE

  datatype Stack = Stack(layers: seq<Layer>, started: bool)

  predicate SameKey(a: Layer, library: string, name: string) {
    a.library == library && a.name == name
  }

  /** No two layers share a (library, name) pair. */
  predicate Unique(layers: seq<Layer>) {
    forall i, j :: 0 <= i < j < |layers| ==> !SameKey(layers[j], layers[i].library, layers[i].name)
  }

  predicate Contains(layers: seq<Layer>, library: string, name: string) {
    exists i :: 0 <= i < |layers| && SameKey(layers[i], library, name)
  }

  /** `getLayerIndex`: the first position whose pair matches, or SIZE_MAX. */
  function LayerIndex(layers: seq<Layer>, library: string, name: string): (r: nat)
    requires |layers| < MAX_LAYERS
    ensures r == SIZE_MAX <==> !Contains(layers, library, name)
    ensures r != SIZE_MAX ==>
      r < |layers| && SameKey(layers[r], library, name)
      && forall i :: 0 <= i < r ==> !SameKey(layers[i], library, name)
  {
    if |layers| == 0 then SIZE_MAX
    else if SameKey(layers[0], library, name) then 0
    else
      var rest := LayerIndex(layers[1..], library, name);
      assert forall i :: 1 <= i < |layers| ==> layers[i] == layers[1..][i - 1];
      if rest == SIZE_MAX then SIZE_MAX else rest + 1
  }

  // ---------------------------------------------------------------------
  // The range check

  /** The range check as written: the index is scaled to bytes in wrapping
      64-bit arithmetic and compared with the byte size. */
  predicate PassesRangeCheckAsWritten(index: nat, count: nat) {
    WrapUnsigned(index * ELEMENT_SIZE, UINT64_LIMIT) < count * ELEMENT_SIZE
  }

  /** The range check as intended. */
  predicate InRange(index: nat, count: nat) {
    index < count
  }

  /** Without wrap-around the two checks agree; in particular the SIZE_MAX a
      failed lookup returns is rejected by both. */
  lemma RangeChecksAgreeBelowWrap(index: nat, count: nat)
    requires index < MAX_LAYERS && count < MAX_LAYERS
    ensures PassesRangeCheckAsWritten(index, count) <==> InRange(index, count)
  {
  }

  lemma NotFoundRejected(count: nat)
    requires count < MAX_LAYERS
    ensures !PassesRangeCheckAsWritten(SIZE_MAX, count) && !InRange(SIZE_MAX, count)
  {
    assert SIZE_MAX * ELEMENT_SIZE == (ELEMENT_SIZE - 1) * UINT64_LIMIT + (UINT64_LIMIT - ELEMENT_SIZE);
  }

  /** Index 2^60 on a one-layer stack wraps to byte offset 0 and passes. */
  lemma HugeIndexPassesRangeCheck()
    ensures PassesRangeCheckAsWritten(0x1000_0000_0000_0000, 1)
    ensures !InRange(0x1000_0000_0000_0000, 1)
  {
    assert 0x1000_0000_0000_0000 * ELEMENT_SIZE == UINT64_LIMIT;
  }

  // ---------------------------------------------------------------------
  // Operations

  const EMPTY: Stack := Stack([], false)

  /** `getElement(index)`: the layer at `index`, or nothing when out of range. */
  function GetElement(s: Stack, index: nat): (r: Option<Layer>)
    ensures r.Some? <==> index < |s.layers|
    ensures r.Some? ==> r.value == s.layers[index]
  {
    if InRange(index, |s.layers|) then Some(s.layers[index]) else None
  }

  /** `getElement(library, name)`: the layer with that pair, if any. */
  function GetElementByName(s: Stack, library: string, name: string): (r: Option<Layer>)
    requires |s.layers| < MAX_LAYERS
    ensures r.None? <==> !Contains(s.layers, library, name)
    ensures r.Some? ==> r.value in s.layers && SameKey(r.value, library, name)
  {
    GetElement(s, LayerIndex(s.layers, library, name))
  }

  /** `addNewLayer`: refused when the pair is already present, otherwise the
      layer goes at the end. */
  function AddNewLayer(s: Stack, layer: Layer): (res: (Stack, bool))
    requires |s.layers| < MAX_LAYERS
    ensures res.1 <==> !Contains(s.layers, layer.library, layer.name)
    ensures res.1 ==> res.0 == s.(layers := s.layers + [layer])
    ensures !res.1 ==> res.0 == s
  {
    if LayerIndex(s.layers, layer.library, layer.name) != SIZE_MAX then (s, false)
    else (s.(layers := s.layers + [layer]), true)
  }

  lemma AddNewLayerKeepsUnique(s: Stack, layer: Layer)
    requires |s.layers| < MAX_LAYERS && Unique(s.layers)
    ensures Unique(AddNewLayer(s, layer).0.layers)
  {
    var (s', ok) := AddNewLayer(s, layer);
    if ok {
      forall i, j | 0 <= i < j < |s'.layers|
        ensures !SameKey(s'.layers[j], s'.layers[i].library, s'.layers[i].name)
      {
        if j == |s.layers| {
          assert !SameKey(s.layers[i], layer.library, layer.name);
        }
      }
    }
  }

  /** A stack built from a list of layers: each is added in order and a
      refused one aborts construction. */
  function FromLayers(ls: seq<Layer>): (r: Option<Stack>)
    requires |ls| < MAX_LAYERS
    ensures r.Some? <==> Unique(ls)
    ensures r.Some? ==> r.value == Stack(ls, false)
  {
    if |ls| == 0 then Some(EMPTY)
    else
      var prefix := ls[..|ls| - 1];
      var last := ls[|ls| - 1];
      match FromLayers(prefix)
      case None =>
        assert !Unique(ls) by {
          assert !Unique(prefix);
          assert forall i :: 0 <= i < |prefix| ==> ls[i] == prefix[i];
        }
        None
      case Some(s) =>
        var (s', ok) := AddNewLayer(s, last);
        if ok then
          assert ls == prefix + [last];
          AddNewLayerKeepsUnique(s, last);
          Some(s')
        else
          assert !Unique(ls) by {
            var i :| 0 <= i < |prefix| && SameKey(prefix[i], last.library, last.name);
            assert ls[i] == prefix[i];
          }
          None
  }

  /** `removeLayer(index)`: refused when out of range, otherwise exactly that
      layer is taken out (and deleted) and the rest keep their order. */
  function RemoveLayer(s: Stack, index: nat): (res: (Stack, bool))
    ensures res.1 <==> index < |s.layers|
    ensures !res.1 ==> res.0 == s
    ensures res.1 ==>
      && |res.0.layers| == |s.layers| - 1
      && multiset(res.0.layers) == multiset(s.layers) - multiset{s.layers[index]}
      && (forall i :: 0 <= i < index ==> res.0.layers[i] == s.layers[i])
      && (forall i :: index <= i < |res.0.layers| ==> res.0.layers[i] == s.layers[i + 1])
      && res.0.started == s.started
  {
    if !InRange(index, |s.layers|) then (s, false)
    else
      RemoveAtMultiset(s.layers, index);
      (s.(layers := RemoveAt(s.layers, index)), true)
  }

  /** `removeLayer(library, name)`: removes the layer with that pair, if any. */
  function RemoveLayerByName(s: Stack, library: string, name: string): (res: (Stack, bool))
    requires |s.layers| < MAX_LAYERS
    ensures res.1 <==> Contains(s.layers, library, name)
    ensures res.1 ==> |res.0.layers| == |s.layers| - 1
    ensures Unique(s.layers) ==> !Contains(res.0.layers, library, name)
  {
    var r := RemoveLayer(s, LayerIndex(s.layers, library, name));
    assert Unique(s.layers) ==> !Contains(r.0.layers, library, name) by {
      if Unique(s.layers) && r.1 {
        var k := LayerIndex(s.layers, library, name);
        forall i | 0 <= i < |r.0.layers| ensures !SameKey(r.0.layers[i], library, name) {
          if k <= i {
            assert r.0.layers[i] == s.layers[i + 1];
          }
        }
      }
    }
    r
  }

  lemma RemoveLayerKeepsUnique(s: Stack, index: nat)
    requires Unique(s.layers)
    ensures Unique(RemoveLayer(s, index).0.layers)
  {
    var (s', ok) := RemoveLayer(s, index);
    if ok {
      forall i, j | 0 <= i < j < |s'.layers|
        ensures !SameKey(s'.layers[j], s'.layers[i].library, s'.layers[i].name)
      {
        var i0 := if i < index then i else i + 1;
        var j0 := if j < index then j else j + 1;
        assert s'.layers[i] == s.layers[i0] && s'.layers[j] == s.layers[j0];
      }
    }
  }

  // ---------------------------------------------------------------------
  // The lookups as written

  /** `getElement(index)` with the wrapping range check. `None` stands for a
      pointer past the end of the layer array, which the check lets through
      when the scaled index wraps; otherwise the lookup gives what the
      corrected `GetElement` gives. */
  function GetElementAsWritten(s: Stack, index: nat): (r: Option<Option<Layer>>)
    ensures r.None? <==> PassesRangeCheckAsWritten(index, |s.layers|) && index >= |s.layers|
    ensures r.Some? ==> r.value == GetElement(s, index)
  {
    if !PassesRangeCheckAsWritten(index, |s.layers|) then Some(None)
    else if InRange(index, |s.layers|) then Some(Some(s.layers[index]))
    else None
  }

  /** `removeLayer(index)` with the wrapping range check. `None` stands for
      the delete and erase of an element past the end, which the check lets
      through when the scaled index wraps. */
  function RemoveLayerAsWritten(s: Stack, index: nat): (r: Option<(Stack, bool)>)
    ensures r.None? <==> PassesRangeCheckAsWritten(index, |s.layers|) && index >= |s.layers|
    ensures r.Some? ==> r.value == RemoveLayer(s, index)
  {
    if PassesRangeCheckAsWritten(index, |s.layers|) && !InRange(index, |s.layers|) then None
    else Some(RemoveLayer(s, index))
  }

  /** Below the wrap-around the lookups as written are defined and agree with
      the corrected ones. */
  lemma AsWrittenAgreesBelowWrap(s: Stack, index: nat)
    requires index < MAX_LAYERS && |s.layers| < MAX_LAYERS
    ensures GetElementAsWritten(s, index) == Some(GetElement(s, index))
    ensures RemoveLayerAsWritten(s, index) == Some(RemoveLayer(s, index))
  {
    RangeChecksAgreeBelowWrap(index, |s.layers|);
  }

  /** The lookups by name pass either a found index or SIZE_MAX, so they are
      defined as written. */
  lemma ByNameDefinedAsWritten(s: Stack, library: string, name: string)
    requires |s.layers| < MAX_LAYERS
    ensures GetElementAsWritten(s, LayerIndex(s.layers, library, name)) == Some(GetElementByName(s, library, name))
    ensures RemoveLayerAsWritten(s, LayerIndex(s.layers, library, name)) == Some(RemoveLayerByName(s, library, name))
  {
    var k := LayerIndex(s.layers, library, name);
    if k == SIZE_MAX {
      NotFoundRejected(|s.layers|);
    } else {
      RangeChecksAgreeBelowWrap(k, |s.layers|);
    }
  }

  /** Removing index 2^60 from a one-layer stack reaches past the array. */
  lemma HugeIndexRemovalUndefined(l: Layer)
    ensures RemoveLayerAsWritten(Stack([l], false), 0x1000_0000_0000_0000).None?
    ensures !RemoveLayer(Stack([l], false), 0x1000_0000_0000_0000).1
  {
    HugeIndexPassesRangeCheck();
  }

  /** `signalStartup`: notifies every layer in order and sets the flag,
      unless already started. */
  function SignalStartup(s: Stack): (res: (Stack, seq<Layer>))
    ensures res.0.layers == s.layers && res.0.started
    ensures res.1 == if s.started then [] else s.layers
  {
    if s.started then (s, []) else (s.(started := true), s.layers)
  }

  /** `signalShutdown`: notifies every layer in order and clears the flag,
      unless not started. */
  function SignalShutdown(s: Stack): (res: (Stack, seq<Layer>))
    ensures res.0.layers == s.layers && !res.0.started
    ensures res.1 == if s.started then s.layers else []
  {
    if !s.started then (s, []) else (s.(started := false), s.layers)
  }

  /** Startup and shutdown alternate: each layer is started once, a repeated
      signal notifies nobody, and a shutdown after a startup notifies the
      same layers and makes startup possible again. */
  lemma StartupShutdownAlternate(s: Stack)
    requires !s.started
    ensures var (up, started) := SignalStartup(s);
      && started == s.layers
      && SignalStartup(up).1 == []
      && SignalShutdown(up) == (s, s.layers)
      && SignalShutdown(SignalShutdown(up).0).1 == []
  {
  }

  /** The destructor: a started stack is shut down first, then every layer
      is deleted in order. Returns the layers notified and the layers
      deleted. */
  function Destroy(s: Stack): (res: (seq<Layer>, seq<Layer>))
    ensures res.0 == if s.started then s.layers else []
    ensures res.1 == s.layers
  {
    (SignalShutdown(s).1, s.layers)
  }
}

=== FILE: mesh_format.dfy ===
/** The GLGE mesh asset file: a binary record of one mesh.

    Layout, all integers little-endian:
      "GLGE_MESH"                 9 bytes of magic, no terminator
      comment length              u16
      comment                     that many bytes, written only when the length is non-zero
      vertex type                 u32, always 0
      vertex count                u64
      vertices                    32 bytes each (a `SimpleVertex`: position, normal, texture coordinate)
      index count                 u64
      indices                     4 bytes each

    Vertices are opaque 32-byte records. The disk is a map from paths to
    file contents; an input stream is a position in a byte sequence with the
    `good` flag of `std::istream`. */
module MeshFormat {
  import opened Wrappers
  import opened Numeric
  import opened Seqs
  import AM = AssetManager

  /** "GLGE_MESH" */
  const MAGIC: Bytes := [71, 76, 71, 69, 95, 77, 69, 83, 72]
  const MAGIC_SIZE: nat := 9
  /** `sizeof(SimpleVertex)`: two `vec3` and one `vec2` of 4-byte floats. */
  const VERTEX_SIZE: nat := 32
  /** `sizeof(index_t)`, a 32-bit unsigned index. */
  const INDEX_SIZE: nat := 4
  const UINT16_MAX: nat := UINT16_LIMIT - 1

  // ---------------------------------------------------------------------
  // Little-endian integers

  function Pow256(w: nat): (p: nat)
    ensures p >= 1
  {
    if w == 0 then 1 else 256 * Pow256(w - 1)
  }

  /** `n` as `width` little-endian bytes; only the low `width` bytes of `n` are kept. */
  function LE(n: nat, width: nat): (r: Bytes)
    ensures |r| == width
  {
    if width == 0 then [] else [n % 256] + LE(n / 256, width - 1)
  }

  /** The value of little-endian bytes. A short read into a zeroed integer
      leaves its high bytes zero, which gives this same value. */
  function FromLE(bs: Bytes): (n: nat)
    ensures n < Pow256(|bs|)
    ensures |bs| > 0 ==> n >= bs[0]
  {
    if |bs| == 0 then 0
    else
      var high := FromLE(bs[1..]);
      assert high <= Pow256(|bs| - 1) - 1;
      assert 256 * high <= 256 * Pow256(|bs| - 1) - 256;
      bs[0] + 256 * high
  }

  lemma {:induction false} FromLEOfLE(n: nat, width: nat)
    requires n < Pow256(width)
    ensures FromLE(LE(n, width)) == n
  {
    if width > 0 {
      assert n / 256 < Pow256(width - 1);
      FromLEOfLE(n / 256, width - 1);
      assert LE(n, width)[1..] == LE(n / 256, width - 1);
    }
  }

  lemma {:induction false} Pow256Mono(a: nat, b: nat)
    requires a <= b
    ensures Pow256(a) <= Pow256(b)
    decreases b
  {
    if a < b {
      Pow256Mono(a, b - 1);
    }
  }

  lemma HeaderWidths()
    ensures Pow256(2) == UINT16_LIMIT
    ensures Pow256(4) == UINT32_LIMIT
    ensures Pow256(8) == UINT64_LIMIT
  {
  }

  // ---------------------------------------------------------------------
  // Fixed-size records

  /** The records laid end to end, as one `write` of a vector's data does. */
  function Flatten(rs: seq<Bytes>): Bytes {
    if |rs| == 0 then [] else Flatten(rs[..|rs| - 1]) + rs[|rs| - 1]
  }

  predicate Uniform(rs: seq<Bytes>, size: nat) {
    forall k :: 0 <= k < |rs| ==> |rs[k]| == size
  }

  lemma MulStep(a: nat, size: nat)
    ensures (a + 1) * size == a * size + size
  {
  }

  lemma MulLe(a: nat, b: nat, size: nat)
    requires a <= b
    ensures a * size <= b * size
  {
    assert b * size == a * size + (b - a) * size;
  }

  lemma {:induction false} FlattenLength(rs: seq<Bytes>, size: nat)
    requires Uniform(rs, size)
    ensures |Flatten(rs)| == |rs| * size
  {
    if |rs| > 0 {
      FlattenLength(rs[..|rs| - 1], size);
      MulStep(|rs| - 1, size);
    }
  }

  /** The `j`-th record sits at offset `j * size` of the flattened bytes. */
  lemma {:induction false} FlattenSlice(rs: seq<Bytes>, size: nat, j: nat)
    requires Uniform(rs, size) && j < |rs|
    ensures j * size + size <= |Flatten(rs)|
    ensures Flatten(rs)[j * size..j * size + size] == rs[j]
  {
    var init := rs[..|rs| - 1];
    var last := rs[|rs| - 1];
    var fi := Flatten(init);
    var start := j * size;
    assert Flatten(rs) == fi + last;
    FlattenLength(init, size);
    if j == |rs| - 1 {
      assert start == |fi|;
      assert (fi + last)[|fi|..|fi| + size] == last;
    } else {
      FlattenSlice(init, size, j);
      MulStep(j, size);
      MulLe(j + 1, |init|, size);
      assert start + size <= |fi|;
      assert (fi + last)[start..start + size] == fi[start..start + size];
    }
  }

  /** Record `j` of a buffer of default records `blank` over whose start the
      bytes `read` were copied: what `resize` followed by a possibly short
      `read` leaves there. */
  function Record(read: Bytes, j: nat, size: nat, blank: Bytes): (r: Bytes)
    requires |blank| == size
    ensures |r| == size
  {
    var start := j * size;
    if start + size <= |read| then read[start..start + size]
    else if start < |read| then read[start..] + blank[|read| - start..]
    else blank
  }

  function Records(read: Bytes, count: nat, size: nat, blank: Bytes): (rs: seq<Bytes>)
    requires |blank| == size
    ensures |rs| == count && Uniform(rs, size)
    ensures forall j :: 0 <= j < count ==> rs[j] == Record(read, j, size, blank)
  {
    if count == 0 then [] else Records(read, count - 1, size, blank) + [Record(read, count - 1, size, blank)]
  }

  lemma RecordsOfFlatten(rs: seq<Bytes>, size: nat, blank: Bytes)
    requires Uniform(rs, size) && |blank| == size
    ensures Records(Flatten(rs), |rs|, size, blank) == rs
  {
    var back := Records(Flatten(rs), |rs|, size, blank);
    forall j | 0 <= j < |rs| ensures back[j] == rs[j] {
      FlattenSlice(rs, size, j);
    }
  }

  /** The stored form of a sequence of indices. */
  function IndexRecords(ixs: seq<nat>): (rs: seq<Bytes>)
    ensures |rs| == |ixs| && Uniform(rs, INDEX_SIZE)
  {
    seq(|ixs|, k requires 0 <= k < |ixs| => LE(ixs[k], INDEX_SIZE))
  }

  function Values(rs: seq<Bytes>): (ixs: seq<nat>)
    ensures |ixs| == |rs|
    ensures forall k :: 0 <= k < |rs| ==> ixs[k] == FromLE(rs[k])
  {
    seq(|rs|, k requires 0 <= k < |rs| => FromLE(rs[k]))
  }

  // ---------------------------------------------------------------------
  // Meshes and saving

  datatype Mesh = Mesh(vertices: seq<Bytes>, indices: seq<nat>)

  const EMPTY_MESH: Mesh := Mesh([], [])

  /** A mesh the file format can hold: whole vertex records, 32-bit indices
      and counts that fit the 64-bit count fields. */
  predicate WellSized(m: Mesh) {
    && Uniform(m.vertices, VERTEX_SIZE)
    && (forall k :: 0 <= k < |m.indices| ==> m.indices[k] < UINT32_LIMIT)
    && |m.vertices| < UINT64_LIMIT
    && |m.indices| < UINT64_LIMIT
  }

  /** Everything after the comment: vertex type 0, the vertices and the indices. */
  function Body(m: Mesh): Bytes {
    LE(0, 4) + (LE(|m.vertices|, 8) + (Flatten(m.vertices) + (LE(|m.indices|, 8) + Flatten(IndexRecords(m.indices)))))
  }

  /** `__safeMeshAsset` as written: the length field holds the comment size
      cast to 16 bits, but the whole comment is written whenever that field is
      non-zero. */
  function SaveAsWritten(m: Mesh, comment: Bytes): (file: Bytes)
    ensures |file| >= MAGIC_SIZE && file[..MAGIC_SIZE] == MAGIC
  {
    var len := |comment| % UINT16_LIMIT;
    var written := if len != 0 then comment else [];
    MAGIC + (LE(len, 2) + (written + Body(m)))
  }

  /** The save with the comment cut to the length that the header records
      (at most 65535 bytes). */
  function Save(m: Mesh, comment: Bytes): (file: Bytes)
    ensures |file| >= MAGIC_SIZE && file[..MAGIC_SIZE] == MAGIC
  {
    var len := if |comment| <= UINT16_MAX then |comment| else UINT16_MAX;
    MAGIC + (LE(len, 2) + (comment[..len] + Body(m)))
  }

  lemma SaveAgreesForShortComments(m: Mesh, comment: Bytes)
    requires |comment| <= UINT16_MAX
    ensures SaveAsWritten(m, comment) == Save(m, comment)
  {
    assert comment[..|comment|] == comment;
  }

  // ---------------------------------------------------------------------
  // Loading

  datatype Stream = Stream(data: Bytes, pos: nat, good: bool) {
    predicate Valid() {
      pos <= |data|
    }
  }

  /** `istream::read(buf, n)`: a failed stream reads nothing; a stream with
      fewer than `n` bytes left yields them and fails. */
  function Read(st: Stream, n: nat): (res: (Bytes, Stream))
    requires st.Valid()
    ensures res.1.Valid() && res.1.data == st.data
    ensures |res.0| <= n
  {
    if !st.good then ([], st)
    else if st.pos + n <= |st.data| then (st.data[st.pos..st.pos + n], st.(pos := st.pos + n))
    else (st.data[st.pos..], Stream(st.data, |st.data|, false))
  }

  /** The stream is good and `tail` is what is left in it. */
  predicate At(st: Stream, tail: Bytes) {
    st.Valid() && st.good && st.data[st.pos..] == tail
  }

  function Skip(st: Stream, n: nat): Stream {
    st.(pos := st.pos + n)
  }

  /** Reading a part that the stream holds next yields it and leaves the rest. */
  lemma ReadNext(st: Stream, part: Bytes, rest: Bytes)
    requires At(st, part + rest)
    ensures Read(st, |part|) == (part, Skip(st, |part|)) && At(Skip(st, |part|), rest)
  {
    assert st.data[st.pos..][..|part|] == st.data[st.pos..st.pos + |part|];
    assert st.data[st.pos..][..|part|] == part;
    assert st.data[st.pos..][|part|..] == rest;
  }

  predicate HasMagic(file: Bytes) {
    |file| >= MAGIC_SIZE && file[..MAGIC_SIZE] == MAGIC
  }

  /** A little-endian unsigned integer of `width` bytes read into a zeroed variable. */
  function ReadCount(st: Stream, width: nat): (res: (nat, Stream))
    requires st.Valid()
    ensures res.1.Valid() && res.1.data == st.data
    ensures res.0 < Pow256(width)
  {
    var (bs, st') := Read(st, width);
    Pow256Mono(|bs|, width);
    (FromLE(bs), st')
  }

  /** `count` records of `size` bytes read into a buffer resized to `count`
      default records `blank`. */
  function ReadRecords(st: Stream, count: nat, size: nat, blank: Bytes): (res: (seq<Bytes>, Stream))
    requires st.Valid() && |blank| == size
    ensures res.1.Valid() && res.1.data == st.data
    ensures |res.0| == count && Uniform(res.0, size)
  {
    var (bs, st') := Read(st, count * size);
    (Records(bs, count, size, blank), st')
  }

  /** The vertex and index sections: each a count followed by its records. */
  function LoadData(s4: Stream, blank: Bytes): (m: Mesh)
    requires s4.Valid() && |blank| == VERTEX_SIZE
    ensures WellSized(m)
  {
    var (vertLen, s5) := ReadCount(s4, 8);
    var (vertices, s6) := ReadRecords(s5, vertLen, VERTEX_SIZE, blank);
    var (indLen, s7) := ReadCount(s6, 8);
    var indRecords := ReadRecords(s7, indLen, INDEX_SIZE, [0, 0, 0, 0]).0;
    HeaderWidths();
    var indices := Values(indRecords);
    assert forall k :: 0 <= k < |indices| ==> indices[k] < UINT32_LIMIT;
    Mesh(vertices, indices)
  }

  /** Everything `__loadMeshAsset` reads after the magic value: the comment
      length, the comment when that length is non-zero, the vertex type, then
      the data. */
  function LoadAfterMagic(s1: Stream, blank: Bytes): (m: Mesh)
    requires s1.Valid() && |blank| == VERTEX_SIZE
    ensures WellSized(m)
  {
    LoadData(SkipHeader(s1), blank)
  }

  /** The stream past the comment length, the comment and the vertex type. */
  function SkipHeader(s1: Stream): (s4: Stream)
    requires s1.Valid()
    ensures s4.Valid() && s4.data == s1.data
  {
    Read(SkipComment(s1), 4).1
  }

  /** The stream past the comment length and the comment it announces. */
  function SkipComment(s1: Stream): (s3: Stream)
    requires s1.Valid()
    ensures s3.Valid() && s3.data == s1.data
  {
    var (commentLen, s2) := ReadCount(s1, 2);
    if commentLen != 0 then Read(s2, commentLen).1 else s2
  }

  /** `__loadMeshAsset` on the contents of an existing file: None for a bad
      magic value; otherwise the header fields and the records as they were
      read, where a short file leaves zero high bytes in a count and default
      vertex bytes `blank` and zero index bytes in the records. */
  function Load(file: Bytes, blank: Bytes): (r: Option<Mesh>)
    requires |blank| == VERTEX_SIZE
    ensures r.Some? ==> WellSized(r.value)
  {
    var (magic, s1) := Read(Stream(file, 0, true), MAGIC_SIZE);
    if magic != MAGIC then None else Some(LoadAfterMagic(s1, blank))
  }

  /** Loading fails exactly when the first nine bytes are not the magic value
      (a file shorter than that included). */
  lemma LoadRejectsBadMagic(file: Bytes, blank: Bytes)
    requires |blank| == VERTEX_SIZE
    ensures Load(file, blank).None? <==> !HasMagic(file)
  {
  }

  /** Any file that starts with the magic value loads, however it goes on:
      the magic value alone is an empty mesh. */
  lemma MagicAloneLoadsEmpty(blank: Bytes)
    requires |blank| == VERTEX_SIZE
    ensures Load(MAGIC, blank) == Some(EMPTY_MESH)
  {
    var st := Read(Stream(MAGIC, 0, true), MAGIC_SIZE).1;
    assert st == Stream(MAGIC, 9, true);
    assert Read(st, 2) == ([], Stream(MAGIC, 9, false));
  }

  lemma ReadCountNext(st: Stream, n: nat, width: nat, rest: Bytes)
    requires At(st, LE(n, width) + rest) && n < Pow256(width)
    ensures ReadCount(st, width) == (n, Skip(st, width)) && At(Skip(st, width), rest)
  {
    ReadNext(st, LE(n, width), rest);
    FromLEOfLE(n, width);
  }

  lemma ReadRecordsNext(st: Stream, rs: seq<Bytes>, size: nat, blank: Bytes, rest: Bytes)
    requires At(st, Flatten(rs) + rest) && Uniform(rs, size) && |blank| == size
    ensures ReadRecords(st, |rs|, size, blank) == (rs, Skip(st, |rs| * size))
    ensures At(Skip(st, |rs| * size), rest)
  {
    var flat := Flatten(rs);
    assert |rs| * size == |flat| by {
      FlattenLength(rs, size);
    }
    ReadNext(st, flat, rest);
    RecordsOfFlatten(rs, size, blank);
  }

  lemma ValuesOfIndexRecords(ixs: seq<nat>)
    requires forall k :: 0 <= k < |ixs| ==> ixs[k] < UINT32_LIMIT
    ensures Values(IndexRecords(ixs)) == ixs
  {
    HeaderWidths();
    var back := Values(IndexRecords(ixs));
    forall k | 0 <= k < |ixs| ensures back[k] == ixs[k] {
      FromLEOfLE(ixs[k], INDEX_SIZE);
    }
  }

  /** The data sections of `m` read back as `m`. */
  lemma LoadDataOfLayout(s4: Stream, m: Mesh, blank: Bytes)
    requires At(s4, Body(m)[4..]) && WellSized(m) && |blank| == VERTEX_SIZE
    ensures LoadData(s4, blank) == m
  {
    var v := m.vertices;
    var ir := IndexRecords(m.indices);
    var r3 := Flatten(ir);
    var r2 := LE(|m.indices|, 8) + r3;
    var r1 := Flatten(v) + r2;
    assert At(s4, LE(|v|, 8) + r1) by {
      assert Body(m) == LE(0, 4) + (LE(|v|, 8) + r1);
    }
    HeaderWidths();
    ReadCountNext(s4, |v|, 8, r1);
    var s5 := Skip(s4, 8);
    ReadRecordsNext(s5, v, VERTEX_SIZE, blank, r2);
    var s6 := Skip(s5, |v| * VERTEX_SIZE);
    ReadCountNext(s6, |m.indices|, 8, r3);
    var s7 := Skip(s6, 8);
    assert r3 + [] == r3;
    ReadRecordsNext(s7, ir, INDEX_SIZE, [0, 0, 0, 0], []);
    ValuesOfIndexRecords(m.indices);
  }

  lemma SkipCommentOfLayout(s1: Stream, comment: Bytes, rest: Bytes)
    requires At(s1, LE(|comment|, 2) + (comment + rest)) && |comment| < UINT16_LIMIT
    ensures SkipComment(s1) == Skip(s1, 2 + |comment|) && At(Skip(s1, 2 + |comment|), rest)
  {
    HeaderWidths();
    ReadCountNext(s1, |comment|, 2, comment + rest);
    var s2 := Skip(s1, 2);
    ReadNext(s2, comment, rest);
    assert Skip(s2, |comment|) == Skip(s1, 2 + |comment|);
  }

  lemma SkipHeaderOfLayout(s1: Stream, comment: Bytes, rest: Bytes)
    requires At(s1, LE(|comment|, 2) + (comment + (LE(0, 4) + rest))) && |comment| < UINT16_LIMIT
    ensures SkipHeader(s1) == Skip(s1, 6 + |comment|) && At(Skip(s1, 6 + |comment|), rest)
  {
    SkipCommentOfLayout(s1, comment, LE(0, 4) + rest);
    var s3 := Skip(s1, 2 + |comment|);
    ReadNext(s3, LE(0, 4), rest);
    assert Skip(s3, 4) == Skip(s1, 6 + |comment|);
  }

  /** After the magic value, a comment length, that many comment bytes and the body of `m` read back as `m`. */
  lemma AfterMagicOfLayout(s1: Stream, m: Mesh, comment: Bytes, blank: Bytes)
    requires At(s1, LE(|comment|, 2) + (comment + Body(m)))
    requires WellSized(m) && |blank| == VERTEX_SIZE && |comment| < UINT16_LIMIT
    ensures LoadAfterMagic(s1, blank) == m
  {
    var body := Body(m);
    assert body == LE(0, 4) + body[4..];
    SkipHeaderOfLayout(s1, comment, body[4..]);
    LoadDataOfLayout(Skip(s1, 6 + |comment|), m, blank);
  }

  /** A file made of the header, a comment of the recorded length and the body of `m` loads as `m`. */
  lemma LoadOfLayout(m: Mesh, comment: Bytes, blank: Bytes)
    requires WellSized(m) && |blank| == VERTEX_SIZE
    requires |comment| < UINT16_LIMIT
    ensures Load(MAGIC + (LE(|comment|, 2) + (comment + Body(m))), blank) == Some(m)
  {
    var rest := LE(|comment|, 2) + (comment + Body(m));
    LoadOfMagic(rest, blank);
    AfterMagicOfLayout(Stream(MAGIC + rest, MAGIC_SIZE, true), m, comment, blank);
  }

  /** A file that starts with the magic value loads as what follows it. */
  lemma LoadOfMagic(rest: Bytes, blank: Bytes)
    requires |blank| == VERTEX_SIZE
    ensures At(Stream(MAGIC + rest, MAGIC_SIZE, true), rest)
    ensures Load(MAGIC + rest, blank) == Some(LoadAfterMagic(Stream(MAGIC + rest, MAGIC_SIZE, true), blank))
  {
    var st := Stream(MAGIC + rest, 0, true);
    assert st.data[0..] == MAGIC + rest;
    ReadNext(st, MAGIC, rest);
  }

  /** Saving and loading gives back every vertex and index, whatever the comment. */
  lemma SaveLoadRoundTrip(m: Mesh, comment: Bytes, blank: Bytes)
    requires WellSized(m) && |blank| == VERTEX_SIZE
    ensures Load(Save(m, comment), blank) == Some(m)
  {
    var len := if |comment| <= UINT16_MAX then |comment| else UINT16_MAX;
    LoadOfLayout(m, comment[..len], blank);
  }

  /** The same round trip for the save as written, for comments of at most 65535 bytes. */
  lemma SaveAsWrittenRoundTrip(m: Mesh, comment: Bytes, blank: Bytes)
    requires WellSized(m) && |blank| == VERTEX_SIZE && |comment| <= UINT16_MAX
    ensures Load(SaveAsWritten(m, comment), blank) == Some(m)
  {
    SaveAgreesForShortComments(m, comment);
    SaveLoadRoundTrip(m, comment, blank);
  }

  /** The vertex count a run of 97s is read as: eight bytes 0x61. */
  const RUN_COUNT: nat := 0x6161_6161_6161_6161

  /** `PTRDIFF_MAX`, the largest size in bytes of an object, which bounds
      what `std::vector::resize` accepts; beyond it `resize` throws
      `std::length_error`. */
  const PTRDIFF_MAX: nat := 0x7FFF_FFFF_FFFF_FFFF

  lemma {:induction false} FromLEOfRun(bs: Bytes)
    requires |bs| == 8 && forall k :: 0 <= k < 8 ==> bs[k] == 97
    ensures FromLE(bs) == RUN_COUNT
  {
    assert bs[8..] == [];
    assert FromLE(bs[7..]) == 0x61 by { assert bs[7..][1..] == bs[8..]; }
    assert FromLE(bs[6..]) == 0x6161 by { assert bs[6..][1..] == bs[7..]; }
    assert FromLE(bs[5..]) == 0x61_6161 by { assert bs[5..][1..] == bs[6..]; }
    assert FromLE(bs[4..]) == 0x6161_6161 by { assert bs[4..][1..] == bs[5..]; }
    assert FromLE(bs[3..]) == 0x61_6161_6161 by { assert bs[3..][1..] == bs[4..]; }
    assert FromLE(bs[2..]) == 0x6161_6161_6161 by { assert bs[2..][1..] == bs[3..]; }
    assert FromLE(bs[1..]) == 0x61_6161_6161_6161 by { assert bs[1..][1..] == bs[2..]; }
    assert bs[0..] == bs;
  }

  /** After the magic value, a length field of 1 followed by a longer run of
      97s: the vertex count is read from the run, as 0x6161616161616161. */
  lemma LongCommentAfterMagic(s1: Stream, comment: Bytes, rest: Bytes, blank: Bytes)
    requires At(s1, LE(1, 2) + (comment + rest)) && |blank| == VERTEX_SIZE
    requires |comment| >= 13 && forall k :: 0 <= k < |comment| ==> comment[k] == 97
    ensures |LoadAfterMagic(s1, blank).vertices| == RUN_COUNT
  {
    HeaderWidths();
    ReadCountNext(s1, 1, 2, comment + rest);
    var s2 := Skip(s1, 2);
    assert comment + rest == comment[..1] + (comment[1..5] + (comment[5..13] + (comment[13..] + rest)));
    ReadNext(s2, comment[..1], comment[1..5] + (comment[5..13] + (comment[13..] + rest)));
    var s3 := Skip(s2, 1);
    ReadNext(s3, comment[1..5], comment[5..13] + (comment[13..] + rest));
    var s4 := Skip(s3, 4);
    ReadNext(s4, comment[5..13], comment[13..] + rest);
    FromLEOfRun(comment[5..13]);
    assert ReadCount(s4, 8).0 == RUN_COUNT;
  }

  /** A comment of 65537 bytes is recorded as 1 byte long but written whole:
      the loader then takes comment bytes for the vertex count. The count is
      0x6161616161616161, whose vertices need more bytes than any object may
      have, so in the program `resize` throws `std::length_error` inside a
      `noexcept` function and `std::terminate` ends it. The model does not
      model allocation failure and returns a mesh of that many vertices. The
      defect is latent: the save helper is file-local and its only caller,
      the importer, passes no comment, so only a caller that passes a comment
      could reach it. */
  lemma LongCommentBreaksRoundTrip(blank: Bytes)
    requires |blank| == VERTEX_SIZE
    ensures var comment := seq(UINT16_LIMIT + 1, _ => 97);
            && Load(SaveAsWritten(EMPTY_MESH, comment), blank).Some?
            && |Load(SaveAsWritten(EMPTY_MESH, comment), blank).value.vertices| == RUN_COUNT
            && RUN_COUNT * VERTEX_SIZE > PTRDIFF_MAX
  {
    var comment: Bytes := seq(UINT16_LIMIT + 1, _ => 97);
    var body := Body(EMPTY_MESH);
    var file := SaveAsWritten(EMPTY_MESH, comment);
    assert file == MAGIC + (LE(1, 2) + (comment + body)) by {
      assert |comment| % UINT16_LIMIT == 1;
    }
    var st := Stream(file, 0, true);
    assert file[0..] == file;
    ReadNext(st, MAGIC, LE(1, 2) + (comment + body));
    LongCommentAfterMagic(Skip(st, MAGIC_SIZE), comment, body, blank);
  }

  // ---------------------------------------------------------------------
  // The asset

  /** `MeshAsset::load`: the load states it passes through and the mesh it
      builds. A missing file or a failed load leaves the buffers empty, and
      the mesh is built from them all the same. */
  function MeshAssetLoad(disk: map<string, Bytes>, path: string, blank: Bytes): (res: (seq<AM.LoadState>, Mesh))
    requires |blank| == VERTEX_SIZE
    ensures |res.0| == 2 && res.0[0] == AM.Loading && res.0[1].Done()
    ensures res.0[1] == AM.Loaded <==> path in disk && HasMagic(disk[path])
    ensures res.0[1] == AM.Failed ==> res.1 == EMPTY_MESH
  {
    var loaded := if path in disk then Load(disk[path], blank) else None;
    assert path in disk ==> (loaded.None? <==> !HasMagic(disk[path])) by {
      if path in disk {
        LoadRejectsBadMagic(disk[path], blank);
      }
    }
    ([AM.Loading, if loaded.Some? then AM.Loaded else AM.Failed], loaded.GetOr(EMPTY_MESH))
  }

  /** The derived asset path as written: everything from the last '.' of the
      whole path is cut, even when that '.' belongs to a directory name. */
  function ImportPathAsWritten(path: string, suffix: string): (r: string)
    ensures exists k :: 0 <= k <= |path| && r == path[..k] + "." + suffix
                        && (k == |path| || path[k] == '.')
                        && (forall j :: k < j < |path| ==> path[j] != '.')
  {
    var stem := match LastIndexOf(path, '.')
      case Some(k) => path[..k]
      case None => path;
    assert path[..|path|] == path;
    stem + "." + suffix
  }

  /** A dot in a directory name is taken for the file suffix. */
  lemma ImportPathCutsDirectory()
    ensures ImportPathAsWritten("assets.v2/cube", "gmesh") == "assets.gmesh"
  {
    LastIndexAt("assets.v2/cube", '.', 6);
  }

  /** The derived asset path: the file name's suffix, the part from a last '.'
      that comes after the last '/', is replaced by "." + `suffix`. */
  function ImportPath(path: string, suffix: string): (r: string)
    ensures exists k :: 0 <= k <= |path| && r == path[..k] + "." + suffix
                        && (k == |path| || path[k] == '.')
                        && (forall j :: k < j < |path| ==> path[j] != '.' && path[j] != '/')
  {
    var dot := LastIndexOf(path, '.');
    var slash := LastIndexOf(path, '/');
    var stem := if dot.Some? && (slash.None? || slash.value < dot.value) then path[..dot.value] else path;
    assert path[..|path|] == path;
    stem + "." + suffix
  }

  lemma ImportPathKeepsDirectory()
    ensures ImportPath("assets.v2/cube", "gmesh") == "assets.v2/cube.gmesh"
  {
    LastIndexAt("assets.v2/cube", '.', 6);
    LastIndexAt("assets.v2/cube", '/', 9);
  }

  /** A derived path derives to itself, so importing an imported asset finds it. */
  lemma ImportPathIdempotent(path: string, suffix: string)
    requires '.' !in suffix && '/' !in suffix
    ensures ImportPath(ImportPath(path, suffix), suffix) == ImportPath(path, suffix)
  {
    var r := ImportPath(path, suffix);
    var k :| 0 <= k <= |path| && r == path[..k] + "." + suffix;
    LastIndexAt(r, '.', k);
    if LastIndexOf(r, '/').Some? {
      assert LastIndexOf(r, '/').value < k;
    }
    assert r[..k] == path[..k];
  }

  /** A path without a '/' after any '.': every '.' is in the file name. */
  predicate DotsInFileName(path: string) {
    forall i, j :: 0 <= i < j < |path| && path[i] == '.' ==> path[j] != '/'
  }

  /** When every '.' is in the file name, the derived path as written is the
      corrected one. */
  lemma ImportPathsAgree(path: string, suffix: string)
    requires DotsInFileName(path)
    ensures ImportPathAsWritten(path, suffix) == ImportPath(path, suffix)
  {
    var dot := LastIndexOf(path, '.');
    var slash := LastIndexOf(path, '/');
    if dot.Some? && slash.Some? {
      assert path[slash.value] == '/' && path[dot.value] == '.';
      assert slash.value < dot.value;
    }
  }

  /** The derived path as written also derives to itself. */
  lemma ImportPathAsWrittenIdempotent(path: string, suffix: string)
    requires '.' !in suffix
    ensures ImportPathAsWritten(ImportPathAsWritten(path, suffix), suffix) == ImportPathAsWritten(path, suffix)
  {
    var r := ImportPathAsWritten(path, suffix);
    var k :| 0 <= k <= |path| && r == path[..k] + "." + suffix;
    LastIndexAt(r, '.', k);
    assert r[..k] == path[..k];
  }

  /** The body of `MeshAsset::import` once the asset path `target` is
      derived: an existing asset is returned untouched; otherwise the scene
      read by the importer library (`imported`, None when it fails or holds
      no mesh) is written there if the file can be opened for writing
      (`writable`). Returns the asset path, or "" on failure, and the disk
      afterwards. */
  function ImportTo(disk: map<string, Bytes>, target: string, imported: Option<Mesh>, writable: bool)
    : (res: (string, map<string, Bytes>))
    requires target != ""
    ensures res.0 == "" || res.0 == target
    ensures target in disk ==> res == (target, disk)
    ensures res.0 == "" <==> target !in disk && (imported.None? || !writable)
    ensures res.0 == "" ==> res.1 == disk
    ensures res.0 != "" ==> res.0 in res.1 && res.1 == disk[res.0 := res.1[res.0]]
  {
    if target in disk then (target, disk)
    else if imported.None? || !writable then ("", disk)
    else (target, disk[target := SaveAsWritten(imported.value, [])])
  }

  /** `MeshAsset::import` as written: the asset path is derived by cutting at
      the last '.' anywhere in the source path. */
  function Import(disk: map<string, Bytes>, path: string, suffix: string, imported: Option<Mesh>, writable: bool)
    : (res: (string, map<string, Bytes>))
    ensures res.0 == "" || res.0 == ImportPathAsWritten(path, suffix)
    ensures ImportPathAsWritten(path, suffix) in disk ==> res == (ImportPathAsWritten(path, suffix), disk)
    ensures res.0 == "" ==> res.1 == disk
    ensures res.0 != "" ==> res.0 in res.1 && res.1 == disk[res.0 := res.1[res.0]]
  {
    ImportTo(disk, ImportPathAsWritten(path, suffix), imported, writable)
  }

  /** `MeshAsset::import` with the corrected asset path. */
  function ImportChecked(disk: map<string, Bytes>, path: string, suffix: string, imported: Option<Mesh>, writable: bool)
    : (res: (string, map<string, Bytes>))
    ensures res.0 == "" || res.0 == ImportPath(path, suffix)
    ensures ImportPath(path, suffix) in disk ==> res == (ImportPath(path, suffix), disk)
    ensures res.0 == "" ==> res.1 == disk
    ensures res.0 != "" ==> res.0 in res.1 && res.1 == disk[res.0 := res.1[res.0]]
  {
    ImportTo(disk, ImportPath(path, suffix), imported, writable)
  }

  /** Importing "assets.v2/cube" as written finds an existing "assets.gmesh"
      and returns it without importing; the corrected import writes
      "assets.v2/cube.gmesh". */
  lemma ImportCollidesAcrossDirectories(m: Mesh, other: Bytes)
    ensures var disk := map["assets.gmesh" := other];
            && Import(disk, "assets.v2/cube", "gmesh", Some(m), true) == ("assets.gmesh", disk)
            && ImportChecked(disk, "assets.v2/cube", "gmesh", Some(m), true).0 == "assets.v2/cube.gmesh"
  {
    ImportPathCutsDirectory();
    ImportPathKeepsDirectory();
  }

  /** A fresh import followed by loading the asset it names gives back the imported mesh. */
  lemma ImportThenLoad(disk: map<string, Bytes>, path: string, suffix: string, m: Mesh, blank: Bytes)
    requires WellSized(m) && |blank| == VERTEX_SIZE
    requires ImportPathAsWritten(path, suffix) !in disk
    ensures var (target, disk') := Import(disk, path, suffix, Some(m), true);
            && target == ImportPathAsWritten(path, suffix)
            && MeshAssetLoad(disk', target, blank) == ([AM.Loading, AM.Loaded], m)
  {
    SaveAsWrittenRoundTrip(m, [], blank);
  }

  /** A second import of the same source finds the asset and changes nothing. */
  lemma ImportTwiceIsOnce(disk: map<string, Bytes>, path: string, suffix: string,
                          first: Option<Mesh>, second: Option<Mesh>, writable: bool, writable2: bool)
    requires Import(disk, path, suffix, first, writable).0 != ""
    ensures var (target, disk') := Import(disk, path, suffix, first, writable);
            Import(disk', path, suffix, second, writable2) == (target, disk')
  {
  }
}

=== FILE: messages.dfy ===
/** A message listener: a first-in-first-out queue of messages with
    non-destructive access by index, and the dispatch of a message's callback
    by its callback kind. Messages are of any type `M`; an output pointer is
    a flag saying whether the caller passed one. */
module Messages {
  import opened Wrappers

  datatype Listener<M> = Listener(queue: seq<M>)

  /** `sendMessage`. */
  function Send<M>(l: Listener<M>, m: M): (l': Listener<M>)
    ensures Count(l') == Count(l) + 1 && Get(l', Count(l)) == m
    ensures forall i :: 0 <= i < Count(l) ==> Get(l', i) == Get(l, i)
  {
    Listener(l.queue + [m])
  }

  /** `clear`. */
  function Clear<M>(l: Listener<M>): (l': Listener<M>)
    ensures Count(l') == 0
  {
    Listener([])
  }

  /** `getMessageCount`. */
  function Count<M>(l: Listener<M>): nat {
    |l.queue|
  }

  /** `getMessage(i)`: the index is not checked by the listener, so the caller must keep it in range. */
  function Get<M>(l: Listener<M>, i: nat): M
    requires i < Count(l)
  {
    l.queue[i]
  }

  /** What `pull` returns and leaves behind. */
  datatype Pulled<M> = Pulled(found: bool, out: Option<M>, rest: Listener<M>)

  /** `pull`: the oldest message leaves the queue, and is copied out only when
      an output pointer is given. */
  function Pull<M>(l: Listener<M>, wantsOutput: bool): (r: Pulled<M>)
    ensures r.found <==> Count(l) > 0
    ensures !r.found ==> r.rest == l && r.out.None?
    ensures r.found ==> l.queue == [Get(l, 0)] + r.rest.queue
    ensures r.out.Some? <==> r.found && wantsOutput
    ensures r.out.Some? ==> r.out.value == Get(l, 0)
  {
    if |l.queue| == 0 then Pulled(false, None, l)
    else Pulled(true, if wantsOutput then Some(l.queue[0]) else None, Listener(l.queue[1..]))
  }

  /** `peek`: the message after the oldest one, without changing the queue. */
  function Peek<M>(l: Listener<M>, wantsOutput: bool): (r: (bool, Option<M>))
    ensures r.0 <==> Count(l) >= 2
    ensures r.1.Some? <==> r.0 && wantsOutput
    ensures r.1.Some? ==> r.1.value == Get(l, 1)
  {
    if |l.queue| < 2 then (false, None)
    else (true, if wantsOutput then Some(l.queue[1]) else None)
  }

  /** The message `peek` shows is the one the second `pull` returns. */
  lemma PeekShowsSecondPull<M>(l: Listener<M>)
    ensures Peek(l, true).0 ==> Peek(l, true).1 == Pull(Pull(l, false).rest, true).out
  {
  }

  /** Every message in the queue, pulled one by one. */
  function Drain<M>(l: Listener<M>): (ms: seq<M>)
    decreases Count(l)
  {
    var r := Pull(l, true);
    if !r.found then [] else [r.out.value] + Drain(r.rest)
  }

  function SendAll<M>(l: Listener<M>, ms: seq<M>): (l': Listener<M>)
    ensures Count(l') == Count(l) + |ms|
    decreases |ms|
  {
    if |ms| == 0 then l else SendAll(Send(l, ms[0]), ms[1..])
  }

  lemma {:induction false} SendAllAppends<M>(l: Listener<M>, ms: seq<M>)
    ensures SendAll(l, ms).queue == l.queue + ms
    decreases |ms|
  {
    if |ms| > 0 {
      SendAllAppends(Send(l, ms[0]), ms[1..]);
      assert l.queue + [ms[0]] + ms[1..] == l.queue + ms;
    }
  }

  /** Draining returns the queue oldest first. */
  lemma {:induction false} DrainIsQueue<M>(l: Listener<M>)
    ensures Drain(l) == l.queue
    decreases Count(l)
  {
    if Count(l) > 0 {
      DrainIsQueue(Pull(l, true).rest);
    }
  }

  /** First in, first out: messages sent to a listener are pulled after the
      ones already queued, in the order they were sent. */
  lemma FirstInFirstOut<M>(l: Listener<M>, ms: seq<M>)
    ensures Drain(SendAll(l, ms)) == l.queue + ms
  {
    SendAllAppends(l, ms);
    DrainIsQueue(SendAll(l, ms));
  }

  // ---------------------------------------------------------------------
  // Callbacks

  /** The return type of a callback kind; the identifier's value modulo ten
      selects it, and identifiers from 10 on pass the message to the callback. */
  datatype ReturnKind = Void | Bool | LInt | LUInt | Int | UInt | SInt | SUInt | Char | UChar

  /** Number of callback identifiers the enumeration defines. */
  const CALLBACK_KIND_COUNT: nat := 20

  function KindOf(identifier: nat): (k: ReturnKind)
    requires identifier < CALLBACK_KIND_COUNT
  {
    match identifier % 10
    case 0 => Void
    case 1 => Bool
    case 2 => LInt
    case 3 => LUInt
    case 4 => Int
    case 5 => UInt
    case 6 => SInt
    case 7 => SUInt
    case 8 => Char
    case _ => UChar
  }

  /** A message callback: its identifier and whether a function is set. */
  datatype Callback = Callback(identifier: nat, hasFunction: bool)

  /** What a call did: the result, whether the function ran, and the value
      written through the return pointer. */
  datatype CallResult = CallResult(ok: bool, invoked: bool, written: Option<int>)

  /** `callMessageCallback`. The function itself is outside the model: it
      returns `returned` when it runs. `hasRet` says whether a return pointer
      was given. */
  function CallMessageCallback(cb: Callback, hasRet: bool, returned: int): (r: CallResult)
    ensures !cb.hasFunction ==> !r.ok
    ensures cb.identifier >= CALLBACK_KIND_COUNT ==> !r.ok
    ensures r.ok <==> r.invoked
    ensures r.ok <==> cb.hasFunction && cb.identifier < CALLBACK_KIND_COUNT
                      && (hasRet || KindOf(cb.identifier) == Void)
    ensures r.written.Some? <==> r.ok && KindOf(cb.identifier) != Void
    ensures r.written.Some? ==> r.written.value == returned
  {
    if !cb.hasFunction then CallResult(false, false, None)
    else if cb.identifier != 0 && cb.identifier != 10 && !hasRet then CallResult(false, false, None)
    else if cb.identifier >= CALLBACK_KIND_COUNT then CallResult(false, false, None)
    else if cb.identifier == 0 || cb.identifier == 10 then CallResult(true, true, None)
    else CallResult(true, true, Some(returned))
  }

  /** The return kinds of the callback identifiers, listed in the order the
      enumeration declares them: first the callbacks without input, then the
      ones given the message. */
  const DECLARED_KINDS: seq<ReturnKind> :=
    [Void, Bool, LInt, LUInt, Int, UInt, SInt, SUInt, Char, UChar,
     Void, Bool, LInt, LUInt, Int, UInt, SInt, SUInt, Char, UChar]

  /** For a callback with a function: given a return pointer, the call
      succeeds exactly for the declared identifiers, and writes a result
      exactly when the declared kind returns one; without a pointer, it
      succeeds exactly for the two void identifiers, 0 and 10. */
  lemma CallbackFollowsDeclaredKinds(cb: Callback, returned: int)
    requires cb.hasFunction
    ensures CallMessageCallback(cb, true, returned).ok <==> cb.identifier < |DECLARED_KINDS|
    ensures cb.identifier < |DECLARED_KINDS| ==>
      (CallMessageCallback(cb, true, returned).written.Some? <==> DECLARED_KINDS[cb.identifier] != Void)
    ensures CallMessageCallback(cb, false, returned).ok <==> cb.identifier == 0 || cb.identifier == 10
  {
    if cb.identifier < |DECLARED_KINDS| {
      assert KindOf(cb.identifier) == DECLARED_KINDS[cb.identifier];
    }
  }
}

=== FILE: numeric.dfy ===
/** Fixed-width integer casts and the decimal conversions the engine relies on
    (`std::to_string`, `atoi`, `std::stoull`), written out over unbounded
    integers so that every truncation is explicit. */
module Numeric {
  import opened Wrappers

  const UINT8_LIMIT: nat := 0x100
  const UINT16_LIMIT: nat := 0x1_0000
  const UINT32_LIMIT: nat := 0x1_0000_0000
  const UINT64_LIMIT: nat := 0x1_0000_0000_0000_0000
  const UINT32_MAX: nat := UINT32_LIMIT - 1
  const UINT64_MAX: nat := UINT64_LIMIT - 1
  /** `size_t` is 64 bits wide on every target the engine builds for. */
  const SIZE_MAX: nat := UINT64_MAX

  /** One byte of a file, a buffer or a string's storage. */
  type Byte = b: int | 0 <= b < 256
  type Bytes = seq<Byte>

  /** Conversion of an integer to an unsigned type of `limit` values
      (C++ conversions to unsigned types are taken modulo the width). */
  function WrapUnsigned(x: int, limit: nat): (r: nat)
    requires limit > 0
    ensures r < limit
    ensures 0 <= x < limit ==> r == x
    ensures x < 0 && 0 <= x + limit ==> r == x + limit
  {
    x % limit
  }

  /** Conversion of an integer to a two's complement signed type of `limit` values. */
  function WrapSigned(x: int, limit: nat): (r: int)
    requires limit > 1 && limit % 2 == 0
    ensures -(limit / 2) <= r < limit / 2
    ensures -(limit / 2) <= x < limit / 2 ==> r == x
  {
    var u := WrapUnsigned(x, limit);
    if u < limit / 2 then u else u - limit
  }

  // ---------------------------------------------------------------------
  // Bits

  function Pow2(k: nat): (r: nat)
    ensures r >= 1
  {
    if k == 0 then 1 else 2 * Pow2(k - 1)
  }

  /** Bitwise or (`|`) of two naturals. */
  function BitOr(a: nat, b: nat): (r: nat)
    ensures r <= a + b
    ensures r >= a && r >= b
    decreases a + b
  {
    if a == 0 then b
    else if b == 0 then a
    else 2 * BitOr(a / 2, b / 2) + (if a % 2 == 1 || b % 2 == 1 then 1 else 0)
  }

  /** Or-ing a value below 2^k into a multiple of 2^k adds it. */
  lemma {:induction false} BitOrOfDisjoint(a: nat, b: nat, k: nat)
    requires b < Pow2(k)
    ensures BitOr(a * Pow2(k), b) == a * Pow2(k) + b
  {
    if k > 0 && a * Pow2(k) != 0 && b != 0 {
      var A := a * Pow2(k);
      assert A == 2 * (a * Pow2(k - 1));
      assert A % 2 == 0 && A / 2 == a * Pow2(k - 1);
      BitOrOfDisjoint(a, b / 2, k - 1);
    }
  }

  // ---------------------------------------------------------------------
  // Decimal digits

  predicate IsDigit(c: char) {
    '0' <= c <= '9'
  }

  predicate AllDigits(s: string) {
    forall i :: 0 <= i < |s| ==> IsDigit(s[i])
  }

  /** The characters `isspace` accepts in the "C" locale. */
  predicate IsSpace(c: char) {
    c == ' ' || c == '\t' || c == '\n' || c == '\r' || c == '\U{B}' || c == '\U{C}'
  }

  function DigitValue(c: char): (d: nat)
    requires IsDigit(c)
    ensures d < 10
  {
    (c as int) - ('0' as int)
  }

  function DigitChar(d: nat): (c: char)
    requires d < 10
    ensures IsDigit(c) && DigitValue(c) == d
  {
    (('0' as int) + d) as char
  }

  /** The value of a string of decimal digits, most significant first. */
  function DigitsValue(s: string): nat
    requires AllDigits(s)
  {
    if |s| == 0 then 0 else DigitsValue(s[..|s| - 1]) * 10 + DigitValue(s[|s| - 1])
  }

  /** `std::to_string` of an unsigned value: the shortest decimal spelling. */
  function NatToString(n: nat): (s: string)
    ensures |s| >= 1 && AllDigits(s)
    ensures |s| > 1 ==> s[0] != '0'
    decreases n
  {
    if n < 10 then [DigitChar(n)] else NatToString(n / 10) + [DigitChar(n % 10)]
  }

  /** `std::to_string` of a signed value: a minus sign before the magnitude. */
  function IntToString(i: int): (s: string)
    ensures |s| >= 1
    ensures (s[0] == '-') <==> i < 0
  {
    if i < 0 then "-" + NatToString(-i) else NatToString(i)
  }

  lemma {:induction false} DigitsOfNatToString(n: nat)
    ensures DigitsValue(NatToString(n)) == n
    decreases n
  {
    if n >= 10 {
      var s := NatToString(n);
      assert s[..|s| - 1] == NatToString(n / 10);
      DigitsOfNatToString(n / 10);
    }
  }

  /** Length of the longest prefix of `s` made of decimal digits. */
  function DigitRun(s: string): (n: nat)
    ensures n <= |s|
    ensures AllDigits(s[..n])
    ensures n < |s| ==> !IsDigit(s[n])
  {
    if |s| == 0 || !IsDigit(s[0]) then 0
    else
      var rest := DigitRun(s[1..]);
      assert s[..1 + rest] == [s[0]] + s[1..][..rest];
      1 + rest
  }

  lemma DigitRunOfDigits(s: string)
    requires AllDigits(s)
    ensures DigitRun(s) == |s|
  {
    if DigitRun(s) < |s| {
      assert false;
    }
  }

  /** Length of the leading white space of `s`. */
  function SpaceRun(s: string): (n: nat)
    ensures n <= |s|
    ensures forall i :: 0 <= i < n ==> IsSpace(s[i])
    ensures n < |s| ==> !IsSpace(s[n])
  {
    if |s| == 0 || !IsSpace(s[0]) then 0 else 1 + SpaceRun(s[1..])
  }

  /** A number as `atoi`/`strtoull` read it: white space, an optional sign,
      and the longest run of digits after it. */
  datatype Scanned = Scanned(negative: bool, digits: string)

  function Scan(s: string): (r: Scanned)
    ensures AllDigits(r.digits)
  {
    var t := s[SpaceRun(s)..];
    if |t| > 0 && (t[0] == '-' || t[0] == '+') then
      Scanned(t[0] == '-', t[1..][..DigitRun(t[1..])])
    else
      Scanned(false, t[..DigitRun(t)])
  }

  /** `atoi`: the signed value of the scanned number, 0 when no digit follows.
      The result of `atoi` is undefined outside the `int` range; this model
      keeps the mathematical value and leaves the cast to the caller. */
  function Atoi(s: string): (r: int)
    ensures Scan(s).digits == "" ==> r == 0
    ensures r < 0 ==> Scan(s).negative
  {
    var sc := Scan(s);
    var magnitude: int := DigitsValue(sc.digits);
    if sc.negative then -magnitude else magnitude
  }

  lemma NatToStringNoSpaceNoSign(n: nat)
    ensures SpaceRun(NatToString(n)) == 0
    ensures NatToString(n)[0] != '-' && NatToString(n)[0] != '+'
  {
    assert IsDigit(NatToString(n)[0]);
  }

  /** Scanning a spelled-out integer recovers its sign and its digits. */
  lemma ScanOfIntToString(i: int)
    ensures Scan(IntToString(i)).negative <==> i < 0
    ensures Scan(IntToString(i)).digits == NatToString(if i < 0 then -i else i)
    ensures DigitsValue(Scan(IntToString(i)).digits) == if i < 0 then -i else i
  {
    var m: nat := if i < 0 then -i else i;
    var d := NatToString(m);
    NatToStringNoSpaceNoSign(m);
    DigitRunOfDigits(d);
    DigitsOfNatToString(m);
    if i < 0 {
      var s := IntToString(i);
      assert !IsSpace(s[0]);
      assert SpaceRun(s) == 0;
      assert s[1..] == d;
      assert d[..|d|] == d;
    } else {
      assert d[..|d|] == d;
    }
  }

  lemma AtoiOfIntToString(i: int)
    ensures Atoi(IntToString(i)) == i
  {
    ScanOfIntToString(i);
  }

  /** `std::stoull`: fails (throws) when no digit follows the optional sign or
      when the magnitude does not fit 64 bits; a leading minus negates modulo
      2^64, as `strtoull` does. */
  function Stoull(s: string): (r: Option<nat>)
    ensures r.Some? ==> r.value < UINT64_LIMIT
    ensures r.Some? <==> |Scan(s).digits| > 0 && DigitsValue(Scan(s).digits) <= UINT64_MAX
  {
    var sc := Scan(s);
    if |sc.digits| == 0 then None
    else
      var v := DigitsValue(sc.digits);
      if v > UINT64_MAX then None
      else if sc.negative then Some(WrapUnsigned(0 - v, UINT64_LIMIT))
      else Some(v)
  }

  lemma StoullOfNatToString(n: nat)
    requires n < UINT64_LIMIT
    ensures Stoull(NatToString(n)) == Some(n)
  {
    var d := NatToString(n);
    NatToStringNoSpaceNoSign(n);
    DigitRunOfDigits(d);
    DigitsOfNatToString(n);
    assert d[..|d|] == d;
  }
}

=== FILE: scene.dfy ===
/** A scene: a root object held by the scene itself, a map from unique names
    to objects, per-name bookkeeping for generated names of the form
    `base(n)`, and a registry of systems keyed by type name. Objects are
    linked by parent and child references; the entity-component store
    behind them is not modelled, and entity identifiers are parameters. */
module Scene {
  import opened Wrappers
  import opened Numeric
  import opened Seqs

  /** A reference to an object: the scene's own root, or the map entry of
      that name. */
  datatype Ref = Root | Named(name: string)

  datatype RawObject = RawObject(name: string, entity: nat, parent: Option<Ref>, children: seq<Ref>)

  /** A default-constructed object. */
  const DEFAULT_OBJECT: RawObject := RawObject("INVALID", UINT64_MAX, None, [])

  /** The root: named "ROOT", no entity, no parent. */
  const ROOT_OBJECT: RawObject := RawObject("ROOT", UINT64_MAX, None, [])

  datatype Scene = Scene(
    name: string,
    root: RawObject,
    objects: map<string, RawObject>,
    counters: map<string, nat>,
    freeIndices: map<string, set<nat>>,
    systems: set<string>)

  /** A new scene. The object map starts with a separate copy of the root
      under the name "ROOT". */
  function NewScene(name: string): (s: Scene)
    ensures s.objects.Keys == {"ROOT"} && s.root.children == []
  {
    Scene(name, ROOT_OBJECT, map["ROOT" := ROOT_OBJECT], map[], map[], {})
  }

  predicate Valid(s: Scene, r: Ref) {
    r.Root? || r.name in s.objects
  }

  function Obj(s: Scene, r: Ref): RawObject
    requires Valid(s, r)
  {
    if r.Root? then s.root else s.objects[r.name]
  }

  function Put(s: Scene, r: Ref, o: RawObject): (s': Scene)
    requires Valid(s, r)
    ensures s'.objects.Keys == s.objects.Keys
    ensures Obj(s', r) == o
    ensures forall q :: Valid(s, q) && q != r ==> Obj(s', q) == Obj(s, q)
    ensures s'.counters == s.counters && s'.freeIndices == s.freeIndices && s'.systems == s.systems
  {
    if r.Root? then s.(root := o) else s.(objects := s.objects[r.name := o])
  }

  /** Appends `c` to the children of `p`. */
  function AddChild(s: Scene, p: Ref, c: Ref): (s': Scene)
    requires Valid(s, p)
    ensures s'.objects.Keys == s.objects.Keys
    ensures Obj(s', p) == Obj(s, p).(children := Obj(s, p).children + [c])
    ensures forall q :: Valid(s, q) && q != p ==> Obj(s', q) == Obj(s, q)
    ensures s'.counters == s.counters && s'.freeIndices == s.freeIndices && s'.systems == s.systems
  {
    var o := Obj(s, p);
    Put(s, p, o.(children := o.children + [c]))
  }

  // ---------------------------------------------------------------------
  // Names

  /** The generated name for the `index`-th duplicate of `base`. */
  function Numbered(base: string, index: nat): string {
    base + "(" + NatToString(index) + ")"
  }

  lemma NatToStringInjective(a: nat, b: nat)
    requires NatToString(a) == NatToString(b)
    ensures a == b
  {
    DigitsOfNatToString(a);
    DigitsOfNatToString(b);
  }

  lemma NumberedInjective(base: string, a: nat, b: nat)
    requires Numbered(base, a) == Numbered(base, b)
    ensures a == b
  {
    var x := Numbered(base, a);
    assert NatToString(a) == x[|base| + 1..|x| - 1];
    assert NatToString(b) == x[|base| + 1..|x| - 1];
    NatToStringInjective(a, b);
  }

  /** The freed indices of a base name (an absent entry reads as empty). */
  function FreeOf(s: Scene, base: string): set<nat> {
    if base in s.freeIndices then s.freeIndices[base] else {}
  }

  /** The duplicate counter of a base name (an absent entry reads as 0). */
  function CounterOf(s: Scene, base: string): nat {
    if base in s.counters then s.counters[base] else 0
  }

  /** The name an object created from `suggestion` receives, with the
      bookkeeping updated: the suggestion itself when no object has it;
      otherwise `suggestion(n)` for the smallest freed index n, or else for
      the incremented counter. The generated name is not looked up. */
  function ChooseName(s: Scene, suggestion: string): (res: (string, Scene))
    ensures res.1 == s.(counters := res.1.counters, freeIndices := res.1.freeIndices)
    ensures suggestion !in s.objects ==> res == (suggestion, s)
    ensures suggestion in s.objects && FreeOf(s, suggestion) != {} ==>
      var k := SetMin(FreeOf(s, suggestion));
      && res.0 == Numbered(suggestion, k)
      && FreeOf(res.1, suggestion) == FreeOf(s, suggestion) - {k}
      && res.1.counters == s.counters
    ensures suggestion in s.objects && FreeOf(s, suggestion) == {} ==>
      && res.0 == Numbered(suggestion, CounterOf(s, suggestion) + 1)
      && CounterOf(res.1, suggestion) == CounterOf(s, suggestion) + 1
      && res.1.freeIndices == s.freeIndices
  {
    if suggestion !in s.objects then (suggestion, s)
    else
      var free := FreeOf(s, suggestion);
      if free != {} then
        var k := SetMin(free);
        (Numbered(suggestion, k), s.(freeIndices := s.freeIndices[suggestion := free - {k}]))
      else
        var k := CounterOf(s, suggestion) + 1;
        (Numbered(suggestion, k), s.(counters := s.counters[suggestion := k]))
  }

  // ---------------------------------------------------------------------
  // Object creation

  /** `createObject`: the object is stored under the chosen name (a NULL
      parent means the root) and appended to its parent's children. When
      the chosen name is already taken, the map keeps the existing object,
      and that object is what gets appended and returned. */
  function CreateObject(s: Scene, suggestion: string, parent: Option<Ref>, entity: nat): (res: (Scene, Ref))
    requires parent.Some? ==> Valid(s, parent.value)
    ensures res.1 == Named(ChooseName(s, suggestion).0)
    ensures res.0.objects.Keys == s.objects.Keys + {res.1.name}
    ensures Obj(res.0, parent.GetOr(Root)).children == Obj(s, parent.GetOr(Root)).children + [res.1]
    ensures res.1.name !in s.objects ==>
      res.0.objects[res.1.name] == RawObject(res.1.name, entity, Some(parent.GetOr(Root)), [])
    ensures res.1.name in s.objects ==> |res.0.objects| == |s.objects|
    ensures suggestion !in s.objects ==> res.1 == Named(suggestion)
    ensures res.0.counters == ChooseName(s, suggestion).1.counters
    ensures res.0.freeIndices == ChooseName(s, suggestion).1.freeIndices
  {
    var (name, s1) := ChooseName(s, suggestion);
    var par := parent.GetOr(Root);
    var s2 := if name in s1.objects then s1
              else s1.(objects := s1.objects[name := RawObject(name, entity, Some(par), [])]);
    assert s2.objects.Keys == s.objects.Keys + {name};
    (AddChild(s2, par, Named(name)), Named(name))
  }

  /** One step of `createObjects`, with the facts the loop relies on. */
  function CreateStep(s: Scene, suggestion: string, parent: Option<Ref>, entity: nat): (res: (Scene, Ref))
    requires parent.Some? ==> Valid(s, parent.value)
    ensures s.objects.Keys <= res.0.objects.Keys && Valid(res.0, res.1)
    ensures ChildrenAppended(s, res.0, parent.GetOr(Root), [res.1])
  {
    CreateObject(s, suggestion, parent, entity)
  }

  /** `createObjects`: `|entities|` objects created one after the other from
      the same suggestion under the same parent. */
  function CreateObjects(s: Scene, suggestion: string, parent: Option<Ref>, entities: seq<nat>): (res: (Scene, seq<Ref>))
    requires parent.Some? ==> Valid(s, parent.value)
    ensures |res.1| == |entities|
    ensures s.objects.Keys <= res.0.objects.Keys
    decreases |entities|
  {
    if |entities| == 0 then (s, [])
    else
      var first := CreateStep(s, suggestion, parent, entities[0]);
      var rest := CreateObjects(first.0, suggestion, parent, entities[1..]);
      (rest.0, [first.1] + rest.1)
  }

  /** `p` is an object of both scenes, and its children in `s'` are its
      children in `s` followed by `rs`. */
  predicate ChildrenAppended(s: Scene, s': Scene, p: Ref, rs: seq<Ref>) {
    Valid(s, p) && Valid(s', p) && Obj(s', p).children == Obj(s, p).children + rs
  }

  lemma ChildrenAppendedChain(s0: Scene, s1: Scene, s2: Scene, p: Ref, r: Ref, rs: seq<Ref>)
    requires ChildrenAppended(s0, s1, p, [r]) && ChildrenAppended(s1, s2, p, rs)
    ensures ChildrenAppended(s0, s2, p, [r] + rs)
  {
    assert Obj(s0, p).children + [r] + rs == Obj(s0, p).children + ([r] + rs);
  }

  /** The parent's children grow by exactly the created references, in order. */
  lemma {:induction false} CreateObjectsAppendChildren(s: Scene, suggestion: string, parent: Option<Ref>, entities: seq<nat>)
    requires parent.Some? ==> Valid(s, parent.value)
    ensures ChildrenAppended(s, CreateObjects(s, suggestion, parent, entities).0, parent.GetOr(Root),
                             CreateObjects(s, suggestion, parent, entities).1)
    decreases |entities|
  {
    if |entities| == 0 {
      assert Obj(s, parent.GetOr(Root)).children + [] == Obj(s, parent.GetOr(Root)).children;
    } else {
      var first := CreateStep(s, suggestion, parent, entities[0]);
      var rest := CreateObjects(first.0, suggestion, parent, entities[1..]);
      CreateObjectsAppendChildren(first.0, suggestion, parent, entities[1..]);
      ChildrenAppendedChain(s, first.0, rest.0, parent.GetOr(Root), first.1, rest.1);
    }
  }

  /** Every reference of `rs` names an object of `s`. */
  predicate AllValid(s: Scene, rs: seq<Ref>) {
    forall i :: 0 <= i < |rs| ==> Valid(s, rs[i])
  }

  /** Every created reference names a stored object. */
  lemma {:induction false} CreateObjectsAreStored(s: Scene, suggestion: string, parent: Option<Ref>, entities: seq<nat>)
    requires parent.Some? ==> Valid(s, parent.value)
    ensures AllValid(CreateObjects(s, suggestion, parent, entities).0, CreateObjects(s, suggestion, parent, entities).1)
    decreases |entities|
  {
    if |entities| > 0 {
      var first := CreateStep(s, suggestion, parent, entities[0]);
      var rest := CreateObjects(first.0, suggestion, parent, entities[1..]);
      CreateObjectsAreStored(first.0, suggestion, parent, entities[1..]);
      AllValidCons(rest.0, first.1, rest.1);
    }
  }

  lemma AllValidCons(s: Scene, r: Ref, rs: seq<Ref>)
    requires Valid(s, r) && AllValid(s, rs)
    ensures AllValid(s, [r] + rs)
  {
    forall i | 0 <= i < |[r] + rs| ensures Valid(s, ([r] + rs)[i]) {
      if i > 0 {
        assert ([r] + rs)[i] == rs[i - 1];
      }
    }
  }

  /** `exists`. */
  predicate Exists(s: Scene, name: string) {
    name in s.objects
  }

  /** `get(name)`: the object of that name, or NULL. */
  function Get(s: Scene, name: string): (r: Option<Ref>)
    ensures r.None? <==> !Exists(s, name)
    ensures r.Some? ==> r.value == Named(name) && Valid(s, r.value)
  {
    if name in s.objects then Some(Named(name)) else None
  }

  lemma CreatedObjectExists(s: Scene, suggestion: string, parent: Option<Ref>, entity: nat)
    requires parent.Some? ==> Valid(s, parent.value)
    ensures var (s', r) := CreateObject(s, suggestion, parent, entity);
      Get(s', r.name) == Some(r) && (forall n :: Exists(s, n) ==> Exists(s', n))
  {
  }

  // ---------------------------------------------------------------------
  // Generated names are not rechecked

  /** Creating "a", then "a(1)", then "a" again: the third name drawn is
      "a(1)", which is taken. No object is added, the existing "a(1)" is
      returned, and it appears twice among the root's children. */
  lemma GeneratedNameCollides()
    ensures var s0 := NewScene("s");
      var (s1, a) := CreateObject(s0, "a", None, 1);
      var (s2, a1) := CreateObject(s1, "a(1)", None, 2);
      var (s3, x) := CreateObject(s2, "a", None, 3);
      && a == Named("a") && a1 == Named("a(1)") && x == a1
      && |s3.objects| == |s2.objects|
      && s3.root.children == [a, a1, a1]
      && !Distinct(s3.root.children)
  {
    var s0 := NewScene("s");
    var (s1, a) := CreateObject(s0, "a", None, 1);
    CollisionFirstStep();
    var (s2, a1) := CreateObject(s1, "a(1)", None, 2);
    CollisionSecondStep(s1);
    CollisionThirdStep(s2);
    var (s3, x) := CreateObject(s2, "a", None, 3);
    assert s3.root.children[1] == s3.root.children[2];
  }

  lemma CollisionFirstStep()
    ensures var (s1, a) := CreateObject(NewScene("s"), "a", None, 1);
      && a == Named("a") && s1.objects.Keys == {"ROOT", "a"} && s1.root.children == [a]
      && s1.counters == map[] && s1.freeIndices == map[]
  {
  }

  lemma CollisionSecondStep(s1: Scene)
    requires s1.objects.Keys == {"ROOT", "a"} && s1.root.children == [Named("a")]
    requires s1.counters == map[] && s1.freeIndices == map[]
    ensures var (s2, a1) := CreateObject(s1, "a(1)", None, 2);
      && a1 == Named("a(1)") && s2.objects.Keys == {"ROOT", "a", "a(1)"}
      && s2.root.children == [Named("a"), a1]
      && s2.counters == map[] && s2.freeIndices == map[]
  {
  }

  lemma CollisionThirdStep(s2: Scene)
    requires s2.objects.Keys == {"ROOT", "a", "a(1)"}
    requires s2.root.children == [Named("a"), Named("a(1)")]
    requires s2.counters == map[] && s2.freeIndices == map[]
    ensures var (s3, x) := CreateObject(s2, "a", None, 3);
      && x == Named("a(1)") && |s3.objects| == |s2.objects|
      && s3.root.children == [Named("a"), Named("a(1)"), Named("a(1)")]
  {
    assert NatToString(1) == "1";
    assert Numbered("a", 1) == "a(1)";
    assert ChooseName(s2, "a").0 == "a(1)";
  }

  /** The smallest index at or above `k` whose generated name is free. */
  function FreeIndexFrom(objects: map<string, RawObject>, base: string, k: nat): (r: nat)
    ensures r >= k && Numbered(base, r) !in objects
    decreases |TakenFrom(objects, base, k)|
  {
    if Numbered(base, k) !in objects then k
    else
      TakenFromShrinks(objects, base, k);
      FreeIndexFrom(objects, base, k + 1)
  }

  /** The names in `objects` generated from `base` with an index of at
      least `k`. */
  ghost function TakenFrom(objects: map<string, RawObject>, base: string, k: nat): set<string> {
    set n | n in objects.Keys && exists j: nat :: j >= k && n == Numbered(base, j)
  }

  lemma TakenFromShrinks(objects: map<string, RawObject>, base: string, k: nat)
    requires Numbered(base, k) in objects
    ensures |TakenFrom(objects, base, k + 1)| < |TakenFrom(objects, base, k)|
  {
    var n := Numbered(base, k);
    var big := TakenFrom(objects, base, k);
    var small := TakenFrom(objects, base, k + 1);
    forall j: nat | j >= k + 1 ensures Numbered(base, j) != n {
      if Numbered(base, j) == n {
        NumberedInjective(base, j, k);
      }
    }
    assert n in big && n !in small;
    assert small <= big;
    assert big == small + (big - small);
    assert n in big - small;
  }

  /** Name choice with the missing check: a generated name that is taken is
      replaced by the first free one above the counter, and the counter
      moves there. */
  function ChooseFreeName(s: Scene, suggestion: string): (res: (string, Scene))
    ensures res.0 !in s.objects
    ensures ChooseName(s, suggestion).0 !in s.objects ==> res == ChooseName(s, suggestion)
    ensures res.1 == s.(counters := res.1.counters, freeIndices := res.1.freeIndices)
  {
    var (name, s1) := ChooseName(s, suggestion);
    if name !in s.objects then (name, s1)
    else
      var k := FreeIndexFrom(s.objects, suggestion, CounterOf(s1, suggestion) + 1);
      (Numbered(suggestion, k), s1.(counters := s1.counters[suggestion := k]))
  }

  /** `createObject` with the generated name checked: it always adds exactly
      one new object. */
  function CreateObjectChecked(s: Scene, suggestion: string, parent: Option<Ref>, entity: nat): (res: (Scene, Ref))
    requires parent.Some? ==> Valid(s, parent.value)
    ensures res.1.Named? && res.1.name !in s.objects
    ensures res.0.objects.Keys == s.objects.Keys + {res.1.name}
    ensures res.0.objects[res.1.name] == RawObject(res.1.name, entity, Some(parent.GetOr(Root)), [])
    ensures |res.0.objects| == |s.objects| + 1
    ensures Obj(res.0, parent.GetOr(Root)) == Obj(s, parent.GetOr(Root)).(children := Obj(s, parent.GetOr(Root)).children + [res.1])
    ensures forall q :: Valid(s, q) && q != parent.GetOr(Root) ==> Obj(res.0, q) == Obj(s, q)
    ensures res.0.systems == s.systems && res.0.name == s.name
    ensures ChooseName(s, suggestion).0 !in s.objects ==> res == CreateObject(s, suggestion, parent, entity)
  {
    var (name, s1) := ChooseFreeName(s, suggestion);
    var par := parent.GetOr(Root);
    var s2 := s1.(objects := s1.objects[name := RawObject(name, entity, Some(par), [])]);
    var res := (AddChild(s2, par, Named(name)), Named(name));
    assert res.0.objects.Keys == s.objects.Keys + {name};
    res
  }

  lemma CheckedThirdStep(s2: Scene)
    requires s2.objects.Keys == {"ROOT", "a", "a(1)"}
    requires s2.counters == map[] && s2.freeIndices == map[]
    ensures CreateObjectChecked(s2, "a", None, 3).1 == Named("a(2)")
  {
    assert NatToString(1) == "1" && NatToString(2) == "2";
    assert Numbered("a", 1) == "a(1)" && Numbered("a", 2) == "a(2)";
    var (name, s3) := ChooseName(s2, "a");
    assert name == "a(1)" && CounterOf(s3, "a") == 1;
    assert FreeIndexFrom(s2.objects, "a", 2) == 2;
  }

  /** "a", "a(1)", "a": with the check the third object is "a(2)". */
  lemma CheckedNameSkipsTaken()
    ensures var s0 := NewScene("s");
      var s1 := CreateObject(s0, "a", None, 1).0;
      var s2 := CreateObject(s1, "a(1)", None, 2).0;
      CreateObjectChecked(s2, "a", None, 3).1 == Named("a(2)")
  {
    CollisionFirstStep();
    var s1 := CreateObject(NewScene("s"), "a", None, 1).0;
    CollisionSecondStep(s1);
    CheckedThirdStep(CreateObject(s1, "a(1)", None, 2).0);
  }

  // ---------------------------------------------------------------------
  // The parent/child structure

  /** Every child of `r` is a stored object whose parent is `r`, and no
      child is listed twice. */
  predicate ChildLinksOk(s: Scene, r: Ref)
    requires Valid(s, r)
  {
    Distinct(Obj(s, r).children)
    && forall i :: 0 <= i < |Obj(s, r).children| ==>
         var c := Obj(s, r).children[i];
         c.Named? && c.name in s.objects && s.objects[c.name].parent == Some(r)
  }

  /** The object `n` is listed among its parent's children. */
  predicate ParentLinkOk(s: Scene, n: string)
    requires n in s.objects
  {
    var p := s.objects[n].parent;
    p.Some? ==> Valid(s, p.value) && Named(n) in Obj(s, p.value).children
  }

  /** The scene's links agree in both directions, and each object is stored
      under its own name. */
  predicate Linked(s: Scene) {
    && s.root.parent.None?
    && ChildLinksOk(s, Root)
    && forall n :: n in s.objects ==>
         s.objects[n].name == n && ChildLinksOk(s, Named(n)) && ParentLinkOk(s, n)
  }

  /** `rank` orders every object strictly after its named parent, so the
      parent links have no cycle. */
  predicate Ranked(s: Scene, rank: map<string, nat>) {
    forall n :: n in s.objects ==>
      n in rank &&
      (s.objects[n].parent.Some? && s.objects[n].parent.value.Named? ==>
         s.objects[n].parent.value.name in rank && rank[s.objects[n].parent.value.name] < rank[n])
  }

  lemma NewSceneLinked(name: string)
    ensures Linked(NewScene(name)) && Ranked(NewScene(name), map["ROOT" := 0])
  {
  }

  /** Every object of `s` is still in `s'` with the same name and parent. */
  predicate SameUpLinks(s: Scene, s': Scene) {
    forall n :: n in s.objects ==>
      n in s'.objects && s'.objects[n].name == s.objects[n].name && s'.objects[n].parent == s.objects[n].parent
  }

  /** The child links of `r` survive a step that keeps its children and the
      parents of every object. */
  lemma ChildLinksCarry(s: Scene, s': Scene, r: Ref)
    requires Valid(s, r) && Valid(s', r) && ChildLinksOk(s, r) && SameUpLinks(s, s')
    requires Obj(s', r).children == Obj(s, r).children
    ensures ChildLinksOk(s', r)
  {
    forall i | 0 <= i < |Obj(s', r).children|
      ensures var c := Obj(s', r).children[i];
        c.Named? && c.name in s'.objects && s'.objects[c.name].parent == Some(r)
    {
      var c := Obj(s, r).children[i];
      assert c.Named? && c.name in s.objects;
    }
  }

  /** A child list that keeps the child links of `r` and appends one new
      child whose parent is `r`. */
  lemma ChildLinksAppend(s: Scene, s': Scene, r: Ref, x: string)
    requires Valid(s, r) && Valid(s', r) && ChildLinksOk(s, r) && SameUpLinks(s, s')
    requires x !in s.objects && x in s'.objects && s'.objects[x].parent == Some(r)
    requires Obj(s', r).children == Obj(s, r).children + [Named(x)]
    ensures ChildLinksOk(s', r)
  {
    var prior := Obj(s, r).children;
    forall i | 0 <= i < |prior| ensures prior[i] != Named(x) {
      assert prior[i].name in s.objects;
    }
    forall i | 0 <= i < |Obj(s', r).children|
      ensures var c := Obj(s', r).children[i];
        c.Named? && c.name in s'.objects && s'.objects[c.name].parent == Some(r)
    {
      if i < |prior| {
        assert Obj(s', r).children[i] == prior[i];
      }
    }
  }

  /** One step that adds the object `x` under `p` and appends it to `p`'s
      children, leaving every other object as it was. */
  ghost predicate AppendedOne(s: Scene, s': Scene, p: Ref, x: string) {
    && Valid(s, p) && x !in s.objects
    && s'.objects.Keys == s.objects.Keys + {x}
    && s'.objects[x].name == x && s'.objects[x].parent == Some(p) && s'.objects[x].children == []
    && Obj(s', p) == Obj(s, p).(children := Obj(s, p).children + [Named(x)])
    && forall q :: Valid(s, q) && q != p ==> Obj(s', q) == Obj(s, q)
  }

  lemma AppendedOneSameUpLinks(s: Scene, s': Scene, p: Ref, x: string)
    requires AppendedOne(s, s', p, x)
    ensures SameUpLinks(s, s') && s'.root.parent == s.root.parent
  {
    forall n | n in s.objects
      ensures n in s'.objects && s'.objects[n].name == s.objects[n].name && s'.objects[n].parent == s.objects[n].parent
    {
      assert Obj(s', Named(n)).parent == Obj(s, Named(n)).parent;
    }
    assert Obj(s', Root).parent == Obj(s, Root).parent;
  }

  /** The links of one old object `n` survive the step. */
  lemma AppendedOneObjectLinks(s: Scene, s': Scene, p: Ref, x: string, n: string)
    requires Linked(s) && AppendedOne(s, s', p, x) && n in s.objects
    ensures s'.objects[n].name == n && ChildLinksOk(s', Named(n)) && ParentLinkOk(s', n)
  {
    AppendedOneSameUpLinks(s, s', p, x);
    assert ChildLinksOk(s, Named(n)) && ParentLinkOk(s, n);
    if Named(n) != p {
      ChildLinksCarry(s, s', Named(n));
    } else {
      ChildLinksAppend(s, s', p, x);
    }
    var pn := s.objects[n].parent;
    if pn.Some? {
      if pn.value != p {
        assert Obj(s', pn.value) == Obj(s, pn.value);
      } else {
        assert Named(n) in Obj(s, p).children;
        assert Obj(s', p).children == Obj(s, p).children + [Named(x)];
      }
    }
  }

  /** Adding one child keeps the links consistent, and ranking the new
      object one past its parent keeps them acyclic. */
  lemma AppendedOneKeepsLinks(s: Scene, s': Scene, p: Ref, x: string, rank: map<string, nat>)
    requires Linked(s) && Ranked(s, rank) && AppendedOne(s, s', p, x)
    ensures Linked(s')
    ensures Ranked(s', rank[x := if p.Named? then rank[p.name] + 1 else 0])
  {
    AppendedOneLinked(s, s', p, x);
    AppendedOneRanked(s, s', p, x, rank);
  }

  /** Adding one child ranked one past its parent keeps the ranks ordered. */
  lemma AppendedOneRanked(s: Scene, s': Scene, p: Ref, x: string, rank: map<string, nat>)
    requires Linked(s) && Ranked(s, rank) && AppendedOne(s, s', p, x)
    ensures Ranked(s', rank[x := if p.Named? then rank[p.name] + 1 else 0])
  {
    AppendedOneSameUpLinks(s, s', p, x);
  }

  /** Adding one child keeps the links consistent. */
  lemma AppendedOneLinked(s: Scene, s': Scene, p: Ref, x: string)
    requires Linked(s) && AppendedOne(s, s', p, x)
    ensures Linked(s')
  {
    AppendedOneSameUpLinks(s, s', p, x);
    assert ChildLinksOk(s, p);
    ChildLinksAppend(s, s', p, x);
    forall n | n in s'.objects
      ensures s'.objects[n].name == n && ChildLinksOk(s', Named(n)) && ParentLinkOk(s', n)
    {
      if n != x {
        AppendedOneObjectLinks(s, s', p, x, n);
      } else {
        assert Obj(s', Named(x)).children == [];
      }
    }
    if p != Root {
      assert ChildLinksOk(s, Root);
      ChildLinksCarry(s, s', Root);
    }
  }

  /** Checked creation keeps the links consistent and acyclic. */
  lemma CreateObjectCheckedKeepsLinks(s: Scene, rank: map<string, nat>, suggestion: string, parent: Option<Ref>, entity: nat)
    returns (rank': map<string, nat>)
    requires Linked(s) && Ranked(s, rank)
    requires parent.Some? ==> Valid(s, parent.value)
    ensures Linked(CreateObjectChecked(s, suggestion, parent, entity).0)
    ensures Ranked(CreateObjectChecked(s, suggestion, parent, entity).0, rank')
  {
    var (s', x) := CreateObjectChecked(s, suggestion, parent, entity);
    var p := parent.GetOr(Root);
    assert AppendedOne(s, s', p, x.name);
    AppendedOneKeepsLinks(s, s', p, x.name, rank);
    rank' := rank[x.name := if p.Named? then rank[p.name] + 1 else 0];
  }

  // ---------------------------------------------------------------------
  // Deletion

  /** Removes every occurrence of `x`, keeping the order of the rest
      (`erase(remove_if(...))`). */
  function Without(cs: seq<Ref>, x: Ref): (r: seq<Ref>)
    ensures forall c :: c in r <==> c in cs && c != x
    ensures Distinct(cs) ==> Distinct(r)
    ensures x !in cs ==> r == cs
    ensures |r| <= |cs|
  {
    if |cs| == 0 then []
    else
      var rest := Without(cs[1..], x);
      assert cs == [cs[0]] + cs[1..];
      assert Distinct(cs) ==> cs[0] !in cs[1..] && Distinct(cs[1..]) by {
        if Distinct(cs) {
          forall i, j | 0 <= i < j < |cs[1..]| ensures cs[1..][i] != cs[1..][j] {
            assert cs[1..][i] == cs[i + 1] && cs[1..][j] == cs[j + 1];
          }
        }
      }
      if cs[0] == x then rest else [cs[0]] + rest
  }

  /** The children of a deleted object handed to its parent `p`: each gets
      `p` as its parent and is appended to `p`'s children, in order. The
      loop in the source does this one child at a time; the updates touch
      the parent fields of the children and the child list of `p` only, so
      they commute and are applied here in one step. */
  function MoveChildren(s: Scene, cs: seq<Ref>, p: Ref): (s': Scene)
    requires Valid(s, p)
    ensures s'.objects.Keys == s.objects.Keys
    ensures Obj(s', p).children == Obj(s, p).children + cs
    ensures forall q :: Valid(s, q) && q != p ==>
      Obj(s', q) == if q in cs then Obj(s, q).(parent := Some(p)) else Obj(s, q)
    ensures s'.counters == s.counters && s'.freeIndices == s.freeIndices && s'.systems == s.systems
  {
    var objects := map n | n in s.objects :: if Named(n) in cs then s.objects[n].(parent := Some(p)) else s.objects[n];
    assert objects.Keys == s.objects.Keys;
    var s1 := s.(root := if Root in cs then s.root.(parent := Some(p)) else s.root, objects := objects);
    AddChildren(s1, p, cs)
  }

  function AddChildren(s: Scene, p: Ref, cs: seq<Ref>): (s': Scene)
    requires Valid(s, p)
    ensures s'.objects.Keys == s.objects.Keys
    ensures s'.counters == s.counters && s'.freeIndices == s.freeIndices && s'.systems == s.systems
  {
    Put(s, p, Obj(s, p).(children := Obj(s, p).children + cs))
  }

  /** The pointers `deleteObject` follows are valid: the parent, which is
      not the object itself, and every child. */
  predicate PointersValid(s: Scene, x: string) {
    && x in s.objects
    && (s.objects[x].parent.Some? ==>
          Valid(s, s.objects[x].parent.value) && s.objects[x].parent.value != Named(x))
    && forall c :: c in s.objects[x].children ==> Valid(s, c)
  }

  /** The branch for a parentless object with children, which hands the
      address of a vector slot to the recursive call, is taken. */
  predicate ParentlessWithChildren(s: Scene, x: string)
    requires x in s.objects
  {
    s.objects[x].parent.None? && s.objects[x].children != []
  }

  /** The pointers are valid and the undefined branch is not taken. */
  predicate Deletable(s: Scene, x: string) {
    PointersValid(s, x) && !ParentlessWithChildren(s, x)
  }

  /** A name that ends in "(n)" with n readable by `stoull` splits into its
      base and n; any other name gives nothing. */
  function SplitNumbered(name: string): (r: Option<(string, nat)>)
    ensures r.Some? ==> r.value.1 < UINT64_LIMIT
  {
    var open := LastIndexOf(name, '(');
    var close := LastIndexOf(name, ')');
    if open.Some? && close.Some? && close.value == |name| - 1 && open.value < close.value then
      match Stoull(name[open.value + 1..close.value])
      case Some(index) => Some((name[..open.value], index))
      case None => None
    else None
  }

  /** Splitting recovers the base and index of every generated name. */
  lemma SplitNumberedOfNumbered(base: string, index: nat)
    requires index < UINT64_LIMIT
    ensures SplitNumbered(Numbered(base, index)) == Some((base, index))
  {
    var name := Numbered(base, index);
    var d := NatToString(index);
    var open := |base|;
    var close := |name| - 1;
    assert name == base + ['('] + d + [')'];
    assert name[open] == '(' && name[close] == ')';
    assert name[open + 1..close] == d;
    assert name[..open] == base;
    forall j | open < j < |name|
      ensures name[j] != '('
    {
      if j < close {
        assert name[j] == d[j - open - 1];
        assert IsDigit(d[j - open - 1]);
      }
    }
    LastIndexAt(name, '(', open);
    LastIndexAt(name, ')', close);
    StoullOfNatToString(index);
  }

  /** Returns a generated name's index to the free set of its base; once no
      object has the base name and every drawn index is free again, the
      base's bookkeeping is erased. */
  function Recycle(s: Scene, name: string): (s': Scene)
    ensures s'.objects == s.objects && s'.root == s.root && s'.systems == s.systems
  {
    match SplitNumbered(name)
    case None => s
    case Some((base, index)) =>
      var free := FreeOf(s, base) + {index};
      var s1 := s.(freeIndices := s.freeIndices[base := free]);
      if base !in s.objects && |free| == CounterOf(s, base) then
        s1.(freeIndices := s1.freeIndices - {base}, counters := s1.counters - {base})
      else s1
  }

  /** `deleteObject`: NULL and the scene's own root are ignored. Otherwise
      the children move to the deleted object's parent (appended after its
      existing children), the object leaves its parent's children, its
      numbered name is recycled and its map entry is erased. */
  function DeleteObject(s: Scene, obj: Option<Ref>): (s': Scene)
    requires obj.Some? && obj.value.Named? ==> Deletable(s, obj.value.name)
    ensures obj.None? || obj.value.Root? ==> s' == s
    ensures obj.Some? && obj.value.Named? ==>
      s'.objects.Keys == s.objects.Keys - {s.objects[obj.value.name].name}
    ensures s'.systems == s.systems
  {
    if obj.None? || obj.value.Root? then s
    else
      var raw := s.objects[obj.value.name];
      var s2 := if raw.parent.None? then s
        else
          var p := raw.parent.value;
          var s1 := MoveChildren(s, raw.children, p);
          Put(s1, p, Obj(s1, p).(children := Without(Obj(s1, p).children, obj.value)));
      var s3 := Recycle(s2, raw.name);
      s3.(objects := s3.objects - {raw.name})
  }

  /** The map's "ROOT" entry is a copy, not the scene's root, so deleting it
      is not refused. */
  lemma RootCopyIsDeletable(name: string)
    ensures Deletable(NewScene(name), "ROOT")
    ensures !Exists(DeleteObject(NewScene(name), Some(Named("ROOT"))), "ROOT")
    ensures DeleteObject(NewScene(name), Some(Root)) == NewScene(name)
  {
  }

  /** `deleteObject` as written. For a parentless object with children the
      loop passes `&raw->children[0]`, the address of a slot of the child
      vector, where an object is expected: undefined behaviour, `None`. Every
      other call is the deletion `DeleteObject` describes. */
  function DeleteObjectAsWritten(s: Scene, obj: Option<Ref>): (r: Option<Scene>)
    requires obj.Some? && obj.value.Named? ==> PointersValid(s, obj.value.name)
    ensures r.None? <==> obj.Some? && obj.value.Named? && ParentlessWithChildren(s, obj.value.name)
    ensures r.Some? ==> r.value == DeleteObject(s, obj)
  {
    if obj.Some? && obj.value.Named? && ParentlessWithChildren(s, obj.value.name) then None
    else Some(DeleteObject(s, obj))
  }

  /** The map's "ROOT" entry is a parentless copy that `get("ROOT")` hands
      out, so an object can be created under it; deleting the copy then takes
      the undefined branch. */
  lemma ParentlessDeleteUndefined()
    ensures var s0 := NewScene("s");
      var s1 := CreateObject(s0, "a", Get(s0, "ROOT"), 0).0;
      && Get(s1, "ROOT") == Some(Named("ROOT"))
      && s1.objects["ROOT"].parent.None? && s1.objects["ROOT"].children == [Named("a")]
      && PointersValid(s1, "ROOT")
      && DeleteObjectAsWritten(s1, Get(s1, "ROOT")).None?
  {
    var s0 := NewScene("s");
    assert Get(s0, "ROOT") == Some(Named("ROOT"));
  }

  /** Deleting a stored, parentless, childless object keeps the links: no
      object lists it as a child and no object names it as its parent. */
  lemma DeleteLoneObjectKeepsLinks(s: Scene, rank: map<string, nat>, x: string)
    requires Linked(s) && Ranked(s, rank) && x in s.objects
    requires s.objects[x].parent.None? && s.objects[x].children == []
    ensures Deletable(s, x)
    ensures var s' := DeleteObject(s, Some(Named(x)));
      Linked(s') && Ranked(s', rank) && s'.root == s.root && s'.objects == s.objects - {x}
  {
    var s' := DeleteObject(s, Some(Named(x)));
    assert s'.objects == s.objects - {x};
    ChildrenOfLinked(s, Root);
    forall n | n in s'.objects
      ensures s'.objects[n].name == n && ChildLinksOk(s', Named(n)) && ParentLinkOk(s', n)
    {
      assert ChildLinksOk(s, Named(n)) && ParentLinkOk(s, n);
      ChildrenOfLinked(s, Named(n));
      var p := s.objects[n].parent;
      if p.Some? {
        assert p.value != Named(x);
      }
    }
  }

  /** The deletion the parentless branch evidently intends ("delete all
      children"): each child is deleted through its own pointer until none
      is left, which removes the whole subtree, since a deleted child's
      children move up to the object, and then the object itself. It relies
      on the links the scene keeps; `rank` witnesses that they have no
      cycle. */
  function DeleteParentless(s: Scene, rank: map<string, nat>, x: string): (s': Scene)
    requires Linked(s) && Ranked(s, rank) && x in s.objects && s.objects[x].parent.None?
    ensures x !in s'.objects && s'.objects.Keys <= s.objects.Keys
    ensures forall n :: Named(n) in s.objects[x].children ==> n !in s'.objects
    ensures Linked(s') && Ranked(s', rank)
    ensures s'.root == s.root && s'.systems == s.systems
    decreases |s.objects.Keys|
  {
    var cs := s.objects[x].children;
    if cs == [] then
      DeleteLoneObjectKeepsLinks(s, rank, x);
      DeleteObject(s, Some(Named(x)))
    else
      var c := cs[0];
      DeleteChildStep(s, rank, x);
      var s1 := DeleteObject(s, Some(c));
      DeleteParentless(s1, rank, x)
  }

  /** The first child of a parentless object on a linked scene: a stored
      object other than the parent, pointing back at it, stored under its
      own name, and listing neither its parent nor the scene's root. */
  lemma FirstChildFacts(s: Scene, x: string)
    requires Linked(s) && x in s.objects && s.objects[x].parent.None?
    requires s.objects[x].children != []
    ensures var c := s.objects[x].children[0];
      && c.Named? && c.name in s.objects && c.name != x
      && s.objects[c.name].parent == Some(Named(x)) && s.objects[c.name].name == c.name
      && Named(x) !in s.objects[c.name].children && Root !in s.objects[c.name].children
  {
    var c := s.objects[x].children[0];
    assert ChildLinksOk(s, Named(x));
    ChildrenOfLinked(s, Named(x));
    assert c in s.objects[x].children;
    assert ChildLinksOk(s, Named(c.name));
    ChildrenOfLinked(s, Named(c.name));
  }

  /** Deleting an object whose parent is a stored object and which does not
      list the root leaves the root alone. */
  lemma DeleteKeepsRoot(s: Scene, y: string)
    requires Deletable(s, y) && s.objects[y].parent.Some? && s.objects[y].parent.value.Named?
    requires Root !in s.objects[y].children
    ensures DeleteObject(s, Some(Named(y))).root == s.root
  {
    var raw := s.objects[y];
    var p := raw.parent.value;
    var s1 := MoveChildren(s, raw.children, p);
    assert s1.root == s.root;
    var s2 := Put(s1, p, Obj(s1, p).(children := Without(Obj(s1, p).children, Named(y))));
    assert s2.root == s.root;
  }

  /** Deleting the first child of a parentless object removes exactly that
      child from the map. */
  lemma DeleteChildKeys(s: Scene, x: string)
    requires Linked(s) && x in s.objects && s.objects[x].parent.None?
    requires s.objects[x].children != []
    requires Deletable(s, s.objects[x].children[0].name)
    ensures var c := s.objects[x].children[0];
      var s1 := DeleteObject(s, Some(c));
      && s1.objects.Keys == s.objects.Keys - {c.name}
      && |s1.objects.Keys| < |s.objects.Keys|
  {
    var c := s.objects[x].children[0];
    FirstChildFacts(s, x);
    var s1 := DeleteObject(s, Some(c));
    assert s1.objects.Keys < s.objects.Keys by {
      assert c.name in s.objects.Keys && c.name !in s1.objects.Keys;
    }
  }

  /** Deleting the first child of a parentless object keeps the object
      parentless and its other children listed. */
  lemma DeleteChildKeepsParent(s: Scene, x: string)
    requires Linked(s) && x in s.objects && s.objects[x].parent.None?
    requires s.objects[x].children != []
    requires Deletable(s, s.objects[x].children[0].name)
    ensures var c := s.objects[x].children[0];
      var s1 := DeleteObject(s, Some(c));
      && x in s1.objects && s1.objects[x].parent.None?
      && forall n :: Named(n) in s.objects[x].children && n != c.name ==> Named(n) in s1.objects[x].children
  {
    var y := s.objects[x].children[0].name;
    FirstChildFacts(s, x);
    DeleteObjectShape(s, y);
    var s1 := DeleteObject(s, Some(Named(y)));
    var cs := s.objects[y].children;
    assert ShapeAfterDelete(s, y, s1);
    assert x in s1.objects;
    assert s1.objects[x].parent == (if Named(x) in cs then Some(Named(x)) else s.objects[x].parent);
    var kids := Without(s.objects[x].children + cs, Named(y));
    assert s1.objects[x].children == kids;
    forall n | Named(n) in s.objects[x].children && n != y
      ensures Named(n) in kids
    {
      assert Named(n) in s.objects[x].children + cs;
    }
  }

  /** Deleting the first child of a parentless object keeps the links,
      shrinks the map by that child, keeps the object parentless and keeps
      its other children listed. */
  lemma DeleteChildStep(s: Scene, rank: map<string, nat>, x: string)
    requires Linked(s) && Ranked(s, rank) && x in s.objects && s.objects[x].parent.None?
    requires s.objects[x].children != []
    ensures var c := s.objects[x].children[0];
      && c.Named? && c.name in s.objects && c.name != x && Deletable(s, c.name)
      && var s1 := DeleteObject(s, Some(c));
         && s1.objects.Keys == s.objects.Keys - {c.name}
         && |s1.objects.Keys| < |s.objects.Keys|
         && Linked(s1) && Ranked(s1, rank) && s1.root == s.root && s1.systems == s.systems
         && x in s1.objects && s1.objects[x].parent.None?
         && forall n :: Named(n) in s.objects[x].children && n != c.name ==> Named(n) in s1.objects[x].children
  {
    var y := s.objects[x].children[0].name;
    FirstChildFacts(s, x);
    DeleteObjectKeepsLinks(s, rank, y);
    DeleteKeepsRoot(s, y);
    DeleteChildKeys(s, x);
    DeleteChildKeepsParent(s, x);
  }

  /** `deleteObject` with the parentless branch corrected to delete the
      children: on a linked scene every stored object can be deleted, the
      object and its direct children are gone, the links still hold, and
      wherever the code as written is defined the two agree. */
  function DeleteObjectChecked(s: Scene, rank: map<string, nat>, obj: Option<Ref>): (s': Scene)
    requires Linked(s) && Ranked(s, rank)
    requires obj.Some? && obj.value.Named? ==> obj.value.name in s.objects
    ensures obj.None? || obj.value.Root? ==> s' == s
    ensures obj.Some? && obj.value.Named? ==>
      && obj.value.name !in s'.objects
      && (forall n :: Named(n) in s.objects[obj.value.name].children && s.objects[obj.value.name].parent.None? ==>
            n !in s'.objects)
      && Linked(s') && Ranked(s', rank)
    ensures obj.Some? && obj.value.Named? && !ParentlessWithChildren(s, obj.value.name) ==>
      PointersValid(s, obj.value.name) && DeleteObjectAsWritten(s, obj) == Some(s')
  {
    if obj.None? || obj.value.Root? then s
    else
      var x := obj.value.name;
      if s.objects[x].parent.None? then
        if s.objects[x].children == [] then
          DeleteLoneObjectKeepsLinks(s, rank, x);
          DeleteObject(s, obj)
        else DeleteParentless(s, rank, x)
      else
        DeleteObjectKeepsLinks(s, rank, x);
        DeleteObject(s, obj)
  }

  /** Deleting a generated name gives its index back to the base name: the
      next collision on that base reuses it, unless the base's bookkeeping
      was erased because no object is left to collide with. */
  lemma DeleteRecyclesIndex(s: Scene, base: string, index: nat)
    requires index < UINT64_LIMIT
    requires Deletable(s, Numbered(base, index)) && s.objects[Numbered(base, index)].name == Numbered(base, index)
    ensures var s' := DeleteObject(s, Some(Named(Numbered(base, index))));
      index in FreeOf(s', base) || (base !in s'.objects && FreeOf(s', base) == {} && CounterOf(s', base) == 0)
  {
    SplitNumberedOfNumbered(base, index);
  }

  // ---------------------------------------------------------------------
  // Deletion keeps the links

  /** The objects after deleting `x` whose parent is `p` and children `cs`:
      the moved children point at `p`, `p` lists its old children but `x`
      followed by `cs`, and nothing else changes. */
  predicate ShapeAfterDelete(s: Scene, x: string, s': Scene) {
    && x in s.objects && s.objects[x].parent.Some?
    && var p := s.objects[x].parent.value;
       var cs := s.objects[x].children;
       && s'.objects.Keys == s.objects.Keys - {x}
       && (forall n :: n in s'.objects ==>
             && s'.objects[n].name == s.objects[n].name
             && s'.objects[n].parent == (if Named(n) in cs then Some(p) else s.objects[n].parent)
             && s'.objects[n].children == (if Named(n) == p then Without(s.objects[n].children + cs, Named(x))
                                           else s.objects[n].children))
       && s'.root.parent == (if Root in cs then Some(p) else s.root.parent)
       && s'.root.children == (if p == Root then Without(s.root.children + cs, Named(x)) else s.root.children)
  }

  lemma DeleteObjectShape(s: Scene, x: string)
    requires Deletable(s, x) && s.objects[x].parent.Some? && s.objects[x].name == x
    ensures ShapeAfterDelete(s, x, DeleteObject(s, Some(Named(x))))
  {
    DeleteShapeObjects(s, x);
    DeleteShapeRoot(s, x);
  }

  /** The remaining objects after deleting `x`. */
  lemma DeleteShapeObjects(s: Scene, x: string)
    requires Deletable(s, x) && s.objects[x].parent.Some? && s.objects[x].name == x
    ensures var s' := DeleteObject(s, Some(Named(x)));
      var p := s.objects[x].parent.value;
      var cs := s.objects[x].children;
      forall n :: n in s'.objects ==>
        && s'.objects[n].name == s.objects[n].name
        && s'.objects[n].parent == (if Named(n) in cs then Some(p) else s.objects[n].parent)
        && s'.objects[n].children == (if Named(n) == p then Without(s.objects[n].children + cs, Named(x))
                                      else s.objects[n].children)
  {
    var raw := s.objects[x];
    var p := raw.parent.value;
    var cs := raw.children;
    var s1 := MoveChildren(s, cs, p);
    var s2 := Put(s1, p, Obj(s1, p).(children := Without(Obj(s1, p).children, Named(x))));
    var s3 := Recycle(s2, raw.name);
    var s' := DeleteObject(s, Some(Named(x)));
    assert s' == s3.(objects := s3.objects - {x});
    forall n | n in s'.objects
      ensures && s'.objects[n].name == s.objects[n].name
              && s'.objects[n].parent == (if Named(n) in cs then Some(p) else s.objects[n].parent)
              && s'.objects[n].children == (if Named(n) == p then Without(s.objects[n].children + cs, Named(x))
                                            else s.objects[n].children)
    {
      assert s'.objects[n] == Obj(s2, Named(n));
      if Named(n) != p {
        assert Obj(s2, Named(n)) == Obj(s1, Named(n));
      }
    }
  }

  /** The scene's root after deleting `x`. */
  lemma DeleteShapeRoot(s: Scene, x: string)
    requires Deletable(s, x) && s.objects[x].parent.Some? && s.objects[x].name == x
    ensures var s' := DeleteObject(s, Some(Named(x)));
      var p := s.objects[x].parent.value;
      var cs := s.objects[x].children;
      && s'.root.parent == (if Root in cs then Some(p) else s.root.parent)
      && s'.root.children == (if p == Root then Without(s.root.children + cs, Named(x)) else s.root.children)
  {
  }

  /** Deletion keeps the links consistent, and the same ranks still order
      every remaining object after its parent. */
  lemma DeleteObjectKeepsLinks(s: Scene, rank: map<string, nat>, x: string)
    requires Linked(s) && Ranked(s, rank) && x in s.objects && s.objects[x].parent.Some?
    ensures Deletable(s, x)
    ensures Linked(DeleteObject(s, Some(Named(x))))
    ensures Ranked(DeleteObject(s, Some(Named(x))), rank)
  {
    var raw := s.objects[x];
    var p := raw.parent.value;
    var cs := raw.children;
    assert ChildLinksOk(s, Named(x)) && ParentLinkOk(s, x);
    ChildrenOfLinked(s, Named(x));
    assert p != Named(x);
    forall c | c in cs ensures c != p {
      if p.Named? {
        assert rank[p.name] < rank[x] < rank[c.name];
      }
    }
    assert Deletable(s, x);
    ChildrenOfLinked(s, p);
    assert forall c :: c in cs ==> c !in Obj(s, p).children;
    DistinctConcat(Obj(s, p).children, cs);
    DeleteObjectShape(s, x);
    LinkedAfterDelete(s, rank, x, DeleteObject(s, Some(Named(x))));
  }

  /** The children of `r` under the links, as a membership fact. */
  lemma ChildrenOfLinked(s: Scene, r: Ref)
    requires Valid(s, r) && ChildLinksOk(s, r)
    ensures forall c :: c in Obj(s, r).children ==>
      c.Named? && c.name in s.objects && s.objects[c.name].parent == Some(r)
  {
    forall c | c in Obj(s, r).children
      ensures c.Named? && c.name in s.objects && s.objects[c.name].parent == Some(r)
    {
      var i :| 0 <= i < |Obj(s, r).children| && Obj(s, r).children[i] == c;
    }
  }

  lemma DistinctConcat(a: seq<Ref>, b: seq<Ref>)
    requires Distinct(a) && Distinct(b) && forall c :: c in b ==> c !in a
    ensures Distinct(a + b)
  {
    forall i, j | 0 <= i < j < |a + b| ensures (a + b)[i] != (a + b)[j] {
      if i < |a| && j >= |a| {
        assert (a + b)[j] in b;
      }
    }
  }

  /** The new child list of `p` satisfies the child links. */
  lemma NewParentLinks(s: Scene, x: string, s': Scene)
    requires Linked(s) && x in s.objects && s.objects[x].parent.Some?
    requires var p := s.objects[x].parent.value; var cs := s.objects[x].children;
      && Valid(s, p) && Valid(s', p) && p != Named(x)
      && (forall c :: c in cs ==> c.Named? && c.name in s.objects && c.name != x)
      && Distinct(Obj(s, p).children + cs)
      && Obj(s', p).children == Without(Obj(s, p).children + cs, Named(x))
      && s'.objects.Keys == s.objects.Keys - {x}
      && (forall n :: n in s'.objects ==>
            s'.objects[n].parent == (if Named(n) in cs then Some(p) else s.objects[n].parent))
    ensures ChildLinksOk(s', s.objects[x].parent.value)
  {
    var p := s.objects[x].parent.value;
    var cs := s.objects[x].children;
    var kids := Obj(s', p).children;
    ChildrenOfLinked(s, p);
    forall i | 0 <= i < |kids|
      ensures kids[i].Named? && kids[i].name in s'.objects && s'.objects[kids[i].name].parent == Some(p)
    {
      var c := kids[i];
      assert c in kids;
      assert c in Obj(s, p).children + cs && c != Named(x);
    }
  }

  /** Every other child list is unchanged and keeps its links. */
  lemma OtherChildLinks(s: Scene, x: string, s': Scene, q: Ref)
    requires Linked(s) && x in s.objects && s.objects[x].parent.Some?
    requires var p := s.objects[x].parent.value; var cs := s.objects[x].children;
      && Valid(s, q) && Valid(s', q) && q != p && q != Named(x)
      && Obj(s', q).children == Obj(s, q).children
      && (forall c :: c in cs ==> c.Named? && c.name in s.objects && s.objects[c.name].parent == Some(Named(x)))
      && s'.objects.Keys == s.objects.Keys - {x}
      && (forall n :: n in s'.objects ==>
            s'.objects[n].parent == (if Named(n) in cs then Some(p) else s.objects[n].parent))
    ensures ChildLinksOk(s', q)
  {
    var cs := s.objects[x].children;
    assert ChildLinksOk(s, q);
    ChildrenOfLinked(s, q);
    forall i | 0 <= i < |Obj(s', q).children|
      ensures var c := Obj(s', q).children[i];
        c.Named? && c.name in s'.objects && s'.objects[c.name].parent == Some(q)
    {
      var c := Obj(s, q).children[i];
      assert c in Obj(s, q).children;
      assert s.objects[c.name].parent == Some(q) != s.objects[x].parent;
    }
  }

  /** What the links of `s` give about the object `x` to delete: its parent
      `p` is stored and is neither `x` nor one of its children, the children
      point back at `x`, and `p`'s children followed by them are distinct. */
  predicate DeleteSetting(s: Scene, x: string) {
    && x in s.objects && s.objects[x].parent.Some?
    && var p := s.objects[x].parent.value;
       var cs := s.objects[x].children;
       && Valid(s, p) && p != Named(x) && p !in cs && Named(x) !in cs
       && (forall c :: c in cs ==> c.Named? && c.name in s.objects && s.objects[c.name].parent == Some(Named(x)))
       && Distinct(Obj(s, p).children + cs)
  }

  /** The links of one remaining object `n` hold after the deletion. */
  lemma LinkedAfterDeleteObject(s: Scene, x: string, s': Scene, n: string)
    requires Linked(s) && DeleteSetting(s, x) && ShapeAfterDelete(s, x, s') && n in s'.objects
    ensures s'.objects[n].name == n && ChildLinksOk(s', Named(n)) && ParentLinkOk(s', n)
  {
    var p := s.objects[x].parent.value;
    var cs := s.objects[x].children;
    assert Valid(s', p);
    var q := Named(n);
    if q != p {
      OtherChildLinks(s, x, s', q);
    } else {
      NewParentLinks(s, x, s');
    }
    assert ParentLinkOk(s, n);
    var pn := s'.objects[n].parent;
    if pn.Some? && q !in cs {
      assert pn.value != Named(x) by {
        if pn.value == Named(x) {
          ChildrenOfLinked(s, Named(x));
        }
      }
      assert Named(n) in Obj(s, pn.value).children;
      assert Valid(s', pn.value);
      if pn.value == p {
        assert Named(n) in Obj(s', p).children;
      } else {
        assert Obj(s', pn.value).children == Obj(s, pn.value).children;
      }
    }
  }

  /** The same ranks still order every remaining object after its parent. */
  lemma RankedAfterDelete(s: Scene, rank: map<string, nat>, x: string, s': Scene)
    requires Ranked(s, rank) && DeleteSetting(s, x) && ShapeAfterDelete(s, x, s')
    requires forall c :: c in s.objects[x].children ==> c.name in rank && rank[x] < rank[c.name]
    ensures Ranked(s', rank)
  {
  }

  lemma LinkedAfterDelete(s: Scene, rank: map<string, nat>, x: string, s': Scene)
    requires Linked(s) && Ranked(s, rank) && DeleteSetting(s, x) && ShapeAfterDelete(s, x, s')
    ensures Linked(s') && Ranked(s', rank)
  {
    var p := s.objects[x].parent.value;
    forall n | n in s'.objects
      ensures s'.objects[n].name == n && ChildLinksOk(s', Named(n)) && ParentLinkOk(s', n)
    {
      LinkedAfterDeleteObject(s, x, s', n);
    }
    if p != Root {
      OtherChildLinks(s, x, s', Root);
    } else {
      NewParentLinks(s, x, s');
    }
    RankedAfterDelete(s, rank, x, s');
  }

  // ---------------------------------------------------------------------
  // Printing

  /** Printing stops descending past this depth. */
  const PRINT_DEPTH_LIMIT: nat := 32

  /** Every child reference in the scene names a stored object. */
  ghost predicate ChildrenValid(s: Scene) {
    && (forall c :: c in s.root.children ==> Valid(s, c))
    && forall n, c :: n in s.objects && c in s.objects[n].children ==> Valid(s, c)
  }

  /** Two spaces per level. */
  function Indent(depth: nat): (r: string)
    ensures |r| == 2 * depth && forall i :: 0 <= i < |r| ==> r[i] == ' '
  {
    seq(2 * depth, _ => ' ')
  }

  /** Starts with the indentation of `depth`. */
  predicate Indented(line: string, depth: nat) {
    |line| >= 2 * depth && line[..2 * depth] == Indent(depth)
  }

  /** The lines `print(os, depth)` writes for `r`: past the depth limit a
      single "[...]" marker, otherwise the name followed by the lines of each
      child one level deeper. A cycle in the links therefore ends in the
      marker instead of recursing forever. */
  function PrintLines(s: Scene, r: Ref, depth: nat): (lines: seq<string>)
    requires ChildrenValid(s) && Valid(s, r)
    ensures |lines| >= 1
    ensures depth > PRINT_DEPTH_LIMIT ==> lines == [Indent(depth) + "[...]"]
    ensures depth <= PRINT_DEPTH_LIMIT ==> lines[0] == Indent(depth) + Obj(s, r).name
    ensures forall i :: 0 <= i < |lines| ==> Indented(lines[i], depth)
    decreases PRINT_DEPTH_LIMIT + 1 - depth, 0
  {
    if depth > PRINT_DEPTH_LIMIT then [Indent(depth) + "[...]"]
    else
      var rest := PrintChildren(s, Obj(s, r).children, depth + 1);
      forall i | 0 <= i < |rest| ensures Indented(rest[i], depth) {
        IndentedDeeper(rest[i], depth);
      }
      [Indent(depth) + Obj(s, r).name] + rest
  }

  /** The lines of `cs` in order, each printed at `depth`. */
  function PrintChildren(s: Scene, cs: seq<Ref>, depth: nat): (lines: seq<string>)
    requires ChildrenValid(s) && forall c :: c in cs ==> Valid(s, c)
    requires depth <= PRINT_DEPTH_LIMIT + 1
    ensures |lines| >= |cs|
    ensures forall i :: 0 <= i < |lines| ==> Indented(lines[i], depth)
    decreases PRINT_DEPTH_LIMIT + 1 - depth, |cs|
  {
    if |cs| == 0 then []
    else PrintLines(s, cs[0], depth) + PrintChildren(s, cs[1..], depth)
  }

  lemma IndentedDeeper(line: string, depth: nat)
    requires Indented(line, depth + 1)
    ensures Indented(line, depth)
  {
    assert line[..2 * depth] == line[..2 * (depth + 1)][..2 * depth];
  }

  /** An object listed as its own child: one object, printed once per level
      until the marker. */
  const SELF_LOOP: Scene :=
    Scene("s", ROOT_OBJECT, map["x" := RawObject("x", 0, Some(Named("x")), [Named("x")])], map[], map[], {})

  /** One level of the self-loop: its name, then the next level. */
  lemma SelfLoopStep(depth: nat)
    requires depth <= PRINT_DEPTH_LIMIT
    ensures ChildrenValid(SELF_LOOP)
    ensures PrintLines(SELF_LOOP, Named("x"), depth)
         == [Indent(depth) + "x"] + PrintLines(SELF_LOOP, Named("x"), depth + 1)
  {
    assert ChildrenValid(SELF_LOOP);
    var inner := PrintLines(SELF_LOOP, Named("x"), depth + 1);
    assert PrintChildren(SELF_LOOP, [Named("x")], depth + 1) == inner + PrintChildren(SELF_LOOP, [], depth + 1);
    assert PrintChildren(SELF_LOOP, [Named("x")], depth + 1) == inner;
  }

  /** The self-loop prints its name on levels `depth` to 32 and then the
      marker. */
  lemma {:induction false} SelfLoopLines(depth: nat)
    requires depth <= PRINT_DEPTH_LIMIT + 1
    ensures ChildrenValid(SELF_LOOP)
    ensures |PrintLines(SELF_LOOP, Named("x"), depth)| == PRINT_DEPTH_LIMIT + 2 - depth
    ensures PrintLines(SELF_LOOP, Named("x"), depth)[PRINT_DEPTH_LIMIT + 1 - depth] == Indent(PRINT_DEPTH_LIMIT + 1) + "[...]"
    decreases PRINT_DEPTH_LIMIT + 1 - depth
  {
    assert ChildrenValid(SELF_LOOP);
    if depth <= PRINT_DEPTH_LIMIT {
      SelfLoopLines(depth + 1);
      SelfLoopStep(depth);
    }
  }

  /** Printing a cycle terminates: the self-loop gives 33 name lines and
      one marker. */
  lemma SelfLoopPrintIsBounded()
    ensures ChildrenValid(SELF_LOOP)
    ensures |PrintLines(SELF_LOOP, Named("x"), 0)| == 34
    ensures PrintLines(SELF_LOOP, Named("x"), 0)[33] == Indent(33) + "[...]"
  {
    SelfLoopLines(0);
  }

  // ---------------------------------------------------------------------
  // Systems

  /** `addSystem`: refused when a system of that type is already present. */
  function AddSystem(s: Scene, typeName: string): (res: (Scene, bool))
    ensures res.1 <==> typeName !in s.systems
    ensures res.0.systems == s.systems + {typeName}
    ensures res.0.objects == s.objects && res.0.root == s.root
  {
    if typeName in s.systems then (s, false) else (s.(systems := s.systems + {typeName}), true)
  }

  predicate HasSystem(s: Scene, typeName: string) {
    typeName in s.systems
  }

  /** `getSystem`: the registered system, or NULL. */
  function GetSystem(s: Scene, typeName: string): (r: Option<string>)
    ensures r.Some? <==> HasSystem(s, typeName)
    ensures r.Some? ==> r.value == typeName
  {
    if typeName in s.systems then Some(typeName) else None
  }

  /** `removeSystem`: deletes the system if present. */
  function RemoveSystem(s: Scene, typeName: string): (s': Scene)
    ensures s'.systems == s.systems - {typeName}
    ensures s'.objects == s.objects && s'.root == s.root
  {
    s.(systems := s.systems - {typeName})
  }

  /** Adding then removing a system restores the registry; a second add is
      refused; other types are unaffected. */
  lemma SystemRegistry(s: Scene, t: string, u: string)
    requires t != u
    ensures var (s1, ok) := AddSystem(s, t);
      && HasSystem(s1, t) && !AddSystem(s1, t).1
      && GetSystem(RemoveSystem(s1, t), t).None?
      && (HasSystem(s1, u) <==> HasSystem(s, u))
      && (!HasSystem(s, t) ==> RemoveSystem(s1, t).systems == s.systems)
  {
  }
}

=== FILE: seqs.dfy ===
/** Small sequence and set vocabulary shared by the containers of the model. */
module Seqs {
  import opened Wrappers

  /** No element occurs twice. */
  predicate Distinct<T(==)>(s: seq<T>) {
    forall i, j :: 0 <= i < j < |s| ==> s[i] != s[j]
  }

  /** `s` with the element at position `k` erased, as `std::vector::erase` does. */
  function RemoveAt<T>(s: seq<T>, k: nat): (r: seq<T>)
    requires k < |s|
    ensures |r| == |s| - 1
    ensures forall i :: 0 <= i < k ==> r[i] == s[i]
    ensures forall i :: k <= i < |r| ==> r[i] == s[i + 1]
  {
    s[..k] + s[k + 1..]
  }

  lemma RemoveAtMultiset<T>(s: seq<T>, k: nat)
    requires k < |s|
    ensures multiset(RemoveAt(s, k)) == multiset(s) - multiset{s[k]}
  {
    assert s == s[..k] + [s[k]] + s[k + 1..];
  }

  lemma DistinctDropLast<T>(s: seq<T>)
    requires Distinct(s) && |s| > 0
    ensures Distinct(s[..|s| - 1])
    ensures s[|s| - 1] !in s[..|s| - 1]
  {
  }

  lemma DistinctAppend<T>(s: seq<T>, x: T)
    requires Distinct(s) && x !in s
    ensures Distinct(s + [x])
  {
  }

  /** A sequence without repeats has as many elements as its set. */
  lemma {:induction false} DistinctSetSize<T>(s: seq<T>)
    requires Distinct(s)
    ensures |set x | x in s| == |s|
  {
    if |s| > 0 {
      var init := s[..|s| - 1];
      DistinctDropLast(s);
      DistinctSetSize(init);
      assert (set x | x in s) == (set x | x in init) + {s[|s| - 1]};
    }
  }

  /** `m` is the smallest element of `xs`. */
  predicate IsLeast(m: nat, xs: set<nat>) {
    m in xs && forall x :: x in xs ==> m <= x
  }

  lemma {:induction false} MinExists(xs: set<nat>)
    requires xs != {}
    ensures exists m :: IsLeast(m, xs)
    decreases |xs|
  {
    var x :| x in xs;
    var rest := xs - {x};
    if rest == {} {
      assert xs == {x};
      assert IsLeast(x, xs);
    } else {
      MinExists(rest);
      var r :| IsLeast(r, rest);
      var best := if x < r then x else r;
      assert xs == rest + {x};
      assert IsLeast(best, xs);
    }
  }

  /** The smallest element of a non-empty set (what `*set.begin()` reads from an ordered set). */
  function SetMin(xs: set<nat>): (m: nat)
    requires xs != {}
    ensures m in xs && forall x :: x in xs ==> m <= x
  {
    MinExists(xs);
    var m :| IsLeast(m, xs);
    m
  }

  /** The position of the last `c` in `s` (`rfind`, `find_last_of`). */
  function LastIndexOf<T(==)>(s: seq<T>, c: T): (r: Option<nat>)
    ensures r.Some? ==> r.value < |s| && s[r.value] == c && forall j :: r.value < j < |s| ==> s[j] != c
    ensures r.None? ==> forall j :: 0 <= j < |s| ==> s[j] != c
  {
    if |s| == 0 then None
    else if s[|s| - 1] == c then Some(|s| - 1)
    else LastIndexOf(s[..|s| - 1], c)
  }

  lemma LastIndexAt<T>(s: seq<T>, c: T, i: nat)
    requires i < |s| && s[i] == c && forall j :: i < j < |s| ==> s[j] != c
    ensures LastIndexOf(s, c) == Some(i)
  {
    if i < |s| - 1 {
      LastIndexAt(s[..|s| - 1], c, i);
    }
  }
}

=== FILE: settings.dfy ===
/** The settings store: a map from names to typed values, saved to and loaded
    from an XML document with one `Setting` node per entry. Each entry keeps a
    numeric type code (the `SettingType` enumeration) next to its value; a
    typed read succeeds only when the codes agree. Floating-point components
    are carried as the decimal text written for them. */
module Settings {
  import opened Wrappers
  import opened Numeric
  import opened Seqs
  import opened Xml

  // ---------------------------------------------------------------------
  // Type codes

  const UINT8: nat := 0
  const INT8: nat := 1
  const UINT16: nat := 2
  const INT16: nat := 3
  const UINT32: nat := 4
  const INT32: nat := 5
  const UINT64: nat := 6
  const INT64: nat := 7
  const FLOAT: nat := 8
  const DOUBLE: nat := 9
  const STRING: nat := 10
  const VEC2: nat := 11
  const VEC4: nat := 13
  const DVEC2: nat := 14
  const UIVEC2: nat := 17
  const IVEC2: nat := 20
  const IVEC4: nat := 22

  /** Number of codes the enumeration defines. */
  const TYPE_COUNT: nat := 23

  predicate IsKnown(code: nat) {
    code < TYPE_COUNT
  }

  /** The values an object of `SettingType` can hold. The enumeration has no
      fixed underlying type and its enumerators run from 0 to 22, which need
      five bits, so its values are 0 to 31 (section 10.2 [dcl.enum],
      paragraph 8, of ISO C++ 2017). Converting an integer outside that range
      to the enumeration is undefined (section 8.2.9 [expr.static.cast],
      paragraph 10). */
  const ENUM_RANGE: nat := 32

  predicate Representable(code: nat) {
    code < ENUM_RANGE
  }

  predicate IsIntegerCode(code: nat) {
    code <= INT64
  }

  /** Codes whose value is one or more floating-point components. */
  predicate IsRealCode(code: nat) {
    FLOAT <= code < UIVEC2 && code != STRING
  }

  /** Codes of the 32-bit integer vectors. */
  predicate IsIntVectorCode(code: nat) {
    UIVEC2 <= code <= IVEC4
  }

  /** Number of values of the integer type `code` (8, 16, 32 or 64 bits);
      odd codes are the signed types. */
  function IntegerLimit(code: nat): (limit: nat)
    requires IsIntegerCode(code)
    ensures limit >= UINT8_LIMIT && limit % 2 == 0
  {
    if code <= INT8 then UINT8_LIMIT
    else if code <= INT16 then UINT16_LIMIT
    else if code <= INT32 then UINT32_LIMIT
    else UINT64_LIMIT
  }

  predicate IsSignedCode(code: nat) {
    (IsIntegerCode(code) && code % 2 == 1) || IVEC2 <= code <= IVEC4
  }

  /** The values the C++ type of an integer code can hold. */
  predicate InIntegerRange(code: nat, i: int)
    requires IsIntegerCode(code)
  {
    if IsSignedCode(code) then -(IntegerLimit(code) / 2) <= i < IntegerLimit(code) / 2
    else 0 <= i < IntegerLimit(code)
  }

  /** Components of an integer vector are `uint32_t` or `int32_t`. */
  predicate InComponentRange(code: nat, i: int) {
    if IsSignedCode(code) then -0x8000_0000 <= i < 0x8000_0000 else 0 <= i < UINT32_LIMIT
  }

  /** The attribute names under which each component is stored. */
  function ComponentNames(code: nat): (names: seq<string>)
    requires IsRealCode(code) || IsIntVectorCode(code)
    ensures 1 <= |names| <= 4 && Distinct(names)
    ensures forall k :: 0 <= k < |names| ==> names[k] != "type"
  {
    if code <= DOUBLE then ["value"] else ["x", "y", "z", "w"][..(code - VEC2) % 3 + 2]
  }

  // ---------------------------------------------------------------------
  // Values

  /** The union's possible contents: an integer, a string, the texts of
      floating-point components, or the components of an integer vector. */
  datatype Value = Integer(i: int) | Text(s: string) | Reals(texts: seq<string>) | Ints(parts: seq<int>)

  /** A default-constructed union holds the empty string. */
  const DEFAULT_VALUE: Value := Text("")

  /** `value` is what the C++ member selected by `code` can hold. */
  predicate Fits(code: nat, value: Value) {
    if IsIntegerCode(code) then value.Integer? && InIntegerRange(code, value.i)
    else if code == STRING then value.Text?
    else if IsRealCode(code) then value.Reals? && |value.texts| == |ComponentNames(code)|
    else if IsIntVectorCode(code) then
      value.Ints? && |value.parts| == |ComponentNames(code)|
      && forall k :: 0 <= k < |value.parts| ==> InComponentRange(code, value.parts[k])
    else false
  }

  lemma FitsOnlyKnown(code: nat, value: Value)
    requires Fits(code, value)
    ensures IsKnown(code)
  {
  }

  datatype Setting = Setting(code: nat, value: Value)

  type Store = map<string, Setting>

  /** Every entry with a known code holds a value of that code's type. Only
      a loaded unknown code escapes the type discipline of the setters. */
  predicate WellTyped(m: Store) {
    forall n :: n in m && IsKnown(m[n].code) ==> Fits(m[n].code, m[n].value)
  }

  // ---------------------------------------------------------------------
  // Typed access

  /** `setSetting`: the entry is created or overwritten with the new code
      and value; the typed setters only accept values of their type. */
  function SetSetting(m: Store, name: string, code: nat, value: Value): (m': Store)
    requires Fits(code, value)
    ensures WellTyped(m) ==> WellTyped(m')
  {
    m[name := Setting(code, value)]
  }

  /** `getSetting`: nothing when absent or stored under another code. */
  function GetSetting(m: Store, name: string, code: nat): (r: Option<Value>)
    ensures r.Some? <==> name in m && m[name].code == code
    ensures r.Some? ==> r.value == m[name].value
  {
    if name in m && m[name].code == code then Some(m[name].value) else None
  }

  /** A read after a write: the written value under its own code, nothing
      under another code, and other names are unaffected. */
  lemma GetAfterSet(m: Store, name: string, code: nat, value: Value, name': string, code': nat)
    requires Fits(code, value)
    ensures GetSetting(SetSetting(m, name, code, value), name', code') ==
      if name' != name then GetSetting(m, name', code')
      else if code' == code then Some(value) else None
  {
  }

  // ---------------------------------------------------------------------
  // The string member of the union

  /** The union's `std::string` member is alive: the default constructor
      builds it, and writing any other member ends its lifetime without a
      destructor call. In the model it is alive exactly when the value is
      `Text`. */
  predicate StringAlive(v: Value) {
    v.Text?
  }

  /** A write of code `code` under `name` is defined: a string may only be
      assigned to an entry whose string member is alive, and a name not yet
      in the map gets a default-constructed entry first. */
  predicate WriteDefined(m: Store, name: string, code: nat) {
    code == STRING ==> name !in m || StringAlive(m[name].value)
  }

  /** `setSetting` as written: `None` stands for the assignment to a string
      member whose lifetime an earlier numeric or vector write ended, which is
      undefined. A defined write does what `SetSetting` does. */
  function SetSettingAsWritten(m: Store, name: string, code: nat, value: Value): (r: Option<Store>)
    requires Fits(code, value)
    ensures r.None? <==> code == STRING && name in m && !m[name].value.Text?
    ensures r.Some? ==> r.value == SetSetting(m, name, code, value)
  {
    if WriteDefined(m, name, code) then Some(SetSetting(m, name, code, value)) else None
  }

  /** Writing an `int32_t` and then a string under the same name is
      undefined as written; the corrected write reads the string back. */
  lemma StringAfterNumberUndefined(m: Store, name: string)
    ensures var m1 := SetSetting(m, name, INT32, Integer(5));
      && SetSettingAsWritten(m, name, INT32, Integer(5)) == Some(m1)
      && SetSettingAsWritten(m1, name, STRING, Text("a")).None?
      && GetSetting(SetSetting(m1, name, STRING, Text("a")), name, STRING) == Some(Text("a"))
  {
  }

  /** A defined write as written is read back as `GetAfterSet` says. */
  lemma GetAfterSetAsWritten(m: Store, name: string, code: nat, value: Value, name': string, code': nat)
    requires Fits(code, value) && WriteDefined(m, name, code)
    ensures SetSettingAsWritten(m, name, code, value).Some?
    ensures GetSetting(SetSettingAsWritten(m, name, code, value).value, name', code') ==
      if name' != name then GetSetting(m, name', code')
      else if code' == code then Some(value) else None
  {
    GetAfterSet(m, name, code, value, name', code');
  }

  /** `getSettingCount` after a write grows by one exactly when the name is new. */
  lemma SetSettingCount(m: Store, name: string, code: nat, value: Value)
    requires Fits(code, value)
    ensures |SetSetting(m, name, code, value)| == if name in m then |m| else |m| + 1
  {
    var m' := SetSetting(m, name, code, value);
    if name in m {
      assert m'.Keys == m.Keys;
    } else {
      assert m'.Keys == m.Keys + {name};
    }
  }

  /** `order` lists every name of the store once: the map's iteration order. */
  predicate Enumerates(order: seq<string>, m: Store) {
    Distinct(order) && (forall n :: n in m ==> n in order) && (forall n :: n in order ==> n in m)
  }

  /** `getSettingName(i)` and `getSetting(i)`: the i-th entry of the iteration
      order; an index past the count is outside the contract. */
  function EntryAt(m: Store, order: seq<string>, i: nat): (r: (string, Setting))
    requires Enumerates(order, m) && i < |order|
    ensures r.0 in m && r.1 == m[r.0]
    ensures forall j :: 0 <= j < |order| && order[j] == r.0 ==> j == i
  {
    (order[i], m[order[i]])
  }

  // ---------------------------------------------------------------------
  // Type names

  const TYPE_NAMES: seq<string> := [
    "SETTING_TYPE_UINT8", "SETTING_TYPE_INT8", "SETTING_TYPE_UINT16", "SETTING_TYPE_INT16",
    "SETTING_TYPE_UINT32", "SETTING_TYPE_INT32", "SETTING_TYPE_UINT64", "SETTING_TYPE_INT64",
    "SETTING_TYPE_FLOAT", "SETTING_TYPE_DOUBLE", "SETTING_TYPE_STRING",
    "SETTING_TYPE_VEC2", "SETTING_TYPE_VEC3", "SETTING_TYPE_VEC4",
    "SETTING_TYPE_DVEC2", "SETTING_TYPE_DVEC3", "SETTING_TYPE_DVEC4",
    "SETTING_TYPE_UIVEC2", "SETTING_TYPE_UIVEC3", "SETTING_TYPE_UIVEC4",
    "SETTING_TYPE_IVEC2", "SETTING_TYPE_IVEC3", "SETTING_TYPE_IVEC4"]

  /** The name printed for a code in the type-mismatch warning. The table is
      indexed without a bounds check: nothing is the read past its end. */
  function TypeNameAsWritten(code: nat): (r: Option<string>)
    ensures r.Some? <==> IsKnown(code)
    ensures r.Some? ==> r.value in TYPE_NAMES
  {
    if code < |TYPE_NAMES| then Some(TYPE_NAMES[code]) else None
  }

  /** The table follows the enumeration: each code gets its own name. */
  lemma TypeNamesMatchCodes()
    ensures |TYPE_NAMES| == TYPE_COUNT
    ensures TypeNameAsWritten(UINT8) == Some("SETTING_TYPE_UINT8")
    ensures TypeNameAsWritten(INT64) == Some("SETTING_TYPE_INT64")
    ensures TypeNameAsWritten(STRING) == Some("SETTING_TYPE_STRING")
    ensures TypeNameAsWritten(IVEC4) == Some("SETTING_TYPE_IVEC4")
    ensures forall i, j :: 0 <= i < j < TYPE_COUNT ==> TYPE_NAMES[i] != TYPE_NAMES[j]
  {
    TypeNamesDistinct(0, 12);
    TypeNamesDistinct(12, TYPE_COUNT);
    TypeNamesDistinctAcross();
  }

  /** The names at positions `lo` to `hi` - 1 differ from each other. */
  lemma TypeNamesDistinct(lo: nat, hi: nat)
    requires (lo, hi) == (0, 12) || (lo, hi) == (12, TYPE_COUNT)
    ensures forall i, j :: lo <= i < j < hi ==> TYPE_NAMES[i] != TYPE_NAMES[j]
  {
  }

  /** The first twelve names differ from the rest. */
  lemma TypeNamesDistinctAcross()
    ensures forall i, j :: 0 <= i < 12 <= j < TYPE_COUNT ==> TYPE_NAMES[i] != TYPE_NAMES[j]
  {
  }

  // ---------------------------------------------------------------------
  // Encoding

  /** Pairs each component name with its text. */
  function ComponentAttrs(names: seq<string>, texts: seq<string>): (attrs: seq<Attr>)
    requires |names| == |texts|
    ensures |attrs| == |names|
    ensures forall k :: 0 <= k < |names| ==> attrs[k] == Attr(names[k], texts[k])
  {
    seq(|names|, k requires 0 <= k < |names| => Attr(names[k], texts[k]))
  }

  function IntTexts(parts: seq<int>): (texts: seq<string>)
    ensures |texts| == |parts|
    ensures forall k :: 0 <= k < |parts| ==> texts[k] == IntToString(parts[k])
  {
    seq(|parts|, k requires 0 <= k < |parts| => IntToString(parts[k]))
  }

  /** What follows the type code in a `Value` node: the value under "value",
      or the components under "x", "y", "z", "w". */
  function Payload(code: nat, value: Value): (attrs: seq<Attr>)
    requires Fits(code, value)
    ensures |attrs| >= 1
  {
    if IsIntegerCode(code) then [Attr("value", IntToString(value.i))]
    else if code == STRING then [Attr("value", CString(value.s))]
    else if IsRealCode(code) then ComponentAttrs(ComponentNames(code), value.texts)
    else ComponentAttrs(ComponentNames(code), IntTexts(value.parts))
  }

  /** The `Value` node of a typed entry: its decimal type code, then the payload. */
  function EncodeValue(code: nat, value: Value): (n: Node)
    requires Fits(code, value)
    ensures n.name == "Value" && n.children == []
    ensures |n.attrs| >= 2 && n.attrs[0] == Attr("type", NatToString(code))
  {
    Node("Value", [Attr("type", NatToString(code))] + Payload(code, value), [])
  }

  /** The `Setting` node of one entry; an entry with an unknown code gets no
      `Value` child. */
  function SettingNode(name: string, s: Setting): (n: Node)
    requires IsKnown(s.code) ==> Fits(s.code, s.value)
    ensures n.name == "Setting" && n.attrs == [Attr("name", CString(name))]
    ensures |n.children| == if IsKnown(s.code) then 1 else 0
  {
    Node("Setting", [Attr("name", CString(name))], if IsKnown(s.code) then [EncodeValue(s.code, s.value)] else [])
  }

  function SettingNodes(m: Store, names: seq<string>): (ns: seq<Node>)
    requires WellTyped(m)
    requires forall n :: n in names ==> n in m
    ensures |ns| == |names|
    ensures forall k :: 0 <= k < |names| ==> ns[k] == SettingNode(names[k], m[names[k]])
  {
    if |names| == 0 then []
    else [SettingNode(names[0], m[names[0]])] + SettingNodes(m, names[1..])
  }

  /** `saveToFile`: a document whose `Settings` root holds one node per
      entry, in iteration order. */
  function Save(m: Store, order: seq<string>): (doc: Node)
    requires WellTyped(m) && Enumerates(order, m)
    ensures Child(Some(doc), "Settings").Some?
    ensures |Child(Some(doc), "Settings").value.children| == |m|
  {
    DistinctCardinality(order, m);
    Node("", [], [Node("Settings", [], SettingNodes(m, order))])
  }

  lemma DistinctCardinality(order: seq<string>, m: Store)
    requires Enumerates(order, m)
    ensures |order| == |m|
  {
    assert m.Keys == set n | n in order;
    DistinctSetSize(order);
  }

  // ---------------------------------------------------------------------
  // Decoding

  /** `as_float`/`as_double` of a component: its text, 0 when missing. */
  function RealText(a: Option<string>): string {
    if a.Some? then a.value else "0"
  }

  /** An integer entry: read with `as_uint`/`as_int` (`as_ullong`/`as_llong`
      for 64 bits), then cast to the entry's width. */
  function ReadInteger(code: nat, a: Option<string>): (i: int)
    requires IsIntegerCode(code)
    ensures InIntegerRange(code, i)
  {
    var raw :=
      if code == UINT64 then AsUllong(a)
      else if code == INT64 then AsLlong(a)
      else if IsSignedCode(code) then AsInt(a)
      else AsUint(a);
    if IsSignedCode(code) then WrapSigned(raw, IntegerLimit(code)) else WrapUnsigned(raw, IntegerLimit(code))
  }

  function ReadComponent(code: nat, a: Option<string>): (i: int)
    ensures InComponentRange(code, i)
  {
    if IsSignedCode(code) then AsInt(a) else AsUint(a)
  }

  /** The texts of the floating-point components, under their names. */
  function ReadReals(val: Option<Node>, names: seq<string>): (texts: seq<string>)
    ensures |texts| == |names|
    ensures forall k :: 0 <= k < |names| ==> texts[k] == RealText(Attribute(val, names[k]))
  {
    seq(|names|, k requires 0 <= k < |names| => RealText(Attribute(val, names[k])))
  }

  /** The integer components, under their names. */
  function ReadInts(val: Option<Node>, code: nat, names: seq<string>): (parts: seq<int>)
    ensures |parts| == |names|
    ensures forall k :: 0 <= k < |names| ==> parts[k] == ReadComponent(code, Attribute(val, names[k]))
  {
    seq(|names|, k requires 0 <= k < |names| => ReadComponent(code, Attribute(val, names[k])))
  }

  /** `decode`: the value of a `Value` node read as the type `code`. An
      unknown code leaves the previous value in place. */
  function Decode(val: Option<Node>, code: nat, prev: Value): (v: Value)
    ensures IsKnown(code) ==> Fits(code, v)
    ensures !IsKnown(code) ==> v == prev
  {
    if IsIntegerCode(code) then Integer(ReadInteger(code, Attribute(val, "value")))
    else if code == STRING then Text(AsString(Attribute(val, "value")))
    else if IsRealCode(code) then Reals(ReadReals(val, ComponentNames(code)))
    else if IsIntVectorCode(code) then Ints(ReadInts(val, code, ComponentNames(code)))
    else prev
  }


  /** The name attribute of a child of the `Settings` root, empty when missing. */
  function EntryName(c: Node): string {
    AsString(Attribute(Some(c), "name"))
  }

  /** The type code of a child's `Value` node, read with `as_ullong`. */
  function EntryCode(c: Node): (code: nat)
    ensures code < UINT64_LIMIT
  {
    AsUllong(Attribute(Child(Some(c), "Value"), "type"))
  }

  /** One child of the `Settings` root, as `loadFromFile` applies it: the
      name attribute (empty when missing), the `Value` child, and its type
      code read with `as_ullong`. With `checked`, an entry whose code names
      no type is skipped. */
  function ApplyChild(m: Store, c: Node, checked: bool): (m': Store)
    ensures WellTyped(m) ==> WellTyped(m')
    ensures checked && !IsKnown(EntryCode(c)) ==> m' == m
    ensures !checked || IsKnown(EntryCode(c)) ==>
      && m'.Keys == m.Keys + {EntryName(c)}
      && m'[EntryName(c)].code == EntryCode(c)
      && (forall n :: n in m && n != EntryName(c) ==> m'[n] == m[n])
    ensures checked && (forall n :: n in m ==> IsKnown(m[n].code)) ==> forall n :: n in m' ==> IsKnown(m'[n].code)
  {
    var name := EntryName(c);
    var val := Child(Some(c), "Value");
    var code: nat := EntryCode(c);
    if checked && !IsKnown(code) then m
    else
      var prev := if name in m then m[name].value else DEFAULT_VALUE;
      m[name := Setting(code, Decode(val, code, prev))]
  }

  function LoadChildren(cs: seq<Node>, m: Store, checked: bool): (m': Store)
    ensures WellTyped(m) ==> WellTyped(m')
    ensures checked && (forall n :: n in m ==> IsKnown(m[n].code)) ==> forall n :: n in m' ==> IsKnown(m'[n].code)
  {
    if |cs| == 0 then m else LoadChildren(cs[1..], ApplyChild(m, cs[0], checked), checked)
  }

  /** Applying the children in order converts only codes the enumeration can
      hold, and never decodes a string into an entry whose string member is
      dead. */
  predicate LoadDefined(cs: seq<Node>, m: Store) {
    |cs| == 0
    || (Representable(EntryCode(cs[0]))
        && WriteDefined(m, EntryName(cs[0]), EntryCode(cs[0]))
        && LoadDefined(cs[1..], ApplyChild(m, cs[0], false)))
  }

  /** The children applied as written: `None` when one of them carries a type
      code the conversion to `SettingType` cannot represent, or decodes a
      string into an entry whose string member is dead; both are undefined.
      A defined load stores only codes the enumeration can hold, and any
      code of 32 or more anywhere in the children makes the load undefined. */
  function LoadChildrenAsWritten(cs: seq<Node>, m: Store): (r: Option<Store>)
    ensures r.Some? <==> LoadDefined(cs, m)
    ensures r.Some? ==> r.value == LoadChildren(cs, m, false)
    ensures (exists k :: 0 <= k < |cs| && !Representable(EntryCode(cs[k]))) ==> r.None?
    ensures r.Some? && (forall n :: n in m ==> Representable(m[n].code)) ==>
      forall n :: n in r.value ==> Representable(r.value[n].code)
  {
    if |cs| == 0 then Some(m)
    else if !Representable(EntryCode(cs[0])) then None
    else if !WriteDefined(m, EntryName(cs[0]), EntryCode(cs[0])) then None
    else
      ApplyChildKeepsRepresentable(m, cs[0]);
      UnrepresentableInTail(cs);
      LoadChildrenAsWritten(cs[1..], ApplyChild(m, cs[0], false))
  }

  /** Storing a representable code keeps every stored code representable. */
  lemma ApplyChildKeepsRepresentable(m: Store, c: Node)
    requires Representable(EntryCode(c))
    ensures (forall n :: n in m ==> Representable(m[n].code)) ==>
      var m' := ApplyChild(m, c, false);
      forall n :: n in m' ==> Representable(m'[n].code)
  {
  }

  /** When the first child's code is representable, an unrepresentable code
      among the children is one of the rest. */
  lemma UnrepresentableInTail(cs: seq<Node>)
    requires |cs| > 0 && Representable(EntryCode(cs[0]))
    ensures (exists k :: 0 <= k < |cs| && !Representable(EntryCode(cs[k]))) ==>
      exists k :: 0 <= k < |cs[1..]| && !Representable(EntryCode(cs[1..][k]))
  {
    if k :| 0 <= k < |cs| && !Representable(EntryCode(cs[k])) {
      var rest := cs[1..];
      assert k != 0 && rest[k - 1] == cs[k];
      assert 0 <= k - 1 < |rest| && !Representable(EntryCode(rest[k - 1]));
    }
  }

  /** `loadFromFile` on a parsed document (nothing for a file that failed to
      parse): the store is cleared, and stays empty without a `Settings`
      root; otherwise every child of the root is applied in order, keeping
      whatever type code it carries. `None` stands for the undefined string
      assignment of `LoadChildrenAsWritten`. */
  function LoadAsWritten(doc: Option<Node>): (m: Option<Store>)
    ensures Child(doc, "Settings").None? ==> m == Some(map[])
    ensures m.Some? ==> WellTyped(m.value)
    ensures m.Some? ==> forall n :: n in m.value ==> Representable(m.value[n].code)
    ensures Child(doc, "Settings").Some? ==> var cs := Child(doc, "Settings").value.children;
      (exists k :: 0 <= k < |cs| && !Representable(EntryCode(cs[k]))) ==> m.None?
  {
    var root := Child(doc, "Settings");
    if root.None? then Some(map[]) else LoadChildrenAsWritten(root.value.children, map[])
  }

  /** Two entries with the same name, an integer and then a string, make
      loading as written undefined; the corrected loader keeps the string. */
  const REPEATED_NAME_DOC: Node :=
    Node("", [], [Node("Settings", [], [
      Node("Setting", [Attr("name", "a")], [Node("Value", [Attr("type", "5"), Attr("value", "1")], [])]),
      Node("Setting", [Attr("name", "a")], [Node("Value", [Attr("type", "10"), Attr("value", "b")], [])])])])

  /** Loading that skips entries whose type code names no type. */
  function Load(doc: Option<Node>): (m: Store)
    ensures WellTyped(m)
    ensures forall n :: n in m ==> IsKnown(m[n].code)
  {
    var root := Child(doc, "Settings");
    if root.None? then map[] else LoadChildren(root.value.children, map[], true)
  }

  // ---------------------------------------------------------------------
  // Round trip

  /** An entry that survives saving and loading unchanged: a known code, and
      names and strings without an embedded NUL (they are written as C
      strings). */
  predicate Storable(name: string, s: Setting) {
    IsKnown(s.code) && Fits(s.code, s.value) && NulFree(name)
    && (s.value.Text? ==> NulFree(s.value.s))
  }

  lemma FindAttrAt(attrs: seq<Attr>, k: nat)
    requires k < |attrs|
    requires forall j :: 0 <= j < |attrs| && j != k ==> attrs[j].name != attrs[k].name
    ensures FindAttr(attrs, attrs[k].name) == Some(attrs[k].value)
  {
  }

  /** The first attribute of an encoded node carries the type code. */
  lemma TypeAttrOfEncode(code: nat, value: Value)
    requires Fits(code, value)
    ensures AsUllong(Attribute(Some(EncodeValue(code, value)), "type")) == code
  {
    var n := EncodeValue(code, value);
    assert FindAttr(n.attrs, "type") == Some(NatToString(code));
    AsIntegerOfIntToString(code, 0, UINT64_MAX);
  }

  /** An integer is read back by the reader of its width. */
  lemma ReadIntegerOfIntToString(code: nat, i: int)
    requires IsIntegerCode(code) && InIntegerRange(code, i)
    ensures ReadInteger(code, Some(IntToString(i))) == i
  {
    if code == UINT64 {
      AsIntegerOfIntToString(i, 0, UINT64_MAX);
    } else if code == INT64 {
      AsIntegerOfIntToString(i, LLONG_MIN_MAGNITUDE, LLONG_MAX);
    } else if IsSignedCode(code) {
      AsIntegerOfIntToString(i, INT_MIN_MAGNITUDE, INT_MAX);
    } else {
      AsIntegerOfIntToString(i, 0, UINT32_MAX);
    }
  }

  lemma ReadComponentOfIntToString(code: nat, i: int)
    requires InComponentRange(code, i)
    ensures ReadComponent(code, Some(IntToString(i))) == i
  {
    if IsSignedCode(code) {
      AsIntegerOfIntToString(i, INT_MIN_MAGNITUDE, INT_MAX);
    } else {
      AsIntegerOfIntToString(i, 0, UINT32_MAX);
    }
  }

  /** After the type attribute, each component is found under its own name. */
  lemma FindComponent(t: string, names: seq<string>, texts: seq<string>, k: nat)
    requires |names| == |texts| && k < |names| && Distinct(names)
    requires forall j :: 0 <= j < |names| ==> names[j] != "type"
    ensures FindAttr([Attr("type", t)] + ComponentAttrs(names, texts), names[k]) == Some(texts[k])
  {
    var attrs := [Attr("type", t)] + ComponentAttrs(names, texts);
    assert attrs[k + 1] == Attr(names[k], texts[k]);
    FindAttrAt(attrs, k + 1);
  }

  lemma DecodeEncodeInteger(code: nat, value: Value, prev: Value)
    requires Fits(code, value) && IsIntegerCode(code)
    ensures Decode(Some(EncodeValue(code, value)), code, prev) == value
  {
    var n := EncodeValue(code, value);
    assert Payload(code, value) == [Attr("value", IntToString(value.i))];
    assert n.attrs == [Attr("type", NatToString(code)), Attr("value", IntToString(value.i))];
    FindAttrAt(n.attrs, 1);
    ReadIntegerOfIntToString(code, value.i);
  }

  lemma DecodeEncodeString(value: Value, prev: Value)
    requires Fits(STRING, value) && NulFree(value.s)
    ensures Decode(Some(EncodeValue(STRING, value)), STRING, prev) == value
  {
    var n := EncodeValue(STRING, value);
    assert Payload(STRING, value) == [Attr("value", CString(value.s))];
    assert n.attrs == [Attr("type", NatToString(STRING)), Attr("value", CString(value.s))];
    FindAttrAt(n.attrs, 1);
    CStringOfNulFree(value.s);
  }

  /** The components of an encoded real vector read back as its texts. */
  lemma ReadRealsOfEncode(code: nat, value: Value)
    requires Fits(code, value) && IsRealCode(code)
    ensures ReadReals(Some(EncodeValue(code, value)), ComponentNames(code)) == value.texts
  {
    var n := EncodeValue(code, value);
    var names := ComponentNames(code);
    assert Payload(code, value) == ComponentAttrs(names, value.texts);
    assert n.attrs == [Attr("type", NatToString(code))] + ComponentAttrs(names, value.texts);
    var texts := ReadReals(Some(n), names);
    forall k | 0 <= k < |names| ensures texts[k] == value.texts[k] {
      FindComponent(NatToString(code), names, value.texts, k);
    }
  }

  lemma DecodeEncodeReals(code: nat, value: Value, prev: Value)
    requires Fits(code, value) && IsRealCode(code)
    ensures Decode(Some(EncodeValue(code, value)), code, prev) == value
  {
    ReadRealsOfEncode(code, value);
  }

  /** The components of an encoded integer vector read back as its parts. */
  lemma ReadIntsOfEncode(code: nat, value: Value)
    requires Fits(code, value) && IsIntVectorCode(code)
    ensures ReadInts(Some(EncodeValue(code, value)), code, ComponentNames(code)) == value.parts
  {
    var n := EncodeValue(code, value);
    var names := ComponentNames(code);
    assert value.Ints? && |value.parts| == |names|;
    assert forall k :: 0 <= k < |value.parts| ==> InComponentRange(code, value.parts[k]);
    var texts := IntTexts(value.parts);
    assert Payload(code, value) == ComponentAttrs(names, texts);
    assert n.attrs == [Attr("type", NatToString(code))] + ComponentAttrs(names, texts);
    var parts := ReadInts(Some(n), code, names);
    forall k | 0 <= k < |names| ensures parts[k] == value.parts[k] {
      FindComponent(NatToString(code), names, texts, k);
      ReadIntText(code, value.parts, texts, k);
    }
  }

  /** A component written as decimal text reads back as itself. */
  lemma ReadIntText(code: nat, parts: seq<int>, texts: seq<string>, k: nat)
    requires texts == IntTexts(parts) && k < |parts| && InComponentRange(code, parts[k])
    ensures ReadComponent(code, Some(texts[k])) == parts[k]
  {
    ReadComponentOfIntToString(code, parts[k]);
  }

  lemma DecodeEncodeInts(code: nat, value: Value, prev: Value)
    requires Fits(code, value) && IsIntVectorCode(code)
    ensures Decode(Some(EncodeValue(code, value)), code, prev) == value
  {
    ReadIntsOfEncode(code, value);
  }

  /** Reading a `Value` node back as its own code gives the value written. */
  lemma DecodeEncode(code: nat, value: Value, prev: Value)
    requires Fits(code, value) && (value.Text? ==> NulFree(value.s))
    ensures var n := EncodeValue(code, value);
      AsUllong(Attribute(Some(n), "type")) == code && Decode(Some(n), code, prev) == value
  {
    TypeAttrOfEncode(code, value);
    if IsIntegerCode(code) {
      DecodeEncodeInteger(code, value, prev);
    } else if code == STRING {
      DecodeEncodeString(value, prev);
    } else if IsRealCode(code) {
      DecodeEncodeReals(code, value, prev);
    } else {
      DecodeEncodeInts(code, value, prev);
    }
  }

  /** Applying a saved node stores exactly the saved entry under its name. */
  lemma ApplySettingNode(m: Store, name: string, s: Setting, checked: bool)
    requires Storable(name, s)
    ensures ApplyChild(m, SettingNode(name, s), checked) == m[name := s]
  {
    var c := SettingNode(name, s);
    SettingNodeEntry(name, s);
    var val := Child(Some(c), "Value");
    assert val == Some(EncodeValue(s.code, s.value));
    var prev := if name in m then m[name].value else DEFAULT_VALUE;
    DecodeEncode(s.code, s.value, prev);
    ApplyKnownChild(m, c, checked);
  }

  /** A node whose code is applied stores its decoded value under its name. */
  lemma ApplyKnownChild(m: Store, c: Node, checked: bool)
    requires !checked || IsKnown(EntryCode(c))
    ensures var name := EntryName(c);
      var prev := if name in m then m[name].value else DEFAULT_VALUE;
      ApplyChild(m, c, checked) == m[name := Setting(EntryCode(c), Decode(Child(Some(c), "Value"), EntryCode(c), prev))]
  {
  }

  /** The store `acc` with the entries of `m` named in `keys` laid over it. */
  function Overlay(acc: Store, m: Store, keys: set<string>): Store
    requires keys <= m.Keys
  {
    map n | n in acc.Keys + keys :: if n in keys then m[n] else acc[n]
  }

  lemma OverlayStep(acc: Store, m: Store, n0: string, rest: set<string>)
    requires n0 in m && rest <= m.Keys
    ensures Overlay(acc[n0 := m[n0]], m, rest) == Overlay(acc, m, rest + {n0})
  {
  }

  lemma ElementsOfCons(names: seq<string>)
    requires |names| > 0
    ensures (set n | n in names) == (set n | n in names[1..]) + {names[0]}
  {
    forall n | n in names ensures n in names[1..] || n == names[0] {
      var i :| 0 <= i < |names| && names[i] == n;
      if i > 0 { assert names[1..][i - 1] == n; }
    }
  }

  lemma {:induction false} LoadSettingNodes(m: Store, names: seq<string>, acc: Store, checked: bool)
    requires WellTyped(m)
    requires forall n :: n in names ==> n in m && Storable(n, m[n])
    ensures LoadChildren(SettingNodes(m, names), acc, checked) == Overlay(acc, m, set n | n in names)
    decreases |names|
  {
    if |names| == 0 {
      assert Overlay(acc, m, set n | n in names) == acc;
    } else {
      LoadFirstSettingNode(m, names, acc, checked);
      LoadSettingNodes(m, names[1..], acc[names[0] := m[names[0]]], checked);
      ElementsOfCons(names);
      OverlayStep(acc, m, names[0], set n | n in names[1..]);
    }
  }

  /** Loading the nodes of `names` applies the first entry, then the rest. */
  lemma LoadFirstSettingNode(m: Store, names: seq<string>, acc: Store, checked: bool)
    requires WellTyped(m) && (forall n :: n in names ==> n in m)
    requires |names| > 0 && Storable(names[0], m[names[0]])
    ensures LoadChildren(SettingNodes(m, names), acc, checked)
         == LoadChildren(SettingNodes(m, names[1..]), acc[names[0] := m[names[0]]], checked)
  {
    var ns := SettingNodes(m, names);
    assert ns[1..] == SettingNodes(m, names[1..]);
    assert ns[0] == SettingNode(names[0], m[names[0]]);
    ApplySettingNode(acc, names[0], m[names[0]], checked);
  }

  /** Saving a store and loading the document gives the store back, with
      either loader, whatever the iteration order. */
  lemma SaveLoadRoundTrip(m: Store, order: seq<string>)
    requires Enumerates(order, m)
    requires forall n :: n in m ==> Storable(n, m[n])
    ensures WellTyped(m)
    ensures LoadAsWritten(Some(Save(m, order))) == Some(m)
    ensures Load(Some(Save(m, order))) == m
  {
    assert WellTyped(m);
    var doc := Save(m, order);
    var root := Node("Settings", [], SettingNodes(m, order));
    assert doc.children == [root];
    assert Child(Some(doc), "Settings") == Some(root);
    SavedNodesLoadDefined(m, order, map[]);
    LoadSettingNodes(m, order, map[], false);
    LoadSettingNodes(m, order, map[], true);
    OverlayEmpty(m, order);
  }

  /** The name and code a saved node carries. */
  lemma SettingNodeEntry(name: string, s: Setting)
    requires Storable(name, s)
    ensures EntryName(SettingNode(name, s)) == name
    ensures EntryCode(SettingNode(name, s)) == s.code
  {
    var c := SettingNode(name, s);
    CStringOfNulFree(name);
    assert Attribute(Some(c), "name") == Some(name);
    assert Child(Some(c), "Value") == Some(EncodeValue(s.code, s.value));
    TypeAttrOfEncode(s.code, s.value);
  }

  /** The first saved node writes a new name, and applying it stores its setting. */
  lemma SavedNodeStep(m: Store, n0: string, acc: Store)
    requires WellTyped(m) && n0 in m && Storable(n0, m[n0]) && n0 !in acc
    ensures var c := SettingNode(n0, m[n0]);
      && Representable(EntryCode(c)) && WriteDefined(acc, EntryName(c), EntryCode(c))
      && ApplyChild(acc, c, false) == acc[n0 := m[n0]]
  {
    SettingNodeEntry(n0, m[n0]);
    ApplySettingNode(acc, n0, m[n0], false);
  }

  /** The names after the first are still distinct and new once it is stored. */
  lemma SavedNamesTail(m: Store, names: seq<string>, acc: Store)
    requires |names| > 0 && Distinct(names)
    requires forall n :: n in names ==> n in m && Storable(n, m[n]) && n !in acc
    ensures Distinct(names[1..])
    ensures forall n :: n in names[1..] ==> n in m && Storable(n, m[n]) && n !in acc[names[0] := m[names[0]]]
  {
    var rest := names[1..];
    forall i, j | 0 <= i < j < |rest| ensures rest[i] != rest[j] {
      assert rest[i] == names[i + 1] && rest[j] == names[j + 1];
    }
    forall n | n in rest ensures n in m && Storable(n, m[n]) && n !in acc[names[0] := m[names[0]]] {
      var i :| 0 <= i < |rest| && rest[i] == n;
      assert names[i + 1] == n && names[0] != names[i + 1];
    }
  }

  /** A saved document names every entry once, so as each node is applied
      its name is new and no string goes into a dead member. */
  lemma {:induction false} SavedNodesLoadDefined(m: Store, names: seq<string>, acc: Store)
    requires WellTyped(m) && Distinct(names)
    requires forall n :: n in names ==> n in m && Storable(n, m[n]) && n !in acc
    ensures LoadDefined(SettingNodes(m, names), acc)
    decreases |names|
  {
    if |names| > 0 {
      var ns := SettingNodes(m, names);
      var n0 := names[0];
      assert ns[0] == SettingNode(n0, m[n0]);
      assert ns[1..] == SettingNodes(m, names[1..]);
      SavedNodeStep(m, n0, acc);
      SavedNamesTail(m, names, acc);
      SavedNodesLoadDefined(m, names[1..], acc[n0 := m[n0]]);
    }
  }

  lemma OverlayEmpty(m: Store, order: seq<string>)
    requires Enumerates(order, m)
    ensures (set n | n in order) <= m.Keys
    ensures Overlay(map[], m, set n | n in order) == m
  {
    assert (set n | n in order) == m.Keys;
  }

  // ---------------------------------------------------------------------
  // Unknown type codes

  /** A document whose single entry "a" carries the type code `code`. */
  function CodeDoc(code: nat): Node {
    Node("", [], [Node("Settings", [], [
      Node("Setting", [Attr("name", "a")], [Node("Value", [Attr("type", NatToString(code))], [])])])])
  }

  /** The single entry of `CodeDoc(code)`, for a code within 64 bits: it is
      named "a" and carries `code`. */
  lemma CodeDocEntry(code: nat)
    requires code < UINT64_LIMIT
    ensures Child(Some(CodeDoc(code)), "Settings") == Some(CodeDoc(code).children[0])
    ensures var c := CodeDoc(code).children[0].children[0];
      && CodeDoc(code).children[0].children == [c]
      && EntryName(c) == "a" && EntryCode(c) == code
      && Child(Some(c), "Value") == Some(c.children[0])
  {
    var c := CodeDoc(code).children[0].children[0];
    var val := Child(Some(c), "Value");
    assert val == Some(c.children[0]);
    assert Attribute(val, "type") == Some(NatToString(code));
    assert Attribute(Some(c), "name") == Some("a");
    AsIntegerOfIntToString(code, 0, UINT64_MAX);
  }

  /** Code 23, the first past the enumerators, is still a value of
      `SettingType`, so loading as written keeps the entry with it; any typed
      read of it then takes the mismatch path, which looks the stored code up
      past the end of the name table. Loading with the check drops the
      entry. */
  lemma UnknownCodeReachesNameTable()
    ensures Representable(TYPE_COUNT) && !IsKnown(TYPE_COUNT)
    ensures LoadAsWritten(Some(CodeDoc(TYPE_COUNT))).Some?
    ensures var m := LoadAsWritten(Some(CodeDoc(TYPE_COUNT))).value;
      && "a" in m && m["a"] == Setting(TYPE_COUNT, DEFAULT_VALUE)
      && GetSetting(m, "a", INT32).None?
      && TypeNameAsWritten(m["a"].code).None?
    ensures Load(Some(CodeDoc(TYPE_COUNT))) == map[]
  {
    CodeDocEntry(TYPE_COUNT);
  }

  /** A code of 32 or more, such as 99, cannot be converted to `SettingType`
      at all, so loading it as written is already undefined before any read
      of the name table; loading with the check drops the entry. */
  lemma LargeCodeUndefined()
    ensures !Representable(99)
    ensures LoadAsWritten(Some(CodeDoc(99))).None?
    ensures Load(Some(CodeDoc(99))) == map[]
  {
    CodeDocEntry(99);
    var cs := CodeDoc(99).children[0].children;
    assert !Representable(EntryCode(cs[0]));
  }

  /** The two entries of `REPEATED_NAME_DOC`: both named "a", the first of
      type `int32_t` and the second a string. */
  lemma RepeatedNameEntries()
    ensures Child(Some(REPEATED_NAME_DOC), "Settings") == Some(REPEATED_NAME_DOC.children[0])
    ensures var cs := REPEATED_NAME_DOC.children[0].children;
      && EntryName(cs[0]) == "a" && EntryCode(cs[0]) == INT32
      && EntryName(cs[1]) == "a" && EntryCode(cs[1]) == STRING
  {
    var cs := REPEATED_NAME_DOC.children[0].children;
    var c0, c1 := cs[0], cs[1];
    assert Child(Some(c0), "Value") == Some(c0.children[0]);
    assert Child(Some(c1), "Value") == Some(c1.children[0]);
    assert Attribute(Some(c0), "name") == Some("a") && Attribute(Some(c1), "name") == Some("a");
    assert Attribute(Some(c0.children[0]), "type") == Some("5");
    assert Attribute(Some(c1.children[0]), "type") == Some("10");
    assert NatToString(5) == "5" && NatToString(10) == "10";
    AsIntegerOfIntToString(5, 0, UINT64_MAX);
    AsIntegerOfIntToString(10, 0, UINT64_MAX);
  }

  /** The repeated name of `REPEATED_NAME_DOC`: its first entry writes an
      `int32_t`, so the second decodes a string into a dead member. */
  lemma RepeatedNameLoadUndefined()
    ensures LoadAsWritten(Some(REPEATED_NAME_DOC)).None?
    ensures "a" in Load(Some(REPEATED_NAME_DOC)) && Load(Some(REPEATED_NAME_DOC))["a"] == Setting(STRING, Text("b"))
  {
    RepeatedNameEntries();
    RepeatedNameFirstWrite();
    var cs := REPEATED_NAME_DOC.children[0].children;
    var m1 := ApplyChild(map[], cs[0], false);
    assert !WriteDefined(m1, EntryName(cs[1]), EntryCode(cs[1]));
    RepeatedNameCheckedLoad();
  }

  /** With the check, the second entry of `REPEATED_NAME_DOC` replaces the
      first by the string "b". */
  lemma RepeatedNameCheckedLoad()
    ensures "a" in Load(Some(REPEATED_NAME_DOC)) && Load(Some(REPEATED_NAME_DOC))["a"] == Setting(STRING, Text("b"))
  {
    RepeatedNameEntries();
    RepeatedNameFirstWrite();
    var cs := REPEATED_NAME_DOC.children[0].children;
    var c1 := cs[1];
    assert Child(Some(c1), "Value") == Some(c1.children[0]);
    assert Attribute(Some(c1.children[0]), "value") == Some("b");
    LoadTwoChildren(cs, map[], true);
    StringEntryOver(ApplyChild(map[], cs[0], true), c1, "b");
  }

  /** Loading two nodes applies the first, then the second. */
  lemma LoadTwoChildren(cs: seq<Node>, m: Store, checked: bool)
    requires |cs| == 2
    ensures LoadChildren(cs, m, checked) == ApplyChild(ApplyChild(m, cs[0], checked), cs[1], checked)
  {
    var m1 := ApplyChild(m, cs[0], checked);
    var rest := cs[1..];
    assert rest[0] == cs[1] && rest[1..] == [];
    assert LoadChildren(cs, m, checked) == LoadChildren(rest, m1, checked);
    assert LoadChildren(rest, m1, checked) == LoadChildren(rest[1..], ApplyChild(m1, rest[0], checked), checked);
  }

  /** A string node stores its text under its name, whatever was there. */
  lemma StringEntryOver(m: Store, c: Node, text: string)
    requires EntryCode(c) == STRING && Attribute(Child(Some(c), "Value"), "value") == Some(text)
    ensures var m' := ApplyChild(m, c, true);
      EntryName(c) in m' && m'[EntryName(c)] == Setting(STRING, Text(text))
  {
    ApplyKnownChild(m, c, true);
  }

  /** The first entry of `REPEATED_NAME_DOC` stores an `int32_t` under "a",
      with or without the check on known codes. */
  lemma RepeatedNameFirstWrite()
    ensures var c0 := REPEATED_NAME_DOC.children[0].children[0];
      var m1 := ApplyChild(map[], c0, false);
      && "a" in m1 && m1["a"].code == INT32 && m1["a"].value.Integer?
      && ApplyChild(map[], c0, true) == m1
  {
    RepeatedNameEntries();
    var c0 := REPEATED_NAME_DOC.children[0].children[0];
    assert IsIntegerCode(INT32) && IsKnown(INT32);
    var v := Decode(Child(Some(c0), "Value"), INT32, DEFAULT_VALUE);
    assert v.Integer?;
    assert ApplyChild(map[], c0, false) == map["a" := Setting(INT32, v)];
  }

  /** With the check, every stored code has a name in the table. */
  lemma LoadedCodesHaveNames(doc: Option<Node>, name: string)
    requires name in Load(doc)
    ensures TypeNameAsWritten(Load(doc)[name].code).Some?
  {
  }
}

=== FILE: vertex_layout.dfy ===
/** Vertex layouts: a fixed array of 21 element slots, one per element
    meaning, each pairing a meaning with a data type; the byte size of a
    vertex is cached at construction. Meanings and data types are the raw
    enumeration values, so values outside either enumeration can be
    represented (they have size 0 and match no named constant). */
module VertexLayout {
  import opened Numeric
  import opened Seqs
  import opened Wrappers

  /** The number of element meanings, and of slots in a layout. */
  const TYPE_COUNT: nat := 21

  /** Element meanings (`VertexElementType`). */
  const TYPE_UNDEFINED: nat := 0
  const TYPE_POSITION: nat := 1
  const TYPE_NORMAL: nat := 2
  const TYPE_COLOR7: nat := 20

  /** Data types (`VertexElementDataType`): undefined, eight integer
      scalars, three float scalars, then eleven vector families of two,
      three and four components. */
  const DATA_UNDEFINED: nat := 0
  const DATA_INT8: nat := 1
  const DATA_FLOAT: nat := 10
  const DATA_FLOAT_VEC3: nat := 16
  const DATA_UINT64_VEC4: nat := 44
  const DATA_TYPE_COUNT: nat := 45

  /** `size(data)`, case by case as the switch lists it; anything else is
      0. */
  function SizeOf(data: nat): nat {
    match data
    case 1 | 2 => 1
    case 3 | 4 => 2
    case 5 | 6 => 4
    case 7 | 8 => 8
    case 9 => 2
    case 10 => 4
    case 11 => 8
    case 12 => 2 * 2
    case 13 => 2 * 3
    case 14 => 2 * 4
    case 15 => 4 * 2
    case 16 => 4 * 3
    case 17 => 4 * 4
    case 18 => 8 * 2
    case 19 => 8 * 3
    case 20 => 8 * 4
    case 21 | 24 => 1 * 2
    case 22 | 25 => 1 * 3
    case 23 | 26 => 1 * 4
    case 27 | 30 => 2 * 2
    case 28 | 31 => 2 * 3
    case 29 | 32 => 2 * 4
    case 33 | 36 => 4 * 2
    case 34 | 37 => 4 * 3
    case 35 | 38 => 4 * 4
    case 39 | 42 => 8 * 2
    case 40 | 43 => 8 * 3
    case 41 | 44 => 8 * 4
    case _ => 0
  }

  /** The byte width of the scalars of the eleven vector families, in
      enumeration order: half, float, double, int8, uint8, int16, uint16,
      int32, uint32, int64, uint64. */
  function FamilyWidth(family: nat): nat {
    if family == 0 || family == 5 || family == 6 then 2
    else if family == 1 || family == 7 || family == 8 then 4
    else if family == 2 || family == 9 || family == 10 then 8
    else 1
  }

  /** The byte width of one component of a data type. */
  function ComponentWidth(data: nat): nat {
    if data == 0 || data >= DATA_TYPE_COUNT then 0
    else if data <= 2 then 1
    else if data <= 4 then 2
    else if data <= 6 then 4
    else if data <= 8 then 8
    else if data == 9 then 2
    else if data == 10 then 4
    else if data == 11 then 8
    else FamilyWidth((data - 12) / 3)
  }

  /** The number of components of a data type. */
  function Components(data: nat): nat {
    if data <= 11 then 1 else (data - 12) % 3 + 2
  }

  /** Every size in the switch is the component width times the component
      count, and undefined or unknown data types have size 0. */
  lemma SizeIsWidthTimesComponents(data: nat)
    ensures SizeOf(data) == ComponentWidth(data) * Components(data)
    ensures data == DATA_UNDEFINED || data >= DATA_TYPE_COUNT ==> SizeOf(data) == 0
    ensures 0 < data < DATA_TYPE_COUNT ==> SizeOf(data) > 0
  {
    if data < DATA_TYPE_COUNT {
      match data
      case 0 =>
      case 1 =>
      case 2 =>
      case 3 =>
      case 4 =>
      case 5 =>
      case 6 =>
      case 7 =>
      case 8 =>
      case 9 =>
      case 10 =>
      case 11 =>
      case 12 =>
      case 13 =>
      case 14 =>
      case 15 =>
      case 16 =>
      case 17 =>
      case 18 =>
      case 19 =>
      case 20 =>
      case 21 =>
      case 22 =>
      case 23 =>
      case 24 =>
      case 25 =>
      case 26 =>
      case 27 =>
      case 28 =>
      case 29 =>
      case 30 =>
      case 31 =>
      case 32 =>
      case 33 =>
      case 34 =>
      case 35 =>
      case 36 =>
      case 37 =>
      case 38 =>
      case 39 =>
      case 40 =>
      case 41 =>
      case 42 =>
      case 43 =>
      case 44 =>
      case _ =>
    }
  }

  /** A vertex element: a meaning and a data type. Equality of the
      datatype is the source's `==`: both fields equal. */
  datatype Element = Element(kind: nat, data: nat)

  /** A default-constructed element. */
  const DEFAULT_ELEMENT: Element := Element(TYPE_UNDEFINED, DATA_UNDEFINED)

  function Defaults(n: nat): (r: seq<Element>)
    ensures |r| == n && forall i :: 0 <= i < n ==> r[i] == DEFAULT_ELEMENT
  {
    seq(n, _ => DEFAULT_ELEMENT)
  }

  datatype Layout = Layout(slots: seq<Element>, invalidConstruction: bool, vertexSize: nat)

  /** The summed sizes of the elements' data types. */
  function SumSizes(es: seq<Element>): nat {
    if |es| == 0 then 0 else SumSizes(es[..|es| - 1]) + SizeOf(es[|es| - 1].data)
  }

  lemma {:induction false} SumSizesAppend(a: seq<Element>, b: seq<Element>)
    ensures SumSizes(a + b) == SumSizes(a) + SumSizes(b)
    decreases |b|
  {
    if |b| == 0 {
      assert a + b == a;
    } else {
      assert (a + b)[..|a + b| - 1] == a + b[..|b| - 1];
      assert (a + b)[|a + b| - 1] == b[|b| - 1];
      SumSizesAppend(a, b[..|b| - 1]);
    }
  }

  lemma {:induction false} SumSizesDefaults(n: nat)
    ensures SumSizes(Defaults(n)) == 0
  {
    if n > 0 {
      assert Defaults(n)[..n - 1] == Defaults(n - 1);
      assert SizeOf(Defaults(n)[n - 1].data) == 0;
      SumSizesDefaults(n - 1);
    }
  }

  /** Two elements share a meaning. */
  predicate HasDuplicateKind(es: seq<Element>) {
    exists a, b :: 0 <= a < b < |es| && es[a].kind == es[b].kind
  }

  /** The layout the array and initializer-list constructors describe:
      element i in slot i, default elements after, the construction
      flagged invalid exactly when a meaning repeats, and the size cached. */
  function ArrayLayout(es: seq<Element>): (l: Layout)
    requires |es| <= TYPE_COUNT
    ensures |l.slots| == TYPE_COUNT
    ensures forall i :: 0 <= i < |es| ==> l.slots[i] == es[i]
    ensures forall i :: |es| <= i < TYPE_COUNT ==> l.slots[i] == DEFAULT_ELEMENT
    ensures l.invalidConstruction <==> exists a, b :: 0 <= a < b < |es| && es[a].kind == es[b].kind
    ensures l.vertexSize == SumSizes(es)
  {
    var slots := es + Defaults(TYPE_COUNT - |es|);
    SumSizesAppend(es, Defaults(TYPE_COUNT - |es|));
    SumSizesDefaults(TYPE_COUNT - |es|);
    Layout(slots, HasDuplicateKind(es), SumSizes(slots))
  }

  /** `__cache_vertex_size`. */
  method CacheVertexSize(slots: seq<Element>) returns (sum: nat)
    ensures sum == SumSizes(slots)
  {
    sum := 0;
    var i := 0;
    while i < |slots|
      invariant 0 <= i <= |slots|
      invariant sum == SumSizes(slots[..i])
    {
      assert slots[..i + 1][..i] == slots[..i];
      sum := sum + SizeOf(slots[i].data);
      i := i + 1;
    }
    assert slots[..|slots|] == slots;
  }

  /** The array constructor: for each element, a scan of the slots already
      filled sets the invalid flag on a repeated meaning; the `continue`
      only leaves the scan, so the element is copied into its slot either
      way. The count is not checked against the slot array: a 22nd element
      is written past its end, which the language leaves undefined, and the
      result is then `None`. */
  method FromArray(es: seq<Element>) returns (r: Option<Layout>)
    ensures r.None? <==> |es| > TYPE_COUNT
    ensures r.Some? ==> r.value == ArrayLayout(es)
  {
    var slots := Defaults(TYPE_COUNT);
    var invalid := false;
    var i := 0;
    while i < |es|
      invariant 0 <= i <= |es| && i <= TYPE_COUNT
      invariant slots == es[..i] + Defaults(TYPE_COUNT - i)
      invariant invalid <==> exists a, b :: 0 <= a < b < i && es[a].kind == es[b].kind
    {
      if i == TYPE_COUNT {
        return None;
      }
      var j := 0;
      while j < i
        invariant 0 <= j <= i
        invariant invalid <==> (exists a, b :: 0 <= a < b < i && es[a].kind == es[b].kind)
                               || (exists a :: 0 <= a < j && es[a].kind == es[i].kind)
      {
        assert slots[j] == es[j];
        if slots[j].kind == es[i].kind {
          invalid := true;
        }
        j := j + 1;
      }
      slots := slots[i := es[i]];
      assert slots == es[..i + 1] + Defaults(TYPE_COUNT - (i + 1));
      i := i + 1;
    }
    assert es[..|es|] == es;
    var size := CacheVertexSize(slots);
    r := Some(Layout(slots, invalid, size));
  }

  /** `getIndexOfElement`: the first slot with the meaning, or
      `UINT64_MAX`. */
  function IndexOfKind(l: Layout, kind: nat): (r: nat)
    requires |l.slots| == TYPE_COUNT
    ensures r == UINT64_MAX <==> forall i :: 0 <= i < TYPE_COUNT ==> l.slots[i].kind != kind
    ensures r != UINT64_MAX ==> r < TYPE_COUNT && l.slots[r].kind == kind
                                && forall i :: 0 <= i < r ==> l.slots[i].kind != kind
  {
    FirstKind(l.slots, kind, 0)
  }

  function FirstKind(slots: seq<Element>, kind: nat, from: nat): (r: nat)
    requires |slots| == TYPE_COUNT && from <= TYPE_COUNT
    ensures r == UINT64_MAX <==> forall i :: from <= i < TYPE_COUNT ==> slots[i].kind != kind
    ensures r != UINT64_MAX ==> from <= r < TYPE_COUNT && slots[r].kind == kind
                                && forall i :: from <= i < r ==> slots[i].kind != kind
    decreases TYPE_COUNT - from
  {
    if from == TYPE_COUNT then UINT64_MAX
    else if slots[from].kind == kind then from
    else FirstKind(slots, kind, from + 1)
  }

  /** In a layout without repeated meanings, each element is found at its
      own slot. */
  lemma IndexOfArrayElement(es: seq<Element>, i: nat)
    requires |es| <= TYPE_COUNT && !HasDuplicateKind(es) && i < |es|
    ensures IndexOfKind(ArrayLayout(es), es[i].kind) == i
  {
    var l := ArrayLayout(es);
    assert l.slots[i] == es[i];
    forall k | 0 <= k < i ensures l.slots[k].kind != es[i].kind {
      assert l.slots[k] == es[k];
    }
  }

  /** A repeated meaning is flagged, and the later element still
      overwrites nothing: both copies occupy their own slots, and the index
      lookup returns the first. */
  lemma DuplicateIsFlaggedButCopied(es: seq<Element>, a: nat, b: nat)
    requires |es| <= TYPE_COUNT && a < b < |es| && es[a].kind == es[b].kind
    ensures ArrayLayout(es).invalidConstruction
    ensures ArrayLayout(es).slots[a] == es[a] && ArrayLayout(es).slots[b] == es[b]
    ensures IndexOfKind(ArrayLayout(es), es[b].kind) <= a
  {
    assert ArrayLayout(es).slots[a] == es[a];
  }

  // ---------------------------------------------------------------------
  // The map constructor

  /** The keys of a map in ascending order, as `std::map` iterates them. */
  function SortedKeys(keys: set<nat>): (r: seq<nat>)
    ensures |r| == |keys| && (forall x :: x in r <==> x in keys)
    ensures forall i, j :: 0 <= i < j < |r| ==> r[i] < r[j]
    decreases |keys|
  {
    if keys == {} then []
    else
      var m := SetMin(keys);
      var rest := SortedKeys(keys - {m});
      [m] + rest
  }

  /** As written: `index` is never advanced, so every entry is written to
      slot 0 and the last one in key order, the largest meaning, is what
      remains. */
  function MapLayoutAsWritten(m: map<nat, nat>): (l: Layout)
    ensures |l.slots| == TYPE_COUNT && !l.invalidConstruction
    ensures forall i :: 1 <= i < TYPE_COUNT ==> l.slots[i] == DEFAULT_ELEMENT
    ensures |m| == 0 ==> l.slots[0] == DEFAULT_ELEMENT && l.vertexSize == 0
    ensures |m| > 0 ==>
      && l.slots[0].kind in m && l.slots[0].data == m[l.slots[0].kind]
      && (forall k :: k in m ==> k <= l.slots[0].kind)
      && l.vertexSize == SizeOf(l.slots[0].data)
  {
    var slots := if |m| == 0 then Defaults(TYPE_COUNT)
      else
        var keys := SortedKeys(m.Keys);
        var last := keys[|keys| - 1];
        Defaults(TYPE_COUNT)[0 := Element(last, m[last])];
    SumSizesAppend(slots[..1], slots[1..]);
    assert slots[1..] == Defaults(TYPE_COUNT - 1);
    SumSizesDefaults(TYPE_COUNT - 1);
    assert slots == slots[..1] + slots[1..];
    Layout(slots, false, SumSizes(slots))
  }

  lemma SortedPair(a: nat, b: nat)
    requires a < b
    ensures SortedKeys({a, b}) == [a, b]
  {
    var r := SortedKeys({a, b});
    assert r[0] in {a, b} && r[1] in {a, b};
  }

  /** Two meanings in the map: only the larger one is stored, in slot 0,
      and the smaller one is lost. */
  lemma MapConstructorKeepsOnlyLastEntry()
    ensures var l := MapLayoutAsWritten(map[TYPE_POSITION := DATA_FLOAT_VEC3, TYPE_NORMAL := DATA_FLOAT_VEC3]);
      && l.slots == ArrayLayout([Element(TYPE_NORMAL, DATA_FLOAT_VEC3)]).slots
      && l.slots[0] == Element(TYPE_NORMAL, DATA_FLOAT_VEC3)
      && IndexOfKind(l, TYPE_POSITION) == UINT64_MAX
  {
    var m := map[TYPE_POSITION := DATA_FLOAT_VEC3, TYPE_NORMAL := DATA_FLOAT_VEC3];
    assert m.Keys == {1, 2};
    SortedPair(1, 2);
    var l := MapLayoutAsWritten(m);
    assert l.slots == [Element(2, 16)] + Defaults(TYPE_COUNT - 1);
    assert forall i :: 0 <= i < TYPE_COUNT ==> l.slots[i].kind != TYPE_POSITION;
  }

  /** The vertex size counts the one surviving entry only. */
  lemma MapConstructorSizeCountsOneEntry()
    ensures MapLayoutAsWritten(map[TYPE_POSITION := DATA_FLOAT_VEC3, TYPE_NORMAL := DATA_FLOAT_VEC3]).vertexSize == 12
  {
    MapConstructorKeepsOnlyLastEntry();
    assert SumSizes([Element(TYPE_NORMAL, DATA_FLOAT_VEC3)]) == SizeOf(DATA_FLOAT_VEC3) == 12;
  }

  /** With the index advanced per entry: the entries in key order, in the
      first slots. */
  function MapLayout(m: map<nat, nat>): (l: Layout)
    requires |m| <= TYPE_COUNT
    ensures |l.slots| == TYPE_COUNT && !l.invalidConstruction
    ensures forall k :: k in m ==> IndexOfKind(l, k) < |m| && l.slots[IndexOfKind(l, k)] == Element(k, m[k])
  {
    var keys := SortedKeys(m.Keys);
    var es := seq(|keys|, i requires 0 <= i < |keys| => Element(keys[i], m[keys[i]]));
    assert !HasDuplicateKind(es);
    var l := ArrayLayout(es);
    forall k | k in m
      ensures IndexOfKind(l, k) < |m| && l.slots[IndexOfKind(l, k)] == Element(k, m[k])
    {
      var i :| 0 <= i < |keys| && keys[i] == k;
      IndexOfArrayElement(es, i);
    }
    l
  }

  /** The two map constructors agree exactly on maps of at most one entry:
      with a second entry the corrected layout stores it in slot 1, where
      the source leaves a default element. */
  lemma MapLayoutsAgreeOnlyOnOneEntry(m: map<nat, nat>)
    requires |m| <= TYPE_COUNT
    ensures MapLayoutAsWritten(m) == MapLayout(m) <==> |m| <= 1
  {
    var keys := SortedKeys(m.Keys);
    var es := seq(|keys|, i requires 0 <= i < |keys| => Element(keys[i], m[keys[i]]));
    assert !HasDuplicateKind(es);
    assert MapLayout(m) == ArrayLayout(es);
    var w := MapLayoutAsWritten(m);
    var c := ArrayLayout(es);
    if |m| <= 1 {
      if |m| == 1 {
        var k := keys[0];
        assert k in m.Keys;
        assert w.slots[0] == Element(k, m[k]);
      }
      assert w.slots == c.slots;
    } else {
      assert keys[0] < keys[1];
      assert c.slots[1].kind == keys[1] && keys[1] != TYPE_UNDEFINED;
      assert w.slots[1] == DEFAULT_ELEMENT;
    }
  }
}

=== FILE: wrappers.dfy ===
/** Failure-carrying values shared by every module: a possibly missing value
    (the source's NULL pointers, nullptr returns and "not found" markers). */
module Wrappers {

  datatype Option<+T> = None | Some(value: T) {

    /** The carried value, or `default` when there is none. */
    function GetOr(default: T): T {
      match this
      case Some(v) => v
      case None => default
    }
  }
}

=== FILE: xml.dfy ===
/** The part of an XML document tree the settings and app-info files use:
    named nodes with ordered attributes and children. A lookup on a missing
    node or attribute yields nothing, and the typed readers then fall back to
    their defaults (0, or the empty string), as the XML library does. */
module Xml {
  import opened Wrappers
  import opened Numeric

  datatype Attr = Attr(name: string, value: string)

  datatype Node = Node(name: string, attrs: seq<Attr>, children: seq<Node>)

  /** The value of the first attribute called `key`. */
  function FindAttr(attrs: seq<Attr>, key: string): (r: Option<string>)
    ensures r.Some? <==> exists i :: 0 <= i < |attrs| && attrs[i].name == key
    ensures r.Some? ==> exists i :: 0 <= i < |attrs| && attrs[i].name == key && attrs[i].value == r.value
                          && forall j :: 0 <= j < i ==> attrs[j].name != key
  {
    if |attrs| == 0 then None
    else if attrs[0].name == key then Some(attrs[0].value)
    else
      var r := FindAttr(attrs[1..], key);
      assert forall i :: 1 <= i < |attrs| ==> attrs[i] == attrs[1..][i - 1];
      if r.Some? then
        var i :| 0 <= i < |attrs[1..]| && attrs[1..][i].name == key && attrs[1..][i].value == r.value
                  && forall j :: 0 <= j < i ==> attrs[1..][j].name != key;
        assert attrs[i + 1].name == key && attrs[i + 1].value == r.value;
        r
      else r
  }

  /** `node.attribute(key)` on a possibly missing node. */
  function Attribute(n: Option<Node>, key: string): Option<string> {
    if n.None? then None else FindAttr(n.value.attrs, key)
  }

  /** The first child called `name`. */
  function FindChild(cs: seq<Node>, name: string): (r: Option<Node>)
    ensures r.Some? ==> r.value in cs && r.value.name == name
    ensures r.None? <==> forall i :: 0 <= i < |cs| ==> cs[i].name != name
    ensures |cs| > 0 && cs[0].name == name ==> r == Some(cs[0])
  {
    if |cs| == 0 then None
    else if cs[0].name == name then Some(cs[0])
    else
      assert forall i :: 1 <= i < |cs| ==> cs[i] == cs[1..][i - 1];
      FindChild(cs[1..], name)
  }

  /** `node.child(name)` on a possibly missing node. */
  function Child(n: Option<Node>, name: string): Option<Node> {
    if n.None? then None else FindChild(n.value.children, name)
  }

  /** `as_string`: the attribute text, or the empty string. */
  function AsString(a: Option<string>): (s: string)
    ensures a.Some? ==> s == a.value
    ensures a.None? ==> s == ""
  {
    if a.Some? then a.value else ""
  }

  /** The text stored for a C string: everything before the first NUL. */
  function CString(s: string): (r: string)
    ensures |r| <= |s| && r == s[..|r|]
    ensures forall i :: 0 <= i < |r| ==> r[i] != '\0'
    ensures |r| < |s| ==> s[|r|] == '\0'
  {
    if |s| == 0 || s[0] == '\0' then ""
    else
      var rest := CString(s[1..]);
      assert s[..1 + |rest|] == [s[0]] + s[1..][..|rest|];
      [s[0]] + rest
  }

  predicate NulFree(s: string) {
    forall i :: 0 <= i < |s| ==> s[i] != '\0'
  }

  lemma CStringOfNulFree(s: string)
    requires NulFree(s)
    ensures CString(s) == s
  {
  }

  // ---------------------------------------------------------------------
  // Integer attributes

  /** White space as the XML library's reader skips it: space, tab, line
      feed and carriage return (not the vertical tab and form feed `isspace`
      also accepts). */
  predicate IsXmlSpace(c: char) {
    c == ' ' || c == '\t' || c == '\n' || c == '\r'
  }

  function XmlSpaceRun(s: string): (n: nat)
    ensures n <= |s|
    ensures forall i :: 0 <= i < n ==> IsXmlSpace(s[i])
    ensures n < |s| ==> !IsXmlSpace(s[n])
  {
    if |s| == 0 || !IsXmlSpace(s[0]) then 0 else 1 + XmlSpaceRun(s[1..])
  }

  predicate IsHexDigit(c: char) {
    IsDigit(c) || 'a' <= c <= 'f' || 'A' <= c <= 'F'
  }

  predicate AllHexDigits(s: string) {
    forall i :: 0 <= i < |s| ==> IsHexDigit(s[i])
  }

  function HexDigitValue(c: char): (d: nat)
    requires IsHexDigit(c)
    ensures d < 16
  {
    if IsDigit(c) then DigitValue(c)
    else if 'a' <= c <= 'f' then (c as int) - ('a' as int) + 10
    else (c as int) - ('A' as int) + 10
  }

  /** The value of a string of hexadecimal digits, most significant first. */
  function HexValue(s: string): nat
    requires AllHexDigits(s)
  {
    if |s| == 0 then 0 else HexValue(s[..|s| - 1]) * 16 + HexDigitValue(s[|s| - 1])
  }

  /** Length of the longest prefix of `s` made of hexadecimal digits. */
  function HexRun(s: string): (n: nat)
    ensures n <= |s|
    ensures AllHexDigits(s[..n])
    ensures n < |s| ==> !IsHexDigit(s[n])
  {
    if |s| == 0 || !IsHexDigit(s[0]) then 0
    else
      var rest := HexRun(s[1..]);
      assert s[..1 + rest] == [s[0]] + s[1..][..rest];
      1 + rest
  }

  /** Text after the sign starting "0x" or "0X" is read in hexadecimal. */
  predicate HexPrefixed(t: string) {
    |t| >= 2 && t[0] == '0' && (t[1] == 'x' || t[1] == 'X')
  }

  /** The magnitude read after the sign: the hexadecimal digits after a
      "0x" prefix, otherwise the decimal digits; 0 when there are none. */
  function Magnitude(t: string): nat {
    if HexPrefixed(t) then HexValue(t[2..][..HexRun(t[2..])])
    else DigitsValue(t[..DigitRun(t)])
  }

  /** The integer readers (`as_int`, `as_uint`, `as_llong`, `as_ullong`):
      white space, an optional sign, then hexadecimal digits after a "0x"
      or "0X" prefix or decimal digits otherwise. A value past the reader's
      range is clamped to its end, so a negative number read as unsigned
      gives 0. A missing attribute gives 0. The library detects overflow
      from the digit count and the leading digit; that test is exact, so
      it is written here as a comparison of the mathematical value. */
  function AsInteger(a: Option<string>, minNeg: nat, maxPos: nat): (r: int)
    ensures -(minNeg as int) <= r <= maxPos
    ensures a.None? ==> r == 0
  {
    if a.None? then 0
    else
      var t := a.value[XmlSpaceRun(a.value)..];
      var negative := |t| > 0 && t[0] == '-';
      var u := if |t| > 0 && (t[0] == '-' || t[0] == '+') then t[1..] else t;
      var v := Magnitude(u);
      if negative then (if v > minNeg then -(minNeg as int) else -(v as int))
      else if v > maxPos then maxPos else v
  }

  const INT_MIN_MAGNITUDE: nat := 0x8000_0000
  const INT_MAX: nat := 0x7FFF_FFFF
  const LLONG_MIN_MAGNITUDE: nat := 0x8000_0000_0000_0000
  const LLONG_MAX: nat := 0x7FFF_FFFF_FFFF_FFFF

  /** `as_int`: a value of `int`. */
  function AsInt(a: Option<string>): (r: int)
    ensures -(INT_MIN_MAGNITUDE as int) <= r <= INT_MAX
  {
    AsInteger(a, INT_MIN_MAGNITUDE, INT_MAX)
  }

  /** `as_uint`: a value of `unsigned int`. */
  function AsUint(a: Option<string>): (r: int)
    ensures 0 <= r <= UINT32_MAX
  {
    AsInteger(a, 0, UINT32_MAX)
  }

  /** `as_llong`: a value of `long long`. */
  function AsLlong(a: Option<string>): (r: int)
    ensures -(LLONG_MIN_MAGNITUDE as int) <= r <= LLONG_MAX
  {
    AsInteger(a, LLONG_MIN_MAGNITUDE, LLONG_MAX)
  }

  /** `as_ullong`: a value of `unsigned long long`. */
  function AsUllong(a: Option<string>): (r: int)
    ensures 0 <= r <= UINT64_MAX
  {
    AsInteger(a, 0, UINT64_MAX)
  }

  /** The hexadecimal digits "10" are read as 16. */
  lemma HexTen()
    ensures HexRun("10") == 2 && HexValue("10") == 16
  {
    assert "10"[1..][1..] == "";
    assert "10"[..1] == "1";
  }

  /** A hand-edited hexadecimal value is read by its value: "0x10" is 16,
      and so is " +0X10"; "0x" alone reads as 0. */
  lemma AsIntegerReadsHex()
    ensures AsUllong(Some("0x10")) == 16
    ensures AsInt(Some(" +0X10")) == 16
    ensures AsUint(Some("0x")) == 0
  {
    HexTen();
    assert Magnitude("0x10") == 16 by {
      assert HexPrefixed("0x10") && "0x10"[2..] == "10" && "10"[..2] == "10";
    }
    assert Magnitude("0X10") == 16 by {
      assert HexPrefixed("0X10") && "0X10"[2..] == "10" && "10"[..2] == "10";
    }
    assert XmlSpaceRun("0x10") == 0;
    assert "0x10"[0..] == "0x10";
    assert XmlSpaceRun(" +0X10") == 1 by {
      assert " +0X10"[1..] == "+0X10";
    }
    assert " +0X10"[1..] == "+0X10" && "+0X10"[1..] == "0X10";
    assert Magnitude("0x") == 0 by {
      assert !HexPrefixed("0x"[2..]) && "0x"[2..] == "";
    }
    assert XmlSpaceRun("0x") == 0;
    assert "0x"[0..] == "0x";
  }

  /** Reading back a decimal written by `set_value` gives the value, for
      every value inside the reader's range. */
  lemma AsIntegerOfIntToString(i: int, minNeg: nat, maxPos: nat)
    requires -(minNeg as int) <= i <= maxPos
    ensures AsInteger(Some(IntToString(i)), minNeg, maxPos) == i
  {
    var m: nat := if i < 0 then -i else i;
    var d := NatToString(m);
    var s := IntToString(i);
    assert !IsXmlSpace(s[0]) by {
      assert s[0] == '-' || IsDigit(s[0]);
    }
    assert s[XmlSpaceRun(s)..] == s;
    var u := if i < 0 then s[1..] else s;
    assert u == d;
    assert !HexPrefixed(d) by {
      assert |d| > 1 ==> d[0] != '0';
    }
    DigitRunOfDigits(d);
    assert d[..DigitRun(d)] == d;
    DigitsOfNatToString(m);
  }
}
